=== FILE: README.md ===
# Fruitcake Advent of Code 2022 solvers, modelled in Dafny

This project models the Rust solvers of the Fruitcake repository for Advent of Code 2022, days 1 to 11, 13 to 23 and 25. Each day's `solve` and `parse` functions, with the helpers they call, become one Dafny module (`Day01` … `Day25`, one file each). The module `Common` (common.dfy) holds what several days share:

- `Option`;
- Rust's truncating `/` and `%`;
- `str::parse`, `split` and `split_whitespace`;
- sorting and small arithmetic lemmas.

The models follow the source's branches, constants and panics. A panic (`unwrap` on `None`, an index out of range, a division by zero) is a `None` result. A loop that never ends in the source is also `None`: it is either detected, or cut off by an explicit `fuel` bound where that is noted below. Most days state what their answers mean, through a partner definition and the lemmas connecting the two. Days 14 and 19 are the exceptions in part: day 14's answers are pinned to the number of grains a step-by-step pour admits, and day 19's search is stated only through the bounds listed below. The partners include:

- the surface area of the day 18 droplet and the faces the flood fill reaches;
- the SNAFU round trip of day 25;
- the rope invariants of day 9;
- the cycle skip of day 17 against a reference simulation;
- the permutation kept by day 20's mixing;
- the best-flow reference semantics of day 16.

Machine integers are unbounded here. Where the source's width changes the behaviour, that is modelled or listed below: the `u8` arithmetic of day 2 is modelled explicitly.

## Model

| member | source | states |
|---|---|---|
| Day01.Accumulate | src/solutions/day01.rs:5-15 | a blank line records the open sum and restarts it; each blank records exactly one sum; the recorded sums plus the open sum equal the total of all numbers; a line that is not a number gives `None` |
| Day01.UnclosedGroupDropped | src/solutions/day01.rs:8-15 | a final group that no blank line closes is never recorded |
| Day01.BlankRecords | src/solutions/day01.rs:9-11 | a blank line appends the open sum to the recorded sums |
| Day01.Solve | src/solutions/day01.rs:17-21 | part one is a recorded sum no smaller than any other; part two is the sum of the first three after sorting in descending order; `None` exactly when a line is malformed or no group was recorded |
| Day01.TopThreeBounds | src/solutions/day01.rs:17-21 | with non-negative sums, the top three add up to at least the largest and at most three times it |
| Day02.U8 | src/solutions/day02.rs:18-22 | the `u8` arithmetic of the source: every intermediate value lies in 0..255 |
| Day02.U8Exact | src/solutions/day02.rs:18-22 | a value in the window [256k, 256k + 256) wraps to itself minus 256k |
| Day02.OutcomeCode | src/solutions/day02.rs:21 | `(c2 - c1 + 4) % 3` is 0, 1 or 2 and times three is the loss/draw/win score |
| Day02.Score1Meaning | src/solutions/day02.rs:21 | the part-one round score is the shape score `c2 + 1` plus the outcome score, between 1 and 9 |
| Day02.Shape | src/solutions/day02.rs:22 | the shape part two plays is again one of the three codes |
| Day02.Score2Meaning | src/solutions/day02.rs:22 | the part-two score is `3 * c2` plus the score of the shape that gives the wanted outcome, which is the part-one score of that shape, between 1 and 9 |
| Day02.Codes | src/solutions/day02.rs:14-19 | a line yields codes exactly when it has a first character and a non-blank rest; both codes are bytes |
| Day02.CodesOfRound | src/solutions/day02.rs:14-19 | a line `A X` through `C Z` yields the letter offsets from 'A' and 'X' |
| Day02.RoundBounds | src/solutions/day02.rs:21-22 | every round scores between 1 and 9 in both parts |
| Day02.TotalsBounds | src/solutions/day02.rs:12-23 | over n valid rounds both totals lie between n and 9n |
| Day02.Solve | src/solutions/day02.rs:3-25 | both totals exist exactly when every line yields codes, and they are the sums over the lines of the part-one and part-two round points |
| Day02.TotalsOfLines | src/solutions/day02.rs:11-22 | folding the rounds' codes, as the loop adds to `p1` and `p2`, gives the sums of the lines' points in each part |
| Day02.PartOfCodes | src/solutions/day02.rs:11-22 | in either part the fold's total is the sum of the rounds' points, one round at a time |
| Day02.LinesAreCodes | src/solutions/day02.rs:14-22 | when every line yields its round's codes, each line scores exactly its round's points |
| Day02.SolveBounds | src/solutions/day02.rs:12-25 | with valid codes on every line both totals lie between the line count and nine times it |
| Day03.Priority | src/solutions/day03.rs:32-38 | lower-case letters score 1..26, upper-case 27..52, anything else 0 |
| Day03.PriorityInjective | src/solutions/day03.rs:32-38 | two letters have the same priority exactly when they are the same letter |
| Day03.PrioritySurjective | src/solutions/day03.rs:32-38 | every priority 1..52 belongs to some letter |
| Day03.FirstCommon | src/solutions/day03.rs:16-18 | the first character of one half that occurs in the other; `None` exactly when no character is shared |
| Day03.FirstInBoth | src/solutions/day03.rs:21-25 | the first character of the third line that occurs in both others; `None` exactly when there is none |
| Day03.Misplaced | src/solutions/day03.rs:12-18 | the item found occurs in both halves of the line |
| Day03.Badge | src/solutions/day03.rs:21-25 | the badge occurs in all three lines |
| Day03.Group | src/solutions/day03.rs:9-25 | a group scores exactly when every line has a misplaced item and the three share a badge; part one adds the three misplaced priorities, part two the badge's |
| Day03.Solve | src/solutions/day03.rs:7-28 | a result requires a line count that is a multiple of three (the source indexes past the end otherwise); part one is then the line-by-line sum of each line's misplaced priority and part two the group-by-group sum of badge priorities, each at most 52 per scored item |
| Day03.SolveGroups | src/solutions/day03.rs:7-28 | with a multiple of three lines, a result exists exactly when every group of three scores |
| Day03.SolveStep | src/solutions/day03.rs:7-28 | a result exists exactly when the first group scores and the rest has a result |
| Day04.ContainsMeaning | src/solutions/day04.rs:8-12 | the part-one test holds exactly when every section of one range lies in the other; it is symmetric |
| Day04.OverlapsMeaning | src/solutions/day04.rs:14-18 | the part-two test holds exactly when some section is in both ranges, that is when the larger start is at most the smaller end; it is symmetric |
| Day04.ContainsOverlaps | src/solutions/day04.rs:8-18 | a contained pair also overlaps |
| Day04.Solve | src/solutions/day04.rs:4-22 | both counts are at most the number of pairs; part one counts every pair exactly when every pair is contained; part two is 0 exactly when no pair overlaps; with proper ranges, part one never exceeds part two |
| Day04.SolveCounts | src/solutions/day04.rs:4-22 | part one is the size of the set of positions whose pair has one range inside the other, part two the size of the set of positions whose ranges share a section |
| Day04.ParseRange | src/solutions/day04.rs:28-37 | a range parses exactly when the text splits at `-` into two numbers, and its bounds are those two numbers |
| Day04.ParseLine | src/solutions/day04.rs:24-39 | a line parses exactly when it splits at `,` into two ranges, and its pair is the ranges of the two halves, in order |
| Day04.Parse | src/solutions/day04.rs:24-41 | the input parses exactly when every line does, into one pair per line, in order |
| Day05.Pop | src/solutions/day05.rs:14 | `pop().unwrap_or_default()`: the top crate and the stack below it, or the default character and an empty stack |
| Day05.MoveOne | src/solutions/day05.rs:14-15 | one single-crate move changes no stack other than the two named |
| Day05.OneAtATime | src/solutions/day05.rs:12-15 | part one's `k` single moves change no other stack |
| Day05.NoNul | src/solutions/day05.rs:17-20 | dropping the default character leaves none, keeps order, and is the identity on text without it |
| Day05.AllAtOnce | src/solutions/day05.rs:17-29 | part two's move changes no other stack |
| Day05.Nuls | src/solutions/day05.rs:14-15 | `n` default characters |
| Day05.OneAtATimeEffect | src/solutions/day05.rs:12-15 | between different stacks, part one takes the top `min(k, height)` crates off the source and lands them reversed on the destination, followed by one default character per pop from the emptied source |
| Day05.MoveCrate | src/solutions/day05.rs:14-15 | a pop from a source that still holds crates moves its top crate |
| Day05.MoveNothing | src/solutions/day05.rs:14-15 | a pop from an emptied source moves the default character |
| Day05.PopManyEffect | src/solutions/day05.rs:17-20 | `k` pops take the top `min(k, height)` crates in pop order without default characters and leave the rest |
| Day05.PopManyStep | src/solutions/day05.rs:17-20 | one more pop puts the top crate in front of what the remaining pops take below it |
| Day05.PopFront | src/solutions/day05.rs:17-20 | reversing a block with one more crate on top puts that crate first, unless it is the default character |
| Day05.ReverseAppend | src/solutions/day05.rs:24 | reversing a concatenation reverses and swaps the parts |
| Day05.NoNulAppend | src/solutions/day05.rs:18-20 | dropping default characters distributes over concatenation |
| Day05.NoNulReverse | src/solutions/day05.rs:18-24 | dropping default characters commutes with reversal |
| Day05.ReverseReverse | src/solutions/day05.rs:24 | reversing twice gives the sequence back |
| Day05.AllAtOnceEffect | src/solutions/day05.rs:17-29 | between different stacks, part two takes the top `min(k, height)` crates off the source and lands them on the destination in their original order; no default character is pushed |
| Day05.MoveOneTotal | src/solutions/day05.rs:14-15 | a single move keeps the crate count, plus one when the source was empty |
| Day05.OneAtATimeTotal | src/solutions/day05.rs:12-15 | part one conserves crates when the source holds enough |
| Day05.AllAtOnceTotal | src/solutions/day05.rs:17-29 | part two conserves crates when the source holds enough real crates |
| Day05.EmptySourcePushesNul | src/solutions/day05.rs:14-15 | a part-one move from an empty stack lands the default character on the destination |
| Day05.Apply | src/solutions/day05.rs:8-30 | a move of no crates changes nothing; otherwise it fails exactly when a stack number names no stack |
| Day05.ApplyAll | src/solutions/day05.rs:8-30 | all moves apply exactly when every move with crates names existing stacks; the stack count is kept |
| Day05.Tops | src/solutions/day05.rs:33-34 | the top crate of each stack in order; `None` exactly when some stack is empty |
| Day05.Solve | src/solutions/day05.rs:3-38 | both answers have one letter per stack, and exist only when every move applies |
| Day05.Cells | src/solutions/day05.rs:57-59 | a drawing line's characters at columns 1, 5, 9, ... |
| Day05.Fill | src/solutions/day05.rs:56-63 | every non-space cell is pushed onto the stack of its column; a crate past the last stack fails |
| Day05.Build | src/solutions/day05.rs:45-63 | building succeeds exactly when every crate lies in one of the numbered columns; stack `i` then holds what it held followed by column `i`'s crates read from the bottom line up, and the stack count is unchanged |
| Day05.ParseMove | src/solutions/day05.rs:69-78 | a move line parses exactly when its words 1, 3 and 5 are numbers, and the count, source and target are those numbers |
| Day05.Parse | src/solutions/day05.rs:41-81 | a parse has a blank line after a non-empty drawing, one stack per number on the line above it and one move per line after it, and fails when there is no blank line; ParseAtBlank states the crates and the moves |
| Day05.ParseAtBlank | src/solutions/day05.rs:41-81 | with the first blank line at `p`: the parse succeeds exactly when the drawing above it is non-empty and fits the stack numbers and every later line is a move; stack i is column i of the drawing, bottom line first, and move i is the parsed line `p + 1 + i` |
| Day06.Bit | src/solutions/day06.rs:22 | the shift amount `c - b'A'` after the `u8` wrap and the `i32` shift's modulo 32; lower-case letters land on bits 0..25 |
| Day06.Bits | src/solutions/day06.rs:21-23 | the bit of every byte of the window, in order |
| Day06.NotUniqueMeaning | src/solutions/day06.rs:19-25 | the mask has fewer set bits than bytes exactly when two bytes share a bit; a repeated byte is always reported |
| Day06.LowerMeaning | src/solutions/day06.rs:19-25 | on lower-case letters the test reports exactly the windows with a repeated byte |
| Day06.ShiftRepeats | src/solutions/day06.rs:6-7 | dropping the first byte shifts every later window's verdict by one position |
| Day06.LeadingRepeats | src/solutions/day06.rs:4-8 | `take_while(...).count()`: every window before the count repeats, the window at the count (if any) does not |
| Day06.Marker | src/solutions/day06.rs:4-16 | the marker is at least the window length |
| Day06.MarkerLeast | src/solutions/day06.rs:4-16 | the marker ends the first window without a repeat: no later than any such window, and that window does not repeat |
| Day06.PrefixUnique | src/solutions/day06.rs:19-25 | a prefix of a window without a repeat has none either |
| Day06.MarkersOrdered | src/solutions/day06.rs:4-16 | when a 14-byte window without repeats exists, the packet marker comes strictly before the message marker |
| Day06.Solve | src/solutions/day06.rs:3-17 | both answers are at least their window length, at most one past the data when a window is found, every earlier window repeats and the found one does not |
| Day07.KeyOf | src/solutions/day07.rs:37 | `PathBuf::from_iter` as `PathBuf` equality sees it: the key is never longer than the path, is non-empty for a non-empty path, and ends with the path's last component unless that is `.` |
| Day07.KeyOfDots | src/solutions/day07.rs:37 | a `.` can only open a key, and a `.` pushed after other components leaves the key unchanged |
| Day07.Prefixes | src/solutions/day07.rs:36-37 | one key per prefix of the path, the last one the key of the whole path |
| Day07.PrefixesAt | src/solutions/day07.rs:36-37 | the `i`-th key is the key of the first `i + 1` components |
| Day07.AddTo | src/solutions/day07.rs:38 | `entry(k).or_insert(0) += v`: `k` becomes recorded and gains `v`; no other key changes |
| Day07.AddToUnique | src/solutions/day07.rs:38 | the table keeps one entry per key |
| Day07.HasMeans | src/solutions/day07.rs:9 | a key is recorded exactly when some entry carries it |
| Day07.HasAt | src/solutions/day07.rs:9 | every entry's key is recorded |
| Day07.HasIndex | src/solutions/day07.rs:9 | a recorded key has an entry |
| Day07.SizeAbsent | src/solutions/day07.rs:38 | a key never recorded reads as 0, the `or_insert` default |
| Day07.AddAll | src/solutions/day07.rs:36-39 | adding a file keeps one entry per key |
| Day07.Count | src/solutions/day07.rs:36-39 | a key occurs a positive number of times exactly when it is listed |
| Day07.AddAllEffect | src/solutions/day07.rs:36-39 | every key gains the file size once per time it is listed, and the listed keys become recorded |
| Day07.ParentCount | src/solutions/day07.rs:36-39 | on a path without `.`, a directory's parent is listed at least as often as the directory, once more when the path ends at the parent |
| Day07.AddFileNested | src/solutions/day07.rs:32-39 | adding a non-negative file under a path without `.` keeps every size non-negative and every parent recorded and at least as large as its child |
| Day07.AddFileNonNegative | src/solutions/day07.rs:32-39 | after a non-negative file every size is non-negative |
| Day07.AddFileParent | src/solutions/day07.rs:32-39 | after a non-negative file under a path without `.`, every recorded subdirectory has a recorded parent at least as large |
| Day07.MulMonotone | src/solutions/day07.rs:36-39 | adding a non-negative size more often adds at least as much |
| Day07.Step | src/solutions/day07.rs:11-43 | `dir` and `$ ls` lines change nothing; `$ cd ..` pops; `$ cd name` pushes; a two-word line adds its size to every prefix of the path; the line fails exactly when it has two words and the first is not a number |
| Day07.Run | src/solutions/day07.rs:8-44 | the session replays exactly when no line fails, and the table keeps one entry per key |
| Day07.RunPlain | src/solutions/day07.rs:20-29 | without a `$ cd .` line the path never holds a `.` component |
| Day07.RunNested | src/solutions/day07.rs:8-44 | with non-negative file sizes and no `$ cd .`, every directory is at least as large as each subdirectory |
| Day07.CdDotCountsTwice | src/solutions/day07.rs:26-39 | after `cd /`, `cd a`, `cd .` a file's size is added to `/a` twice and once to `/`, so `/a` is recorded larger than its parent |
| Day07.SmallTotal | src/solutions/day07.rs:49-53 | with non-negative sizes the sum lies between 0 and 100000 per directory, and is 0 exactly when every size is 0 or above 100000 |
| Day07.SmallestFreeing | src/solutions/day07.rs:57-61 | the smallest size that frees 30000000, taken from the table; `None` exactly when no size does |
| Day07.Answers | src/solutions/day07.rs:49-63 | the answers exist exactly when the root "/" is recorded; part two frees enough room, is the smallest size that does, and is no larger than the root |
| Day07.RootIndex | src/solutions/day07.rs:56 | the entry holding the root's size |
| Day07.Solve | src/solutions/day07.rs:6-64 | the answers exist exactly when the session replays and records the root |
| Day07.SizeAt | src/solutions/day07.rs:38 | with one entry per key, the size read for an entry's key is its own |
| Day08.VisibleSweep | src/solutions/day08.rs:16-28 | one sweep with a running maximum starting at -1 marks exactly the trees strictly taller than every tree before them on the line |
| Day08.Blocker | src/solutions/day08.rs:40-46 | the nearest earlier tree at least as tall (or the line start): every tree strictly between is lower, and reaching the start without one means the tree towers over the whole prefix |
| Day08.BlockerFrom | src/solutions/day08.rs:40-43 | the backward search from any point below which all trees are lower finds the same blocker |
| Day08.BlockerFromIs | src/solutions/day08.rs:40-43 | any index that is at least as tall and has only lower trees after it is the blocker the search returns |
| Day08.ScenicSweep | src/solutions/day08.rs:30-56 | the monotone-stack sweep writes at each index exactly the viewing distance back to the blocker |
| Day08.PopLower | src/solutions/day08.rs:40-43 | popping every entry lower than the current tree leaves a well-formed stack whose top is at least as tall and below which every tree is lower |
| Day08.PopStep | src/solutions/day08.rs:40-42 | one pop keeps the sentinel, the stack shape and the fact that every tree after the new top is lower |
| Day08.DropShape | src/solutions/day08.rs:42 | removing the top of a well-formed stack leaves a well-formed stack |
| Day08.DropLower | src/solutions/day08.rs:40-42 | the trees hidden by a popped entry were lower than it, so they are lower than the current tree too |
| Day08.TopIsBlocker | src/solutions/day08.rs:46-48 | once popping stops, the top of the stack is the blocker, and pushing the current tree keeps the stack well formed |
| Day08.PushShape | src/solutions/day08.rs:48 | pushing `(height, index)` on a stack whose top is at least as tall keeps the stack well formed |
| Day08.DistancesSnoc | src/solutions/day08.rs:46 | appending the viewing distance of the next index extends the table of correct distances |
| Day08.VisibleMeaning | src/solutions/day08.rs:59-72 | a tree is marked by one of the four outside sweeps exactly when all trees towards the west, east, north or south edge are lower |
| Day08.RowClear | src/solutions/day08.rs:59-64 | the forward and backward row sweeps mark a tree exactly when its row is clear to the west, respectively east |
| Day08.ColumnClear | src/solutions/day08.rs:67-72 | the forward and backward column sweeps mark a tree exactly when its column is clear to the north, respectively south |
| Day08.ReverseTaller | src/solutions/day08.rs:61 | a sweep from the far end of a reversed line sees the tree exactly when every later tree on the original line is lower |
| Day08.EdgeVisible | src/solutions/day08.rs:17 | every tree on the edge is visible, as the running maximum starts below every height |
| Day08.EdgeScenicZero | src/solutions/day08.rs:46 | a tree on the edge has scenic score 0, since one of its four distances is 0 |
| Day08.ZeroProduct | src/solutions/day08.rs:46 | a product of four distances with one of them 0 is 0 |
| Day08.CountSet | src/solutions/day08.rs:75 | the count of marked cells is positive exactly when some cell in the range is marked |
| Day08.Largest | src/solutions/day08.rs:76 | the maximum is attained by some cell and no cell exceeds it |
| Day08.Flags | src/solutions/day08.rs:9-21 | the visibility table has the grid's shape and marks exactly the visible trees |
| Day08.Scores | src/solutions/day08.rs:10-46 | the score table has the grid's shape and holds each tree's product of four viewing distances |
| Day08.LargestScore | src/solutions/day08.rs:76 | the part-two answer is the scenic score of some tree and no tree scores higher |
| Day08.Solve | src/solutions/day08.rs:3-79 | defined exactly for a non-empty grid with rows as wide as the first; then part one counts the visible trees (at least one) and part two is the best scenic score |
| Day08.ParseRow | src/solutions/day08.rs:84-87 | a line parses exactly when all its characters are digits, into their values |
| Day08.Parse | src/solutions/day08.rs:81-90 | lines parse exactly when every line is all digits, one row per line of the same length, and each height is the digit at that row and column |
| Day09.Follow | src/solutions/day09.rs:36-52 | a touching follower stays put; otherwise it closes the Chebyshev distance to its predecessor by exactly one, moving at most one cell per axis and never away on either axis |
| Day09.StepToward | src/solutions/day09.rs:41-51 | one step along an axis is -1, 0 or 1 and brings the coordinate one closer to the target, or keeps it when already there |
| Day09.FollowChain | src/solutions/day09.rs:34-53 | the followers update front to back: the first follows the moved head and each later knot follows the knot updated just before it |
| Day09.FollowChainTaut | src/solutions/day09.rs:34-53 | if each knot touches the next and the first is at most two cells from the new leader, the updated chain is taut again |
| Day09.TautTail | src/solutions/day09.rs:34-53 | dropping the leading knot keeps a rope taut |
| Day09.TautCons | src/solutions/day09.rs:34-53 | a knot touching the first knot of a taut rope extends it to a taut rope |
| Day09.MoveDir | src/solutions/day09.rs:28-31 | the head moves by exactly the direction vector and the rope keeps its length |
| Day09.MoveDirTaut | src/solutions/day09.rs:28-54 | a unit move of the head keeps a taut rope taut |
| Day09.ChebyshevTriangle | src/solutions/day09.rs:40 | the Chebyshev distance satisfies the triangle inequality |
| Day09.NewRope | src/solutions/day09.rs:20-25 | `size` knots, all at the origin, taut, nothing visited |
| Day09.Steps | src/solutions/day09.rs:75-78 | after `n` steps the last knot's cell is marked, the visited set only grows, by at most one cell per step, and a taut rope stays taut |
| Day09.Simulate | src/solutions/day09.rs:61-80 | fails exactly when some move has an unknown direction letter; otherwise the visited set grows by at most the total step count, is non-empty once any step is made, and tautness is kept |
| Day09.ParseMovements | src/solutions/day09.rs:83-97 | one move per line: the first character is the direction and the trimmed rest parses as the count; fails exactly on an empty line or a bad count |
| Day09.ParseMove | src/solutions/day09.rs:89-93 | a line yields a move exactly when it is non-empty and its trimmed rest parses; the direction is the first character and the count that number |
| Day09.Solve | src/solutions/day09.rs:99-113 | defined exactly when every line parses and names a known direction; each answer is at most the number of unit steps and at least 1 when there is any step |
| Day10.Cost | src/solutions/day10.rs:17-30 | every instruction takes one or two cycles |
| Day10.Trace | src/solutions/day10.rs:11-31 | the durations vector holds the `-1` placeholder and then one entry per cycle |
| Day10.TracePrefix | src/solutions/day10.rs:16-31 | the vector only ever grows at the end: the trace of a prefix of the program is a prefix of the full trace |
| Day10.InstructionCycles | src/solutions/day10.rs:18-29 | instruction `k` fills the cycles right after those of the instructions before it, and in each of them X is the value those instructions left; `addx` changes X only after its second cycle |
| Day10.XAfterAppend | src/solutions/day10.rs:13-23 | X after two programs run back to back is the sum of their effects on the starting value 1 |
| Day10.SignalStrength | src/solutions/day10.rs:34-37 | part one exists exactly when the trace reaches cycle 220, and then sums cycle times X over cycles 20, 60, ..., 220 |
| Day10.UnitStrength | src/solutions/day10.rs:35-36 | with X constantly 1 the sum is 720, the sum of the probed cycles |
| Day10.Column | src/solutions/day10.rs:44 | the beam position `(cycle - 1) % 40` is a column from 0 to 39 |
| Day10.LitMeaning | src/solutions/day10.rs:44 | a pixel is lit exactly when the beam column is one of the three cells the sprite covers |
| Day10.Pixels | src/solutions/day10.rs:43-49 | a row of `n` characters, each full exactly at the lit cycles and dark otherwise |
| Day10.Rows | src/solutions/day10.rs:41-52 | the `i`-th row covers the 40 cycles starting 40 `i` after the first |
| Day10.RowAt | src/solutions/day10.rs:42-51 | one 40-cycle row drawn from its starting cycle |
| Day10.Screen | src/solutions/day10.rs:40-52 | exists exactly when the trace reaches cycle 240; then 6 rows of 40 pixels, pixel `(i, k)` full exactly when cycle `1 + 40 i + k` is lit |
| Day10.Solve | src/solutions/day10.rs:10-55 | defined exactly when the program runs for at least 240 cycles; then both parts are those of its trace |
| Day10.ParseLine | src/solutions/day10.rs:60-79 | `noop` is a no-op, a line of fewer than two words is skipped, otherwise the first word is the operation and the second its value; a value that is not a number fails |
| Day10.Parse | src/solutions/day10.rs:57-84 | fails exactly when some line fails, keeps at most one instruction per line, and one per line when none is skipped |
| Day10.ParseKept | src/solutions/day10.rs:57-84 | the instruction of a line that yields one sits right after the instructions of the lines before it |
| Day10.ParseFrom | src/solutions/day10.rs:57-84 | every parsed instruction is the instruction of some line, placed after those of the lines before it, so the program is the lines' instructions in order |
| Day11.NewMonkey | src/solutions/day11.rs:19-28 | a fresh monkey holds no items and has a three-entry test |
| Day11.Apply | src/solutions/day11.rs:43-68 | `old + old` doubles, `old * old` squares, otherwise the literal operand is added or multiplied |
| Day11.ReliefOf | src/solutions/day11.rs:70-74 | `"1"` selects division by three, `"2"` reduction by the product, anything else leaves the level alone |
| Day11.Relieve | src/solutions/day11.rs:70-74 | part one divides by three truncating toward zero; part two leaves a remainder smaller in magnitude than the product; otherwise the level is unchanged |
| Day11.Slot | src/solutions/day11.rs:76-82 | a level goes to the second or the third entry of the test |
| Day11.Target | src/solutions/day11.rs:76-82 | a level the divisor divides goes to the monkey in the second entry, any other to the one in the third |
| Day11.Turn | src/solutions/day11.rs:58-87 | a turn throws every item held at its start and leaves the monkey's own list empty |
| Day11.RoundFrom | src/solutions/day11.rs:56-88 | the remaining turns of a round only raise inspection counts, and leave those of monkeys already done unchanged |
| Day11.Rounds | src/solutions/day11.rs:55-89 | inspection counts never decrease over the rounds |
| Day11.Inspections | src/solutions/day11.rs:51-89 | one non-negative count per monkey |
| Day11.TryThrowAll | src/solutions/day11.rs:61-85 | throwing a list fails exactly when some item in it cannot be inspected and thrown (a bad operator or operand, a zero divisor or product, a target that is no monkey) |
| Day11.TryTurn | src/solutions/day11.rs:58-87 | a turn fails exactly when one of the items held at its start fails; otherwise the monkey's own list ends empty |
| Day11.TryRoundFrom | src/solutions/day11.rs:56-88 | a completed round only raises inspection counts and leaves those of monkeys already done unchanged |
| Day11.TryRounds | src/solutions/day11.rs:55-89 | completed rounds never lower an inspection count |
| Day11.Counts | src/solutions/day11.rs:51-89 | when the rounds complete, one non-negative count per monkey |
| Day11.TryThrowAllValid | src/solutions/day11.rs:61-85 | on a valid troop throwing never fails and moves the items as the unchecked simulation does |
| Day11.TryRoundFromValid | src/solutions/day11.rs:56-88 | on a valid troop the rest of a round never fails and agrees with the unchecked simulation |
| Day11.TryRoundsValid | src/solutions/day11.rs:55-89 | on a valid troop any number of rounds completes and agrees with the unchecked simulation |
| Day11.TryRoundsStep | src/solutions/day11.rs:55-89 | one more round keeps the checked and unchecked simulations in agreement |
| Day11.CountsValid | src/solutions/day11.rs:51-89 | on a valid troop the counts exist and are the unchecked simulation's |
| Day11.Calculate | src/solutions/day11.rs:41-96 | an answer exists exactly when every test has a divisor, the rounds complete and there are at least two monkeys; it is the product of the two largest counts |
| Day11.CalculateValid | src/solutions/day11.rs:41-96 | on a valid troop an answer exists exactly when there are two monkeys, and it is the product of the two largest counts of the unchecked simulation |
| Day11.TopTwoSorted | src/solutions/day11.rs:92-95 | after sorting, the last two entries are the largest count and the largest of the rest |
| Day11.RemoveLargest | src/solutions/day11.rs:92-95 | the largest entry of the sorted copy occurs in the original, and removing it leaves the rest of the sorted copy |
| Day11.SortedFrontBound | src/solutions/day11.rs:92-95 | in a sorted list every entry before the last is at most the second largest |
| Day11.TopTwoUnique | src/solutions/day11.rs:95 | the two largest counts are determined by the list, so the answer does not depend on which sort was used |
| Day11.DivisorProductFacts | src/solutions/day11.rs:52 | the product of non-zero divisors is non-zero and a multiple of each divisor |
| Day11.CongruentScaled | src/solutions/day11.rs:45-46 | multiplying congruent levels by the same operand keeps them congruent |
| Day11.CongruentSquare | src/solutions/day11.rs:46 | squaring keeps congruent levels congruent |
| Day11.CongruentTrans | src/solutions/day11.rs:73 | congruence is transitive |
| Day11.CongruentDivisor | src/solutions/day11.rs:76 | congruence modulo the product implies congruence modulo each divisor |
| Day11.CongruentDivisible | src/solutions/day11.rs:76 | congruent levels are either both divisible by a modulus or neither |
| Day11.ApplyCongruent | src/solutions/day11.rs:62-68 | every operation maps congruent levels to congruent levels |
| Day11.TruncRemCongruent | src/solutions/day11.rs:73 | the truncating remainder is congruent to the level modulo the product |
| Day11.InspectReduced | src/solutions/day11.rs:62-82 | inspecting a reduced level gives a level congruent to the unreduced one, and both go to the same monkey |
| Day11.RelatedSelf | src/solutions/day11.rs:32-36 | every item list is congruent to itself |
| Day11.ThrowRelated | src/solutions/day11.rs:76-82 | throwing congruent items from congruent states gives congruent states |
| Day11.ThrowAllRelated | src/solutions/day11.rs:61-85 | throwing congruent item lists keeps the states congruent |
| Day11.TurnRelated | src/solutions/day11.rs:58-87 | a turn keeps the reduced and unreduced states congruent |
| Day11.RoundFromRelated | src/solutions/day11.rs:56-88 | a round keeps the states congruent and produces the same inspection counts |
| Day11.RoundsRelated | src/solutions/day11.rs:55-89 | any number of rounds keeps the states congruent and the counts equal |
| Day11.ReductionExact | src/solutions/day11.rs:70-74 | reducing modulo the product of the divisors changes no inspection count, so part two equals the unreduced simulation |
| Day11.Solve | src/solutions/day11.rs:31-39 | each part exists exactly when its 20 or 10000 rounds complete without a panic and there are two monkeys |
| Day11.Inspect | src/solutions/day11.rs:60-72 | an inspection applies the operation to the worry and then divides by three (truncating), takes the remainder by the product of the divisors, or leaves it, as the part demands |
| Day11.ThrowMoves | src/solutions/day11.rs:74-80 | a throw appends the new worry to the list of the monkey the test picks and leaves every other list unchanged |
| Day11.ThrowAllAppends | src/solutions/day11.rs:58-81 | throwing a monkey's items only appends: every list keeps what it held as a prefix |
| Day11.SolveValid | src/solutions/day11.rs:31-39 | on a valid troop part one exists exactly when there are two monkeys, and part two is the answer of 10000 unreduced rounds |
| Day11.ThrowAllCount | src/solutions/day11.rs:61-85 | throwing a list adds exactly its items to the troop's total, and a monkey that never targets itself receives nothing |
| Day11.TurnConserves | src/solutions/day11.rs:58-87 | when no monkey throws to itself, a turn neither creates nor loses items |
| Day11.RoundFromConserves | src/solutions/day11.rs:56-88 | without self-throws, the rest of a round keeps the number of items |
| Day11.RoundsConserve | src/solutions/day11.rs:55-89 | without self-throws, any number of rounds keeps the number of items |
| Day11.Strip | src/solutions/day11.rs:121 | removing every comma leaves no comma, keeps every other character as often as before, never lengthens, and changes nothing when there is none |
| Day11.StripAppend | src/solutions/day11.rs:121 | removing commas works piece by piece: stripping a concatenation strips each part, so the other characters keep their order |
| Day11.ParseItems | src/solutions/day11.rs:118-122 | succeeds exactly when every token without its commas is a number, one item per token in order |
| Day11.Tokens | src/solutions/day11.rs:117 | splitting a line on single spaces gives at least one token |
| Day11.Tokenize | src/solutions/day11.rs:117-132 | one token list per line, the i-th being the tokens of line i |
| Day11.UpdateMonkey | src/solutions/day11.rs:116-135 | line 1 succeeds exactly when every item word after the first two parses and appends those numbers; line 2 succeeds exactly when it has six words and sets the operand to word 5 and the operator to the first character of word 4; lines 3 to 5 succeed exactly when the last word is a number and write it into test entry `line - 3` |
| Day11.UpdateMonkeyKeeps | src/solutions/day11.rs:116-135 | line 1 only appends items, line 2 only sets the operation, lines 3 to 5 only set their own test entry |
| Day11.ParseLine | src/solutions/day11.rs:103-140 | line 0 of a block starts a new monkey, line 6 is skipped, lines 1 to 5 succeed exactly when UpdateMonkey does and replace the last monkey with its result, and the block position advances modulo 7 |
| Day11.ParseFrom | src/solutions/day11.rs:103-143 | one monkey per line that opens a block, each with a three-entry test |
| Day11.OperationOf | src/solutions/day11.rs:122-127 | the operation line reads exactly when it has six words with a non-empty fifth one: the operand is word 5 and the operator the first character of word 4 |
| Day11.LastInt | src/solutions/day11.rs:129-133 | a test line reads its last word as a number |
| Day11.FillFrom | src/solutions/day11.rs:103-140 | filling a monkey from the lines of its block succeeds exactly when each present line reads, and sets the items, the operation and the three test entries to what those lines read |
| Day11.BlockValues | src/solutions/day11.rs:103-140 | a block of lines yields a monkey exactly when its item, operation and test lines read, and that monkey holds the items of line 1, the operation of line 2 and the numbers of lines 3 to 5 |
| Day11.ParseFromBlock | src/solutions/day11.rs:103-143 | parsing the rest of a block fills the open monkey from those lines before moving on |
| Day11.ParseFromBlocks | src/solutions/day11.rs:98-144 | parsing assembles one monkey per block of seven lines, failing exactly when some block fails |
| Day11.ParseBlocks | src/solutions/day11.rs:98-144 | the input parses exactly when every block of seven lines yields a monkey, and then monkey j is the monkey of block j, `(n + 6) / 7` of them |
| Day11.Parse | src/solutions/day11.rs:98-144 | every parsed monkey has a three-entry test |
| Day11.NextLine | src/solutions/day11.rs:104-106 | the block position cycles through 0 to 6 |
| Day11.BlockStartsCount | src/solutions/day11.rs:104-113 | the number of block-opening lines from a given position, in closed form |
| Day11.ParseCount | src/solutions/day11.rs:98-144 | parsing `n` lines yields `(n + 6) / 7` monkeys |
| Day13.SizeSingleton | src/solutions/day13.rs:30-31 | a one-element list of a packet has that packet's size, so promotion does not grow the measure |
| Day13.AsListSize | src/solutions/day13.rs:29-31 | viewing a packet as a list never grows it, and a list's elements are strictly smaller than the list |
| Day13.SizeSeqHead | src/solutions/day13.rs:29 | the head of a list and its tail are smaller than the list, so the comparison terminates |
| Day13.NumberIsSingleton | src/solutions/day13.rs:30-31 | a number compares equal to the list holding just that number, in both argument orders |
| Day13.CompareAntisymmetric | src/solutions/day13.rs:25-33 | swapping the arguments flips the result |
| Day13.CompareListsAntisymmetric | src/solutions/day13.rs:29 | the lexicographic list order is antisymmetric too |
| Day13.CompareReflexive | src/solutions/day13.rs:25-33 | every packet compares equal to itself |
| Day13.CompareListsReflexive | src/solutions/day13.rs:29 | every list compares equal to itself |
| Day13.ComparePromoted | src/solutions/day13.rs:28-31 | comparing packets is comparing their list views, numbers promoted to one-element lists |
| Day13.CompareTransitive | src/solutions/day13.rs:25-33 | the order is transitive: `a <= b <= c` gives `a <= c`, strict when either step is |
| Day13.CompareListsTransitive | src/solutions/day13.rs:29 | the lexicographic list order is transitive |
| Day13.OrderedIndexSumPrefix | src/solutions/day13.rs:54-63 | the sum over the first `k` pairs only looks at the first `2k` packets |
| Day13.PairIndexSumCorrect | src/solutions/day13.rs:52-63 | the pairwise walk equals the sum of the 1-based indices of the ordered pairs; a trailing odd packet is ignored, as `zip` stops at the shorter side |
| Day13.PairIndexSumBounds | src/solutions/day13.rs:52-63 | the sum over `k` pairs lies between 0 and `k (k + 1) / 2` |
| Day13.InsertPacket | src/solutions/day13.rs:74 | inserting into a sorted list keeps it sorted and adds exactly the one packet |
| Day13.ConsSorted | src/solutions/day13.rs:74 | a packet at most every element of a sorted list can be put in front |
| Day13.AboveHead | src/solutions/day13.rs:74 | after inserting a packet above the head, the head is still at most every other element |
| Day13.SortPackets | src/solutions/day13.rs:74 | `sort` returns a sorted permutation of its input |
| Day13.CountLessInsert | src/solutions/day13.rs:74 | inserting a packet raises the count of packets below `a` by one exactly when it is below `a` |
| Day13.CountLessSort | src/solutions/day13.rs:74 | sorting does not change how many packets lie below a given one |
| Day13.Position | src/solutions/day13.rs:76-77 | `position` finds the first packet equal to the one sought, or reports that there is none |
| Day13.SortedPosition | src/solutions/day13.rs:74-77 | in a sorted list containing `a`, the first packet equal to `a` sits right after all packets below it |
| Day13.NoneLessAfter | src/solutions/day13.rs:74-77 | a sorted list whose head is not below `a` has nothing below `a` |
| Day13.CountLessZero | src/solutions/day13.rs:76-77 | a list with no packet below `a` counts zero |
| Day13.DecoderKey | src/solutions/day13.rs:65-77 | the product of the dividers' 1-based positions is one more than the packets below `[[2]]` times two more than those below `[[6]]` |
| Day13.DividerPositions | src/solutions/day13.rs:70-77 | after inserting and sorting, `[[2]]` sits after every packet below it and `[[6]]` also after `[[2]]` |
| Day13.DividerFound | src/solutions/day13.rs:74-77 | a divider present in the input is found at the index that counts the packets below it |
| Day13.DividerCounts | src/solutions/day13.rs:70-71 | the inserted dividers add nothing below `[[2]]` and exactly `[[2]]` below `[[6]]` |
| Day13.DividerOrder | src/solutions/day13.rs:66-67 | `[[2]]` is below `[[6]]` |
| Day13.Solve | src/solutions/day13.rs:43-80 | part one is the index sum of the ordered pairs and part two the decoder key |
| Day14.Span | src/solutions/day14.rs:103-107 | the range from `min` to `max + 1` holds exactly the values between the two ends |
| Day14.SegmentCells | src/solutions/day14.rs:102-110 | a segment between two corners covers exactly the cells between them, along the column when the x's agree and along the row otherwise |
| Day14.PathCells | src/solutions/day14.rs:100-111 | a path covers exactly the cells of its consecutive segments |
| Day14.RockCells | src/solutions/day14.rs:97-114 | the rock is exactly the union of the cells of all paths |
| Day14.MaxDepth | src/solutions/day14.rs:6-13 | one more than the deepest rock row, at least 1, every rock strictly above it |
| Day14.Next | src/solutions/day14.rs:33-42 | a grain is stuck exactly when the three cells below it are taken; otherwise it moves one row down into a free cell, straight down first, then down-left, then down-right |
| Day14.FallIntoAbyss | src/solutions/day14.rs:24-45 | with its step counter, a grain either rests where it cannot move, inside the cone it can reach, or leaves past the deepest rock |
| Day14.FallOntoFloor | src/solutions/day14.rs:49-75 | a part-two grain rests where it cannot move or on the row just above the floor, inside the cone below its start |
| Day14.Cone | src/solutions/day14.rs:24-34 | the cells a grain from the entry can reach within a given number of rows |
| Day14.PourIntoAbyss | src/solutions/day14.rs:15-46 | the count is the number of grains dropped one at a time before the first that falls through, and the cave it returns is the cave after those grains; the occupied cells grow by exactly that count; pouring never stops when a grain comes to rest on an occupied entry |
| Day14.PourNeverEnds | src/solutions/day14.rs:15-46 | when part one's pour is `None`, no grain ever falls: the cave after any number of grains exists |
| Day14.AbyssStaysGone | src/solutions/day14.rs:15-46 | once a grain has fallen into the abyss, no later count of grains rests |
| Day14.AbyssCountUnique | src/solutions/day14.rs:15-46 | at most one count has every grain resting and the next one falling, so part one's answer is determined |
| Day14.PourOntoFloor | src/solutions/day14.rs:48-76 | the count is the first number of grains, dropped one at a time onto the floor, after which the entry is occupied, and the cave is the cave after those grains; the occupied cells grow by exactly the count, which is at least one when the entry starts free |
| Day14.Solve | src/solutions/day14.rs:5-79 | part one is the number of grains that rest before the first falls past the deepest rock, `None` exactly where no grain ever falls; part two is the first number of grains after which the entry is occupied, at least one unless the entry is rock already |
| Day14.ParseCorner | src/solutions/day14.rs:89-92 | a corner parses exactly when it has two comma-separated parts that are both numbers, and the point is those two numbers |
| Day14.ParsePath | src/solutions/day14.rs:85-93 | a path parses exactly when every `" -> "`-separated piece of the trimmed line is a corner, and it is those corners in order |
| Day14.Parse | src/solutions/day14.rs:81-115 | parsing succeeds exactly when every line does, and the rock is exactly the cells on the paths of all lines |
| Day15.Manhattan | src/solutions/day15.rs:17 | the distance is zero exactly for equal points and at least the difference along either axis |
| Day15.RowInterval | src/solutions/day15.rs:23-30 | a sensor contributes an interval exactly when its range reaches the row, and then the interval is exactly the row positions within its range |
| Day15.CoveredBySomeMeaning | src/solutions/day15.rs:23-30 | a row position is ruled out exactly when some sensor's range covers it |
| Day15.Intervals | src/solutions/day15.rs:20-30 | at most one interval per sensor, and together they cover exactly the ruled-out positions of the row |
| Day15.Range | src/solutions/day15.rs:35-37 | an inclusive range holds exactly the values between its ends |
| Day15.Expand | src/solutions/day15.rs:33-38 | the expanded list holds exactly the positions of some interval |
| Day15.StepsCountDistinct | src/solutions/day15.rs:43-50 | counting neighbours that differ in a sorted list gives the number of distinct values less one |
| Day15.ElementsSnoc | src/solutions/day15.rs:35-36 | appending a value adds exactly that value to the set of values |
| Day15.SortedFront | src/solutions/day15.rs:41 | dropping the last element keeps a list sorted |
| Day15.LastIsNew | src/solutions/day15.rs:47 | in a sorted list, a last element that differs from the one before it occurs nowhere earlier |
| Day15.SortKeepsElements | src/solutions/day15.rs:41 | sorting keeps the set of values |
| Day15.SomeCovered | src/solutions/day15.rs:46 | a non-empty expanded list means some position of the row is ruled out |
| Day15.CountRow | src/solutions/day15.rs:19-50 | part one exists exactly when some position of the row is ruled out; it is then one less than the number of distinct ruled-out positions, as the source counts changes between neighbours |
| Day15.Lines | src/solutions/day15.rs:59-69 | the constants of one family of diagonals just outside the sensors' ranges, one per sensor in sensor order: `x - y` or `x + y` shifted by the range plus one in either direction |
| Day15.JustOutsideOnLines | src/solutions/day15.rs:59-69 | a position at distance `r + 1` from a sensor lies on one of its four recorded diagonal lines |
| Day15.FirstShared | src/solutions/day15.rs:73-74 | finds nothing exactly when the two line sets are disjoint, and otherwise a constant in both |
| Day15.FrequencyMeaning | src/solutions/day15.rs:77 | for lines meeting at `(x, y)` the formula gives `4,000,000 x + y` |
| Day15.Halve | src/solutions/day15.rs:77 | truncating division of an even number by two is exact |
| Day15.Locate | src/solutions/day15.rs:52-77 | part two exists exactly when both pairs of line sets share a constant; when the shared constants meet at a grid position the answer is its tuning frequency |
| Day15.Solve | src/solutions/day15.rs:11-79 | part one is the count of ruled-out positions on row 2,000,000 as CountRow states it, and part two the tuning frequency Locate finds |
| Day15.DigitRun | src/solutions/day15.rs:84 | the run of digits from `i` ends at the end of the text or before a non-digit |
| Day15.Number | src/solutions/day15.rs:91-97 | `-?\d+` matched at `i` with ASCII digits: a non-empty run that parses as the returned number and stops before a digit |
| Day15.Fields | src/solutions/day15.rs:84 | a match yields one value per literal and starts with the first literal; FieldsFirst states what each value is |
| Day15.FieldsFirst | src/solutions/day15.rs:84 | a field list matches exactly when its first literal is at `i` and a number follows it and the rest matches after that number; the first value is that number and the others are the rest's values |
| Day15.MatchAt | src/solutions/day15.rs:90-97 | a match starts with the pattern's first literal; MatchAtFields states the sensor and the beacon |
| Day15.MatchAtFields | src/solutions/day15.rs:90-97 | a match at `i` is the pattern's field list matching there; the sensor is its first two numbers and the beacon its last two |
| Day15.Search | src/solutions/day15.rs:89 | a search from `i` returns a position at or after `i` where the pattern matches |
| Day15.SearchSkips | src/solutions/day15.rs:89 | every position the search passes over does not match |
| Day15.SearchLeftmost | src/solutions/day15.rs:89 | the search fails exactly when no position matches, and otherwise returns the leftmost match |
| Day15.Report | src/solutions/day15.rs:89-98 | a line yields a report exactly when the pattern matches somewhere in it, and the report is the match at the leftmost matching position |
| Day15.Parse | src/solutions/day15.rs:82-103 | at most one report per line, and one per line when every line matches |
| Day15.ParseReports | src/solutions/day15.rs:82-103 | the reports are the lines' reports in order: the report of line i follows those of the lines before it, and every report comes from such a line |
| Day16.Good | src/solutions/day16.rs:38-41 | the kept rooms are exactly those with a positive flow, plus the start room `AA` |
| Day16.ExitsUnion | src/solutions/day16.rs:68-80 | the rooms one tunnel from a union are the union of the rooms one tunnel from each part |
| Day16.WithinGrows | src/solutions/day16.rs:63-86 | the rooms within `n` tunnels are among those within any larger number |
| Day16.WithinStable | src/solutions/day16.rs:63 | once a level adds no room, no later level does, which is when the search stops |
| Day16.ShortestUnique | src/solutions/day16.rs:73-77 | a room has a single shortest tunnel count |
| Day16.WithinStep | src/solutions/day16.rs:68-80 | the next level adds exactly the exits of the rooms reached so far |
| Day16.ExitsNamed | src/solutions/day16.rs:70 | every exit is a room named in the input |
| Day16.Record | src/solutions/day16.rs:73-78 | `entry(..).Vacant` inserts: the rooms found are added at the new distance and earlier entries are untouched |
| Day16.Bfs | src/solutions/day16.rs:63-86 | the search never changes a distance it has recorded |
| Day16.BfsCorrect | src/solutions/day16.rs:53-86 | started on a proper level, the search records every room within reach at its shortest tunnel count and nothing beyond, or fails only on a tunnel into a room that does not exist |
| Day16.BfsUnfold | src/solutions/day16.rs:63-86 | one level of the search expands the frontier into the rooms not yet recorded |
| Day16.BfsMeasure | src/solutions/day16.rs:73-78 | each level records only named rooms, and a level that records nothing leaves the table as it was, so the search terminates |
| Day16.BfsFails | src/solutions/day16.rs:70 | a frontier room missing from the input is the source's failed lookup |
| Day16.BfsDone | src/solutions/day16.rs:63 | an empty frontier ends the search with a complete table |
| Day16.WithinClosed | src/solutions/day16.rs:63 | when a level adds nothing, the rooms reached are closed under tunnels |
| Day16.ClosedReach | src/solutions/day16.rs:63-86 | a set holding the start and closed under tunnels contains every room within reach |
| Day16.ExitsMono | src/solutions/day16.rs:68-80 | more rooms have at least as many exits |
| Day16.NextLayer | src/solutions/day16.rs:68-83 | the rooms newly found from the frontier are exactly the next level |
| Day16.ExactExtend | src/solutions/day16.rs:76 | recording the next level at the next distance keeps every entry shortest |
| Day16.BfsStep | src/solutions/day16.rs:63-86 | one level of the search turns a proper level into the next one |
| Day16.Distances | src/solutions/day16.rs:57-60 | the search from a room records that room at distance 0 |
| Day16.DistancesCorrect | src/solutions/day16.rs:47-87 | the distances from a room are exactly the rooms within reach at their shortest tunnel counts; the search fails only when a room within reach does not exist |
| Day16.Table | src/solutions/day16.rs:44-87 | the table exists when every kept room's search succeeds, and it holds exactly those searches' distances, keyed by kept room first |
| Day16.Remaining | src/solutions/day16.rs:253 | the targets not yet seen, and no target twice when there was none twice |
| Day16.BestFlow | src/solutions/day16.rs:237-272 | the search never finds a negative release |
| Day16.Options | src/solutions/day16.rs:257-271 | the loop over candidates keeps a non-negative best |
| Day16.PlanCons | src/solutions/day16.rs:258-264 | a plan starting with `t` releases `t`'s flow for the minutes left after walking there and opening it, plus the rest of the plan from `t` |
| Day16.OptionsAtLeast | src/solutions/day16.rs:257-268 | every candidate reachable with time to spare bounds the loop's result from below |
| Day16.OptionsWitness | src/solutions/day16.rs:255-271 | the loop's result is 0 or exactly the value of one candidate with time to spare |
| Day16.BestFlowCons | src/solutions/day16.rs:250-268 | the search does at least as well as opening any remaining target first |
| Day16.BestFlowChoice | src/solutions/day16.rs:250-271 | the search finds nothing, or exactly what opening one remaining target and searching on gives |
| Day16.AllowedTail | src/solutions/day16.rs:250-253 | the rest of an allowed plan is allowed once its first valve is seen |
| Day16.BestFlowUpper | src/solutions/day16.rs:237-272 | no allowed order of opening releases more than the search finds |
| Day16.AllowedCons | src/solutions/day16.rs:250-253 | a remaining target in front of an allowed plan makes an allowed plan |
| Day16.BestFlowAchieved | src/solutions/day16.rs:237-272 | some allowed order of opening releases exactly what the search finds, so part one is the best release over all orders |
| Day16.GrowsAt | src/solutions/day16.rs:199-206 | a table that grows keeps a key with a value at least as large |
| Day16.GrowsTrans | src/solutions/day16.rs:199-206 | growing is transitive |
| Day16.Note | src/solutions/day16.rs:199-206 | recording a release adds its key, keeps the larger value for it, and changes no other entry |
| Day16.RemainingTwice | src/solutions/day16.rs:190-192 | filtering by a set and then by a larger one is filtering by the larger one |
| Day16.BestFlowTargets | src/solutions/day16.rs:190-192 | the search depends on its targets only through those not yet seen |
| Day16.SameTargets | src/solutions/day16.rs:190-192 | searching from all kept rooms or from the ones left gives the same |
| Day16.Explore | src/solutions/day16.rs:173-234 | part two's search returns exactly part one's best release |
| Day16.ExploreOptions | src/solutions/day16.rs:210-231 | its loop over candidates returns part one's loop result |
| Day16.ExploreGrows | src/solutions/day16.rs:184-206 | the search only raises table entries, and records for the valves opened so far at least the release they guarantee |
| Day16.OptionsGrows | src/solutions/day16.rs:210-231 | the loop only raises table entries |
| Day16.OptionsStep | src/solutions/day16.rs:210-231 | each candidate's search only raises table entries |
| Day16.ExploreCovers | src/solutions/day16.rs:173-234 | for every allowed order of opening that fits in the time, the table records for its set of valves at least the release it gives |
| Day16.CoversLast | src/solutions/day16.rs:217-226 | the last candidate's search records its plans |
| Day16.CoversKept | src/solutions/day16.rs:210-231 | an entry recorded by an earlier candidate stays at least as large |
| Day16.OptionsCovers | src/solutions/day16.rs:210-231 | every candidate's allowed plans are recorded by the loop |
| Day16.Fill | src/solutions/day16.rs:137-169 | a set already in the table is left alone; a missing one gets the best over the sets one valve smaller (0 when there are none), and no existing entry changes |
| Day16.FillEach | src/solutions/day16.rs:151-161 | the loop fills every smaller set and returns their best, or 0 |
| Day16.PairUp | src/solutions/day16.rs:116-131 | exists exactly when every complement is in the table; then it is the best sum of a recorded set and its complement, or 0 |
| Day16.Enumerate | src/solutions/day16.rs:190 | an order of the set's elements, each exactly once |
| Day16.EndTable | src/solutions/day16.rs:98-114 | the filled table holds the set of all kept valves and the empty set |
| Day16.Part2 | src/solutions/day16.rs:96-131 | part two is non-negative and at least the human's best for opening every kept valve alone |
| Day16.Solve | src/solutions/day16.rs:36-134 | an answer exists only when the start room is present, every search succeeds and every kept pair has a distance |
| Day16.StripComma | src/solutions/day16.rs:293-296 | a trailing comma is removed and nothing else changes |
| Day16.ParseRate | src/solutions/day16.rs:282-288 | the rate parses exactly when the word is `rate=<n>;` with a number `n` |
| Day16.ParseLine | src/solutions/day16.rs:279-303 | a line parses exactly when it has nine words and a valid rate: the name is word 1 and the exits are words 9 on without their commas |
| Day16.CollectMeans | src/solutions/day16.rs:305 | the map holds exactly the names entered, each with the room entered last |
| Day16.Parse | src/solutions/day16.rs:274-309 | parsing succeeds exactly when every line does, and the map collects the lines' rooms in order |
| Day17.Shape | src/solutions/day17.rs:5-11 | rock `n` takes shape `n mod 5`; every shape has four or five cells within four columns and touches each of its rows |
| Day17.ShapeWellFormed | src/solutions/day17.rs:5-11 | each of the five shapes is well formed |
| Day17.Height | src/solutions/day17.rs:16 | `get_height`: the first empty row, below which every row has a cell |
| Day17.FirstEmpty | src/solutions/day17.rs:16 | the search for an empty row from `r` finds the first one |
| Day17.DenseHeight | src/solutions/day17.rs:16 | a tower with no empty row is exactly as high as its rows |
| Day17.Depth | src/solutions/day17.rs:25-27 | the first distance below the top at which a column is occupied, or none |
| Day17.Profile | src/solutions/day17.rs:19-31 | one depth per column, each the first occupied one counted from the empty top row, never 0; `None` where rows 1 and up of the column are empty |
| Day17.WillFit | src/solutions/day17.rs:34-39 | a rock fits exactly when every cell lies between the walls on a free cell; a column left of the wall, the release-build wrap of `curr_width - 1`, does not fit |
| Day17.Push | src/solutions/day17.rs:64-78 | a jet moves the rock one column exactly when it names that side and the rock fits there; a fitting rock keeps fitting |
| Day17.Fall | src/solutions/day17.rs:59-90 | the rock ends no higher than it started, on the floor or blocked below, still fitting, having used one jet per row passed and one more |
| Day17.Mark | src/solutions/day17.rs:94 | marking a cell occupies exactly that cell in addition |
| Day17.Place | src/solutions/day17.rs:93-95 | placing a rock occupies exactly its cells in addition, and the grid grows just enough to hold it |
| Day17.SpawnFits | src/solutions/day17.rs:59-60 | a rock spawned three rows above the tower at column 2 fits |
| Day17.RestsLow | src/solutions/day17.rs:83-89 | a rock that cannot fall further rests no higher than the top of the tower |
| Day17.DropRock | src/solutions/day17.rs:55-95 | one rock keeps the tower gap-free and between the walls, raises it by at most the rock's height, and uses at least one jet |
| Day17.PlacedDense | src/solutions/day17.rs:93-95 | placing a resting rock leaves no empty row and grows the tower by at most the rock's height |
| Day17.PlacedRow | src/solutions/day17.rs:93-95 | every row up to the new top has a cell after placement |
| Day17.PlacedInWalls | src/solutions/day17.rs:93-95 | a fitting rock keeps every cell between the walls |
| Day17.DropKeeps | src/solutions/day17.rs:93-95 | a dropped rock never frees an occupied cell |
| Day17.Run | src/solutions/day17.rs:54-112 | the reference simulation of `n` rocks: gap-free, between the walls, at most four rows per rock, one jet per rock at least |
| Day17.RunStep | src/solutions/day17.rs:54-112 | the tower never shrinks from one rock to the next |
| Day17.RepeatsAsWritten | src/solutions/day17.rs:103 | the source's count of skipped periods keeps the rock index at most `Target` |
| Day17.SkipOvershoots | src/solutions/day17.rs:103-111 | for every cached rock `c` and repeat `i` whose period `i - c` divides `Target - c`, the skip lands on rock index `Target`, one rock past the last |
| Day17.Repeats | src/solutions/day17.rs:103 | the corrected count of periods stops at rock `Target - 1` and lands in the upper half of the range |
| Day17.Skip | src/solutions/day17.rs:103-104 | the corrected skip moves forward, not past rock `Target - 1`, to a rock of the same shape |
| Day17.DivBounds | src/solutions/day17.rs:103 | the quotient of the whole periods is at least one and brackets the distance |
| Day17.PeriodKeepsShape | src/solutions/day17.rs:98-104 | skipping whole periods between two rocks of the same shape lands on that shape again |
| Day17.Rounds | src/solutions/day17.rs:98-104 | a skip between rocks of the same shape is a whole number of five-rock rounds |
| Day17.SameShape | src/solutions/day17.rs:56 | adding whole rounds of five keeps the shape |
| Day17.NonNegative | src/solutions/day17.rs:104-105 | the skipped count and height are never negative |
| Day17.CacheLater | src/solutions/day17.rs:108 | later rocks and a taller tower keep the cache's entries consistent |
| Day17.CacheInsert | src/solutions/day17.rs:108 | inserting the current rock with its height keeps the cache consistent |
| Day17.Account | src/solutions/day17.rs:97-111 | a cache hit skips whole rounds and adds height; a miss records the rock; the next index is past the current one and at most `Target` |
| Day17.RecordedAt | src/solutions/day17.rs:108 | every recorded height is the reference tower's height (its row count, the tower being gap-free) after that rock |
| Day17.KeyOf | src/solutions/day17.rs:98 | the key is the shape index, the jet position and a seven-entry profile |
| Day17.DropNext | src/solutions/day17.rs:55-95 | dropping the next rock continues the reference simulation and records its height |
| Day17.RunNext | src/solutions/day17.rs:56 | after skipping whole rounds, the next rock has the reference simulation's shape |
| Day17.RecordedNext | src/solutions/day17.rs:108 | appending the next rock's height keeps the record |
| Day17.Simulate | src/solutions/day17.rs:45-112 | the loop ends with all rocks up to `Target` accounted for, a gap-free tower, a consistent cache and the reference heights recorded |
| Day17.Round | src/solutions/day17.rs:54-112 | one turn of the loop advances the rock index and keeps the loop's invariant |
| Day17.Lookup | src/solutions/day17.rs:114-118 | finds the height recorded for rock 2021 exactly when one is cached, and that is the reference height |
| Day17.Solve | src/solutions/day17.rs:3-123 | part one, when the cache holds rock 2021, is the reference tower's height after 2022 rocks; part two is non-negative |
| Day18.Adjacent | src/solutions/day18.rs:77-86 | six distinct neighbours, exactly the points one step away along one axis |
| Day18.CountOutside | src/solutions/day18.rs:23-26 | counts the neighbours not among the cubes: all of them exactly when none is a cube, none exactly when all are |
| Day18.SurfaceArea | src/solutions/day18.rs:20-28 | at most six faces per cube, and exactly six per cube when no two cubes touch |
| Day18.LoneCube | src/solutions/day18.rs:23-26 | a cube with no neighbouring cube shows six faces, one enclosed on all sides none |
| Day18.MinX | src/solutions/day18.rs:7-11 | the fold from `i32::MAX` gives the least x of the cubes, or `i32::MAX` for none |
| Day18.MaxX | src/solutions/day18.rs:13-17 | the fold from `i32::MIN` gives the greatest x of the cubes, or `i32::MIN` for none |
| Day18.Box | src/solutions/day18.rs:56-61 | the fill's box holds exactly the points with every coordinate within the bounds |
| Day18.FillBounds | src/solutions/day18.rs:56-61 | the widened bounds lie strictly outside every cube's x, and cross when there are no cubes |
| Day18.Visible | src/solutions/day18.rs:41-74 | the fill never reports the origin, reports only free points in the box, and is closed: every free neighbour of the origin or of a reported point is reported; it reports exactly the points other than the origin that a walk of touching free points from the origin reaches |
| Day18.Spread | src/solutions/day18.rs:41-74 | one expansion from a point keeps the search consistent: visited is the reported points plus the origin, everything new is free and in the box and was pushed, and the point's free neighbours are all visited |
| Day18.FillReaches | src/solutions/day18.rs:41-74 | a closed set of reachable points holding the origin is exactly the reachable set |
| Day18.DiscoveredReachable | src/solutions/day18.rs:51-70 | every point the fill pushes, each touching the point it was popped from, is reachable from the origin |
| Day18.CountIn | src/solutions/day18.rs:34-35 | counts the points in the air set, zero exactly when none is |
| Day18.ExteriorArea | src/solutions/day18.rs:31-35 | at most six exterior faces per cube |
| Day18.CountInOutside | src/solutions/day18.rs:34 | air holds no cube, so no more neighbours are air than are outside the cubes |
| Day18.ExteriorWithinSurface | src/solutions/day18.rs:20-35 | the exterior area never exceeds the surface area |
| Day18.CountInAll | src/solutions/day18.rs:34 | when every free neighbour is air, the air count equals the free count |
| Day18.ExteriorIsSurface | src/solutions/day18.rs:20-35 | when the fill reaches every free neighbour of the cubes, the exterior area equals the surface area |
| Day18.Solve | src/solutions/day18.rs:5-38 | part one is the surface area, at most six per cube; part two counts the faces onto the filled air, which is exactly the free points other than the origin reachable from it inside the widened box, and never exceeds part one |
| Day18.ParseCube | src/solutions/day18.rs:90-97 | a line parses exactly when its first three comma-separated fields are numbers, which become the coordinates |
| Day18.Parse | src/solutions/day18.rs:88-99 | parsing succeeds exactly when every line does, one cube per line in order |
| Day19.OreCost | src/solutions/day19.rs:58 | the ore cap is one of the four ore prices and at least each of them |
| Day19.MineRepeated | src/solutions/day19.rs:40-46 | gathering never changes the robots, and n minutes of it add n times each robot count to its resource |
| Day19.Clamp | src/solutions/day19.rs:120-132 | the three cuts: ore drops to the greatest ore cost exactly when it is at least that and the ore robots reach that cost, the clay robots reach the obsidian robot's clay price, or the obsidian robots reach the geode robot's obsidian price with enough clay; clay drops to that clay price only in the last case; robots, obsidian and geodes are untouched |
| Day19.Successors | src/solutions/day19.rs:137-206 | one to four successor stocks; an affordable geode robot is the only choice, otherwise idling comes last; each successor follows the minute's rules: the geode yield is added and at most one permitted robot is bought |
| Day19.Buy | src/solutions/day19.rs:137-203 | building a robot: every robot gathers, the robot's price in ore, clay or obsidian is paid, and exactly that robot count grows by one |
| Day19.SuccessorsChoices | src/solutions/day19.rs:155-203 | without an affordable geode robot, each other robot gets a successor exactly when its rule allows it, at its price, and every successor but the idle one builds an allowed robot |
| Day19.StaysNonNegative | src/solutions/day19.rs:120-206 | with non-negative prices, pruning and every successor keep all stocks and robot counts non-negative |
| Day19.Retain | src/solutions/day19.rs:97-106 | the kept entries are exactly the queued ones having more of some resource or robot than the expanded stock |
| Day19.Stamp | src/solutions/day19.rs:150-206 | each successor is queued tagged with the next minute |
| Day19.CapClosedForm | src/solutions/day19.rs:81-87 | the bound the model proves for the answer `res`, a new geode robot in every minute after the first, is n(n-1)/2 after n minutes |
| Day19.CapMonotone | src/solutions/day19.rs:81-87 | the bound the model proves for the answer `res` grows with the minutes |
| Day19.RetainLighter | src/solutions/day19.rs:97-106 | filtering the queue never increases its weight |
| Day19.ExpandLighter | src/solutions/day19.rs:137-206 | replacing an entry by at most four entries one minute later makes the queue lighter |
| Day19.Expanded | src/solutions/day19.rs:134-206 | expanding a sane entry keeps every queued entry sane and makes the queue lighter |
| Day19.Process | src/solutions/day19.rs:49-210 | the search from one ore robot at minute 0 terminates and reports between 0 and the cap for the time limit |
| Day19.Search | src/solutions/day19.rs:84-207 | the loop runs until the queue is empty; the best yield only grows and stays within the cap |
| Day19.Visit | src/solutions/day19.rs:84-207 | each turn of the search keeps the queue sane, never lowers the best yield and makes the queue lighter |
| Day19.QualityBound | src/solutions/day19.rs:24-28 | with every yield in 0..=m the quality sum lies in 0..=m times the sum of the positions |
| Day19.QualityAppend | src/solutions/day19.rs:27 | a blueprint adds its yield times its 1-based position |
| Day19.QualityPrefix | src/solutions/day19.rs:27 | the quality sum over the first i + 1 blueprints adds the i-th yield times i + 1 |
| Day19.ParseBlueprint | src/solutions/day19.rs:213-227 | a blueprint line parses exactly when it holds at least six integer words, and the costs are the first six of them in order |
| Day19.QualitySum | src/solutions/day19.rs:24-28 | part one is the position-weighted sum of `process(blueprint, 24)` over the blueprints |
| Day19.QualitySumBound | src/solutions/day19.rs:24-28 | part one lies between 0 and the 24-minute cap times the sum of the positions |
| Day19.Yields | src/solutions/day19.rs:24-33 | the yield at each position is the search's result for that blueprint |
| Day19.Solve | src/solutions/day19.rs:22-37 | fails exactly when there are fewer than three blueprints; part one is the position-weighted sum of the 24-minute searches, within its bound, and part two the product of `process(blueprint, 32)` for the first three blueprints |
| Day19.Numbers | src/solutions/day19.rs:222-227 | exactly the integer words of a line in order: as many entries as words that read as integers, and the integer of word `i` at the position counting the integer words before it |
| Day19.Parse | src/solutions/day19.rs:212-238 | parsing succeeds exactly when every line has six integer words, one blueprint per line in order |
| Day20.Iota | src/solutions/day20.rs:13 | the starting index vector holds each index 0..n at its own position |
| Day20.IotaRange | src/solutions/day20.rs:13 | the starting index vector holds every index below n exactly once |
| Day20.PermFacts | src/solutions/day20.rs:19 | an index permutation contains every index, only indices in range, and none twice, so the `position` lookup cannot fail |
| Day20.Remove | src/solutions/day20.rs:21 | `remove` shortens the vector by one, keeping the elements before the index and shifting those after it down |
| Day20.Insert | src/solutions/day20.rs:23 | `insert` places the element at the index, keeping the elements before it and shifting those after it up |
| Day20.RemoveMultiset | src/solutions/day20.rs:21 | removing takes exactly the removed element out of the contents |
| Day20.InsertMultiset | src/solutions/day20.rs:23 | inserting adds exactly the inserted element to the contents |
| Day20.RemoveInsert | src/solutions/day20.rs:21-23 | removing what was just inserted at an index gives back the original vector |
| Day20.MoveElement | src/solutions/day20.rs:19-23 | moving one element of a permutation leaves a permutation of the same indices |
| Day20.Reinsert | src/solutions/day20.rs:21-23 | taking an element out and reinserting it keeps the length and the contents |
| Day20.MoveElementPlaces | src/solutions/day20.rs:19-23 | the moved element lands at `(pos + v) rem_euclid (n - 1)`, and the other elements keep their relative order |
| Day20.Target | src/solutions/day20.rs:23 | the reinsertion index is always within the shortened vector |
| Day20.MixPrefix | src/solutions/day20.rs:17-24 | moving the first k elements in turn leaves a permutation |
| Day20.Mixed | src/solutions/day20.rs:13-25 | any number of rounds from the identity leaves a permutation, for every length other than one |
| Day20.GroveSum | src/solutions/day20.rs:28-38 | the grove sum exists exactly when the values hold a zero |
| Day20.Rotate | src/solutions/day20.rs:31-36 | reading the circle from index k keeps the contents and maps position j to position (j + k) mod n |
| Day20.GroveSumRotation | src/solutions/day20.rs:28-38 | the grove sum depends only on the circular order: rotating the mixed vector does not change it |
| Day20.RotatedPosition | src/solutions/day20.rs:31-36 | an element's place in the rotated circle maps back to its original place |
| Day20.RotatedAfter | src/solutions/day20.rs:31-36 | the value d places after an element is the same in the rotated circle |
| Day20.ShiftedMod | src/solutions/day20.rs:35-36 | stepping d places commutes with the rotation offset modulo n |
| Day20.Scale | src/solutions/day20.rs:11 | each value is multiplied by the decryption key |
| Day20.Mix | src/solutions/day20.rs:9-39 | mixing gives a result exactly when the scaled values hold a zero and the list does not have one element while rounds are made |
| Day20.Solve | src/solutions/day20.rs:3-7 | both parts give a result exactly when the list holds a zero and does not have exactly one element |
| Day20.ScaleZeros | src/solutions/day20.rs:11-33 | scaling by a non-zero key keeps exactly the zeros |
| Day20.Parse | src/solutions/day20.rs:41-48 | parsing succeeds exactly when every line is an integer, one value per line in order |
| Day21.Apply | src/solutions/day21.rs:122-136 | the four operators give the sum, difference, product and quotient truncated toward zero; any other operator gives nothing; dividing by zero is the panic |
| Day21.Names | src/solutions/day21.rs:90 | the set of names is exactly the names of the listed monkeys |
| Day21.ConsistentGrows | src/solutions/day21.rs:88-143 | entries the table already justified stay justified when the table only grows |
| Day21.Visit | src/solutions/day21.rs:91-141 | one monkey of a sweep: the table only grows, by at most that monkey; a new entry is the forced human value or what its job gives on the table; `root` finishes only with both operands known, reporting their values; a panic is a yelling `root` or a division |
| Day21.Pass | src/solutions/day21.rs:90-142 | a sweep over the list keeps the table consistent with the jobs and the human value forced, grows it only by listed names, and finishes only with `root`'s operands known |
| Day21.VisitConsistent | src/solutions/day21.rs:113-141 | a step that enters a monkey keeps every entry justified by a job |
| Day21.StuckRepeats | src/solutions/day21.rs:88-143 | a sweep that enters no new name leaves the table unchanged, so the next sweep is the same and the loop never ends |
| Day21.Sweeps | src/solutions/day21.rs:88-143 | the repeated sweeps end in a panic or with `root`'s operands known in a consistent table |
| Day21.Calculate | src/solutions/day21.rs:82-150 | the flag reports exactly whether `root`'s two operands are equal |
| Day21.CalculateSound | src/solutions/day21.rs:82-150 | an answer comes with a table that agrees with every job, holds the forced human value and has `root`'s operands entered with the reported values |
| Day21.TableMeaning | src/solutions/day21.rs:113-141 | with unique names, every entered monkey other than a forced `humn` holds what its job gives on the table |
| Day21.Pow10Grows | src/solutions/day21.rs:34 | the probed powers of ten grow with the exponent |
| Day21.CeilingIsPow | src/solutions/day21.rs:33-34 | the last probed power, 10^19, is the bracket's ceiling |
| Day21.Pow10Below | src/solutions/day21.rs:33-34 | every probed power is at most 10^19 |
| Day21.Bracket | src/solutions/day21.rs:33-47 | the bracket lies in 0..=10^19; its upper end has crossed zero unless both ends stop at 10^19; its lower end is the last uncrossed probe or the start |
| Day21.Bisect | src/solutions/day21.rs:49-75 | the bisection returns only a human value within the bracket at which `root`'s operands agree |
| Day21.Search | src/solutions/day21.rs:18-75 | part two's search returns only a human value in 0..=10^19 at which `root`'s operands agree |
| Day21.Solve | src/solutions/day21.rs:13-78 | part one is the sum of `root`'s operands without a forced human; part two is a human value at which they agree |
| Day21.TrimColons | src/solutions/day21.rs:163-173 | `trim_matches(':')`: the result is a slice of the name with only colons outside it, is empty or neither starts nor ends with a colon, and is the name itself when it has no colon |
| Day21.ParseLine | src/solutions/day21.rs:157-185 | lines of other than two or four words are skipped; a two-word line fails exactly when its number does not parse; a four-word line is always an operation; the name is the trimmed first word |
| Day21.ParseLineJob | src/solutions/day21.rs:161-182 | a two-word line yells the number of its second word; a four-word line computes with the first character of its third word applied to its second and fourth words |
| Day21.Parse | src/solutions/day21.rs:152-189 | parsing succeeds exactly when every line does, with at most one monkey per line, and exactly one per line when every line has two or four words |
| Day21.ParseKept | src/solutions/day21.rs:152-189 | the monkey of a line that yields one sits right after the monkeys of the lines before it |
| Day21.ParseFrom | src/solutions/day21.rs:152-189 | every parsed monkey is the monkey of some line, placed after the monkeys of the lines before it |
| Day22.Tokens | src/solutions/day22.rs:119-128 | the first scan yields at most one token per character: only `R`/`L` turns and one-digit distances |
| Day22.TokensAppend | src/solutions/day22.rs:122-128 | the scan goes character by character: the tokens of a text are those of its parts in order, and one character yields a turn for `R` or `L`, its digit value for a digit, and nothing otherwise |
| Day22.MergeAsWritten | src/solutions/day22.rs:130-140 | the merging loop as written never lengthens the list and keeps every turn in order |
| Day22.ThreeDigitsSplit | src/solutions/day22.rs:130-140 | the path `123` is read as the two distances 12 and 3 by the loop as written, and as the single distance 123 by the intended merge |
| Day22.Merge | src/solutions/day22.rs:130-140 | the intended merge never lengthens the list, keeps every turn in order and leaves no two distances adjacent |
| Day22.ReadDigitsValue | src/solutions/day22.rs:135 | folding digits as `d1 * 10 + d2` from an accumulator gives the accumulator shifted by the run length plus the run's decimal value |
| Day22.DigitsSplit | src/solutions/day22.rs:135 | a run's decimal value is its first digit times a power of ten plus the value of the rest |
| Day22.MergeRun | src/solutions/day22.rs:130-140 | merging a distance followed by a run of digits and then a turn (or the end) gives one distance, the digits read onto it, and merges what follows on its own |
| Day22.MergeRunTo | src/solutions/day22.rs:130-140 | the same merge of a distance and a digit run, with the run's value given: the result is that one distance followed by the merge of what comes after |
| Day22.MergeDigit | src/solutions/day22.rs:133-137 | a distance followed by a one-digit distance merges as the single distance `10 * d1 + d2` would |
| Day22.TokensDigit | src/solutions/day22.rs:122-128 | a run of digits scans to its first digit's distance followed by the scan of the rest |
| Day22.MergeTurn | src/solutions/day22.rs:130-140 | a turn at the front is kept and the rest merged on its own |
| Day22.MergeLone | src/solutions/day22.rs:130-140 | a distance not followed by another is kept as it is |
| Day22.MergeJoin | src/solutions/day22.rs:133-137 | two adjacent distances are joined as `d1 * 10 + d2` |
| Day22.ReadRun | src/solutions/day22.rs:135 | reading a non-empty run from its first digit gives its decimal value |
| Day22.DigitsAreOneDistance | src/solutions/day22.rs:119-140 | a run of digits becomes the one distance of its decimal value |
| Day22.ParseInstructions | src/solutions/day22.rs:119-143 | a path without tokens is the source's length underflow; otherwise the turns are kept in order and no two distances are adjacent |
| Day22.ParseRunTurn | src/solutions/day22.rs:119-143 | a path starting with a run of digits and a turn is one distance of the run's decimal value, then the turn, then the rest of the path: `10R5` is 10, `R`, 5 |
| Day22.ParseTurnFirst | src/solutions/day22.rs:119-143 | a path starting with a turn keeps it first and parses the rest |
| Day22.Cell | src/solutions/day22.rs:32-38 | the board's character inside a row, a space everywhere else |
| Day22.Widest | src/solutions/day22.rs:32-38 | no row is longer than the widest |
| Day22.Delta | src/solutions/day22.rs:57-63 | each facing moves one cell along one axis |
| Day22.Back | src/solutions/day22.rs:75-91 | the wrap lands on a tile or a wall behind the start on the same row or column, and the cell one step further back is a space |
| Day22.BackRun | src/solutions/day22.rs:75-91 | the wrap lands `k >= 0` steps against the facing, and every cell from the start up to it is a tile or a wall, so it is the far edge of the unbroken run |
| Day22.Step | src/solutions/day22.rs:66-100 | a step goes to the next cell, or around the wrap when that is a space, and is refused exactly when the cell reached is a wall |
| Day22.Move | src/solutions/day22.rs:54-101 | a distance ends on a non-space cell that is the start or open; a non-positive distance or an immediately blocked one stays put |
| Day22.Rotate | src/solutions/day22.rs:44-52 | a turn keeps the facing in 0..4 |
| Day22.RotateInverse | src/solutions/day22.rs:48-49 | a right turn and a left turn undo each other, and four right turns are no turn |
| Day22.Walk | src/solutions/day22.rs:41-104 | the walker stays on the map, ends at the start or on an open cell; turns alone never move it and distances alone never turn it |
| Day22.Begin | src/solutions/day22.rs:24-29 | the walk starts facing east on the top row's first non-space cell, and exists exactly when that row has one |
| Day22.FirstNonSpace | src/solutions/day22.rs:26 | the first non-space index, present exactly when the row has a non-space character |
| Day22.PasswordDecodes | src/solutions/day22.rs:107 | the password gives back the facing, the column and the row on boards narrower than 249 columns |
| Day22.CalculatePassword | src/solutions/day22.rs:22-108 | a password exists exactly when the walk can start, and is the password of a walker on the map |
| Day22.Solve | src/solutions/day22.rs:10-20 | part one is the password and part two the constant 0 |
| Day22.Parse | src/solutions/day22.rs:110-117 | the board is every line but the last two and the path is the last line, which fails on fewer than two lines or a path without tokens |
| Day23.Around | src/solutions/day23.rs:8-19 | an elf has eight surrounding cells |
| Day23.AroundMeans | src/solutions/day23.rs:8-19 | a cell surrounds an elf exactly when it differs from it by at most one in each coordinate |
| Day23.Facing | src/solutions/day23.rs:46-63 | each direction looks at three cells, the middle one being the cell it moves to |
| Day23.Turn | src/solutions/day23.rs:65-67 | the round's direction order rotates through the four directions |
| Day23.FirstClear | src/solutions/day23.rs:65-72 | a chosen cell is empty and one step away |
| Day23.FirstClearNone | src/solutions/day23.rs:65-72 | nothing is chosen exactly when no remaining direction is clear |
| Day23.FirstClearSome | src/solutions/day23.rs:65-72 | the chosen cell is the target of the first clear direction in the round's order |
| Day23.Propose | src/solutions/day23.rs:30-72 | an elf with no neighbour proposes nothing; a proposal is an empty cell one step away |
| Day23.ProposalsFromAt | src/solutions/day23.rs:30-73 | each collected proposal is that elf's own |
| Day23.Proposals | src/solutions/day23.rs:30-73 | one proposal per elf |
| Day23.ProposalsAt | src/solutions/day23.rs:30-73 | elf k's proposal is its own against the current cells, never an occupied cell, and one step away |
| Day23.SettleFromAt | src/solutions/day23.rs:78-88 | an elf moves to its proposal exactly when nobody else proposed the same cell, otherwise it stays |
| Day23.SettleAll | src/solutions/day23.rs:78-88 | every elf moves to a sole proposal or stays |
| Day23.Next | src/solutions/day23.rs:28-88 | a round keeps the number of elves, and leaves them all in place when nobody moves |
| Day23.NextAt | src/solutions/day23.rs:78-88 | after a round each elf is at its sole proposal or where it was |
| Day23.NextDistinct | src/solutions/day23.rs:78-88 | a round never puts two elves on one cell |
| Day23.After | src/solutions/day23.rs:25-103 | any number of rounds keeps the number of elves and never puts two on one cell |
| Day23.MinX | src/solutions/day23.rs:99 | the least x of the elves, attained by one of them |
| Day23.MaxX | src/solutions/day23.rs:99 | the greatest x of the elves, attained by one of them |
| Day23.MinY | src/solutions/day23.rs:100 | the least y of the elves, attained by one of them |
| Day23.MaxY | src/solutions/day23.rs:100 | the greatest y of the elves, attained by one of them |
| Day23.SimulateAsWritten | src/solutions/day23.rs:25-103 | the loop as written reports a round later than the one it started from |
| Day23.Still | src/solutions/day23.rs:25-94 | the reported round is the first in which nobody moves: every round before it moves someone |
| Day23.Solve | src/solutions/day23.rs:6-106 | part one is the empty ground after exactly ten rounds; part two is the first round in which nobody moves |
| Day23.RectSize | src/solutions/day23.rs:99-101 | a rectangle has its width times its height in cells |
| Day23.EmptyGroundCounts | src/solutions/day23.rs:99-101 | for elves on distinct cells the part-one value is the number of cells of their bounding rectangle on which no elf stands, so it is never negative |
| Day23.KeptAfterTen | src/solutions/day23.rs:96-102 | past round 10 the loop as written carries part one along unchanged |
| Day23.AsWrittenWhenMoving | src/solutions/day23.rs:96-102 | when the first ten rounds all move someone, the loop as written takes part one after the tenth round |
| Day23.SameStop | src/solutions/day23.rs:90-94 | the loop as written stops exactly when the first still round is found, and reports it |
| Day23.AgreesWhenMoving | src/solutions/day23.rs:25-103 | when the first ten rounds all move someone, the loop as written and the corrected solve agree on both parts |
| Day23.SettledEarly | src/solutions/day23.rs:90-102 | two elves five apart settle in round 1, so the loop as written reports part one as 0 while their empty ground is 4 |
| Day23.AloneStill | src/solutions/day23.rs:39-43 | when every elf is alone nobody moves |
| Day23.StillStays | src/solutions/day23.rs:39-43 | when every elf is alone any number of rounds leave them in place |
| Day23.RowElves | src/solutions/day23.rs:113-119 | a row yields exactly its `#` cells, once each, left to right |
| Day23.Parse | src/solutions/day23.rs:108-122 | the elves are exactly the `#` cells of the grid, each once |
| Day25.SnafuDigit | src/solutions/day25.rs:14-21 | each SNAFU digit is worth between -2 and 2 |
| Day25.DigitFor | src/solutions/day25.rs:29 | the digit chosen for a remainder is a SNAFU digit whose value leaves that remainder modulo 5 |
| Day25.DecimalToSnafu | src/solutions/day25.rs:25-31 | the encoding is a SNAFU string, empty exactly for 0, and otherwise leads with `1` or `2` |
| Day25.DecodeEncode | src/solutions/day25.rs:10-31 | decoding the encoding of any non-negative number gives it back |
| Day25.DecodeFront | src/solutions/day25.rs:11-22 | a leading digit adds its value times five to the power of the rest's length |
| Day25.SnafuToDecimal | src/solutions/day25.rs:10-23 | the fold `n * 5 + digit` gives a string of k digits a value of magnitude at most (5^k - 1) / 2; DecodeFront, DecodeEncode and EncodeDecode state which value |
| Day25.PositiveCanonical | src/solutions/day25.rs:11-22 | a non-empty string leading with `1` or `2` has a positive value |
| Day25.EncodeStep | src/solutions/day25.rs:29 | encoding five times a positive number plus a digit appends that digit to the number's encoding |
| Day25.EncodeDecode | src/solutions/day25.rs:10-31 | encoding the value of a canonical SNAFU string gives the string back |
| Day25.Solve | src/solutions/day25.rs:3-8 | part one is the canonical SNAFU string whose value is the sum of the lines' values; part two is the fixed message |
| Day25.Example | src/solutions/day25.rs:60-65 | the sum 4890 is written `2=-1=0` |
| Day25.ExampleHigh | src/solutions/day25.rs:25-31 | 196 is written `2=-1` |
| Common.TruncDiv | src/solutions/day21.rs:133 | Rust's integer `/`: the quotient truncated toward zero, whose remainder is smaller than the divisor and takes the dividend's sign |
| Common.TruncRem | src/solutions/day11.rs:73-76 | Rust's integer `%`: smaller than the divisor in magnitude and of the dividend's sign |
| Common.ParseInt | src/solutions/day01.rs:13 | `parse::<i32>`: a result exactly for an optional sign followed by one or more digits, with the digits' decimal value |
| Common.ParseShow | src/solutions/day01.rs:13 | reading back the decimal text of any integer gives the integer |
| Common.SplitOn | src/solutions/day18.rs:91 | `split`: the parts hold no separator and joined with it give back the text |
| Common.SplitOnStr | src/solutions/day14.rs:85 | `split(" -> ")`: at least one piece; joined with the separator the pieces give back the text; no piece holds the separator, and no occurrence straddles a cut, so the text is cut at every leftmost occurrence |
| Common.SplitCut | src/solutions/day14.rs:85 | a separator at the front of the text cuts off an empty piece: the pieces of the rest behind an empty one join back to the text and stay free of the separator |
| Common.SplitCons | src/solutions/day14.rs:85 | a character at which no separator starts joins the first piece of the rest: the pieces still join back to the text, and none holds the separator or straddles a cut |
| Common.Trim | src/solutions/day02.rs:15 | `trim`: never longer than the text, and empty or starting and ending with a non-space character; TrimStart, TrimEnd and TrimNonSpace state what is dropped and what is kept |
| Common.IndexOf | src/solutions/day05.rs:43 | `position`: found exactly when the value occurs; the index found holds it and no earlier index does |
| Common.ParseAll | src/solutions/day04.rs:24-41 | a line parser applied to every line with `unwrap`: a result exactly when every line parses, one value per line, value i being the parse of line i |
| Common.Reverse | src/solutions/day05.rs:24 | `reverse`: the same length, with element i taken from position `n - 1 - i` of the input |
| Common.TrimStart | src/solutions/day02.rs:15 | `trim_start`: a suffix of the text that is empty or starts with a non-space character, and everything dropped before it is white space |
| Common.TrimEnd | src/solutions/day02.rs:15 | `trim_end`: a prefix of the text that is empty or ends with a non-space character, and everything dropped after it is white space |
| Common.TrimNonSpace | src/solutions/day02.rs:15 | `trim` loses no non-space character: the trimmed text holds exactly the original's non-space characters in order |
| Common.Words | src/solutions/day19.rs:222 | `split_whitespace`: the words are non-empty and space-free and together hold exactly the non-space characters in order |
| Common.SortAsc | src/solutions/day01.rs:17 | sorting gives an ascending permutation of the input |
| Common.SortDesc | src/solutions/day01.rs:17-18 | the descending sort is a permutation of the input in non-increasing order |
| Common.SumAppend | src/solutions/day01.rs:21 | the sum of a concatenation is the sum of the parts |
| Common.SumNonNeg | src/solutions/day01.rs:21 | a sum of non-negative values is non-negative |
| Common.Present | src/solutions/day15.rs:82-103 | `filter_map` keeps at most one value per entry, and one per entry when every entry is present |
| Common.PresentAt | src/solutions/day15.rs:82-103 | the value of a present entry is kept right after the values of the entries before it |
| Common.PresentFrom | src/solutions/day15.rs:82-103 | every kept value is a present entry's, placed after the values of the entries before it |
| Common.ParseAllKept | src/solutions/day21.rs:152-189 | parsing lines that may yield nothing keeps the value of line i right after those of the lines before it |
| Common.ParseAllFrom | src/solutions/day21.rs:152-189 | every kept value comes from a line, placed after the values of the lines before it |
| Common.ParseAllPrefix | src/solutions/day21.rs:152-189 | parsing a prefix of the lines gives the prefix of the results |
| Common.WordsFirst | src/solutions/day19.rs:222 | the first word is the maximal run of non-space characters after the leading white space, and the other words are the words after it |
| Common.WordsRun | src/solutions/day19.rs:222 | text starting with a maximal non-space run has that run as its first word |
| Common.WordsNone | src/solutions/day19.rs:222 | text has no words exactly when it is all white space |

## Left out

- Days 12 and 24 are not part of this model. Neither is the shared file reader or any day's `run` and `benchmark`: they do I/O, timing and printing only.
- Machine integer widths (`i32`, `i64`, `i128`, `usize`) are unbounded integers here. Overflow is not modelled except in day 2's `u8` arithmetic, day 6's shifted bit sets and day 17's `usize` column (see Day17.WillFit), where the source's release-build wrap-around is written out.
- Parallel iteration (`rayon`, days 16 and 19) is modelled sequentially. Every combining step involved is a sum or a product, so the order does not matter.
- Hash sets and hash maps are modelled as Dafny sets and maps, or as lists where iteration order shows. Where the source's answer could depend on hash order, the model fixes one order:
  - `Day16.Enumerate` fixes one order of a set;
  - `Day15.FirstShared` takes the first shared constant in list order, where the source takes one element of a hash-set intersection.
- Day01.Solve: the sums are `i32` in the source; overflow is not modelled.
- Day02.Codes: ASCII input only. A line is a sequence of characters, so the first code is the first character's code point. The source's `split_at(1)` and `as_bytes()[0]` work on bytes: a multibyte first character panics there, and a multibyte character after it gives its first byte.
- Day03.Misplaced: ASCII input only. The halves are split after `|line| / 2` characters, where the source's `split_at(len() / 2)` counts bytes. On a line with multibyte characters the split differs, or panics inside a character.
- Day05.Solve: states only that both answers have one crate per stack and that every move applied. The crate letters are stated by the members it calls.
- Day07.Solve: a `PathBuf` key is modelled as its list of pushed names. A name starting with `/` replaces whatever precedes it, and a `.` after the first name adds nothing. A name holding `/` anywhere other than as a lone `/` is kept as one component. `PathBuf` would split it (`/a` is the same key as `/` then `a`).
- Day07.RunNested: stated only for sessions without `$ cd .`. After one, the source adds a file's size twice to the current directory, because `a/.` and `a` are the same key. A directory can then be recorded larger than its parent, as CdDotCountsTwice shows.
- Day08.Solve: the sweeps step their `usize` indices past the grid's edge, where the wrap-around makes `is_valid` fail. Here the sweeps run over the grid's integer indices and stop at its edges.
- Day09.ParseMovements: ASCII input only. The count is parsed from the characters after the first, where the source's `line[1..]` slices bytes; a multibyte direction character panics there.
- Day09.Solve: bounds the visited counts by the number of unit steps and proves them positive when a step is made. It does not compute the counts in closed form.
- Day11.Solve: a panic is `None` and is detected per inspection, as the source meets it. The `i64` arithmetic (the worry levels, the product of the divisors, the counts' product) is unbounded here, so an overflow on large inputs, and the panic it raises in a debug build, is not modelled.
- Day13.Solve: the packets are given as the parsed tree. The `serde_json` parser itself is not part of this model.
- Day14.Solve: part one is `None` where the source loops forever, once the entry cell is filled and blocked below.
- Day15.Number: ASCII digits only. The source's `\d` is Unicode-aware, so it also matches other decimal digits, and the `parse().unwrap()` on such a field panics. Here a non-ASCII digit ends the run, so the match fails at that position.
- Day15.Report: a line whose field holds a non-ASCII decimal digit panics in the source. Here the match at that position fails and the search moves on to the next one.
- Day16.Solve: a ghost function, since the part-two table is built from a set of sets. Its contract states only what an answer needs. The answers' meanings are stated by BestFlowUpper, BestFlowAchieved and Part2. `None` here covers more inputs than the source's panics. The model gives `None` whenever `AA` is missing or some pair of kept rooms has no distance. The source looks up only the pairs its searches reach, so some such inputs do not panic there. For example, with no `AA` and no room of positive flow nothing is looked up and the source returns `(0, 0)`.
- Day16.Part2: states that part two is at least what one worker opening every valve would release. Optimality over all splittings is not stated.
- Day17.Fall: ASCII input only. The jet pattern is a sequence of characters, and the jet at turn t is its character `t % |jets|`. The source indexes `as_bytes()` with the byte length, so the two agree only when every character is one byte.
- Day17.WillFit: release-build wrapping is assumed. A jet pushing a rock at column 0 to the left computes the `usize` `curr_width - 1`, which wraps in a release build, so the rock does not fit and stays put; the model reads the column -1 as outside the walls to the same effect. A debug build panics there with "attempt to subtract with overflow", which is not modelled.
- Day17.Account: computes the corrected skip (Repeats), not the source's `(T - c) / (i - c) - 1` periods. When the period divides `Target - c`, the source's next index is `Target + 1`, which `next <= Target` excludes. The as-written count is RepeatsAsWritten, and SkipOvershoots states the overshoot (see Findings).
- Day17.Round: one turn of the corrected loop, since it goes through Account's corrected skip.
- Day17.Simulate: the corrected loop, through Round and Account, so `rocks == Target` is the intended count and not what the source's loop ends with on the overshoot input. It requires a non-empty jet pattern; the source's `%` by zero panics otherwise. The 10,000-row array is an unbounded grid.
- Day17.Solve: part one is proved to equal the reference simulation after 2022 rocks only when the cache recorded rock 2021. Otherwise part one is `None`, which is where the source's `unwrap` panics. Part two is proved only non-negative: that the skipped heights add up to the reference height after 10^12 rocks is not stated.
- Day18.Solve: states that the fill's air is exactly the reachable free points and that part two never exceeds the surface area. It does not state that every face left out of part two belongs to an enclosed pocket (one not reachable inside the box); ExteriorIsSurface states when no face is left out. The `i32` extremes of MinX and MaxX are modelled; the unused y and z minima are not.
- Day19.Process: bounds the search's answer by the geode cap. It does not state that the answer is the best schedule: the source's pruning is not proved admissible.
- Day21.Solve: a table that never reaches `root` and a panic are both `None`. TableMeaning requires unique monkey names. The `i128` arithmetic is unbounded.
- Day22.Solve: part two is the constant 0, as in the source, although its test expects 5031. Rows are indexed by character. The source compares a column with the row's byte length, which agrees only for ASCII rows.
- Day22.ParseInstructions: merges digit runs with the corrected Merge, so "no two distances adjacent" is the intended result. The source's loop reads a run of three or more digits as several distances; MergeAsWritten and ThreeDigitsSplit model that (see Findings).
- Day22.Parse: inherits ParseInstructions' corrected merge, so a path with a run of three or more digits parses differently from the source.
- Day23.Solve: part one is the corrected value, the empty ground after ten rounds. The source keeps 0 when the elves settle before round 10; SimulateAsWritten is that loop, SettledEarly shows the difference and AgreesWhenMoving shows the two agree otherwise (see Findings). `fuel` bounds the number of rounds and is `None` when it runs out. The elves are a list without duplicates rather than a hash set.
- Day25.Solve: requires every line to be SNAFU (the source's `unreachable!` otherwise) and the sum to be non-negative. For a negative sum the source's `as usize` cast picks different digits, which is not modelled.

## Findings

| source | as written | input that shows it | evidently intended | confidence | as-written member | corrected member |
|---|---|---|---|---|---|---|
| src/solutions/day17.rs:103-111 | the cycle skip computes `(T - c_i) / (i - c_i) - 1` periods | a cache hit at rock `i` on a key first stored after rock `c` with `i - c` dividing `T - c` (for instance `c = 5`, `i = 10`: keys carry the shape index, so periods are multiples of five, and five divides `T - 5`): the skip lands on rock index `T`, and the loop ends one rock past the last; no jet pattern producing such a hit is exhibited | skip to at most rock `T - 1`, so exactly `T` rocks are accounted for | medium, not executed | Day17.SkipOvershoots | Day17.Skip |
| src/solutions/day22.rs:130-140 | the merge loop joins two adjacent distances and then moves past the joined one | the path `123` becomes the distances 12 and 3 | a run of digits becomes its decimal value, 123 | high, not executed | Day22.ThreeDigitsSplit | Day22.DigitsAreOneDistance |
| src/solutions/day23.rs:90-102 | part one is computed only inside round 10, after the check that someone moved | two elves at (0, 0) and (5, 0) never move, so part one stays 0 | part one is the empty ground after ten rounds, 4 here | high, not executed | Day23.SettledEarly | Day23.Solve |

=== FILE: common.dfy ===
/**
 Shared vocabulary for the day modules: an optional value for the places
 where the solvers unwrap or panic, integer helpers (including Rust's
 truncating signed division), a few sequence facts, an insertion sort, and
 the text utilities the parsers are built from.
 */
module Common {

  /** The conventional Some/None datatype; `None` stands for a failed
      `unwrap`, a failed `parse` or an index that does not exist. */
  datatype Option<T> = None | Some(value: T)

  function Abs(x: int): (r: nat)
    ensures r == x || r == -x
  {
    if x < 0 then -x else x
  }

  function Max(a: int, b: int): (r: int)
    ensures r >= a && r >= b && (r == a || r == b)
  {
    if a >= b then a else b
  }

  function Min(a: int, b: int): (r: int)
    ensures r <= a && r <= b && (r == a || r == b)
  {
    if a <= b then a else b
  }

  /* ---------------------------------------------------------------- */
  /* Rust's signed division                                           */
  /* ---------------------------------------------------------------- */

  /** Rust's `/` on signed integers rounds toward zero, whereas Dafny's
      `/` on `int` is Euclidean. The remainder left by a truncating
      division is smaller than the divisor and has the dividend's sign. */
  function TruncDiv(a: int, b: int): (q: int)
    requires b != 0
    ensures Abs(a - q * b) < Abs(b)
    ensures a - q * b == 0 || (a - q * b < 0 <==> a < 0)
  {
    if a >= 0 then
      if b > 0 then a / b else -(a / -b)
    else
      if b > 0 then -((-a) / b) else (-a) / (-b)
  }

  lemma TruncDivNonNeg(a: int, b: int)
    requires a >= 0 && b > 0
    ensures TruncDiv(a, b) == a / b
  {
  }

  /** Rust's `%` on signed integers: what the truncating division leaves. */
  function TruncRem(a: int, b: int): (r: int)
    requires b != 0
    ensures Abs(r) < Abs(b)
    ensures r == 0 || (r < 0 <==> a < 0)
  {
    a - TruncDiv(a, b) * b
  }

  /** A multiple of `n` that is smaller than `n` is zero. */
  lemma MultipleSmall(k: int, n: int)
    requires n > 0 && Abs(k * n) < n
    ensures k == 0
  {
    if k > 0 {
      MulAtLeast(k, n);
    } else if k < 0 {
      MulAtLeast(-k, n);
    }
  }

  /** Rust's `a % b == 0` is divisibility, whatever the signs. */
  lemma TruncRemZero(a: int, b: int)
    requires b != 0
    ensures TruncRem(a, b) == 0 <==> a % Abs(b) == 0
  {
    var n := Abs(b);
    var q := TruncDiv(a, b);
    var q' := if b > 0 then q else -q;
    var r := TruncRem(a, b);
    SignedProduct(q, b);
    assert a == q' * n + r;
    if r == 0 {
      ModUnique(a, n, q', 0);
    }
    if a % n == 0 {
      SmallRemainder(a, n, q', r);
    }
  }

  /** A multiple of `n` leaves no remainder smaller than `n` on either
      side. */
  lemma SmallRemainder(a: int, n: int, q: int, r: int)
    requires n > 0 && a % n == 0 && a == q * n + r && Abs(r) < n
    ensures r == 0
  {
    var k := a / n;
    assert a == k * n;
    Factor(k, q, n);
    MultipleSmall(k - q, n);
  }

  lemma SignedProduct(q: int, b: int)
    ensures q * b == (if b > 0 then q else -q) * Abs(b)
  {
    if b <= 0 {
      assert q * b == (-q) * (-b);
    }
  }

  lemma Factor(k: int, q: int, n: int)
    ensures k * n - q * n == (k - q) * n
  {
  }

  /* ---------------------------------------------------------------- */
  /* Sums and counts                                                   */
  /* ---------------------------------------------------------------- */

  function Sum(s: seq<int>): int
  {
    if |s| == 0 then 0 else Sum(s[..|s| - 1]) + s[|s| - 1]
  }

  lemma {:induction false} SumAppend(a: seq<int>, b: seq<int>)
    ensures Sum(a + b) == Sum(a) + Sum(b)
    decreases |b|
  {
    if |b| == 0 {
      assert a + b == a;
    } else {
      assert (a + b)[..|a + b| - 1] == a + b[..|b| - 1];
      SumAppend(a, b[..|b| - 1]);
    }
  }

  lemma {:induction false} SumNonNeg(s: seq<int>)
    requires forall i :: 0 <= i < |s| ==> s[i] >= 0
    ensures Sum(s) >= 0
  {
    if |s| > 0 {
      SumNonNeg(s[..|s| - 1]);
    }
  }

  function Product(s: seq<int>): int
  {
    if |s| == 0 then 1 else Product(s[..|s| - 1]) * s[|s| - 1]
  }

  /* ---------------------------------------------------------------- */
  /* Euclidean remainder                                               */
  /* ---------------------------------------------------------------- */

  lemma MulAtLeast(d: int, n: int)
    requires d >= 1 && n > 0
    ensures d * n >= n
  {
    assert d * n == (d - 1) * n + n;
  }

  /** Quotient and remainder are the only pair with `0 <= r < n`. */
  lemma ModUnique(a: int, n: int, q: int, r: int)
    requires n > 0 && 0 <= r < n && a == q * n + r
    ensures a % n == r && a / n == q
  {
    var q' := a / n;
    var r' := a % n;
    assert a == q' * n + r';
    assert (q - q') * n == r' - r;
    if q > q' {
      MulAtLeast(q - q', n);
    } else if q < q' {
      MulAtLeast(q' - q, n);
    }
  }

  /** A multiple of `n` leaves no remainder. */
  lemma MultipleMod(q: int, n: int)
    requires n > 0
    ensures (q * n) % n == 0
  {
    ModUnique(q * n, n, q, 0);
  }

  lemma ModShift(x: int, q: int, n: int)
    requires n > 0
    ensures (x + q * n) % n == x % n
  {
    assert x == (x / n) * n + x % n;
    assert x + q * n == (x / n + q) * n + x % n;
    ModUnique(x + q * n, n, x / n + q, x % n);
  }

  lemma ModAddLeft(a: int, b: int, n: int)
    requires n > 0
    ensures (a % n + b) % n == (a + b) % n
  {
    assert a == (a / n) * n + a % n;
    ModShift(a % n + b, a / n, n);
  }

  /** The Euclidean remainder, written by repeated shifting so that its
      definition stays linear; `ModIsRemainder` ties it to `%`. */
  function Mod(x: int, n: int): (r: int)
    requires n > 0
    ensures 0 <= r < n
    decreases if x < 0 then n - x else x
  {
    if x < 0 then Mod(x + n, n)
    else if x >= n then Mod(x - n, n)
    else x
  }

  lemma {:induction false} ModIsRemainder(x: int, n: int)
    requires n > 0
    ensures Mod(x, n) == x % n
    decreases if x < 0 then n - x else x
  {
    if x < 0 {
      ModIsRemainder(x + n, n);
      ModShift(x, 1, n);
    } else if x >= n {
      ModIsRemainder(x - n, n);
      ModShift(x - n, 1, n);
    } else {
      ModUnique(x, n, 0, x);
    }
  }

  /** Values within one turn of the circle. */
  lemma ModWrap(x: int, n: int)
    requires n > 0 && 0 <= x < 2 * n
    ensures x % n == if x < n then x else x - n
  {
    if x < n {
      ModUnique(x, n, 0, x);
    } else {
      ModUnique(x, n, 1, x - n);
    }
  }

  /* ---------------------------------------------------------------- */
  /* Distinct elements                                                 */
  /* ---------------------------------------------------------------- */

  predicate NoDuplicates<T(==)>(s: seq<T>)
  {
    forall i, j :: 0 <= i < j < |s| ==> s[i] != s[j]
  }

  function Elements<T(==)>(s: seq<T>): set<T>
  {
    set x | x in s
  }

  /** A sequence has as many distinct elements as positions exactly when
      no element repeats. */
  lemma {:induction false} DistinctCount<T>(s: seq<T>)
    ensures |Elements(s)| <= |s|
    ensures |Elements(s)| == |s| <==> NoDuplicates(s)
  {
    if |s| == 0 {
      assert Elements(s) == {};
    } else {
      var t := s[1..];
      DistinctCount(t);
      assert Elements(s) == {s[0]} + Elements(t);
      if s[0] in t {
        assert Elements(s) == Elements(t);
        var k :| 0 <= k < |t| && t[k] == s[0];
        assert s[0] == s[k + 1];
      } else {
        assert |Elements(s)| == |Elements(t)| + 1;
        if NoDuplicates(t) {
          forall i, j | 0 <= i < j < |s|
            ensures s[i] != s[j]
          {
            if i == 0 {
              assert s[j] == t[j - 1];
            } else {
              assert s[i] == t[i - 1] && s[j] == t[j - 1];
            }
          }
        } else {
          var i, j :| 0 <= i < j < |t| && t[i] == t[j];
          assert s[i + 1] == s[j + 1];
        }
      }
    }
  }

  /** `iter().position(|y| y == x)`: the first index holding `x`. */
  function IndexOf<T(==)>(s: seq<T>, x: T): (r: Option<nat>)
    ensures r.Some? <==> x in s
    ensures r.Some? ==> r.value < |s| && s[r.value] == x
    ensures r.Some? ==> forall i :: 0 <= i < r.value ==> s[i] != x
  {
    if |s| == 0 then None
    else if s[0] == x then Some(0)
    else
      match IndexOf(s[1..], x)
      case None => None
      case Some(k) => Some(k + 1)
  }

  /* ---------------------------------------------------------------- */
  /* Sorting (Rust's `sort` on integers)                               */
  /* ---------------------------------------------------------------- */

  predicate SortedAsc(s: seq<int>)
  {
    forall i, j :: 0 <= i < j < |s| ==> s[i] <= s[j]
  }

  function InsertAsc(x: int, s: seq<int>): (r: seq<int>)
    requires SortedAsc(s)
    ensures SortedAsc(r)
    ensures multiset(r) == multiset(s) + multiset{x}
  {
    if |s| == 0 then [x]
    else if x <= s[0] then [x] + s
    else
      assert s == [s[0]] + s[1..];
      var rest := InsertAsc(x, s[1..]);
      BoundAfterInsert(s[0], x, s[1..], rest);
      [s[0]] + rest
  }

  /** A bound below `x` and every element of `t` is below every element
      of a permutation of `t` with `x` added. */
  lemma BoundAfterInsert(lo: int, x: int, t: seq<int>, r: seq<int>)
    requires lo <= x && (forall i :: 0 <= i < |t| ==> lo <= t[i])
    requires multiset(r) == multiset(t) + multiset{x}
    ensures forall k :: 0 <= k < |r| ==> lo <= r[k]
  {
    forall k | 0 <= k < |r|
      ensures lo <= r[k]
    {
      assert r[k] in multiset(r);
      if r[k] != x {
        assert r[k] in multiset(t);
        var j :| 0 <= j < |t| && t[j] == r[k];
      }
    }
  }

  /** Insertion sort: an ascending permutation of its input. On integers
      the sorted permutation is unique, so this is what Rust's stable
      `sort` produces. */
  function SortAsc(s: seq<int>): (r: seq<int>)
    ensures SortedAsc(r)
    ensures multiset(r) == multiset(s)
  {
    if |s| == 0 then []
    else
      assert s == [s[0]] + s[1..];
      InsertAsc(s[0], SortAsc(s[1..]))
  }

  function Reverse<T>(s: seq<T>): (r: seq<T>)
    ensures |r| == |s|
    ensures forall i :: 0 <= i < |s| ==> r[i] == s[|s| - 1 - i]
  {
    if |s| == 0 then [] else Reverse(s[1..]) + [s[0]]
  }

  lemma {:induction false} ReverseMultiset<T>(s: seq<T>)
    ensures multiset(Reverse(s)) == multiset(s)
  {
    if |s| > 0 {
      ReverseMultiset(s[1..]);
      assert s == [s[0]] + s[1..];
    }
  }

  predicate SortedDesc(s: seq<int>)
  {
    forall i, j :: 0 <= i < j < |s| ==> s[i] >= s[j]
  }

  /** `sort` followed by `reverse`: a non-increasing permutation. */
  function SortDesc(s: seq<int>): (r: seq<int>)
    ensures SortedDesc(r)
    ensures multiset(r) == multiset(s) && |r| == |s|
  {
    var a := SortAsc(s);
    ReverseMultiset(a);
    assert |a| == |multiset(a)| == |s|;
    Reverse(a)
  }

  /** The first entry of a non-increasing permutation is the maximum. */
  lemma SortDescFirst(s: seq<int>)
    requires |s| > 0
    ensures SortDesc(s)[0] in s
    ensures forall i :: 0 <= i < |s| ==> s[i] <= SortDesc(s)[0]
  {
    var d := SortDesc(s);
    assert d[0] in multiset(d);
    forall i | 0 <= i < |s|
      ensures s[i] <= d[0]
    {
      assert s[i] in multiset(d);
      var j :| 0 <= j < |d| && d[j] == s[i];
    }
  }

  /* ---------------------------------------------------------------- */
  /* Text                                                              */
  /* ---------------------------------------------------------------- */

  predicate IsDigit(c: char)
  {
    '0' <= c <= '9'
  }

  /** Rust's `char::is_whitespace`: the Unicode White_Space property. */
  predicate IsSpace(c: char)
  {
    || '\t' <= c <= '\r'
    || c == ' '
    || c == '\U{0085}'
    || c == '\U{00A0}'
    || c == '\U{1680}'
    || '\U{2000}' <= c <= '\U{200A}'
    || c == '\U{2028}'
    || c == '\U{2029}'
    || c == '\U{202F}'
    || c == '\U{205F}'
    || c == '\U{3000}'
  }

  function DigitValue(c: char): (d: nat)
    requires IsDigit(c)
    ensures d <= 9
  {
    c as int - '0' as int
  }

  predicate AllDigits(s: string)
  {
    forall i :: 0 <= i < |s| ==> IsDigit(s[i])
  }

  /** The value of a run of decimal digits, most significant first. */
  function DigitsValue(s: string): (n: nat)
    requires AllDigits(s)
  {
    if |s| == 0 then 0 else 10 * DigitsValue(s[..|s| - 1]) + DigitValue(s[|s| - 1])
  }

  /** The forms Rust's `str::parse` accepts for an integer: an optional
      sign followed by at least one decimal digit. */
  predicate IsNumeral(s: string)
  {
    if |s| > 0 && (s[0] == '-' || s[0] == '+') then
      |s| > 1 && AllDigits(s[1..])
    else
      |s| > 0 && AllDigits(s)
  }

  /** Rust's `str::parse::<i32>()` / `::<i64>()` without the width limit. */
  function ParseInt(s: string): (r: Option<int>)
    ensures r.Some? <==> IsNumeral(s)
    ensures r.Some? && s[0] == '-' ==> r.value == -(DigitsValue(s[1..]) as int)
    ensures r.Some? && s[0] == '+' ==> r.value == DigitsValue(s[1..])
    ensures r.Some? && IsDigit(s[0]) ==> r.value == DigitsValue(s)
  {
    if |s| > 0 && s[0] == '-' then
      if |s| > 1 && AllDigits(s[1..]) then Some(-(DigitsValue(s[1..]) as int)) else None
    else if |s| > 0 && s[0] == '+' then
      if |s| > 1 && AllDigits(s[1..]) then Some(DigitsValue(s[1..])) else None
    else if |s| > 0 && AllDigits(s) then Some(DigitsValue(s))
    else None
  }

  /** Decimal rendering of a natural number, the independent partner
      of `DigitsValue`. */
  function ShowNat(n: nat): (s: string)
    ensures |s| > 0 && AllDigits(s)
  {
    if n < 10 then [('0' as int + n) as char]
    else ShowNat(n / 10) + [('0' as int + n % 10) as char]
  }

  function ShowInt(n: int): (s: string)
  {
    if n < 0 then "-" + ShowNat(-n) else ShowNat(n)
  }

  lemma {:induction false} DigitsOfShow(n: nat)
    ensures DigitsValue(ShowNat(n)) == n
  {
    if n >= 10 {
      var s := ShowNat(n);
      assert s[..|s| - 1] == ShowNat(n / 10);
      DigitsOfShow(n / 10);
    }
  }

  /** Parsing undoes rendering. */
  lemma ParseShow(n: int)
    ensures ParseInt(ShowInt(n)) == Some(n)
  {
    var s := ShowInt(n);
    if n < 0 {
      var t := ShowNat(-n);
      DigitsOfShow(-n);
      assert s[0] == '-' && s[1..] == t;
      assert ParseInt(s) == Some(-(DigitsValue(t) as int));
    } else {
      DigitsOfShow(n);
      assert IsDigit(s[0]);
      assert ParseInt(s) == Some(DigitsValue(s));
    }
  }

  function Join(parts: seq<string>, sep: char): (s: string)
    requires |parts| >= 1
  {
    if |parts| == 1 then parts[0] else parts[0] + [sep] + Join(parts[1..], sep)
  }

  /** Rust's `str::split(sep)` for a one-character separator: always at
      least one piece, no piece holds the separator, and joining the
      pieces back with the separator gives the input. */
  function SplitOn(s: string, sep: char): (parts: seq<string>)
    ensures |parts| >= 1
    ensures forall i :: 0 <= i < |parts| ==> sep !in parts[i]
    ensures Join(parts, sep) == s
  {
    if |s| == 0 then [""]
    else if s[0] == sep then
      var rest := SplitOn(s[1..], sep);
      assert [""] + rest == [""] + rest && ([""] + rest)[1..] == rest;
      assert s == "" + [sep] + s[1..];
      [""] + rest
    else
      var rest := SplitOn(s[1..], sep);
      var parts := [[s[0]] + rest[0]] + rest[1..];
      assert parts[1..] == rest[1..];
      assert s == [s[0]] + s[1..];
      parts
  }

  /** Concatenation of a list of strings. */
  function Concat(ws: seq<string>): string
  {
    if |ws| == 0 then "" else ws[0] + Concat(ws[1..])
  }

  /** The characters of `s` that are not white space, in order. */
  function NonSpace(s: string): string
  {
    if |s| == 0 then "" else if IsSpace(s[0]) then NonSpace(s[1..]) else [s[0]] + NonSpace(s[1..])
  }

  predicate IsWord(w: string)
  {
    |w| > 0 && forall i :: 0 <= i < |w| ==> !IsSpace(w[i])
  }

  /** Rust's `split_whitespace`: the maximal runs of non-space
      characters. Every word is non-empty and space-free, and together
      they hold exactly the non-space characters of the input. */
  function Words(s: string): (ws: seq<string>)
    ensures forall i :: 0 <= i < |ws| ==> IsWord(ws[i])
    ensures Concat(ws) == NonSpace(s)
    ensures |s| > 0 && !IsSpace(s[0]) ==> |ws| > 0 && |ws[0]| > 0 && ws[0][0] == s[0]
  {
    if |s| == 0 then []
    else if IsSpace(s[0]) then Words(s[1..])
    else
      var rest := Words(s[1..]);
      if |s| > 1 && !IsSpace(s[1]) then
        var ws := [[s[0]] + rest[0]] + rest[1..];
        assert ws[1..] == rest[1..];
        assert rest == [rest[0]] + rest[1..];
        ws
      else
        var ws := [[s[0]]] + rest;
        assert ws[1..] == rest;
        ws
  }

  /** The words are the maximal runs: when the text starts with white
      space up to `i` and then a non-space run from `i` to `j` that ends at
      white space or at the end, the first word is that run and the others
      are the words after it. */
  lemma {:induction false} WordsFirst(s: string, i: nat, j: nat)
    requires i < j <= |s|
    requires forall k :: 0 <= k < i ==> IsSpace(s[k])
    requires forall k :: i <= k < j ==> !IsSpace(s[k])
    requires j == |s| || IsSpace(s[j])
    ensures Words(s) == [s[i..j]] + Words(s[j..])
    decreases i
  {
    if i == 0 {
      WordsRun(s, j);
    } else {
      var t := s[1..];
      assert Words(s) == Words(t);
      WordsFirst(t, i - 1, j - 1);
      assert t[i - 1..j - 1] == s[i..j] && t[j - 1..] == s[j..];
    }
  }

  /** The case of WordsFirst with no leading white space. */
  lemma {:induction false} WordsRun(s: string, j: nat)
    requires 0 < j <= |s|
    requires forall k :: 0 <= k < j ==> !IsSpace(s[k])
    requires j == |s| || IsSpace(s[j])
    ensures Words(s) == [s[..j]] + Words(s[j..])
    decreases j
  {
    var t := s[1..];
    if j == 1 {
      assert Words(s) == [[s[0]]] + Words(t);
      assert s[..1] == [s[0]] && t == s[j..];
    } else {
      assert !IsSpace(t[0]);
      WordsRun(t, j - 1);
      var rest := Words(t);
      assert t[..j - 1] == s[1..j] && t[j - 1..] == s[j..];
      assert Words(s) == [[s[0]] + rest[0]] + rest[1..];
      assert [s[0]] + s[1..j] == s[..j];
    }
  }

  /** Text that is all white space has no words, and any other text has
      at least one. */
  lemma {:induction false} WordsNone(s: string)
    ensures Words(s) == [] <==> forall k :: 0 <= k < |s| ==> IsSpace(s[k])
  {
    if |s| > 0 {
      var t := s[1..];
      assert forall k :: 0 <= k < |t| ==> t[k] == s[k + 1];
      WordsNone(t);
    }
  }

  /** Rust's `str::trim`: drop white space at both ends. What is left
      starts and ends with a non-space character, and `TrimNonSpace`
      shows that no non-space character is lost. */
  function Trim(s: string): (t: string)
    ensures |t| == 0 || (!IsSpace(t[0]) && !IsSpace(t[|t| - 1]))
    ensures |t| <= |s|
  {
    TrimEnd(TrimStart(s))
  }

  /** `trim_start`: the longest suffix that does not start with white
      space; everything dropped is white space. */
  function TrimStart(s: string): (t: string)
    ensures |t| <= |s| && t == s[|s| - |t|..]
    ensures |t| == 0 || !IsSpace(t[0])
    ensures forall i :: 0 <= i < |s| - |t| ==> IsSpace(s[i])
  {
    if |s| > 0 && IsSpace(s[0]) then
      var t := TrimStart(s[1..]);
      assert s[1..][|s| - 1 - |t|..] == s[|s| - |t|..];
      t
    else
      s
  }

  /** `trim_end`: the longest prefix that does not end with white space;
      everything dropped is white space. */
  function TrimEnd(s: string): (t: string)
    ensures |t| <= |s| && t == s[..|t|]
    ensures |t| == 0 || !IsSpace(t[|t| - 1])
    ensures forall i :: |t| <= i < |s| ==> IsSpace(s[i])
  {
    if |s| > 0 && IsSpace(s[|s| - 1]) then
      TrimEnd(s[..|s| - 1])
    else s
  }

  /** Dropping white space from the front keeps the non-space
      characters. */
  lemma {:induction false} NonSpaceLeading(s: string, k: nat)
    requires k <= |s| && forall i :: 0 <= i < k ==> IsSpace(s[i])
    ensures NonSpace(s[k..]) == NonSpace(s)
    decreases k
  {
    if k > 0 {
      assert s[1..][k - 1..] == s[k..];
      NonSpaceLeading(s[1..], k - 1);
    }
  }

  /** Dropping white space from the back keeps the non-space
      characters. */
  lemma {:induction false} NonSpaceEnding(s: string, k: nat)
    requires k <= |s| && forall i :: k <= i < |s| ==> IsSpace(s[i])
    ensures NonSpace(s[..k]) == NonSpace(s)
    decreases |s| - k
  {
    if k < |s| {
      var f := s[..|s| - 1];
      assert s == f + [s[|s| - 1]];
      NonSpaceTrailing(f, s[|s| - 1]);
      assert f[..k] == s[..k];
      NonSpaceEnding(f, k);
    } else {
      assert s[..k] == s;
    }
  }

  /** Trimming loses no non-space character. */
  lemma TrimNonSpace(s: string)
    ensures NonSpace(Trim(s)) == NonSpace(s)
  {
    var a := TrimStart(s);
    NonSpaceLeading(s, |s| - |a|);
    NonSpaceEnding(a, |TrimEnd(a)|);
  }

  lemma {:induction false} NonSpaceTrailing(s: string, c: char)
    requires IsSpace(c)
    ensures NonSpace(s + [c]) == NonSpace(s)
  {
    if |s| > 0 {
      assert (s + [c])[1..] == s[1..] + [c];
      NonSpaceTrailing(s[1..], c);
    }
  }

  /** `s.starts_with(p)` */
  predicate StartsWith(s: string, p: string)
  {
    |p| <= |s| && s[..|p|] == p
  }

  /** Applies a line parser to every line, as `map(..).collect()` with an
      `unwrap` inside: `None` as soon as one line fails, otherwise the
      results in order. */
  function ParseAll<T>(lines: seq<string>, parse: string -> Option<T>): (r: Option<seq<T>>)
    ensures r.Some? <==> forall i :: 0 <= i < |lines| ==> parse(lines[i]).Some?
    ensures r.Some? ==> |r.value| == |lines|
    ensures r.Some? ==> forall i :: 0 <= i < |lines| ==> r.value[i] == parse(lines[i]).value
  {
    if |lines| == 0 then Some([])
    else
      var front := lines[..|lines| - 1];
      assert forall i :: 0 <= i < |front| ==> front[i] == lines[i];
      match ParseAll(front, parse)
      case None => None
      case Some(ps) =>
        match parse(lines[|lines| - 1])
        case None => None
        case Some(p) => Some(ps + [p])
  }

  /** The values of the present entries, in order, as `filter_map` keeps
      them. */
  function Present<T>(os: seq<Option<T>>): (r: seq<T>)
    ensures |r| <= |os|
    ensures (forall i :: 0 <= i < |os| ==> os[i].Some?) ==> |r| == |os|
  {
    if |os| == 0 then []
    else Present(os[..|os| - 1]) + (if os[|os| - 1].Some? then [os[|os| - 1].value] else [])
  }

  /** Every present entry's value is kept, after those of the entries
      before it. */
  lemma {:induction false} PresentAt<T>(os: seq<Option<T>>)
    ensures forall i :: 0 <= i < |os| && os[i].Some? ==>
              |Present(os[..i])| < |Present(os)| && Present(os)[|Present(os[..i])|] == os[i].value
  {
    if |os| > 0 {
      var n := |os| - 1;
      var init := os[..n];
      assert forall i :: 0 <= i < |init| ==> init[i] == os[i];
      PresentAt(init);
      forall i | 0 <= i < |os| && os[i].Some?
        ensures |Present(os[..i])| < |Present(os)| && Present(os)[|Present(os[..i])|] == os[i].value
      {
        if i < n {
          assert init[..i] == os[..i];
        } else {
          assert os[..i] == init;
        }
      }
    }
  }

  /** Parsing lines of which some yield nothing: when every line parses,
      the value of line i, if it has one, sits right after the values of
      the lines before it. */
  lemma ParseAllKept<T>(lines: seq<string>, parse: string -> Option<Option<T>>)
    requires ParseAll(lines, parse).Some?
    ensures forall i :: 0 <= i < |lines| && parse(lines[i]).value.Some? ==>
              ParseAll(lines[..i], parse).Some?
              && |Present(ParseAll(lines[..i], parse).value)| < |Present(ParseAll(lines, parse).value)|
              && Present(ParseAll(lines, parse).value)[|Present(ParseAll(lines[..i], parse).value)|] == parse(lines[i]).value.value
  {
    var os := ParseAll(lines, parse).value;
    PresentAt(os);
    forall i | 0 <= i < |lines| && parse(lines[i]).value.Some?
      ensures ParseAll(lines[..i], parse).Some?
              && |Present(ParseAll(lines[..i], parse).value)| < |Present(os)|
              && Present(os)[|Present(ParseAll(lines[..i], parse).value)|] == parse(lines[i]).value.value
    {
      ParseAllPrefix(lines, parse, i);
      assert ParseAll(lines[..i], parse).value == os[..i];
      assert os[i] == parse(lines[i]).value;
    }
  }

  /** ... and every kept value comes from such a line. */
  lemma ParseAllFrom<T>(lines: seq<string>, parse: string -> Option<Option<T>>, k: nat)
    requires ParseAll(lines, parse).Some? && k < |Present(ParseAll(lines, parse).value)|
    ensures exists i :: 0 <= i < |lines| && parse(lines[i]) == Some(Some(Present(ParseAll(lines, parse).value)[k]))
                        && ParseAll(lines[..i], parse).Some?
                        && |Present(ParseAll(lines[..i], parse).value)| == k
  {
    var os := ParseAll(lines, parse).value;
    PresentFrom(os);
    var i :| 0 <= i < |os| && os[i] == Some(Present(os)[k]) && |Present(os[..i])| == k;
    ParseAllPrefix(lines, parse, i);
    assert ParseAll(lines[..i], parse).value == os[..i];
    assert parse(lines[i]) == Some(os[i]);
  }

  /** Parsing a prefix of the lines gives the prefix of the results. */
  lemma ParseAllPrefix<T>(lines: seq<string>, parse: string -> Option<T>, i: nat)
    requires i <= |lines| && ParseAll(lines, parse).Some?
    ensures ParseAll(lines[..i], parse) == Some(ParseAll(lines, parse).value[..i])
  {
    var front := lines[..i];
    var os := ParseAll(lines, parse).value;
    assert forall j :: 0 <= j < i ==> front[j] == lines[j];
    var p := ParseAll(front, parse);
    assert p.Some?;
    assert forall j :: 0 <= j < i ==> p.value[j] == os[j];
    assert p.value == os[..i];
  }


  /** Every kept value is a present entry's, placed after the values of
      the entries before it. */
  lemma {:induction false} PresentFrom<T>(os: seq<Option<T>>)
    ensures forall k :: 0 <= k < |Present(os)| ==>
              exists i :: 0 <= i < |os| && os[i] == Some(Present(os)[k]) && |Present(os[..i])| == k
  {
    if |os| > 0 {
      var n := |os| - 1;
      var init := os[..n];
      PresentFrom(init);
      forall k | 0 <= k < |Present(os)|
        ensures exists i :: 0 <= i < |os| && os[i] == Some(Present(os)[k]) && |Present(os[..i])| == k
      {
        if k < |Present(init)| {
          assert Present(os)[k] == Present(init)[k];
          var i :| 0 <= i < |init| && init[i] == Some(Present(init)[k]) && |Present(init[..i])| == k;
          assert init[i] == os[i] && init[..i] == os[..i];
          assert os[i] == Some(Present(os)[k]) && |Present(os[..i])| == k;
        } else {
          assert os[..n] == init;
          assert os[n] == Some(Present(os)[k]) && |Present(os[..n])| == k;
        }
      }
    } else {
      assert |Present(os)| == 0;
    }
  }

  /** The number of entries over all inner sequences. */
  function TotalLength<T>(ss: seq<seq<T>>): nat
  {
    if |ss| == 0 then 0 else TotalLength(ss[..|ss| - 1]) + |ss[|ss| - 1]|
  }

  lemma {:induction false} TotalLengthUpdate<T>(ss: seq<seq<T>>, t: nat, l: seq<T>)
    requires t < |ss|
    ensures TotalLength(ss[t := l]) == TotalLength(ss) - |ss[t]| + |l|
    decreases |ss|
  {
    var last := |ss| - 1;
    if t < last {
      assert ss[t := l][..last] == ss[..last][t := l];
      TotalLengthUpdate(ss[..last], t, l);
    } else {
      assert ss[t := l][..last] == ss[..last];
    }
  }

  function JoinStr(parts: seq<string>, sep: string): string
    requires |parts| >= 1
  {
    if |parts| == 1 then parts[0] else parts[0] + sep + JoinStr(parts[1..], sep)
  }

  /** `sep` occurs in `t` starting at index `k`. */
  predicate OccursAt(t: string, sep: string, k: int)
  {
    0 <= k && k + |sep| <= |t| && t[k..k + |sep|] == sep
  }

  /** `sep` occurs nowhere in `t`. */
  predicate NoOccurrence(t: string, sep: string)
  {
    forall k :: 0 <= k <= |t| ==> !OccursAt(t, sep, k)
  }

  /** A character in front of a text without `sep` adds no occurrence
      unless `sep` starts there. */
  lemma NoOccurrenceCons(c: char, t: string, sep: string)
    requires |sep| > 0 && NoOccurrence(t, sep)
    requires |sep| <= 1 + |t| ==> ([c] + t)[..|sep|] != sep
    ensures NoOccurrence([c] + t, sep)
  {
    forall k | 0 <= k <= 1 + |t| ensures !OccursAt([c] + t, sep, k) {
      if 1 <= k && k + |sep| <= 1 + |t| {
        assert !OccursAt(t, sep, k - 1);
        assert ([c] + t)[k..k + |sep|] == t[k - 1..k - 1 + |sep|];
      }
    }
  }

  /** Rust's `str::split` for a separator string, cutting at the leftmost
      occurrences: at least one piece, and joining the pieces back with
      the separator gives the input. No piece holds the separator, and
      none followed by all but the last character of the separator does
      either, so no occurrence straddles a cut: every occurrence of the
      separator is cut at. */
  function SplitOnStr(s: string, sep: string): (parts: seq<string>)
    requires |sep| > 0
    ensures |parts| >= 1
    ensures JoinStr(parts, sep) == s
    ensures forall i :: 0 <= i < |parts| ==> NoOccurrence(parts[i], sep)
    ensures forall i :: 0 <= i < |parts| - 1 ==> NoOccurrence(parts[i] + sep[..|sep| - 1], sep)
    decreases |s|
  {
    if |s| < |sep| then [s]
    else if s[..|sep|] == sep then
      var rest := SplitOnStr(s[|sep|..], sep);
      SplitCut(s, rest, sep);
      [""] + rest
    else
      var rest := SplitOnStr(s[1..], sep);
      SplitCons(s, rest, sep);
      [[s[0]] + rest[0]] + rest[1..]
  }

  /** Cutting at a separator that starts the text: an empty piece in
      front of the pieces of the rest. */
  lemma SplitCut(s: string, rest: seq<string>, sep: string)
    requires |sep| > 0 && |sep| <= |s| && s[..|sep|] == sep
    requires |rest| >= 1 && JoinStr(rest, sep) == s[|sep|..]
    requires forall i :: 0 <= i < |rest| ==> NoOccurrence(rest[i], sep)
    requires forall i :: 0 <= i < |rest| - 1 ==> NoOccurrence(rest[i] + sep[..|sep| - 1], sep)
    ensures var parts := [""] + rest;
            JoinStr(parts, sep) == s
            && (forall i :: 0 <= i < |parts| ==> NoOccurrence(parts[i], sep))
            && (forall i :: 0 <= i < |parts| - 1 ==> NoOccurrence(parts[i] + sep[..|sep| - 1], sep))
  {
    JoinCut(s, rest, sep);
    CutPieces(rest, sep);
  }

  /** An empty piece in front of pieces free of `sep` keeps them free. */
  lemma CutPieces(rest: seq<string>, sep: string)
    requires |sep| > 0
    requires forall i :: 0 <= i < |rest| ==> NoOccurrence(rest[i], sep)
    requires forall i :: 0 <= i < |rest| - 1 ==> NoOccurrence(rest[i] + sep[..|sep| - 1], sep)
    ensures var parts := [""] + rest;
            (forall i :: 0 <= i < |parts| ==> NoOccurrence(parts[i], sep))
            && (forall i :: 0 <= i < |parts| - 1 ==> NoOccurrence(parts[i] + sep[..|sep| - 1], sep))
  {
    var parts := [""] + rest;
    forall i | 0 <= i < |parts| ensures NoOccurrence(parts[i], sep) {
      if i > 0 { assert parts[i] == rest[i - 1]; }
    }
    forall i | 0 <= i < |parts| - 1 ensures NoOccurrence(parts[i] + sep[..|sep| - 1], sep) {
      if i > 0 { assert parts[i] == rest[i - 1]; }
      else { assert parts[i] + sep[..|sep| - 1] == sep[..|sep| - 1]; }
    }
  }

  /** An empty piece in front joins to a leading separator. */
  lemma JoinCut(s: string, rest: seq<string>, sep: string)
    requires |sep| <= |s| && s[..|sep|] == sep
    requires |rest| >= 1 && JoinStr(rest, sep) == s[|sep|..]
    ensures JoinStr([""] + rest, sep) == s
  {
    var parts := [""] + rest;
    assert parts[1..] == rest;
    calc {
      JoinStr(parts, sep);
      parts[0] + sep + JoinStr(rest, sep);
      { assert parts[0] + sep == sep; }
      sep + s[|sep|..];
      s[..|sep|] + s[|sep|..];
      s;
    }
  }

  /** Keeping a character at which no separator starts: it joins the
      first piece of the rest. */
  lemma SplitCons(s: string, rest: seq<string>, sep: string)
    requires |sep| > 0 && |sep| <= |s| && s[..|sep|] != sep
    requires |rest| >= 1 && JoinStr(rest, sep) == s[1..]
    requires forall i :: 0 <= i < |rest| ==> NoOccurrence(rest[i], sep)
    requires forall i :: 0 <= i < |rest| - 1 ==> NoOccurrence(rest[i] + sep[..|sep| - 1], sep)
    ensures var parts := [[s[0]] + rest[0]] + rest[1..];
            JoinStr(parts, sep) == s
            && (forall i :: 0 <= i < |parts| ==> NoOccurrence(parts[i], sep))
            && (forall i :: 0 <= i < |parts| - 1 ==> NoOccurrence(parts[i] + sep[..|sep| - 1], sep))
  {
    JoinCons(s, rest, sep);
    SplitConsFree(s, rest, sep);
    ConsPieces([s[0]] + rest[0], rest, sep);
  }

  /** Replacing the first piece by one free of `sep` keeps the pieces
      free. */
  lemma ConsPieces(p: string, rest: seq<string>, sep: string)
    requires |sep| > 0 && |rest| >= 1 && NoOccurrence(p, sep)
    requires |rest| > 1 ==> NoOccurrence(p + sep[..|sep| - 1], sep)
    requires forall i :: 0 <= i < |rest| ==> NoOccurrence(rest[i], sep)
    requires forall i :: 0 <= i < |rest| - 1 ==> NoOccurrence(rest[i] + sep[..|sep| - 1], sep)
    ensures var parts := [p] + rest[1..];
            (forall i :: 0 <= i < |parts| ==> NoOccurrence(parts[i], sep))
            && (forall i :: 0 <= i < |parts| - 1 ==> NoOccurrence(parts[i] + sep[..|sep| - 1], sep))
  {
    var parts := [p] + rest[1..];
    forall i | 0 <= i < |parts| ensures NoOccurrence(parts[i], sep) {
      if i > 0 { assert parts[i] == rest[i]; }
    }
    forall i | 0 <= i < |parts| - 1 ensures NoOccurrence(parts[i] + sep[..|sep| - 1], sep) {
      if i > 0 { assert parts[i] == rest[i]; }
    }
  }

  /** A character in front of the first piece is in front of the join. */
  lemma JoinCons(s: string, rest: seq<string>, sep: string)
    requires |s| >= 1 && |rest| >= 1 && JoinStr(rest, sep) == s[1..]
    ensures JoinStr([[s[0]] + rest[0]] + rest[1..], sep) == s
  {
    var c := s[0];
    assert [c] + s[1..] == s;
    var parts := [[c] + rest[0]] + rest[1..];
    if |rest| > 1 {
      assert parts[1..] == rest[1..];
      assert JoinStr(parts, sep) == parts[0] + sep + JoinStr(rest[1..], sep);
      assert JoinStr(rest, sep) == rest[0] + sep + JoinStr(rest[1..], sep);
      assert parts[0] + sep + JoinStr(rest[1..], sep) == [c] + (rest[0] + sep + JoinStr(rest[1..], sep));
    }
  }

  /** Extending the first piece by a character at which `sep` does not
      start keeps it free of `sep`, and also when a partial separator
      follows it and further pieces come after. */
  lemma SplitConsFree(s: string, rest: seq<string>, sep: string)
    requires |sep| > 0 && |sep| <= |s| && s[..|sep|] != sep
    requires |rest| >= 1 && JoinStr(rest, sep) == s[1..]
    requires NoOccurrence(rest[0], sep)
    requires |rest| > 1 ==> NoOccurrence(rest[0] + sep[..|sep| - 1], sep)
    ensures NoOccurrence([s[0]] + rest[0], sep)
    ensures |rest| > 1 ==> NoOccurrence([s[0]] + rest[0] + sep[..|sep| - 1], sep)
  {
    var m := |sep| - 1;
    if |rest| == 1 {
      NoOccurrencePrefix(s, rest[0], sep);
    } else {
      var t := rest[0] + sep[..m];
      JoinHead(rest, sep, s[1..]);
      NoOccurrencePrefix(s, rest[0], sep);
      NoOccurrencePrefix(s, t, sep);
      assert [s[0]] + t == [s[0]] + rest[0] + sep[..m];
    }
  }

  /** The join starts with the first piece and the separator. */
  lemma JoinHead(rest: seq<string>, sep: string, u: string)
    requires |sep| > 0 && |rest| > 1 && JoinStr(rest, sep) == u
    ensures rest[0] <= u && rest[0] + sep[..|sep| - 1] <= u
  {
    var m := |sep| - 1;
    var w := JoinStr(rest[1..], sep);
    assert u == rest[0] + (sep + w);
    assert u[..|rest[0]|] == rest[0];
    assert u[..|rest[0]| + m] == rest[0] + sep[..m];
  }

  /** The first character of a text at which `sep` does not start, put
      in front of a prefix of the rest without `sep`, adds no
      occurrence. */
  lemma NoOccurrencePrefix(s: string, u: string, sep: string)
    requires |sep| > 0 && |sep| <= |s| && s[..|sep|] != sep
    requires u <= s[1..] && NoOccurrence(u, sep)
    ensures NoOccurrence([s[0]] + u, sep)
  {
    assert |sep| <= 1 + |u| ==> ([s[0]] + u)[..|sep|] == s[..|sep|];
    NoOccurrenceCons(s[0], u, sep);
  }
}

=== FILE: day01.dfy ===
/**
 Day 1: calorie counting. Lines hold numbers; a blank line closes the
 current group, whose sum is recorded. The answers are the largest group
 sum and the sum of the three largest.
 */
module Day01 {
  import opened Common

  /** The group sums recorded so far and the sum of the open group. */
  datatype Tally = Tally(sums: seq<int>, current: int)

  /** Every non-blank line is a number. */
  predicate WellFormed(lines: seq<string>)
  {
    forall i :: 0 <= i < |lines| && lines[i] != "" ==> ParseInt(lines[i]).Some?
  }

  function Blanks(lines: seq<string>): nat
  {
    if |lines| == 0 then 0
    else Blanks(lines[..|lines| - 1]) + (if lines[|lines| - 1] == "" then 1 else 0)
  }

  /** The sum of every number in the input, whatever its group. */
  function Total(lines: seq<string>): int
    requires WellFormed(lines)
  {
    if |lines| == 0 then 0
    else
      var last := lines[|lines| - 1];
      Total(lines[..|lines| - 1]) + (if last == "" then 0 else ParseInt(last).value)
  }

  /** The loop over the lines: a blank line records the open sum and
      starts a new group, any other line adds its number. A line that is
      not a number is the source's `unwrap` failure, here `None`. Every
      blank line records exactly one sum, and no number is lost: the
      recorded sums and the open sum together add up to the total. */
  function Accumulate(lines: seq<string>): (r: Option<Tally>)
    ensures r.Some? <==> WellFormed(lines)
    ensures r.Some? ==> |r.value.sums| == Blanks(lines)
    ensures r.Some? ==> Sum(r.value.sums) + r.value.current == Total(lines)
    ensures r.Some? && |lines| > 0 && lines[|lines| - 1] == "" ==> r.value.current == 0
  {
    if |lines| == 0 then Some(Tally([], 0))
    else
      var front := lines[..|lines| - 1];
      var last := lines[|lines| - 1];
      assert forall i :: 0 <= i < |front| ==> front[i] == lines[i];
      match Accumulate(front)
      case None => None
      case Some(t) =>
        if last == "" then
          SumAppend(t.sums, [t.current]);
          Some(Tally(t.sums + [t.current], 0))
        else
          match ParseInt(last)
          case None => None
          case Some(v) => Some(Tally(t.sums, t.current + v))
  }

  /** A final group that no blank line closes is never recorded. */
  lemma UnclosedGroupDropped(lines: seq<string>, line: string)
    requires WellFormed(lines + [line]) && line != ""
    ensures Accumulate(lines + [line]).value.sums == Accumulate(lines).value.sums
  {
    assert (lines + [line])[..|lines|] == lines;
  }

  /** Closing a group records its sum at the end. */
  lemma BlankRecords(lines: seq<string>)
    requires WellFormed(lines)
    ensures Accumulate(lines + [""]).value.sums
      == Accumulate(lines).value.sums + [Accumulate(lines).value.current]
  {
    assert (lines + [""])[..|lines|] == lines;
  }

  /** The sum of the first `k` entries, as `iter().take(k).sum()`. */
  function TakeSum(s: seq<int>, k: nat): int
  {
    Sum(s[..Min(k, |s|)])
  }

  /** Both answers: the largest sum and the sum of the three largest.
      Without any recorded group, `sums[0]` panics, here `None`. */
  function Solve(lines: seq<string>): (r: Option<(int, int)>)
    ensures r.Some? <==> WellFormed(lines) && Blanks(lines) >= 1
    ensures r.Some? ==> r.value.0 in Accumulate(lines).value.sums
    ensures r.Some? ==> forall i :: 0 <= i < |Accumulate(lines).value.sums| ==>
      Accumulate(lines).value.sums[i] <= r.value.0
    ensures r.Some? ==> r.value.1 == TakeSum(SortDesc(Accumulate(lines).value.sums), 3)
  {
    match Accumulate(lines)
    case None => None
    case Some(t) =>
      if |t.sums| == 0 then None
      else
        var d := SortDesc(t.sums);
        SortDescFirst(t.sums);
        Some((d[0], TakeSum(d, 3)))
  }

  /** With non-negative sums the top three add up to at least the top one
      and at most three times it. */
  lemma TopThreeBounds(sums: seq<int>)
    requires |sums| >= 1 && forall i :: 0 <= i < |sums| ==> sums[i] >= 0
    ensures SortDesc(sums)[0] <= TakeSum(SortDesc(sums), 3) <= 3 * SortDesc(sums)[0]
  {
    DescBounds(sums);
    TopThreeOfSorted(SortDesc(sums));
  }

  lemma TopThreeOfSorted(d: seq<int>)
    requires |d| >= 1 && forall i :: 0 <= i < |d| ==> 0 <= d[i] <= d[0]
    ensures d[0] <= TakeSum(d, 3) <= 3 * d[0]
  {
    var m := Min(3, |d|);
    var rest := d[1..m];
    assert d[..m] == [d[0]] + rest;
    SumAppend([d[0]], rest);
    assert Sum([d[0]]) == d[0] by {
      assert [d[0]][..0] == [];
    }
    SumBelow(rest, d[0]);
    SumNonNeg(rest);
  }

  lemma DescBounds(sums: seq<int>)
    requires forall i :: 0 <= i < |sums| ==> sums[i] >= 0
    ensures forall i :: 0 <= i < |SortDesc(sums)| ==> 0 <= SortDesc(sums)[i] <= SortDesc(sums)[0]
  {
    var d := SortDesc(sums);
    forall i | 0 <= i < |d|
      ensures 0 <= d[i]
    {
      assert d[i] in multiset(sums);
    }
  }

  /** A sum of at most two entries each at most `x`. */
  lemma SumBelow(s: seq<int>, x: int)
    requires |s| <= 2 && x >= 0 && forall i :: 0 <= i < |s| ==> s[i] <= x
    ensures Sum(s) <= 2 * x
  {
    if |s| == 2 {
      assert s[..1][..0] == [];
    } else if |s| == 1 {
      assert s[..0] == [];
    }
  }
}

=== FILE: day02.dfy ===
/**
 Day 2: rock, paper, scissors. Each line holds the opponent's letter
 (A, B, C) and a second letter (X, Y, Z). Part one reads the second letter
 as a shape; part two reads it as the outcome to bring about. The letters
 become 0, 1, 2 by subtracting the byte of 'A' or 'X', and the scores are
 closed formulas over these codes.
 */
module Day02 {
  import opened Common

  /** Unsigned 8-bit arithmetic as a release build performs it: every
      intermediate result wraps modulo 256. */
  function U8(x: int): (r: int)
    ensures 0 <= r < 256
  {
    if 0 <= x < 256 then x else x % 256
  }

  /** The part-one round score, `c2 + 1 + ((c2 - c1 + 4) % 3) * 3`
      evaluated in `u8`. */
  function Score1(c1: int, c2: int): int
  {
    U8(U8(c2 + 1) + U8((U8(U8(c2 - c1) + 4) % 3) * 3))
  }

  /** The part-two round score, `c2 * 3 + ((c2 + c1 + 2) % 3) + 1`
      evaluated in `u8`. */
  function Score2(c1: int, c2: int): int
  {
    U8(U8(U8(c2 * 3) + U8(U8(c2 + c1) + 2) % 3) + 1)
  }

  /** The points for the outcome of shape `me` against `them`: 6 for a
      win, 3 for a draw, 0 for a loss. */
  function Outcome(them: int, me: int): int
    requires 0 <= them < 3 && 0 <= me < 3
  {
    if me == them then 3 else if me == (them + 1) % 3 then 6 else 0
  }

  predicate IsCode(c: int)
  {
    0 <= c < 3
  }

  /** For proper codes the wrapping never matters: a round is worth the
      shape's value plus the outcome, a draw exactly on equal shapes and a
      win exactly on the next shape round the cycle, between 1 and 9. */
  lemma Score1Meaning(c1: int, c2: int)
    requires IsCode(c1) && IsCode(c2)
    ensures Score1(c1, c2) == c2 + 1 + Outcome(c1, c2)
    ensures 1 <= Score1(c1, c2) <= 9
  {
    var d := c2 - c1;
    U8Exact(c2 + 1, 0);
    if d >= 0 {
      U8Exact(d, 0);
      U8Exact(d + 4, 0);
    } else {
      U8Exact(d, -1);
      U8Exact(d + 256 + 4, 1);
    }
    assert U8(U8(d) + 4) == d + 4;
    var m := OutcomeCode(c1, c2);
    U8Exact(m * 3, 0);
    U8Exact(c2 + 1 + m * 3, 0);
  }

  /** `U8` on a value `k` wraps away from `0..256`. */
  lemma U8Exact(x: int, k: int)
    requires 256 * k <= x < 256 * k + 256
    ensures U8(x) == x - 256 * k
  {
    ModUnique(x, 256, k, x - 256 * k);
  }

  /** `(c2 - c1 + 4) % 3` is 0 for a loss, 1 for a draw and 2 for a win,
      the outcome's points divided by three. */
  lemma OutcomeCode(c1: int, c2: int) returns (m: int)
    requires IsCode(c1) && IsCode(c2)
    ensures m == (c2 - c1 + 4) % 3 && 0 <= m < 3
    ensures Outcome(c1, c2) == m * 3
  {
    m := (c2 - c1 + 4) % 3;
    ModUnique(c2 - c1 + 4, 3, (c2 - c1 + 4) / 3, m);
    if c1 == 0 {
      assert (c1 + 1) % 3 == 1;
    } else if c1 == 1 {
      assert (c1 + 1) % 3 == 2;
    } else {
      assert (c1 + 1) % 3 == 0;
    }
  }

  /** The shape part two plays: the one that reaches outcome `c2` (0 loss,
      1 draw, 2 win) against `c1`. */
  function Shape(c1: int, c2: int): (s: int)
    requires IsCode(c1) && IsCode(c2)
    ensures IsCode(s)
  {
    (c1 + c2 + 2) % 3
  }

  /** Part two scores the requested outcome plus the chosen shape, and the
      chosen shape does bring the requested outcome about: part two's
      score is part one's score of that shape. */
  lemma Score2Meaning(c1: int, c2: int)
    requires IsCode(c1) && IsCode(c2)
    ensures Score2(c1, c2) == c2 * 3 + Shape(c1, c2) + 1
    ensures Outcome(c1, Shape(c1, c2)) == c2 * 3
    ensures Score2(c1, c2) == Score1(c1, Shape(c1, c2))
    ensures 1 <= Score2(c1, c2) <= 9
  {
    var s := Shape(c1, c2);
    var q := (c1 + c2 + 2) / 3;
    assert c1 + c2 + 2 == q * 3 + s;
    assert 0 <= q <= 2;
    U8Exact(c2 * 3, 0);
    U8Exact(c2 + c1, 0);
    U8Exact(c2 + c1 + 2, 0);
    U8Exact(c2 * 3 + s, 0);
    U8Exact(c2 * 3 + s + 1, 0);
    var m := OutcomeCode(c1, s);
    ModUnique(s - c1 + 4, 3, 2 - q, c2);
    Score1Meaning(c1, s);
  }

  /** The two codes of a line: the first character minus 'A' and the
      first character of the trimmed remainder minus 'X'. An empty line
      or an empty remainder is the source's panic, here `None`. A
      character is taken as its code point, which is its byte for ASCII
      text; the source reads the first byte. */
  function Codes(line: string): (r: Option<(int, int)>)
    ensures r.Some? <==> |line| >= 1 && |Trim(line[1..])| >= 1
    ensures r.Some? ==> 0 <= r.value.0 < 256 && 0 <= r.value.1 < 256
  {
    if |line| == 0 then None
    else
      var rest := Trim(line[1..]);
      if |rest| == 0 then None
      else Some((U8(line[0] as int - 'A' as int), U8(rest[0] as int - 'X' as int)))
  }

  lemma TrimSpaced(x: char)
    requires !IsSpace(x)
    ensures Trim([' ', x]) == [x]
  {
    assert [' ', x][1..] == [x];
    assert TrimStart([x]) == [x];
    assert TrimEnd([x]) == [x];
  }

  /** The codes of a line written the way the puzzle writes them. */
  lemma CodesOfRound(a: char, x: char)
    requires 'A' <= a <= 'C' && 'X' <= x <= 'Z'
    ensures Codes([a, ' ', x]) == Some((a as int - 'A' as int, x as int - 'X' as int))
  {
    var line := [a, ' ', x];
    assert line[1..] == [' ', x];
    TrimSpaced(x);
    assert U8(a as int - 'A' as int) == a as int - 'A' as int;
    assert U8(x as int - 'X' as int) == x as int - 'X' as int;
  }

  lemma RoundBounds(c1: int, c2: int)
    ensures IsCode(c1) && IsCode(c2) ==> 1 <= Score1(c1, c2) <= 9 && 1 <= Score2(c1, c2) <= 9
  {
    if IsCode(c1) && IsCode(c2) {
      Score1Meaning(c1, c2);
      Score2Meaning(c1, c2);
    }
  }

  /** Both totals over the rounds' codes. */
  function Totals(cs: seq<(int, int)>): (int, int)
  {
    if |cs| == 0 then (0, 0)
    else
      var acc := Totals(cs[..|cs| - 1]);
      var c := cs[|cs| - 1];
      (acc.0 + Score1(c.0, c.1), acc.1 + Score2(c.0, c.1))
  }

  /** With proper codes in every round, each total lies between one and
      nine points a round. */
  lemma {:induction false} TotalsBounds(cs: seq<(int, int)>)
    requires forall i :: 0 <= i < |cs| ==> IsCode(cs[i].0) && IsCode(cs[i].1)
    ensures |cs| <= Totals(cs).0 <= 9 * |cs| && |cs| <= Totals(cs).1 <= 9 * |cs|
  {
    if |cs| > 0 {
      var front := cs[..|cs| - 1];
      assert forall i :: 0 <= i < |front| ==> front[i] == cs[i];
      TotalsBounds(front);
      var c := cs[|cs| - 1];
      RoundBounds(c.0, c.1);
    }
  }

  /** The points each line scores in part one (`second == false`) or
      part two, in order; a line without codes scores nothing. */
  function LinePoints(lines: seq<string>, second: bool): (ps: seq<int>)
    ensures |ps| == |lines|
  {
    seq(|lines|, i requires 0 <= i < |lines| =>
      match Codes(lines[i])
      case Some(c) => if second then Score2(c.0, c.1) else Score1(c.0, c.1)
      case None => 0)
  }

  /** A sum is the sum of all but the last entry plus the last. */
  lemma SumLast(s: seq<int>)
    requires |s| > 0
    ensures Sum(s) == Sum(s[..|s| - 1]) + s[|s| - 1]
  {
  }

  /** The fold's last step adds the last round's points. */
  lemma TotalsLast(cs: seq<(int, int)>)
    requires |cs| > 0
    ensures Totals(cs).0 == Totals(cs[..|cs| - 1]).0 + Score1(cs[|cs| - 1].0, cs[|cs| - 1].1)
    ensures Totals(cs).1 == Totals(cs[..|cs| - 1]).1 + Score2(cs[|cs| - 1].0, cs[|cs| - 1].1)
  {
  }

  /** The points of each round's codes in part one (`second == false`)
      or part two, in order. */
  function CodePoints(cs: seq<(int, int)>, second: bool): (ps: seq<int>)
    ensures |ps| == |cs|
  {
    seq(|cs|, i requires 0 <= i < |cs| => if second then Score2(cs[i].0, cs[i].1) else Score1(cs[i].0, cs[i].1))
  }

  /** The fold's total in either part is the sum of the rounds' points. */
  lemma {:induction false} PartOfCodes(cs: seq<(int, int)>, second: bool)
    ensures (if second then Totals(cs).1 else Totals(cs).0) == Sum(CodePoints(cs, second))
  {
    if |cs| > 0 {
      var n := |cs| - 1;
      var ps := CodePoints(cs, second);
      assert ps[..n] == CodePoints(cs[..n], second);
      PartOfCodes(cs[..n], second);
      SumLast(ps);
      TotalsLast(cs);
    }
  }

  /** Folding the rounds' codes adds up the lines' points. */
  lemma TotalsOfLines(lines: seq<string>, cs: seq<(int, int)>)
    requires |cs| == |lines| && forall i :: 0 <= i < |lines| ==> Codes(lines[i]) == Some(cs[i])
    ensures Totals(cs).0 == Sum(LinePoints(lines, false)) && Totals(cs).1 == Sum(LinePoints(lines, true))
  {
    PartOfCodes(cs, false);
    PartOfCodes(cs, true);
    LinesAreCodes(lines, cs, false);
    LinesAreCodes(lines, cs, true);
  }

  lemma LinesAreCodes(lines: seq<string>, cs: seq<(int, int)>, second: bool)
    requires |cs| == |lines| && forall i :: 0 <= i < |lines| ==> Codes(lines[i]) == Some(cs[i])
    ensures LinePoints(lines, second) == CodePoints(cs, second)
  {
    var lp, cp := LinePoints(lines, second), CodePoints(cs, second);
    forall i | 0 <= i < |lines|
      ensures lp[i] == cp[i]
    {
      var c := cs[i];
      assert Codes(lines[i]) == Some(c);
    }
  }

  /** Both totals over all lines: the sums of the lines' points in each
      part; `None` if any line is malformed. */
  function Solve(lines: seq<string>): (r: Option<(int, int)>)
    ensures r.Some? <==> forall i :: 0 <= i < |lines| ==> Codes(lines[i]).Some?
    ensures r.Some? ==> r.value.0 == Sum(LinePoints(lines, false)) && r.value.1 == Sum(LinePoints(lines, true))
  {
    match ParseAll(lines, Codes)
    case None => None
    case Some(cs) =>
      TotalsOfLines(lines, cs);
      Some(Totals(cs))
  }

  /** With proper codes on every line, each total lies between one and
      nine points a round. */
  lemma SolveBounds(lines: seq<string>)
    requires Solve(lines).Some?
    requires forall i :: 0 <= i < |lines| ==> IsCode(Codes(lines[i]).value.0) && IsCode(Codes(lines[i]).value.1)
    ensures var r := Solve(lines).value;
      |lines| <= r.0 <= 9 * |lines| && |lines| <= r.1 <= 9 * |lines|
  {
    var cs := ParseAll(lines, Codes).value;
    TotalsBounds(cs);
  }
}

=== FILE: day03.dfy ===
/**
 Day 3: rucksack reorganisation. Every line is split into two halves and
 the first item of the first half that also occurs in the second half is
 scored; every three consecutive lines share a badge, the first item of
 the third line that occurs in the other two.
 */
module Day03 {
  import opened Common

  predicate IsLower(c: char)
  {
    'a' <= c <= 'z'
  }

  predicate IsUpper(c: char)
  {
    'A' <= c <= 'Z'
  }

  /** `get_value`: 'a'..'z' are worth 1..26, 'A'..'Z' are worth 27..52,
      anything else 0. */
  function Priority(c: char): (v: int)
    ensures IsLower(c) ==> 1 <= v <= 26
    ensures IsUpper(c) ==> 27 <= v <= 52
    ensures !IsLower(c) && !IsUpper(c) ==> v == 0
  {
    if IsLower(c) then c as int - 96
    else if IsUpper(c) then c as int - 64 + 26
    else 0
  }

  /** Different letters have different priorities, and every priority in
      1..52 belongs to some letter. */
  lemma PriorityInjective(c: char, d: char)
    requires (IsLower(c) || IsUpper(c)) && (IsLower(d) || IsUpper(d))
    ensures Priority(c) == Priority(d) <==> c == d
  {
  }

  lemma PrioritySurjective(v: int)
    requires 1 <= v <= 52
    ensures exists c :: (IsLower(c) || IsUpper(c)) && Priority(c) == v
  {
    if v <= 26 {
      var c := (v + 96) as char;
      assert IsLower(c) && Priority(c) == v;
    } else {
      var c := (v + 64 - 26) as char;
      assert IsUpper(c) && Priority(c) == v;
    }
  }

  /** The first character of `s` that occurs in `t`; `None` if there is
      none. */
  function FirstCommon(s: string, t: string): (r: Option<char>)
    ensures r.None? <==> forall i :: 0 <= i < |s| ==> s[i] !in t
    ensures r.Some? ==> exists i :: (0 <= i < |s| && s[i] == r.value && r.value in t
                                     && forall j :: 0 <= j < i ==> s[j] !in t)
  {
    if |s| == 0 then None
    else if s[0] in t then
      assert s[0] == s[0];
      Some(s[0])
    else
      var r := FirstCommon(s[1..], t);
      assert forall i :: 0 < i < |s| ==> s[i] == s[1..][i - 1];
      if r.Some? then
        var i :| 0 <= i < |s[1..]| && s[1..][i] == r.value && r.value in t
          && forall j :: 0 <= j < i ==> s[1..][j] !in t;
        assert s[i + 1] == r.value;
        r
      else r
  }

  /** The first character of `s` that occurs in both `a` and `b`. */
  function FirstInBoth(s: string, a: string, b: string): (r: Option<char>)
    ensures r.None? <==> forall i :: 0 <= i < |s| ==> s[i] !in a || s[i] !in b
    ensures r.Some? ==> exists i :: (0 <= i < |s| && s[i] == r.value && r.value in a && r.value in b
                                     && forall j :: 0 <= j < i ==> s[j] !in a || s[j] !in b)
  {
    if |s| == 0 then None
    else if s[0] in a && s[0] in b then
      assert s[0] == s[0];
      Some(s[0])
    else
      var r := FirstInBoth(s[1..], a, b);
      assert forall i :: 0 < i < |s| ==> s[i] == s[1..][i - 1];
      if r.Some? then
        var i :| 0 <= i < |s[1..]| && s[1..][i] == r.value && r.value in a && r.value in b
          && forall j :: 0 <= j < i ==> s[1..][j] !in a || s[1..][j] !in b;
        assert s[i + 1] == r.value;
        r
      else r
  }

  /** The item a line is scored for: the halves are split at `len / 2`. */
  function Misplaced(line: string): (r: Option<char>)
    ensures r.Some? ==> r.value in line[..|line| / 2] && r.value in line[|line| / 2..]
  {
    FirstCommon(line[..|line| / 2], line[|line| / 2..])
  }

  /** The badge of a group: the first item of the third line found in the
      first two. */
  function Badge(a: string, b: string, c: string): (r: Option<char>)
    ensures r.Some? ==> r.value in a && r.value in b && r.value in c
  {
    FirstInBoth(c, a, b)
  }

  /** The scores of one group of three lines. A line without a misplaced
      item or a group without a badge is the source's `unwrap` failure,
      here `None`. */
  function Group(a: string, b: string, c: string): (r: Option<(int, int)>)
    ensures r.Some? <==> Misplaced(a).Some? && Misplaced(b).Some? && Misplaced(c).Some? && Badge(a, b, c).Some?
    ensures r.Some? ==> r.value.1 == Priority(Badge(a, b, c).value)
    ensures r.Some? ==> r.value.0 == Priority(Misplaced(a).value) + Priority(Misplaced(b).value) + Priority(Misplaced(c).value)
  {
    match (Misplaced(a), Misplaced(b), Misplaced(c), Badge(a, b, c))
    case (Some(x), Some(y), Some(z), Some(w)) => Some((Priority(x) + Priority(y) + Priority(z), Priority(w)))
    case _ => None
  }

  /** Both sums over the groups of three lines: when every group scores,
      part one is the line-by-line sum of misplaced priorities and part
      two the group-by-group sum of badge priorities. Lines are taken in
      threes, so a count that is not a multiple of three runs past the end
      and panics, here `None`. Priorities are at most 52, so each part
      is bounded by the number of items scored. */
  function Solve(lines: seq<string>): (r: Option<(int, int)>)
    ensures r.Some? ==> |lines| % 3 == 0
    ensures r.Some? ==> 0 <= r.value.0 <= 52 * |lines| && 0 <= r.value.1 <= 52 * (|lines| / 3)
    ensures r.Some? ==> r.value.0 == MisplacedSum(lines) && r.value.1 == BadgeSum(lines)
    decreases |lines|
  {
    if |lines| == 0 then Some((0, 0))
    else if |lines| < 3 then None
    else
      match Group(lines[0], lines[1], lines[2])
      case None => None
      case Some(g) =>
        match Solve(lines[3..])
        case None => None
        case Some(rest) =>
          AddGroup(lines, g, rest);
          Some((g.0 + rest.0, g.1 + rest.1))
  }

  /** A line's part-one score on its own: its misplaced item's priority. */
  function LineScore(line: string): int
  {
    match Misplaced(line)
    case Some(c) => Priority(c)
    case None => 0
  }

  /** Part one as the puzzle states it: the misplaced priorities summed
      line by line. */
  function MisplacedSum(lines: seq<string>): int
  {
    if |lines| == 0 then 0 else LineScore(lines[0]) + MisplacedSum(lines[1..])
  }

  /** Part two as the puzzle states it: the badge priorities summed group
      by group. */
  function BadgeSum(lines: seq<string>): int
  {
    if |lines| < 3 then 0 else GroupBadge(lines[0], lines[1], lines[2]) + BadgeSum(lines[3..])
  }

  /** A group's part-two score on its own: its badge's priority. */
  function GroupBadge(a: string, b: string, c: string): int
  {
    match Badge(a, b, c)
    case Some(w) => Priority(w)
    case None => 0
  }

  /** The first group's scores added to the rest's answers give the
      answers for all the lines. */
  lemma AddGroup(lines: seq<string>, g: (int, int), rest: (int, int))
    requires |lines| >= 3 && Group(lines[0], lines[1], lines[2]) == Some(g)
    requires |lines[3..]| % 3 == 0
    requires 0 <= rest.0 <= 52 * |lines[3..]| && 0 <= rest.1 <= 52 * (|lines[3..]| / 3)
    requires rest == (MisplacedSum(lines[3..]), BadgeSum(lines[3..]))
    ensures |lines| % 3 == 0
    ensures 0 <= g.0 + rest.0 <= 52 * |lines| && 0 <= g.1 + rest.1 <= 52 * (|lines| / 3)
    ensures g.0 + rest.0 == MisplacedSum(lines) && g.1 + rest.1 == BadgeSum(lines)
  {
    var m := |lines[3..]|;
    assert |lines| == m + 3;
    assert |lines| / 3 == m / 3 + 1;
    assert 52 * |lines| == 52 * m + 156;
    MisplacedThree(lines);
    var a, b, c := lines[0], lines[1], lines[2];
    assert LineScore(a) == Priority(Misplaced(a).value);
    assert LineScore(b) == Priority(Misplaced(b).value);
    assert LineScore(c) == Priority(Misplaced(c).value);
    assert g.1 == GroupBadge(a, b, c);
  }

  lemma MisplacedThree(lines: seq<string>)
    requires |lines| >= 3
    ensures MisplacedSum(lines)
         == LineScore(lines[0]) + LineScore(lines[1]) + LineScore(lines[2]) + MisplacedSum(lines[3..])
  {
    assert lines[1..][1..][1..] == lines[3..];
    assert MisplacedSum(lines[1..][1..]) == LineScore(lines[2]) + MisplacedSum(lines[3..]);
  }

  /** A group of three is scored exactly when each line has a misplaced
      item and the three share a badge. */
  lemma {:induction false} SolveGroups(lines: seq<string>)
    requires |lines| % 3 == 0
    ensures Solve(lines).Some? <==> AllGroupsOk(lines)
    decreases |lines|
  {
    if |lines| > 0 {
      var rest := lines[3..];
      assert |lines| == |rest| + 3;
      SolveGroups(rest);
      SolveStep(lines);
      GroupsStep(lines);
    }
  }

  /** Every group scores exactly when the first does and every group of
      the rest does. */
  lemma GroupsStep(lines: seq<string>)
    requires |lines| >= 3 && |lines| % 3 == 0
    ensures AllGroupsOk(lines) <==> GroupOk(lines, 0) && AllGroupsOk(lines[3..])
  {
    var rest := lines[3..];
    var n := |lines| / 3;
    LessThree(|lines|);
    ShiftGroups(lines);
    if GroupOk(lines, 0) && AllGroupsOk(rest) {
      forall g | 0 < g < n
        ensures GroupOk(lines, g)
      {
        assert GroupOk(rest, g - 1);
      }
    }
    if AllGroupsOk(lines) {
      forall g | 0 <= g < n - 1
        ensures GroupOk(rest, g)
      {
        assert GroupOk(lines, g + 1);
      }
    }
  }

  lemma LessThree(m: nat)
    requires m >= 3 && m % 3 == 0
    ensures (m - 3) / 3 == m / 3 - 1 && (m - 3) % 3 == 0
  {
    var n := m / 3;
    assert m == 3 * n;
    assert m - 3 == 3 * (n - 1);
  }

  lemma SolveStep(lines: seq<string>)
    requires |lines| >= 3
    ensures Solve(lines).Some? <==> GroupOk(lines, 0) && Solve(lines[3..]).Some?
  {
  }

  lemma ShiftGroups(lines: seq<string>)
    requires |lines| >= 3 && |lines| % 3 == 0
    ensures forall g :: 0 <= g < |lines[3..]| / 3 ==> GroupOk(lines[3..], g) == GroupOk(lines, g + 1)
  {
    var rest := lines[3..];
    forall g | 0 <= g < |rest| / 3
      ensures GroupOk(rest, g) == GroupOk(lines, g + 1)
    {
      assert rest[3 * g] == lines[3 * (g + 1)];
      assert rest[3 * g + 1] == lines[3 * (g + 1) + 1];
      assert rest[3 * g + 2] == lines[3 * (g + 1) + 2];
    }
  }

  /** Every group of three lines scores. */
  predicate AllGroupsOk(lines: seq<string>)
  {
    forall g :: 0 <= g < |lines| / 3 ==> GroupOk(lines, g)
  }

  predicate GroupOk(lines: seq<string>, g: nat)
    requires 3 * g + 2 < |lines|
  {
    Group(lines[3 * g], lines[3 * g + 1], lines[3 * g + 2]).Some?
  }
}

=== FILE: day04.dfy ===
/**
 Day 4: camp cleanup. Each line assigns two section ranges `lo-hi`; part
 one counts the pairs where one range contains the other, part two the
 pairs that overlap at all.
 */
module Day04 {
  import opened Common

  datatype Range = Range(lo: int, hi: int)

  predicate Proper(r: Range)
  {
    r.lo <= r.hi
  }

  /** The source's containment test: one range's bounds enclose the
      other's. */
  predicate Contains(f: Range, s: Range)
  {
    (f.lo <= s.lo && f.hi >= s.hi) || (s.lo <= f.lo && s.hi >= f.hi)
  }

  /** The source's overlap test: the later-starting range starts inside the
      earlier one. */
  predicate Overlaps(f: Range, s: Range)
  {
    (f.lo <= s.lo && f.hi >= s.lo) || (s.lo <= f.lo && s.hi >= f.lo)
  }

  /** Section `x` belongs to range `r`. */
  predicate Covers(r: Range, x: int)
  {
    r.lo <= x <= r.hi
  }

  /** For proper ranges, containment means every section of one range
      belongs to the other, and neither test depends on the order of the
      pair. */
  lemma ContainsMeaning(f: Range, s: Range)
    requires Proper(f) && Proper(s)
    ensures Contains(f, s) <==>
              (forall x :: Covers(s, x) ==> Covers(f, x)) || (forall x :: Covers(f, x) ==> Covers(s, x))
    ensures Contains(f, s) == Contains(s, f)
  {
    if forall x :: Covers(s, x) ==> Covers(f, x) {
      assert Covers(s, s.lo) && Covers(s, s.hi);
    }
    if forall x :: Covers(f, x) ==> Covers(s, x) {
      assert Covers(f, f.lo) && Covers(f, f.hi);
    }
  }

  /** For proper ranges, overlap means the ranges share a section; that
      happens exactly when the larger start is at most the smaller end. */
  lemma OverlapsMeaning(f: Range, s: Range)
    requires Proper(f) && Proper(s)
    ensures Overlaps(f, s) <==> exists x :: Covers(f, x) && Covers(s, x)
    ensures Overlaps(f, s) <==> Max(f.lo, s.lo) <= Min(f.hi, s.hi)
    ensures Overlaps(f, s) == Overlaps(s, f)
  {
    if Overlaps(f, s) {
      assert Covers(f, Max(f.lo, s.lo)) && Covers(s, Max(f.lo, s.lo));
    }
  }

  /** A range that contains the other also overlaps it, as long as the
      contained range is not empty. */
  lemma ContainsOverlaps(f: Range, s: Range)
    requires Proper(f) && Proper(s)
    ensures Contains(f, s) ==> Overlaps(f, s)
  {
  }

  /** The positions of the pairs that pass a test. */
  function Passing(pairs: seq<(Range, Range)>, test: (Range, Range) -> bool): set<nat>
  {
    set i: nat | i < |pairs| && test(pairs[i].0, pairs[i].1)
  }

  /** Adding a pair adds its position exactly when it passes. */
  lemma PassingSnoc(pairs: seq<(Range, Range)>, test: (Range, Range) -> bool)
    requires |pairs| > 0
    ensures var last := pairs[|pairs| - 1];
            |Passing(pairs, test)| == |Passing(pairs[..|pairs| - 1], test)| + (if test(last.0, last.1) then 1 else 0)
  {
    var n := |pairs| - 1;
    var front := Passing(pairs[..n], test);
    assert n !in front;
    if test(pairs[n].0, pairs[n].1) {
      assert Passing(pairs, test) == front + {n};
    } else {
      assert Passing(pairs, test) == front;
    }
  }

  predicate AllProper(pairs: seq<(Range, Range)>)
  {
    forall i :: 0 <= i < |pairs| ==> Proper(pairs[i].0) && Proper(pairs[i].1)
  }

  /** The fold over the pairs. Each count is at most the number of pairs,
      and with proper ranges every containing pair is also counted as
      overlapping. */
  function Solve(pairs: seq<(Range, Range)>): (r: (int, int))
    ensures 0 <= r.0 <= |pairs| && 0 <= r.1 <= |pairs|
    ensures r.0 == |pairs| <==> forall i :: 0 <= i < |pairs| ==> Contains(pairs[i].0, pairs[i].1)
    ensures r.1 == 0 <==> forall i :: 0 <= i < |pairs| ==> !Overlaps(pairs[i].0, pairs[i].1)
    ensures AllProper(pairs) ==> r.0 <= r.1
  {
    if |pairs| == 0 then (0, 0)
    else
      var front := pairs[..|pairs| - 1];
      var last := pairs[|pairs| - 1];
      assert forall i :: 0 <= i < |front| ==> front[i] == pairs[i];
      var acc := Solve(front);
      (acc.0 + (if Contains(last.0, last.1) then 1 else 0),
       acc.1 + (if Overlaps(last.0, last.1) then 1 else 0))
  }

  /** The counts are the numbers of pairs passing each test. */
  lemma {:induction false} SolveCounts(pairs: seq<(Range, Range)>)
    ensures Solve(pairs) == (|Passing(pairs, Contains)|, |Passing(pairs, Overlaps)|)
  {
    if |pairs| > 0 {
      SolveCounts(pairs[..|pairs| - 1]);
      PassingSnoc(pairs, Contains);
      PassingSnoc(pairs, Overlaps);
    }
  }

  /** A range `lo-hi`: two numbers separated by '-'; text after a second
      '-' is ignored, as the source reads only the first two pieces. A
      missing piece or a piece that is not a number is the source's
      `unwrap` failure, here `None`. */
  function ParseRange(s: string): (r: Option<Range>)
    ensures r.Some? ==> '-' in s
    ensures r.Some? <==>
              |SplitOn(s, '-')| >= 2 && ParseInt(SplitOn(s, '-')[0]).Some? && ParseInt(SplitOn(s, '-')[1]).Some?
    ensures r.Some? ==> Some(r.value.lo) == ParseInt(SplitOn(s, '-')[0]) && Some(r.value.hi) == ParseInt(SplitOn(s, '-')[1])
  {
    var pieces := SplitOn(s, '-');
    if |pieces| < 2 then None
    else
      match (ParseInt(pieces[0]), ParseInt(pieces[1]))
      case (Some(lo), Some(hi)) =>
        assert s == pieces[0] + ['-'] + Join(pieces[1..], '-');
        assert s[|pieces[0]|] == '-';
        Some(Range(lo, hi))
      case _ => None
  }

  /** One line `a-b,c-d`, split at ',' and then each part at '-'. Text
      after a second ',' is ignored. */
  function ParseLine(line: string): (r: Option<(Range, Range)>)
    ensures r.Some? ==> ',' in line
    ensures r.Some? <==>
              |SplitOn(line, ',')| >= 2 && ParseRange(SplitOn(line, ',')[0]).Some?
              && ParseRange(SplitOn(line, ',')[1]).Some?
    ensures r.Some? ==> Some(r.value.0) == ParseRange(SplitOn(line, ',')[0]) && Some(r.value.1) == ParseRange(SplitOn(line, ',')[1])
  {
    var parts := SplitOn(line, ',');
    if |parts| < 2 then None
    else
      match (ParseRange(parts[0]), ParseRange(parts[1]))
      case (Some(f), Some(s)) =>
        assert line == parts[0] + [','] + Join(parts[1..], ',');
        assert line[|parts[0]|] == ',';
        Some((f, s))
      case _ => None
  }

  /** The pairs of all lines; `None` if any line is malformed. */
  function Parse(lines: seq<string>): (r: Option<seq<(Range, Range)>>)
    ensures r.Some? <==> forall i :: 0 <= i < |lines| ==> ParseLine(lines[i]).Some?
    ensures r.Some? ==> |r.value| == |lines|
    ensures r.Some? ==> forall i :: 0 <= i < |lines| ==> r.value[i] == ParseLine(lines[i]).value
  {
    ParseAll(lines, ParseLine)
  }
}

=== FILE: day05.dfy ===
/**
 Day 5: supply stacks. Stacks of crates (the top of a stack is the end of
 its sequence) are rearranged by moves "move a from b to c", with 1-based
 stack numbers. Part one moves the crates one at a time, part two moves
 the block at once; the answer is the top crate of every stack.
 */
module Day05 {
  import opened Common

  type Stacks = seq<seq<char>>

  /** The character `unwrap_or_default` yields for a pop from an empty
      stack. */
  const Nul: char := '\0'

  /** A parsed move: `count` crates from stack `from` to stack `to`,
      both 1-based. */
  datatype Move = Move(count: int, from: int, to: int)

  /** Popping a stack: its top crate, or `Nul` when it is empty. */
  function Pop(s: seq<char>): (r: (char, seq<char>))
    ensures |s| > 0 ==> r.0 == s[|s| - 1] && r.1 == s[..|s| - 1]
    ensures |s| == 0 ==> r.0 == Nul && r.1 == []
  {
    if |s| == 0 then (Nul, []) else (s[|s| - 1], s[..|s| - 1])
  }

  /** One crate from stack `f` to stack `t`, even when `f` is empty: then
      the default character lands on `t`. */
  function MoveOne(st: Stacks, f: nat, t: nat): (r: Stacks)
    requires f < |st| && t < |st|
    ensures |r| == |st|
    ensures forall k :: 0 <= k < |st| && k != f && k != t ==> r[k] == st[k]
  {
    var (x, rest) := Pop(st[f]);
    var st1 := st[f := rest];
    st1[t := st1[t] + [x]]
  }

  /** Part one: `k` single-crate moves. */
  function OneAtATime(st: Stacks, k: nat, f: nat, t: nat): (r: Stacks)
    requires f < |st| && t < |st|
    ensures |r| == |st|
    ensures forall j :: 0 <= j < |st| && j != f && j != t ==> r[j] == st[j]
  {
    if k == 0 then st else MoveOne(OneAtATime(st, k - 1, f, t), f, t)
  }

  /** `s` without the default character. */
  function NoNul(s: seq<char>): (r: seq<char>)
    ensures Nul !in r
    ensures |r| <= |s|
    ensures Nul !in s ==> r == s
    ensures forall x :: x in r ==> x in s
  {
    if |s| == 0 then []
    else (if s[0] == Nul then [] else [s[0]]) + NoNul(s[1..])
  }

  /** `k` pops from a stack, keeping the popped crates in pop order and
      dropping the default character; pops from the emptied stack yield
      only that character, so they take nothing. */
  function PopMany(s: seq<char>, k: nat): (r: (seq<char>, seq<char>))
  {
    if k == 0 || |s| == 0 then ([], s)
    else
      var x := s[|s| - 1];
      var r := PopMany(s[..|s| - 1], k - 1);
      ((if x != Nul then [x] else []) + r.0, r.1)
  }

  /** Part two: the popped crates are reversed back into their original
      order and pushed onto stack `t`. */
  function AllAtOnce(st: Stacks, k: nat, f: nat, t: nat): (r: Stacks)
    requires f < |st| && t < |st|
    ensures |r| == |st|
    ensures forall j :: 0 <= j < |st| && j != f && j != t ==> r[j] == st[j]
  {
    var (taken, left) := PopMany(st[f], k);
    var st1 := st[f := left];
    st1[t := st1[t] + Reverse(taken)]
  }

  /** The number of crates popped from a stack of size `n` by `k` pops. */
  function Moved(n: nat, k: nat): nat
  {
    Min(k, n)
  }

  /** `n` copies of the default character. */
  function Nuls(n: nat): (r: seq<char>)
    ensures |r| == n && forall i :: 0 <= i < n ==> r[i] == Nul
  {
    if n == 0 then [] else Nuls(n - 1) + [Nul]
  }

  /** Between different stacks, part one removes the top `m` crates from
      the source and lands them on the destination in reverse order,
      followed by one default character for every pop from the emptied
      source. */
  lemma {:induction false} OneAtATimeEffect(st: Stacks, k: nat, f: nat, t: nat)
    requires f < |st| && t < |st| && f != t
    ensures var m := Moved(|st[f]|, k);
      var r := OneAtATime(st, k, f, t);
      r[f] == st[f][..|st[f]| - m]
      && r[t] == st[t] + Reverse(st[f][|st[f]| - m..]) + Nuls(k - m)
  {
    if k > 0 {
      OneAtATimeEffect(st, k - 1, f, t);
      var s := st[f];
      var m0 := Moved(|s|, k - 1);
      var prev := OneAtATime(st, k - 1, f, t);
      assert OneAtATime(st, k, f, t) == MoveOne(prev, f, t);
      if |s| - m0 > 0 {
        MoveCrate(st[t], s, prev, k, f, t);
      } else {
        MoveNothing(st[t], s, prev, k, f, t);
      }
    }
  }

  /** A pop from a source that still holds crates moves its top crate. */
  lemma MoveCrate(dest: seq<char>, s: seq<char>, prev: Stacks, k: nat, f: nat, t: nat)
    requires f < |prev| && t < |prev| && f != t && k > 0
    requires Moved(|s|, k - 1) < |s|
    requires prev[f] == s[..|s| - Moved(|s|, k - 1)]
    requires prev[t] == dest + Reverse(s[|s| - Moved(|s|, k - 1)..]) + Nuls(k - 1 - Moved(|s|, k - 1))
    ensures MoveOne(prev, f, t)[f] == s[..|s| - Moved(|s|, k)]
    ensures MoveOne(prev, f, t)[t] == dest + Reverse(s[|s| - Moved(|s|, k)..]) + Nuls(k - Moved(|s|, k))
  {
    var m0 := Moved(|s|, k - 1);
    assert m0 == k - 1 && Moved(|s|, k) == m0 + 1;
    var x := s[|s| - m0 - 1];
    var top := s[|s| - m0..];
    assert prev[f][|prev[f]| - 1] == x;
    assert prev[f][..|prev[f]| - 1] == s[..|s| - m0 - 1];
    assert s[|s| - m0 - 1..] == [x] + top;
    assert Reverse([x] + top) == Reverse(top) + [x] by {
      assert ([x] + top)[1..] == top;
    }
    assert prev[t] == dest + Reverse(top);
  }

  /** A pop from an emptied source moves a default character. */
  lemma MoveNothing(dest: seq<char>, s: seq<char>, prev: Stacks, k: nat, f: nat, t: nat)
    requires f < |prev| && t < |prev| && f != t && k > 0
    requires Moved(|s|, k - 1) == |s|
    requires prev[f] == s[..|s| - Moved(|s|, k - 1)]
    requires prev[t] == dest + Reverse(s[|s| - Moved(|s|, k - 1)..]) + Nuls(k - 1 - Moved(|s|, k - 1))
    ensures MoveOne(prev, f, t)[f] == s[..|s| - Moved(|s|, k)]
    ensures MoveOne(prev, f, t)[t] == dest + Reverse(s[|s| - Moved(|s|, k)..]) + Nuls(k - Moved(|s|, k))
  {
    var m0 := |s|;
    assert Moved(|s|, k) == m0;
    assert prev[f] == [];
    var moved := Reverse(s[|s| - m0..]);
    assert Nuls(k - m0) == Nuls(k - 1 - m0) + [Nul];
    assert dest + moved + Nuls(k - 1 - m0) + [Nul] == dest + moved + Nuls(k - m0);
  }

  /** What `k` pops from `s` take and leave: the top `m` crates, in pop
      order, without default characters, and the rest below them. */
  lemma {:induction false} PopManyEffect(s: seq<char>, k: nat)
    ensures var m := Moved(|s|, k);
      PopMany(s, k) == (NoNul(Reverse(s[|s| - m..])), s[..|s| - m])
  {
    var m := Moved(|s|, k);
    if k == 0 || |s| == 0 {
      assert s[|s|..] == [] && s[..|s|] == s;
    } else {
      var rest := s[..|s| - 1];
      PopManyEffect(rest, k - 1);
      assert Moved(|rest|, k - 1) == m - 1;
      PopManyStep(s, k, m, rest[|rest| - (m - 1)..], PopMany(rest, k - 1));
    }
  }

  /** One more pop puts the top crate in front of what the remaining
      pops take from below it. */
  lemma PopManyStep(s: seq<char>, k: nat, m: nat, blk: seq<char>, sub: (seq<char>, seq<char>))
    requires k > 0 && |s| > 0 && m == Moved(|s|, k)
    requires blk == s[..|s| - 1][|s| - 1 - (m - 1)..]
    requires sub == PopMany(s[..|s| - 1], k - 1)
    requires sub == (NoNul(Reverse(blk)), s[..|s| - 1][..|s| - 1 - (m - 1)])
    ensures PopMany(s, k) == (NoNul(Reverse(s[|s| - m..])), s[..|s| - m])
  {
    var x := s[|s| - 1];
    var rest := s[..|s| - 1];
    assert |rest| == |s| - 1;
    var head: seq<char> := if x != Nul then [x] else [];
    assert PopMany(s, k) == (head + sub.0, sub.1);
    assert |s| - 1 - (m - 1) == |s| - m;
    TopBlock(s, m, blk);
    PopFront(x, blk);
    assert NoNul(Reverse(s[|s| - m..])) == head + sub.0;
  }

  /** The top `m` crates are the top `m - 1` below the top one, plus it. */
  lemma TopBlock(s: seq<char>, m: nat, blk: seq<char>)
    requires 0 < m <= |s| && blk == s[..|s| - 1][|s| - m..]
    ensures s[|s| - m..] == blk + [s[|s| - 1]]
    ensures s[..|s| - 1][..|s| - m] == s[..|s| - m]
  {
    var top := s[|s| - m..];
    assert |blk| == m - 1;
    forall j | 0 <= j < m ensures top[j] == (blk + [s[|s| - 1]])[j] {
      if j < m - 1 {
        assert blk[j] == s[|s| - m + j];
      }
    }
  }

  lemma PopFront(x: char, blk: seq<char>)
    ensures NoNul(Reverse(blk + [x])) == (if x != Nul then [x] else []) + NoNul(Reverse(blk))
  {
    ReverseAppend(blk, [x]);
    assert Reverse([x]) == [x];
    NoNulAppend([x], Reverse(blk));
    assert [x][1..] == [];
  }

  lemma {:induction false} ReverseAppend<T>(a: seq<T>, b: seq<T>)
    ensures Reverse(a + b) == Reverse(b) + Reverse(a)
  {
  }

  lemma {:induction false} NoNulAppend(a: seq<char>, b: seq<char>)
    ensures NoNul(a + b) == NoNul(a) + NoNul(b)
  {
    if |a| > 0 {
      assert (a + b)[1..] == a[1..] + b;
      NoNulAppend(a[1..], b);
    } else {
      assert a + b == b;
    }
  }

  /** Filtering commutes with reversal. */
  lemma {:induction false} NoNulReverse(s: seq<char>)
    ensures NoNul(Reverse(s)) == Reverse(NoNul(s))
  {
    if |s| > 0 {
      NoNulReverse(s[1..]);
      assert Reverse(s) == Reverse(s[1..]) + [s[0]];
      NoNulAppend(Reverse(s[1..]), [s[0]]);
      var h := if s[0] == Nul then [] else [s[0]];
      assert NoNul([s[0]]) == h by {
        assert [s[0]][1..] == [];
      }
      ReverseAppend(h, NoNul(s[1..]));
      assert Reverse(h) == h;
    }
  }

  lemma ReverseReverse<T>(s: seq<T>)
    ensures Reverse(Reverse(s)) == s
  {
  }

  /** Between different stacks, part two removes the top `m` crates from
      the source and lands them on the destination in their original
      order; a default character is never pushed. */
  lemma AllAtOnceEffect(st: Stacks, k: nat, f: nat, t: nat)
    requires f < |st| && t < |st| && f != t
    ensures var m := Moved(|st[f]|, k);
      var r := AllAtOnce(st, k, f, t);
      r[f] == st[f][..|st[f]| - m]
      && r[t] == st[t] + NoNul(st[f][|st[f]| - m..])
  {
    var s := st[f];
    var m := Moved(|s|, k);
    PopManyEffect(s, k);
    NoNulReverse(s[|s| - m..]);
    ReverseReverse(NoNul(s[|s| - m..]));
  }

  /** The crates on all stacks together. */
  function Total(st: Stacks): nat
  {
    TotalLength(st)
  }

  lemma MoveOneTotal(st: Stacks, f: nat, t: nat)
    requires f < |st| && t < |st|
    ensures Total(MoveOne(st, f, t)) == Total(st) + (if |st[f]| == 0 then 1 else 0)
    ensures |MoveOne(st, f, t)[f]| >= |st[f]| - 1
  {
    var (x, rest) := Pop(st[f]);
    var st1 := st[f := rest];
    TotalLengthUpdate(st, f, rest);
    TotalLengthUpdate(st1, t, st1[t] + [x]);
  }

  /** With at least `k` crates on the source, part one keeps the number
      of crates, even when source and destination are the same stack. */
  lemma {:induction false} OneAtATimeTotal(st: Stacks, k: nat, f: nat, t: nat)
    requires f < |st| && t < |st| && |st[f]| >= k
    ensures Total(OneAtATime(st, k, f, t)) == Total(st)
    ensures |OneAtATime(st, k, f, t)[f]| >= |st[f]| - k
  {
    if k > 0 {
      OneAtATimeTotal(st, k - 1, f, t);
      MoveOneTotal(OneAtATime(st, k - 1, f, t), f, t);
    }
  }

  /** Part two keeps the number of crates when the moved block holds no
      default character and the source holds at least `k` crates. */
  lemma AllAtOnceTotal(st: Stacks, k: nat, f: nat, t: nat)
    requires f < |st| && t < |st| && |st[f]| >= k
    requires Nul !in st[f][|st[f]| - k..]
    ensures Total(AllAtOnce(st, k, f, t)) == Total(st)
  {
    var s := st[f];
    PopManyEffect(s, k);
    var (taken, left) := PopMany(s, k);
    assert |taken| == k && |left| == |s| - k by {
      NoNulReverse(s[|s| - k..]);
    }
    var st1 := st[f := left];
    TotalLengthUpdate(st, f, left);
    TotalLengthUpdate(st1, t, st1[t] + Reverse(taken));
  }

  /** A move from the empty stack in part one lands the default
      character on the destination. */
  lemma EmptySourcePushesNul(st: Stacks, f: nat, t: nat)
    requires f < |st| && t < |st| && f != t && st[f] == []
    ensures OneAtATime(st, 1, f, t)[t] == st[t] + [Nul]
  {
  }

  /** One parsed move applied to both arrangements. A move of no crates
      touches nothing; otherwise both stack numbers must name a stack,
      as the source indexes with them, here `None`. */
  function Apply(st: (Stacks, Stacks), m: Move): (r: Option<(Stacks, Stacks)>)
    requires |st.0| == |st.1|
    ensures r.Some? ==> |r.value.0| == |st.0| && |r.value.1| == |st.0|
    ensures r.None? <==> m.count > 0 && !(1 <= m.from <= |st.0| && 1 <= m.to <= |st.0|)
    ensures m.count <= 0 ==> r == Some(st)
  {
    if m.count <= 0 then Some(st)
    else if !(1 <= m.from <= |st.0| && 1 <= m.to <= |st.0|) then None
    else
      var f := m.from - 1;
      var t := m.to - 1;
      Some((OneAtATime(st.0, m.count, f, t), AllAtOnce(st.1, m.count, f, t)))
  }

  /** Every move in order. */
  function ApplyAll(st: (Stacks, Stacks), moves: seq<Move>): (r: Option<(Stacks, Stacks)>)
    requires |st.0| == |st.1|
    ensures r.Some? ==> |r.value.0| == |st.0| && |r.value.1| == |st.0|
    ensures r.Some? <==> forall i :: 0 <= i < |moves| ==>
                           moves[i].count <= 0 || (1 <= moves[i].from <= |st.0| && 1 <= moves[i].to <= |st.0|)
  {
    if |moves| == 0 then Some(st)
    else
      var front := moves[..|moves| - 1];
      assert forall i :: 0 <= i < |front| ==> front[i] == moves[i];
      match ApplyAll(st, front)
      case None => None
      case Some(mid) => Apply(mid, moves[|moves| - 1])
  }

  /** The top crate of every stack, in stack order; an empty stack is the
      source's `unwrap` failure, here `None`. */
  function Tops(st: Stacks): (r: Option<string>)
    ensures r.Some? <==> forall i :: 0 <= i < |st| ==> |st[i]| > 0
    ensures r.Some? ==> |r.value| == |st|
    ensures r.Some? ==> forall i :: 0 <= i < |st| ==> r.value[i] == st[i][|st[i]| - 1]
  {
    if |st| == 0 then Some([])
    else
      var front := st[..|st| - 1];
      assert forall i :: 0 <= i < |front| ==> front[i] == st[i];
      var last := st[|st| - 1];
      match Tops(front)
      case None => None
      case Some(s) => if |last| == 0 then None else Some(s + [last[|last| - 1]])
  }

  /** Both answers. */
  function Solve(st: Stacks, moves: seq<Move>): (r: Option<(string, string)>)
    ensures r.Some? ==> |r.value.0| == |st| && |r.value.1| == |st|
    ensures r.Some? ==> ApplyAll((st, st), moves).Some?
  {
    match ApplyAll((st, st), moves)
    case None => None
    case Some(fin) =>
      match (Tops(fin.0), Tops(fin.1))
      case (Some(p1), Some(p2)) => Some((p1, p2))
      case _ => None
  }

  /** The characters at columns 1, 5, 9, ... of a drawing line: one per
      stack, a space where that stack has no crate at this height. */
  function Cells(line: string): (r: seq<char>)
    ensures |r| == (|line| + 2) / 4
    ensures forall i :: 0 <= i < |r| ==> r[i] == line[4 * i + 1]
  {
    if |line| < 2 then []
    else
      var rest := line[Min(4, |line|)..];
      var r := [line[1]] + Cells(rest);
      assert forall i :: 1 <= i < |r| ==> 4 * i + 1 < |line| && r[i] == rest[4 * (i - 1) + 1];
      r
  }

  /** Pushes the crates of one drawing line onto their stacks; a crate in a
      column past the last stack is an index failure, here `None`. */
  function Fill(st: Stacks, cells: seq<char>): (r: Option<Stacks>)
    ensures r.Some? <==> forall i :: 0 <= i < |cells| && cells[i] != ' ' ==> i < |st|
    ensures r.Some? ==> |r.value| == |st|
    ensures r.Some? ==> forall i :: 0 <= i < |st| ==>
                          r.value[i] == st[i] + (if i < |cells| && cells[i] != ' ' then [cells[i]] else [])
  {
    if |cells| == 0 then Some(st)
    else
      var i := |cells| - 1;
      var front := cells[..i];
      assert forall j :: 0 <= j < |front| ==> front[j] == cells[j];
      match Fill(st, front)
      case None => None
      case Some(s) =>
        if cells[i] == ' ' then Some(s)
        else if i < |s| then Some(s[i := s[i] + [cells[i]]])
        else None
  }

  /** The crate a drawing line puts on stack `i`, if any. */
  function CrateAt(line: string, i: nat): seq<char>
  {
    var cells := Cells(line);
    if i < |cells| && cells[i] != ' ' then [cells[i]] else []
  }

  /** The crates of column `i` read from the bottom line up. */
  function Column(rows: seq<string>, i: nat): seq<char>
  {
    if |rows| == 0 then [] else CrateAt(rows[|rows| - 1], i) + Column(rows[..|rows| - 1], i)
  }

  /** Every crate of the drawing lies in one of the first `n` columns. */
  predicate InColumns(rows: seq<string>, n: nat)
  {
    forall k, i :: 0 <= k < |rows| && 0 <= i < |Cells(rows[k])| && Cells(rows[k])[i] != ' ' ==> i < n
  }

  /** Builds the stacks from the drawing's lines, bottom line first: each
      stack gets its column's crates on top of what it held, and a crate
      past the last stack fails. */
  function Build(st: Stacks, rows: seq<string>): (r: Option<Stacks>)
    ensures r.Some? <==> InColumns(rows, |st|)
    ensures r.Some? ==> |r.value| == |st|
    ensures r.Some? ==> forall i :: 0 <= i < |st| ==> r.value[i] == st[i] + Column(rows, i)
    decreases |rows|
  {
    if |rows| == 0 then Some(st)
    else
      var last := rows[|rows| - 1];
      var front := rows[..|rows| - 1];
      assert forall k :: 0 <= k < |front| ==> front[k] == rows[k];
      match Fill(st, Cells(last))
      case None =>
        assert !InColumns(rows, |st|) by {
          var cells := Cells(last);
          var i :| 0 <= i < |cells| && cells[i] != ' ' && i >= |st|;
          assert Cells(rows[|rows| - 1])[i] != ' ';
        }
        None
      case Some(s) =>
        assert InColumns(rows, |st|) <==> InColumns(front, |st|);
        var r := Build(s, front);
        assert r.Some? ==> forall i :: 0 <= i < |st| ==> r.value[i] == st[i] + (CrateAt(last, i) + Column(front, i));
        r
  }

  /** One move line "move a from b to c": the words at positions 1, 3 and
      5 of the split at single spaces. */
  function ParseMove(line: string): (r: Option<Move>)
    ensures r.Some? <==>
              |SplitOn(line, ' ')| >= 6 && ParseInt(SplitOn(line, ' ')[1]).Some?
              && ParseInt(SplitOn(line, ' ')[3]).Some? && ParseInt(SplitOn(line, ' ')[5]).Some?
    ensures r.Some? ==> Some(r.value.count) == ParseInt(SplitOn(line, ' ')[1])
                        && Some(r.value.from) == ParseInt(SplitOn(line, ' ')[3])
                        && Some(r.value.to) == ParseInt(SplitOn(line, ' ')[5])
  {
    var w := SplitOn(line, ' ');
    if |w| < 6 then None
    else
      match (ParseInt(w[1]), ParseInt(w[3]), ParseInt(w[5]))
      case (Some(a), Some(b), Some(c)) => Some(Move(a, b, c))
      case _ => None
  }

  /** The input: the drawing, a blank line, the moves. The last drawing
      line numbers the stacks and fixes their count; the lines above it
      are read from the bottom up. A missing blank line, an empty drawing
      or a malformed move is a panic in the source, here `None`. */
  function Parse(lines: seq<string>): (r: Option<(Stacks, seq<Move>)>)
    ensures r.Some? ==> exists p :: 0 < p < |lines| && lines[p] == ""
                                    && |r.value.0| == |Words(lines[p - 1])| && |r.value.1| == |lines| - p - 1
    ensures "" !in lines ==> r.None?
  {
    match IndexOf(lines, "")
    case None => None
    case Some(p) =>
      if p == 0 then None
      else
        var header := lines[..p];
        var count := |Words(header[p - 1])|;
        var empty := seq(count, _ => []);
        match (Build(empty, header[..p - 1]), ParseAll(lines[p + 1..], ParseMove))
        case (Some(st), Some(moves)) => Some((st, moves))
        case _ => None
  }

  /** Parsing at the first blank line `p`: it succeeds exactly when `p` is
      not the first line, every crate of the drawing lies under a numbered
      stack and every line after the blank one is a move. Stack i is then
      the crates of column i, bottom line first, and the moves are those
      lines' moves in order. */
  lemma ParseAtBlank(lines: seq<string>, p: nat)
    requires p < |lines| && lines[p] == "" && "" !in lines[..p]
    ensures Parse(lines).Some? <==>
              0 < p && InColumns(lines[..p - 1], |Words(lines[p - 1])|)
              && forall i :: p < i < |lines| ==> ParseMove(lines[i]).Some?
    ensures Parse(lines).Some? ==>
              |Parse(lines).value.0| == |Words(lines[p - 1])|
              && (forall i :: 0 <= i < |Parse(lines).value.0| ==> Parse(lines).value.0[i] == Column(lines[..p - 1], i))
              && |Parse(lines).value.1| == |lines| - p - 1
              && forall i :: 0 <= i < |Parse(lines).value.1| ==> Parse(lines).value.1[i] == ParseMove(lines[p + 1 + i]).value
  {
    assert forall i :: 0 <= i < p ==> lines[i] == lines[..p][i];
    assert IndexOf(lines, "") == Some(p);
    var moves := lines[p + 1..];
    assert forall i :: 0 <= i < |moves| ==> moves[i] == lines[p + 1 + i];
    if 0 < p {
      assert lines[..p][..p - 1] == lines[..p - 1];
    }
  }
}

=== FILE: day06.dfy ===
/**
 Day 6: tuning trouble. The answer for a window length `n` is the end
 position of the first window of `n` consecutive bytes that holds no
 repeat, found by counting the leading windows that do hold one.
 Repeats are detected with a 32-bit mask: every byte sets one bit, and a
 window repeats when fewer bits are set than it has bytes.
 */
module Day06 {
  import opened Common

  type Byte = b: int | 0 <= b < 256

  /** The bit a byte sets: `1 << (c - b'A')` with the `u8` subtraction
      wrapping and the `i32` shift taking its amount modulo 32, as a
      release build does. Lower-case letters land on bits 0..25. */
  function Bit(c: Byte): (b: int)
    ensures 0 <= b < 32
    ensures 'a' as int <= c <= 'z' as int ==> b == c - 'a' as int
  {
    ((c - 'A' as int) % 256) % 32
  }

  function Bits(w: seq<Byte>): (r: seq<int>)
    ensures |r| == |w| && forall i :: 0 <= i < |w| ==> r[i] == Bit(w[i])
  {
    seq(|w|, i requires 0 <= i < |w| => Bit(w[i]))
  }

  /** `not_unique`: the mask has fewer bits set than the window has
      bytes. */
  predicate NotUnique(w: seq<Byte>)
  {
    |Elements(Bits(w))| != |w|
  }

  /** The mask has fewer bits than bytes exactly when two bytes share a
      bit; so a window with a repeated byte is always reported. */
  lemma NotUniqueMeaning(w: seq<Byte>)
    ensures NotUnique(w) <==> !NoDuplicates(Bits(w))
    ensures !NoDuplicates(w) ==> NotUnique(w)
  {
    DistinctCount(Bits(w));
  }

  predicate Lower(w: seq<Byte>)
  {
    forall i :: 0 <= i < |w| ==> 'a' as int <= w[i] <= 'z' as int
  }

  /** On lower-case letters, the input the puzzle uses, a window is
      reported exactly when some letter repeats. */
  lemma LowerMeaning(w: seq<Byte>)
    requires Lower(w)
    ensures NotUnique(w) <==> !NoDuplicates(w)
  {
    NotUniqueMeaning(w);
    if !NoDuplicates(Bits(w)) {
      var i, j :| 0 <= i < j < |w| && Bits(w)[i] == Bits(w)[j];
      assert w[i] == w[j];
    }
  }

  /** The window of length `n` starting at `i` repeats. */
  predicate RepeatsAt(d: seq<Byte>, n: nat, i: nat)
    requires i + n <= |d|
  {
    NotUnique(d[i..i + n])
  }

  lemma ShiftRepeats(d: seq<Byte>, n: nat)
    requires |d| > 0
    ensures forall i: nat :: 1 <= i && i + n <= |d| ==> RepeatsAt(d, n, i) == RepeatsAt(d[1..], n, i - 1)
  {
    forall i: nat | 1 <= i && i + n <= |d|
      ensures RepeatsAt(d, n, i) == RepeatsAt(d[1..], n, i - 1)
    {
      assert d[1..][i - 1..i - 1 + n] == d[i..i + n];
    }
  }

  /** The number of leading windows of length `n` that repeat, as
      `windows(n).take_while(not_unique).count()`: every window before
      it repeats, and the window at it, if there is one, does not. */
  function LeadingRepeats(d: seq<Byte>, n: nat): (k: nat)
    requires n > 0
    ensures k == 0 || k + n - 1 <= |d|
    ensures forall i: nat :: i < k ==> RepeatsAt(d, n, i)
    ensures k + n <= |d| ==> !RepeatsAt(d, n, k)
    decreases |d|
  {
    if |d| < n then 0
    else if !RepeatsAt(d, n, 0) then 0
    else
      var k := LeadingRepeats(d[1..], n);
      ShiftRepeats(d, n);
      1 + k
  }

  /** The marker for window length `n`: the position just after the first
      window without a repeat. */
  function Marker(d: seq<Byte>, n: nat): (m: int)
    requires n > 0
    ensures m >= n
  {
    n + LeadingRepeats(d, n)
  }

  /** The marker ends the first window that does not repeat, when there
      is one. */
  lemma MarkerLeast(d: seq<Byte>, n: nat, s: nat)
    requires n > 0 && s + n <= |d| && !RepeatsAt(d, n, s)
    ensures Marker(d, n) - n <= s
    ensures !RepeatsAt(d, n, Marker(d, n) - n)
  {
  }

  /** A window without repeats has no repeats in its first `k` bytes. */
  lemma PrefixUnique(w: seq<Byte>, k: nat)
    requires k <= |w| && !NotUnique(w)
    ensures !NotUnique(w[..k])
  {
    NotUniqueMeaning(w);
    NotUniqueMeaning(w[..k]);
    assert forall i :: 0 <= i < k ==> Bits(w[..k])[i] == Bits(w)[i];
  }

  /** The start-of-packet marker comes strictly before the
      start-of-message marker, when the latter exists. */
  lemma MarkersOrdered(d: seq<Byte>, s: nat)
    requires s + 14 <= |d| && !RepeatsAt(d, 14, s)
    ensures Marker(d, 4) < Marker(d, 14)
  {
    MarkerLeast(d, 14, s);
    var b := Marker(d, 14) - 14;
    var w := d[b..b + 14];
    PrefixUnique(w, 4);
    assert w[..4] == d[b..b + 4];
    MarkerLeast(d, 4, b);
  }

  /** Both answers: the markers for windows of 4 and of 14 bytes. Every
      window ending before a marker repeats, and the window ending at it
      does not, unless the input ran out first. */
  function Solve(d: seq<Byte>): (r: (int, int))
    ensures r.0 >= 4 && r.1 >= 14
    ensures r.0 == 4 || r.0 <= |d| + 1
    ensures r.1 == 14 || r.1 <= |d| + 1
    ensures forall i: nat :: i < r.0 - 4 ==> RepeatsAt(d, 4, i)
    ensures r.0 <= |d| ==> !RepeatsAt(d, 4, r.0 - 4)
    ensures forall i: nat :: i < r.1 - 14 ==> RepeatsAt(d, 14, i)
    ensures r.1 <= |d| ==> !RepeatsAt(d, 14, r.1 - 14)
  {
    (Marker(d, 4), Marker(d, 14))
  }
}

=== FILE: day07.dfy ===
/**
 Day 7: no space left on device. A terminal session is replayed with a
 stack of directory names; every file listed adds its size to the current
 directory and to all its ancestors. Part one sums the directory sizes of
 at most 100000, part two finds the smallest directory whose deletion
 leaves 30000000 of 70000000 free.
 */
module Day07 {
  import opened Common

  /** A directory key: the components of a path, as `PathBuf::from_iter`
      builds it. */
  type Key = seq<string>

  /** A directory with its accumulated size. */
  datatype Dir = Dir(key: Key, size: int)

  datatype State = State(path: seq<string>, dirs: seq<Dir>)

  /** Pushing an absolute component onto a `PathBuf` replaces what was
      there. */
  predicate Absolute(c: string)
  {
    |c| > 0 && c[0] == '/'
  }

  /** The key `PathBuf::from_iter` builds from a list of components, as
      `PathBuf` equality and hashing see it: the components from the last
      absolute one on, where a `.` adds nothing unless it opens a relative
      path. */
  function KeyOf(p: seq<string>): (k: Key)
    ensures |k| <= |p|
    ensures |p| > 0 ==> |k| > 0
    ensures |p| > 0 && p[|p| - 1] != "." ==> k[|k| - 1] == p[|p| - 1]
  {
    if |p| == 0 then []
    else if Absolute(p[|p| - 1]) then [p[|p| - 1]]
    else if p[|p| - 1] == "." && |p| > 1 then KeyOf(p[..|p| - 1])
    else KeyOf(p[..|p| - 1]) + [p[|p| - 1]]
  }

  /** A `.` only ever opens a key, and a `.` pushed after other components
      leaves the key as it was. */
  lemma {:induction false} KeyOfDots(p: seq<string>)
    ensures forall j :: 0 < j < |KeyOf(p)| ==> KeyOf(p)[j] != "."
    ensures |p| > 1 && p[|p| - 1] == "." ==> KeyOf(p) == KeyOf(p[..|p| - 1])
  {
    if |p| > 0 && !Absolute(p[|p| - 1]) {
      var front := p[..|p| - 1];
      KeyOfDots(front);
      if p[|p| - 1] != "." {
        assert KeyOf(p) == KeyOf(front) + [p[|p| - 1]];
      } else if |p| == 1 {
        assert KeyOf(p) == ["."];
      }
    }
  }

  /** A path with no `.` component. */
  predicate Plain(path: seq<string>)
  {
    forall j :: 0 <= j < |path| ==> path[j] != "."
  }

  function Parent(k: Key): Key
    requires |k| > 0
  {
    k[..|k| - 1]
  }

  /** The keys of `path[..1]`, `path[..2]`, ..., `path[..|path|]`: the
      current directory and every ancestor, outermost first. */
  function Prefixes(path: seq<string>): (ks: seq<Key>)
    ensures |ks| == |path|
    ensures |path| > 0 ==> ks[|path| - 1] == KeyOf(path)
  {
    if |path| == 0 then [] else Prefixes(path[..|path| - 1]) + [KeyOf(path)]
  }

  /** Every prefix of the path contributes its key. */
  lemma {:induction false} PrefixesAt(path: seq<string>, i: nat)
    requires i < |path|
    ensures Prefixes(path)[i] == KeyOf(path[..i + 1])
  {
    if i < |path| - 1 {
      var front := path[..|path| - 1];
      PrefixesAt(front, i);
      assert front[..i + 1] == path[..i + 1];
    } else {
      assert path[..i + 1] == path;
    }
  }

  /* ---------------------------------------------------------------- */
  /* The size table: `HashMap<PathBuf, i32>` as an association list    */
  /* ---------------------------------------------------------------- */

  predicate Has(ds: seq<Dir>, k: Key)
  {
    |ds| > 0 && (ds[0].key == k || Has(ds[1..], k))
  }

  /** The size recorded for `k`, 0 when there is none. */
  function Size(ds: seq<Dir>, k: Key): int
  {
    if |ds| == 0 then 0 else if ds[0].key == k then ds[0].size else Size(ds[1..], k)
  }

  predicate UniqueKeys(ds: seq<Dir>)
  {
    forall i, j :: 0 <= i < j < |ds| ==> ds[i].key != ds[j].key
  }

  /** `*entry(k).or_insert(0) += v`: only `k` changes, by `v`, and it is
      recorded afterwards. */
  function AddTo(ds: seq<Dir>, k: Key, v: int): (r: seq<Dir>)
    ensures forall x :: Has(r, x) <==> Has(ds, x) || x == k
    ensures forall x :: Size(r, x) == Size(ds, x) + (if x == k then v else 0)
    ensures |r| == |ds| || |r| == |ds| + 1
  {
    if |ds| == 0 then
      [Dir(k, v)]
    else if ds[0].key == k then
      var r := [Dir(k, ds[0].size + v)] + ds[1..];
      assert r[1..] == ds[1..];
      r
    else
      var rest := AddTo(ds[1..], k, v);
      var r := [ds[0]] + rest;
      assert r[1..] == rest;
      r
  }

  /** Adding to the table never records a key twice. */
  lemma {:induction false} AddToUnique(ds: seq<Dir>, k: Key, v: int)
    requires UniqueKeys(ds)
    ensures UniqueKeys(AddTo(ds, k, v))
  {
    if |ds| > 0 && ds[0].key != k {
      var rest := AddTo(ds[1..], k, v);
      var r := AddTo(ds, k, v);
      assert r == [ds[0]] + rest;
      AddToUnique(ds[1..], k, v);
      HasMeans(ds[1..], ds[0].key);
      assert !Has(ds[1..], ds[0].key);
      HasMeans(rest, ds[0].key);
      assert forall j :: 0 <= j < |rest| ==> rest[j].key != ds[0].key;
    } else if |ds| > 0 {
      var r := AddTo(ds, k, v);
      assert forall i :: 1 <= i < |r| ==> r[i] == ds[i];
    }
  }

  /** `Has` holds exactly when some entry carries the key. */
  lemma {:induction false} HasMeans(ds: seq<Dir>, k: Key)
    ensures Has(ds, k) <==> exists i :: 0 <= i < |ds| && ds[i].key == k
  {
    if |ds| > 0 {
      HasMeans(ds[1..], k);
      if ds[0].key == k {
        assert 0 <= 0 < |ds| && ds[0].key == k;
      } else {
        assert forall i :: 0 <= i < |ds[1..]| ==> ds[1..][i] == ds[i + 1];
        if exists i :: 0 <= i < |ds| && ds[i].key == k {
          var i :| 0 <= i < |ds| && ds[i].key == k;
          assert ds[1..][i - 1].key == k;
        }
      }
    }
  }

  lemma {:induction false} HasAt(ds: seq<Dir>, i: nat)
    requires i < |ds|
    ensures Has(ds, ds[i].key)
  {
    if i > 0 {
      HasAt(ds[1..], i - 1);
    }
  }

  lemma {:induction false} HasIndex(ds: seq<Dir>, k: Key) returns (i: nat)
    requires Has(ds, k)
    ensures i < |ds| && ds[i].key == k
  {
    if ds[0].key == k {
      i := 0;
    } else {
      var j := HasIndex(ds[1..], k);
      i := j + 1;
    }
  }

  lemma {:induction false} SizeAbsent(ds: seq<Dir>, k: Key)
    requires !Has(ds, k)
    ensures Size(ds, k) == 0
  {
    if |ds| > 0 {
      SizeAbsent(ds[1..], k);
    }
  }

  /** The additions of one file, one key after the other. */
  function AddAll(ds: seq<Dir>, ks: seq<Key>, v: int): (r: seq<Dir>)
    ensures UniqueKeys(ds) ==> UniqueKeys(r)
  {
    if |ks| == 0 then ds
    else
      var mid := AddAll(ds, ks[..|ks| - 1], v);
      if UniqueKeys(mid) then
        AddToUnique(mid, ks[|ks| - 1], v);
        AddTo(mid, ks[|ks| - 1], v)
      else AddTo(mid, ks[|ks| - 1], v)
  }

  /** How often `k` occurs in `ks`. */
  function Count(ks: seq<Key>, k: Key): (n: nat)
    ensures n > 0 <==> k in ks
  {
    if |ks| == 0 then 0
    else
      assert ks == ks[..|ks| - 1] + [ks[|ks| - 1]];
      Count(ks[..|ks| - 1], k) + (if ks[|ks| - 1] == k then 1 else 0)
  }

  /** Every key gains `v` for each time it is listed, and the listed keys
      become recorded. */
  lemma {:induction false} AddAllEffect(ds: seq<Dir>, ks: seq<Key>, v: int, x: Key)
    ensures Size(AddAll(ds, ks, v), x) == Size(ds, x) + v * Count(ks, x)
    ensures Has(AddAll(ds, ks, v), x) <==> Has(ds, x) || x in ks
  {
    if |ks| > 0 {
      var front, last := ks[..|ks| - 1], ks[|ks| - 1];
      AddAllEffect(ds, front, v, x);
      var mid := AddAll(ds, front, v);
      assert AddAll(ds, ks, v) == AddTo(mid, last, v);
      assert ks == front + [last];
      assert x in ks <==> x in front || x == last;
      var c := Count(front, x);
      assert Count(ks, x) == c + (if last == x then 1 else 0);
      if last == x {
        assert v * (c + 1) == v * c + v;
      }
    }
  }

  /** A key deeper than one component is listed only right after its
      parent, so the parent is listed at least as often, and strictly more
      often when the path ends at the parent. */
  lemma {:induction false} ParentCount(path: seq<string>, k: Key)
    requires |k| > 1 && Plain(path)
    ensures Count(Prefixes(path), Parent(k)) >= Count(Prefixes(path), k)
      + (if |path| > 0 && KeyOf(path) == Parent(k) then 1 else 0)
  {
    if |path| > 0 {
      var front := path[..|path| - 1];
      ParentCount(front, k);
      var ks := Prefixes(path);
      assert ks[..|ks| - 1] == Prefixes(front);
      if KeyOf(path) == k {
        assert !Absolute(path[|path| - 1]);
        assert KeyOf(path) == KeyOf(front) + [path[|path| - 1]];
        assert KeyOf(front) == Parent(k);
      }
    }
  }

  /** Recorded sizes are non-negative and no smaller than the size of any
      recorded subdirectory, whose parent is recorded too. */
  ghost predicate Nested(ds: seq<Dir>)
  {
    && (forall x :: Has(ds, x) ==> Size(ds, x) >= 0)
    && (forall x :: Has(ds, x) && |x| > 1 ==> Has(ds, Parent(x)) && Size(ds, Parent(x)) >= Size(ds, x))
  }

  /** Adding a non-negative file size to every prefix keeps the sizes
      nested. */
  lemma AddFileNested(ds: seq<Dir>, path: seq<string>, v: int)
    requires Nested(ds) && v >= 0 && Plain(path)
    ensures Nested(AddAll(ds, Prefixes(path), v))
  {
    var r := AddAll(ds, Prefixes(path), v);
    forall x | Has(r, x)
      ensures Size(r, x) >= 0
    {
      AddFileNonNegative(ds, path, v, x);
    }
    forall x | Has(r, x) && |x| > 1
      ensures Has(r, Parent(x)) && Size(r, Parent(x)) >= Size(r, x)
    {
      AddFileParent(ds, path, v, x);
    }
  }

  lemma AddFileNonNegative(ds: seq<Dir>, path: seq<string>, v: int, x: Key)
    requires Nested(ds) && v >= 0
    ensures Size(AddAll(ds, Prefixes(path), v), x) >= 0
  {
    AddAllEffect(ds, Prefixes(path), v, x);
    if !Has(ds, x) {
      SizeAbsent(ds, x);
    }
  }

  lemma AddFileParent(ds: seq<Dir>, path: seq<string>, v: int, x: Key)
    requires Nested(ds) && v >= 0 && Plain(path) && |x| > 1 && Has(AddAll(ds, Prefixes(path), v), x)
    ensures Has(AddAll(ds, Prefixes(path), v), Parent(x))
    ensures Size(AddAll(ds, Prefixes(path), v), Parent(x)) >= Size(AddAll(ds, Prefixes(path), v), x)
  {
    var ks := Prefixes(path);
    var p := Parent(x);
    AddAllEffect(ds, ks, v, x);
    AddAllEffect(ds, ks, v, p);
    ParentCount(path, x);
    if !Has(ds, x) {
      SizeAbsent(ds, x);
      AddFileNonNegative(ds, path, v, p);
      if !Has(ds, p) {
        SizeAbsent(ds, p);
      }
    }
    MulMonotone(v, Count(ks, x), Count(ks, p));
  }

  lemma MulMonotone(v: int, a: int, b: int)
    requires v >= 0 && a <= b
    ensures v * a <= v * b
  {
    assert v * b == v * a + v * (b - a);
  }

  /* ---------------------------------------------------------------- */
  /* Replaying the session                                             */
  /* ---------------------------------------------------------------- */

  /** The size a line lists, if it is a file listing: two words, not a
      `dir` line or an `ls` command. */
  function FileSize(line: string): Option<int>
  {
    var w := Words(line);
    if StartsWith(line, "dir") || StartsWith(line, "$ ls") then None
    else if |w| != 2 then None
    else ParseInt(w[0])
  }

  /** One line of the session. `dir` and `$ ls` lines change nothing,
      `$ cd ..` pops (nothing when the path is empty), `$ cd name` pushes,
      a two-word line adds its size to every prefix of the path, anything
      else is ignored. A two-word line whose first word is not a number is
      the source's `unwrap` failure, here `None`. */
  function Step(st: State, line: string): (r: Option<State>)
    ensures StartsWith(line, "dir") || StartsWith(line, "$ ls") ==> r == Some(st)
    ensures Words(line) == ["$", "cd", ".."] && !StartsWith(line, "dir") && !StartsWith(line, "$ ls") ==>
              r.Some? &&
              r.value.path == st.path[..Max(|st.path| - 1, 0)] && r.value.dirs == st.dirs
    ensures var w := Words(line);
            (|w| == 3 && w[0] == "$" && w[1] == "cd" && w[2] != ".." && !StartsWith(line, "dir")
             && !StartsWith(line, "$ ls")) ==> r == Some(State(st.path + [w[2]], st.dirs))
    ensures FileSize(line).Some? ==>
              r.Some? && r.value.path == st.path && r.value.dirs == AddAll(st.dirs, Prefixes(st.path), FileSize(line).value)
    ensures r.None? <==> !StartsWith(line, "dir") && !StartsWith(line, "$ ls")
                         && |Words(line)| == 2 && FileSize(line).None?
  {
    var w := Words(line);
    if StartsWith(line, "dir") || StartsWith(line, "$ ls") then Some(st)
    else if w == ["$", "cd", ".."] then
      Some(State(if |st.path| == 0 then [] else st.path[..|st.path| - 1], st.dirs))
    else if |w| == 3 && w[0] == "$" && w[1] == "cd" then
      Some(State(st.path + [w[2]], st.dirs))
    else if |w| == 2 then
      match ParseInt(w[0])
      case None => None
      case Some(v) => Some(State(st.path, AddAll(st.dirs, Prefixes(st.path), v)))
    else Some(st)
  }

  /** The whole session, from an empty path and an empty table. */
  function Run(lines: seq<string>): (r: Option<State>)
    ensures r.Some? <==> forall i :: 0 <= i < |lines| ==> !Fails(lines[i])
    ensures r.Some? ==> UniqueKeys(r.value.dirs)
  {
    if |lines| == 0 then Some(State([], []))
    else
      var front := lines[..|lines| - 1];
      assert forall i :: 0 <= i < |front| ==> front[i] == lines[i];
      match Run(front)
      case None => None
      case Some(st) => StepKeeps(st, lines[|lines| - 1]); Step(st, lines[|lines| - 1])
  }

  /** One line fails exactly when it is a `Fails` line, and a success keeps the keys distinct. */
  lemma StepKeeps(st: State, line: string)
    requires UniqueKeys(st.dirs)
    ensures Step(st, line).None? <==> Fails(line)
    ensures Step(st, line).Some? ==> UniqueKeys(Step(st, line).value.dirs)
  {
  }

  /** A line the session cannot get past. */
  predicate Fails(line: string)
  {
    !StartsWith(line, "dir") && !StartsWith(line, "$ ls") && |Words(line)| == 2 && FileSize(line).None?
  }

  /** No file is listed with a negative size. */
  predicate NoNegativeFile(lines: seq<string>)
  {
    forall i :: 0 <= i < |lines| && FileSize(lines[i]).Some? ==> FileSize(lines[i]).value >= 0
  }

  /** No line is `$ cd .`. */
  predicate NoCdDot(lines: seq<string>)
  {
    forall i :: 0 <= i < |lines| ==> Words(lines[i]) != ["$", "cd", "."]
  }

  /** Without `$ cd .` the path never holds a `.` component. */
  lemma {:induction false} RunPlain(lines: seq<string>)
    requires NoCdDot(lines) && Run(lines).Some?
    ensures Plain(Run(lines).value.path)
  {
    if |lines| > 0 {
      var front := lines[..|lines| - 1];
      assert forall i :: 0 <= i < |front| ==> front[i] == lines[i];
      RunPlain(front);
      var path := Run(front).value.path;
      var w := Words(lines[|lines| - 1]);
      if w == ["$", "cd", ".."] {
        assert forall j :: 0 <= j < |path| - 1 ==> path[..|path| - 1][j] == path[j];
      } else if |w| == 3 && w[0] == "$" && w[1] == "cd" {
        assert w[2] != ".";
        assert forall j :: 0 <= j < |path| ==> (path + [w[2]])[j] == path[j];
      }
    }
  }

  /** With non-negative file sizes and no `$ cd .`, every directory is at
      least as large as each of its subdirectories. */
  lemma {:induction false} RunNested(lines: seq<string>)
    requires NoNegativeFile(lines) && NoCdDot(lines) && Run(lines).Some?
    ensures Nested(Run(lines).value.dirs)
  {
    if |lines| > 0 {
      var front := lines[..|lines| - 1];
      assert forall i :: 0 <= i < |front| ==> front[i] == lines[i];
      RunNested(front);
      RunPlain(front);
      var st := Run(front).value;
      var line := lines[|lines| - 1];
      if FileSize(line).Some? {
        AddFileNested(st.dirs, st.path, FileSize(line).value);
      }
    }
  }

  /** After `$ cd /`, `$ cd a`, `$ cd .` a file of size `v` is added to
      `/a` twice, since `/a/.` and `/a` are the same `PathBuf`; so `/a`
      ends up larger than its parent `/`. */
  lemma CdDotCountsTwice(a: string, v: int)
    requires v > 0 && a != "." && !Absolute(a)
    ensures var ds := AddAll([], Prefixes(["/", a, "."]), v);
      Size(ds, ["/", a]) == 2 * v && Size(ds, ["/"]) == v && !Nested(ds)
  {
    var p1, p2, p3 := ["/"], ["/", a], ["/", a, "."];
    assert p3[..2] == p2 && p2[..1] == p1 && p1[..0] == [];
    assert KeyOf(p1) == p1;
    assert KeyOf(p2) == KeyOf(p1) + [a] == p2;
    assert KeyOf(p3) == p2;
    assert Prefixes(p1) == [p1];
    assert Prefixes(p2) == [p1, p2];
    var ks := Prefixes(p3);
    assert ks == [p1, p2, p2];
    var one: seq<Key> := [p1];
    assert ks[..2] == [p1, p2] && ks[..2][..1] == one && one[..0] == [];
    assert p1 != p2;
    assert Count([p1], p1) == 1 && Count([p1], p2) == 0;
    assert Count([p1, p2], p1) == 1 && Count([p1, p2], p2) == 1;
    assert Count(ks, p2) == 2 && Count(ks, p1) == 1;
    var ds := AddAll([], ks, v);
    AddAllEffect([], ks, v, p2);
    AddAllEffect([], ks, v, p1);
    assert Has(ds, p2) && |p2| > 1 && Parent(p2) == p1;
  }

  /* ---------------------------------------------------------------- */
  /* The answers                                                       */
  /* ---------------------------------------------------------------- */

  /** The sum of the sizes of at most 100000. */
  function SmallTotal(ds: seq<Dir>): (r: int)
    ensures (forall i :: 0 <= i < |ds| ==> ds[i].size >= 0) ==> 0 <= r <= 100000 * |ds|
    ensures (forall i :: 0 <= i < |ds| ==> ds[i].size >= 0) ==>
              (r == 0 <==> forall i :: 0 <= i < |ds| ==> ds[i].size == 0 || ds[i].size > 100000)
  {
    if |ds| == 0 then 0
    else
      var front := ds[..|ds| - 1];
      assert forall i :: 0 <= i < |front| ==> front[i] == ds[i];
      var s := ds[|ds| - 1].size;
      SmallTotal(front) + (if s <= 100000 then s else 0)
  }

  /** Deleting a directory of size `s` leaves enough room. */
  predicate Frees(usable: int, s: int)
  {
    usable + s >= 30000000
  }

  /** The smallest size that frees enough room; `None` when none does. */
  function SmallestFreeing(ds: seq<Dir>, usable: int): (r: Option<int>)
    ensures r.Some? <==> exists i :: 0 <= i < |ds| && Frees(usable, ds[i].size)
    ensures r.Some? ==> Frees(usable, r.value) && exists i :: 0 <= i < |ds| && ds[i].size == r.value
    ensures r.Some? ==> forall i :: 0 <= i < |ds| && Frees(usable, ds[i].size) ==> r.value <= ds[i].size
  {
    if |ds| == 0 then None
    else
      var front := ds[..|ds| - 1];
      assert forall i :: 0 <= i < |front| ==> front[i] == ds[i];
      var s := ds[|ds| - 1].size;
      var rest := SmallestFreeing(front, usable);
      if !Frees(usable, s) then rest
      else if rest.None? || s < rest.value then Some(s)
      else rest
  }

  /** Both answers from the table. Without a size for the root "/" the
      source's `unwrap` fails, here `None`; otherwise the root itself frees
      enough room, so part two always has an answer, no larger than the
      root. */
  function Answers(ds: seq<Dir>): (r: Option<(int, int)>)
    ensures r.Some? <==> Has(ds, ["/"])
    ensures r.Some? ==> r.value.0 == SmallTotal(ds)
    ensures r.Some? ==> r.value.1 <= Size(ds, ["/"])
    ensures r.Some? ==> SmallestFreeing(ds, 70000000 - Size(ds, ["/"])) == Some(r.value.1)
  {
    if !Has(ds, ["/"]) then None
    else
      var usable := 70000000 - Size(ds, ["/"]);
      var i := RootIndex(ds);
      Some((SmallTotal(ds), SmallestFreeing(ds, usable).value))
  }

  /** The entry that holds the root's size. */
  function RootIndex(ds: seq<Dir>): (i: nat)
    requires Has(ds, ["/"])
    ensures i < |ds| && ds[i].size == Size(ds, ["/"])
  {
    if ds[0].key == ["/"] then 0 else RootIndex(ds[1..]) + 1
  }

  function Solve(lines: seq<string>): (r: Option<(int, int)>)
    ensures r.Some? <==> Run(lines).Some? && Has(Run(lines).value.dirs, ["/"])
    ensures r.Some? ==> r == Answers(Run(lines).value.dirs)
  {
    match Run(lines)
    case None => None
    case Some(st) => Answers(st.dirs)
  }

  /** With unique keys, the size recorded for an entry's key is its own. */
  lemma {:induction false} SizeAt(ds: seq<Dir>, i: nat)
    requires UniqueKeys(ds) && i < |ds|
    ensures Size(ds, ds[i].key) == ds[i].size
  {
    if i > 0 {
      SizeAt(ds[1..], i - 1);
    }
  }
}

=== FILE: day08.dfy ===
/**
 Day 8: treetop tree house. A grid of tree heights (digits) is swept along
 every row and column in both directions. One sweep marks the trees taller
 than everything before them; the other measures, with a stack of
 (height, index) pairs, how far each tree sees back along the sweep. Part
 one counts the trees visible from some edge, part two takes the largest
 product of the four viewing distances.
 */
module Day08 {
  import opened Common

  type Grid = seq<seq<int>>

  predicate Digits(line: seq<int>)
  {
    forall k :: 0 <= k < |line| ==> 0 <= line[k] <= 9
  }

  /** Every tree before position `i` is strictly lower. */
  predicate TallerThanAll(line: seq<int>, i: nat)
    requires i < |line|
  {
    forall j :: 0 <= j < i ==> line[j] < line[i]
  }

  /** `process_outside` along one line: the running maximum starts at -1,
      so the first tree is always marked. */
  method VisibleSweep(line: seq<int>) returns (flags: seq<bool>)
    requires Digits(line)
    ensures |flags| == |line|
    ensures forall i :: 0 <= i < |line| ==> (flags[i] <==> TallerThanAll(line, i))
  {
    var max := -1;
    flags := [];
    var i := 0;
    while i < |line|
      invariant 0 <= i <= |line| && |flags| == i
      invariant forall j :: 0 <= j < i ==> (flags[j] <==> TallerThanAll(line, j))
      invariant forall j :: 0 <= j < i ==> line[j] <= max
      invariant i == 0 ==> max == -1
      invariant i > 0 ==> exists j :: 0 <= j < i && line[j] == max
    {
      var taller := line[i] > max;
      if taller {
        max := line[i];
      }
      flags := flags + [taller];
      i := i + 1;
    }
  }

  /** The position of the nearest tree before `i` that is at least as tall
      as tree `i`, or 0, standing for the edge, when there is none. */
  function Blocker(line: seq<int>, i: nat): (b: nat)
    requires i < |line|
    ensures b <= i && (i > 0 ==> b < i)
    ensures forall j :: b < j < i ==> line[j] < line[i]
    ensures b > 0 ==> line[b] >= line[i]
    ensures b == 0 && i > 0 && line[0] < line[i] ==> TallerThanAll(line, i)
  {
    BlockerFrom(line, i, i)
  }

  function BlockerFrom(line: seq<int>, i: nat, k: nat): (b: nat)
    requires i < |line| && k <= i
    requires forall j :: k <= j < i ==> line[j] < line[i]
    ensures b <= k && (k > 0 ==> b < k)
    ensures forall j :: b < j < i ==> line[j] < line[i]
    ensures b > 0 ==> line[b] >= line[i]
    ensures b == 0 && k > 0 && line[0] < line[i] ==> TallerThanAll(line, i)
  {
    if k == 0 then 0
    else if line[k - 1] >= line[i] then k - 1
    else BlockerFrom(line, i, k - 1)
  }

  /** The blocker is the one position below `k` with only lower trees
      after it that is itself at least as tall, or the edge. */
  lemma {:induction false} BlockerFromIs(line: seq<int>, i: nat, k: nat, t: nat)
    requires i < |line| && k <= i
    requires forall j :: k <= j < i ==> line[j] < line[i]
    requires t <= k && (t < k || k == 0)
    requires forall j :: t < j < k ==> line[j] < line[i]
    requires t > 0 ==> line[t] >= line[i]
    ensures BlockerFrom(line, i, k) == t
    decreases k
  {
    if k > 0 && line[k - 1] < line[i] {
      BlockerFromIs(line, i, k - 1, t);
    }
  }

  /** How many trees tree `i` sees looking back: up to and including the
      nearest tree at least as tall, or up to the edge. */
  function ViewDistance(line: seq<int>, i: nat): nat
    requires i < |line|
  {
    i - Blocker(line, i)
  }

  /** `process_scenic` along one line. The stack starts with the sentinel
      (10, 0), taller than any digit, so it is never popped; only strictly
      lower trees are popped, so the top left afterwards is the nearest
      blocker. */
  method ScenicSweep(line: seq<int>) returns (d: seq<int>)
    requires Digits(line)
    ensures |d| == |line|
    ensures forall i :: 0 <= i < |line| ==> d[i] == ViewDistance(line, i)
  {
    var stack: seq<(int, int)> := [(10, 0)];
    d := [];
    var i := 0;
    while i < |line|
      invariant 0 <= i <= |line| && |d| == i
      invariant Distances(line, d)
      invariant StackShape(line, stack, i) && Prev(stack, |stack|) == i - 1
    {
      var h := line[i];
      stack := PopLower(line, stack, i);
      var top := stack[|stack| - 1];
      TopIsBlocker(line, stack, i);
      DistancesSnoc(line, d, i - top.1);
      d := d + [i - top.1];
      stack := stack + [(h, i)];
      i := i + 1;
    }
  }

  /** The inner loop of `process_scenic`: pops every entry lower than tree
      `i`. Afterwards the top is at least as tall as tree `i` and every
      tree between it and `i` is lower. */
  method PopLower(line: seq<int>, stack: seq<(int, int)>, i: nat) returns (s: seq<(int, int)>)
    requires i < |line| && Digits(line)
    requires StackShape(line, stack, i) && Prev(stack, |stack|) == i - 1
    ensures StackShape(line, s, i) && s[|s| - 1].0 >= line[i]
    ensures LowerAbove(line, s, i, line[i])
  {
    var h := line[i];
    s := stack;
    while s[|s| - 1].0 < h
      invariant StackShape(line, s, i)
      invariant LowerAbove(line, s, i, h)
      decreases |s|
    {
      PopStep(line, s, i, h);
      s := s[..|s| - 1];
    }
  }

  ghost predicate Distances(line: seq<int>, d: seq<int>)
    requires |d| <= |line|
  {
    forall j :: 0 <= j < |d| ==> d[j] == ViewDistance(line, j)
  }

  lemma DistancesSnoc(line: seq<int>, d: seq<int>, v: int)
    requires |d| < |line| && Distances(line, d) && v == ViewDistance(line, |d|)
    ensures Distances(line, d + [v])
  {
    assert forall j :: 0 <= j < |d| ==> (d + [v])[j] == d[j];
  }

  /** The index of the entry below entry `k`, or -1 below the sentinel's
      successor. */
  function Prev(stack: seq<(int, int)>, k: nat): int
    requires k <= |stack|
  {
    if k <= 1 then -1 else stack[k - 1].1
  }

  /** The stack before position `i`: the sentinel, then (height, index)
      pairs of earlier trees with increasing indices and non-increasing
      heights; every tree between two entries is lower than the later
      one. */
  ghost predicate StackShape(line: seq<int>, stack: seq<(int, int)>, i: nat)
  {
    && |stack| >= 1 && stack[0] == (10, 0) && i <= |line|
    && (forall k :: 1 <= k < |stack| ==> 0 <= stack[k].1 < i && stack[k].0 == line[stack[k].1])
    && (forall k :: 1 <= k < |stack| ==> stack[k - 1].0 >= stack[k].0)
    && (forall k :: 2 <= k < |stack| ==> stack[k - 1].1 < stack[k].1)
    && Gaps(line, stack)
  }

  ghost predicate Gaps(line: seq<int>, stack: seq<(int, int)>)
  {
    forall k, j :: 1 <= k < |stack| && Prev(stack, k) < j < stack[k].1 && 0 <= j < |line| ==> line[j] < stack[k].0
  }

  /** Every tree between the top entry and position `i` is lower than `h`. */
  ghost predicate LowerAbove(line: seq<int>, stack: seq<(int, int)>, i: nat, h: int)
    requires |stack| >= 1 && i <= |line|
  {
    forall j :: Prev(stack, |stack|) < j < i && 0 <= j ==> line[j] < h
  }

  /** Popping a lower top extends the stretch of lower trees down to the
      entry below it. */
  lemma PopStep(line: seq<int>, stack: seq<(int, int)>, i: nat, h: int)
    requires i < |line| && Digits(line) && h == line[i]
    requires StackShape(line, stack, i) && stack[|stack| - 1].0 < h
    requires LowerAbove(line, stack, i, h)
    ensures |stack| >= 2
    ensures StackShape(line, stack[..|stack| - 1], i) && LowerAbove(line, stack[..|stack| - 1], i, h)
  {
    assert stack[0].0 == 10 && h < 10;
    DropShape(line, stack, i);
    var n := |stack| - 1;
    forall j | Prev(stack, n) < j < stack[n].1 && 0 <= j
      ensures line[j] < stack[n].0
    {
    }
    DropLower(line, stack, i, h);
  }

  /** Dropping the top entry keeps the shape of the stack. */
  lemma DropShape(line: seq<int>, stack: seq<(int, int)>, i: nat)
    requires StackShape(line, stack, i) && |stack| >= 2
    ensures StackShape(line, stack[..|stack| - 1], i)
  {
    var s := stack[..|stack| - 1];
    assert forall k :: 0 <= k < |s| ==> s[k] == stack[k];
    forall k, j | 1 <= k < |s| && Prev(s, k) < j < s[k].1 && 0 <= j < |line|
      ensures line[j] < s[k].0
    {
      assert Prev(s, k) == Prev(stack, k);
    }
  }

  /** Dropping a top lower than `h` extends the stretch of trees lower
      than `h` down to the entry below it. */
  lemma DropLower(line: seq<int>, stack: seq<(int, int)>, i: nat, h: int)
    requires |stack| >= 2 && i <= |line|
    requires 0 <= stack[|stack| - 1].1 < i && line[stack[|stack| - 1].1] == stack[|stack| - 1].0 < h
    requires forall j :: Prev(stack, |stack| - 1) < j < stack[|stack| - 1].1 && 0 <= j ==> line[j] < stack[|stack| - 1].0
    requires LowerAbove(line, stack, i, h)
    ensures LowerAbove(line, stack[..|stack| - 1], i, h)
  {
    var n := |stack| - 1;
    var s := stack[..n];
    assert Prev(s, n) == Prev(stack, n);
    forall j | Prev(s, n) < j < i && 0 <= j
      ensures line[j] < h
    {
      if j < stack[n].1 {
        assert line[j] < stack[n].0;
      }
    }
  }

  /** Once no lower top is left, the top is the nearest blocker, and the
      new tree can go on top. */
  lemma TopIsBlocker(line: seq<int>, stack: seq<(int, int)>, i: nat)
    requires i < |line| && Digits(line)
    requires StackShape(line, stack, i) && stack[|stack| - 1].0 >= line[i]
    requires LowerAbove(line, stack, i, line[i])
    ensures stack[|stack| - 1].1 == Blocker(line, i)
    ensures StackShape(line, stack + [(line[i], i)], i + 1)
  {
    BlockerFromIs(line, i, i, stack[|stack| - 1].1);
    PushShape(line, stack, i);
  }

  /** The new tree goes on top of a top at least as tall as it. */
  lemma PushShape(line: seq<int>, stack: seq<(int, int)>, i: nat)
    requires i < |line|
    requires StackShape(line, stack, i) && stack[|stack| - 1].0 >= line[i]
    requires LowerAbove(line, stack, i, line[i])
    ensures StackShape(line, stack + [(line[i], i)], i + 1)
  {
    var s := stack + [(line[i], i)];
    var n := |stack|;
    assert forall k :: 0 <= k < n ==> s[k] == stack[k];
    assert s[n] == (line[i], i);
    forall k | 1 <= k < |s|
      ensures 0 <= s[k].1 < i + 1 && s[k].0 == line[s[k].1] && s[k - 1].0 >= s[k].0
    {
    }
    forall k | 2 <= k < |s|
      ensures s[k - 1].1 < s[k].1
    {
    }
    forall k, j | 1 <= k < |s| && Prev(s, k) < j < s[k].1 && 0 <= j < |line|
      ensures line[j] < s[k].0
    {
      assert Prev(s, k) == Prev(stack, k);
    }
  }

  /* ---------------------------------------------------------------- */
  /* The grid                                                          */
  /* ---------------------------------------------------------------- */

  /** A grid the sweeps can run on: at least one row, a first row of at
      least one tree that fixes the width, no row narrower, all digits. */
  predicate WellShaped(g: Grid)
  {
    && |g| >= 1 && |g[0]| >= 1
    && (forall x :: 0 <= x < |g| ==> |g[x]| >= |g[0]| && Digits(g[x]))
  }

  function Row(g: Grid, x: nat): (r: seq<int>)
    requires WellShaped(g) && x < |g|
    ensures |r| == |g[0]| && Digits(r)
  {
    g[x][..|g[0]|]
  }

  function Column(g: Grid, y: nat): (c: seq<int>)
    requires WellShaped(g) && y < |g[0]|
    ensures |c| == |g| && Digits(c)
    ensures forall x :: 0 <= x < |g| ==> c[x] == g[x][y]
  {
    seq(|g|, x requires 0 <= x < |g| => g[x][y])
  }

  /** A tree is marked by one of the four sweeps: along its row from
      either end or along its column from either end. */
  predicate VisibleAt(g: Grid, x: nat, y: nat)
    requires WellShaped(g) && x < |g| && y < |g[0]|
  {
    var r := Row(g, x);
    var c := Column(g, y);
    || TallerThanAll(r, y) || TallerThanAll(Reverse(r), |r| - 1 - y)
    || TallerThanAll(c, x) || TallerThanAll(Reverse(c), |c| - 1 - x)
  }

  /** The trees between (x, y) and the west, east, north and south edge
      are all strictly lower than it. */
  ghost predicate ClearWest(g: Grid, x: nat, y: nat)
    requires x < |g| && y < |g[x]|
  {
    forall k :: 0 <= k < y ==> g[x][k] < g[x][y]
  }

  ghost predicate ClearEast(g: Grid, x: nat, y: nat)
    requires WellShaped(g) && x < |g| && y < |g[0]|
  {
    forall k :: y < k < |g[0]| ==> g[x][k] < g[x][y]
  }

  ghost predicate ClearNorth(g: Grid, x: nat, y: nat)
    requires WellShaped(g) && x < |g| && y < |g[0]|
  {
    forall k :: 0 <= k < x ==> g[k][y] < g[x][y]
  }

  ghost predicate ClearSouth(g: Grid, x: nat, y: nat)
    requires WellShaped(g) && x < |g| && y < |g[0]|
  {
    forall k :: x < k < |g| ==> g[k][y] < g[x][y]
  }

  /** Visibility in the grid's own terms: all trees between the tree and
      one of the four edges are strictly lower. */
  lemma VisibleMeaning(g: Grid, x: nat, y: nat)
    requires WellShaped(g) && x < |g| && y < |g[0]|
    ensures VisibleAt(g, x, y) <==> ClearWest(g, x, y) || ClearEast(g, x, y) || ClearNorth(g, x, y) || ClearSouth(g, x, y)
  {
    RowClear(g, x, y);
    ColumnClear(g, x, y);
  }

  lemma RowClear(g: Grid, x: nat, y: nat)
    requires WellShaped(g) && x < |g| && y < |g[0]|
    ensures TallerThanAll(Row(g, x), y) <==> ClearWest(g, x, y)
    ensures TallerThanAll(Reverse(Row(g, x)), |g[0]| - 1 - y) <==> ClearEast(g, x, y)
  {
    var r := Row(g, x);
    assert forall k :: 0 <= k < |r| ==> r[k] == g[x][k];
    ReverseTaller(r, y);
  }

  lemma ColumnClear(g: Grid, x: nat, y: nat)
    requires WellShaped(g) && x < |g| && y < |g[0]|
    ensures TallerThanAll(Column(g, y), x) <==> ClearNorth(g, x, y)
    ensures TallerThanAll(Reverse(Column(g, y)), |g| - 1 - x) <==> ClearSouth(g, x, y)
  {
    ReverseTaller(Column(g, y), x);
  }

  /** Looking from the far end: tree `i` is taller than everything after
      it exactly when it is taller than everything before it in the
      reversed line. */
  lemma ReverseTaller(line: seq<int>, i: nat)
    requires i < |line|
    ensures (forall k :: i < k < |line| ==> line[k] < line[i]) <==> TallerThanAll(Reverse(line), |line| - 1 - i)
  {
    var rl := Reverse(line);
    if TallerThanAll(rl, |line| - 1 - i) {
      forall k | i < k < |line|
        ensures line[k] < line[i]
      {
        assert rl[|line| - 1 - k] == line[k];
      }
    }
  }

  /** Every tree on the edge is visible. */
  lemma EdgeVisible(g: Grid, x: nat, y: nat)
    requires WellShaped(g) && x < |g| && y < |g[0]|
    requires x == 0 || y == 0 || x == |g| - 1 || y == |g[0]| - 1
    ensures VisibleAt(g, x, y)
  {
    VisibleMeaning(g, x, y);
  }

  /** The product of the four viewing distances, as the four scenic
      sweeps multiply it into a cell that starts at 1. */
  function ScenicAt(g: Grid, x: nat, y: nat): int
    requires WellShaped(g) && x < |g| && y < |g[0]|
  {
    var r := Row(g, x);
    var c := Column(g, y);
    var a := ViewDistance(r, y) * ViewDistance(Reverse(r), |r| - 1 - y);
    var b := ViewDistance(c, x) * ViewDistance(Reverse(c), |c| - 1 - x);
    a * b
  }

  /** A tree on the edge sees nothing in one direction, so its score is 0. */
  lemma EdgeScenicZero(g: Grid, x: nat, y: nat)
    requires WellShaped(g) && x < |g| && y < |g[0]|
    requires x == 0 || y == 0 || x == |g| - 1 || y == |g[0]| - 1
    ensures ScenicAt(g, x, y) == 0
  {
    var r := Row(g, x);
    var c := Column(g, y);
    var left: int, right: int := ViewDistance(r, y), ViewDistance(Reverse(r), |r| - 1 - y);
    var up: int, down: int := ViewDistance(c, x), ViewDistance(Reverse(c), |c| - 1 - x);
    if y == 0 {
      assert left == 0;
    } else if y == |g[0]| - 1 {
      assert right == 0;
    } else if x == 0 {
      assert up == 0;
    } else {
      assert down == 0;
    }
    ZeroProduct(left, right, up, down);
  }

  lemma ZeroProduct(a: int, b: int, c: int, d: int)
    requires a == 0 || b == 0 || c == 0 || d == 0
    ensures (a * b) * (c * d) == 0
  {
  }

  /** A matrix of at least one row, every row `w >= 1` wide. */
  predicate Rect<T>(m: seq<seq<T>>, w: nat)
  {
    |m| >= 1 && w >= 1 && forall x :: 0 <= x < |m| ==> |m[x]| == w
  }

  /** Cell (a, b) comes at or after cell (x, y) in row-major order. */
  predicate AtOrAfter(x: nat, y: nat, a: nat, b: nat)
  {
    a > x || (a == x && b >= y)
  }

  /** The number of set flags from cell (x, y) on: positive exactly when
      some flag there is set. */
  function CountSet(m: seq<seq<bool>>, w: nat, x: nat, y: nat): (n: nat)
    requires Rect(m, w) && x <= |m| && y <= w
    ensures n > 0 <==> exists a: nat, b: nat :: a < |m| && b < w && AtOrAfter(x, y, a, b) && m[a][b]
    decreases |m| - x, w - y
  {
    if x == |m| then 0
    else if y == w then CountSet(m, w, x + 1, 0)
    else (if m[x][y] then 1 else 0) + CountSet(m, w, x, y + 1)
  }

  /** The largest entry from cell (x, y) on. */
  function Largest(m: seq<seq<int>>, w: nat, x: nat, y: nat): (v: int)
    requires Rect(m, w) && x < |m| && y < w
    ensures exists a: nat, b: nat :: a < |m| && b < w && AtOrAfter(x, y, a, b) && m[a][b] == v
    ensures forall a: nat, b: nat :: a < |m| && b < w && AtOrAfter(x, y, a, b) ==> m[a][b] <= v
    decreases |m| - x, w - y
  {
    if y + 1 < w then
      Max(m[x][y], Largest(m, w, x, y + 1))
    else if x + 1 < |m| then
      Max(m[x][y], Largest(m, w, x + 1, 0))
    else m[x][y]
  }

  /** The visible flags and the scenic scores of every cell, as the four
      sweeps over every row and column leave them. */
  function Flags(g: Grid): (f: seq<seq<bool>>)
    requires WellShaped(g)
    ensures Rect(f, |g[0]|) && |f| == |g|
    ensures forall x, y :: 0 <= x < |g| && 0 <= y < |g[0]| ==> (f[x][y] <==> VisibleAt(g, x, y))
  {
    seq(|g|, x requires 0 <= x < |g| => seq(|g[0]|, y requires 0 <= y < |g[0]| => VisibleAt(g, x, y)))
  }

  function Scores(g: Grid): (s: seq<seq<int>>)
    requires WellShaped(g)
    ensures Rect(s, |g[0]|) && |s| == |g|
    ensures forall x, y :: 0 <= x < |g| && 0 <= y < |g[0]| ==> s[x][y] == ScenicAt(g, x, y)
  {
    seq(|g|, x requires 0 <= x < |g| => seq(|g[0]|, y requires 0 <= y < |g[0]| => ScenicAt(g, x, y)))
  }

  lemma LargestScore(g: Grid)
    requires WellShaped(g)
    ensures var best := Largest(Scores(g), |g[0]|, 0, 0);
      exists a, b :: 0 <= a < |g| && 0 <= b < |g[0]| && best == ScenicAt(g, a, b)
    ensures var best := Largest(Scores(g), |g[0]|, 0, 0);
      forall a, b :: 0 <= a < |g| && 0 <= b < |g[0]| ==> ScenicAt(g, a, b) <= best
  {
    var s := Scores(g);
    var best := Largest(s, |g[0]|, 0, 0);
    forall a, b | 0 <= a < |g| && 0 <= b < |g[0]|
      ensures ScenicAt(g, a, b) <= best
    {
      assert AtOrAfter(0, 0, a, b);
      assert s[a][b] <= best;
    }
    var a: nat, b: nat :| a < |s| && b < |g[0]| && AtOrAfter(0, 0, a, b) && s[a][b] == best;
    assert best == ScenicAt(g, a, b);
  }

  /** Both answers: the number of visible trees, at least one since the
      corners are, and the best scenic score, which some tree attains and
      no tree exceeds. `None` for an empty grid or a row narrower than the
      first, where the source indexes past the end. */
  function Solve(g: Grid): (r: Option<(int, int)>)
    ensures r.Some? <==> WellShaped(g)
    ensures r.Some? ==> r.value.0 >= 1
    ensures r.Some? ==> r.value.0 == CountSet(Flags(g), |g[0]|, 0, 0)
    ensures r.Some? ==> exists a, b :: 0 <= a < |g| && 0 <= b < |g[0]| && r.value.1 == ScenicAt(g, a, b)
    ensures r.Some? ==> forall a, b :: 0 <= a < |g| && 0 <= b < |g[0]| ==> ScenicAt(g, a, b) <= r.value.1
  {
    if !WellShaped(g) then None
    else
      var f := Flags(g);
      var s := Scores(g);
      EdgeVisible(g, 0, 0);
      assert f[0][0] && AtOrAfter(0, 0, 0, 0);
      var best := Largest(s, |g[0]|, 0, 0);
      LargestScore(g);
      Some((CountSet(f, |g[0]|, 0, 0), best))
  }

  /** One row of digits; any other character is the source's `unwrap`
      failure. */
  function ParseRow(s: string): (r: Option<seq<int>>)
    ensures r.Some? <==> AllDigits(s)
    ensures r.Some? ==> |r.value| == |s| && Digits(r.value)
    ensures r.Some? ==> forall k :: 0 <= k < |s| ==> r.value[k] == DigitValue(s[k])
  {
    if AllDigits(s) then Some(seq(|s|, k requires 0 <= k < |s| => DigitValue(s[k]))) else None
  }

  function Parse(lines: seq<string>): (r: Option<Grid>)
    ensures r.Some? <==> forall i :: 0 <= i < |lines| ==> AllDigits(lines[i])
    ensures r.Some? ==> |r.value| == |lines|
    ensures r.Some? ==> forall i :: 0 <= i < |lines| ==> |r.value[i]| == |lines[i]| && Digits(r.value[i])
    ensures r.Some? ==> forall i, k :: 0 <= i < |lines| && 0 <= k < |lines[i]| ==> r.value[i][k] == DigitValue(lines[i][k])
  {
    ParseAll(lines, ParseRow)
  }
}

=== FILE: day09.dfy ===
/**
 Day 9: a rope of knots on a grid. The head moves one cell at a time;
 every other knot follows its predecessor whenever the two stop touching.
 The answers count the distinct cells the last knot visits.
 */
module Day09 {
  import opened Common

  datatype Pos = Pos(x: int, y: int)

  /** One unit step of the head: L, R, U or D. */
  datatype Dir = Left | Right | Up | Down

  datatype Move = Move(dir: char, steps: int)

  function Delta(d: Dir): Pos
  {
    match d
    case Left => Pos(-1, 0)
    case Right => Pos(1, 0)
    case Up => Pos(0, 1)
    case Down => Pos(0, -1)
  }

  /** The larger of the two axis distances. */
  function Chebyshev(a: Pos, b: Pos): nat
  {
    Max(Abs(a.x - b.x), Abs(a.y - b.y))
  }

  /** One step of `d` toward `target` along an axis: -1, 0 or +1. */
  function StepToward(target: int, d: int): (r: int)
    ensures -1 <= r <= 1
    ensures Abs(target - (d + r)) == if target == d then 0 else Abs(target - d) - 1
  {
    if target < d then -1 else if target > d then 1 else 0
  }

  /** How a follower reacts to its (already moved) predecessor: it stays
      while the two touch, and otherwise moves one cell toward it on
      every axis where they differ. */
  function Follow(head: Pos, tail: Pos): (t: Pos)
    ensures Chebyshev(head, tail) <= 1 ==> t == tail
    ensures Chebyshev(head, tail) > 1 ==> Chebyshev(head, t) == Chebyshev(head, tail) - 1
    ensures Abs(t.x - tail.x) <= 1 && Abs(t.y - tail.y) <= 1
    ensures Abs(head.x - t.x) <= Abs(head.x - tail.x) && Abs(head.y - t.y) <= Abs(head.y - tail.y)
  {
    if Chebyshev(head, tail) > 1 then
      Pos(tail.x + StepToward(head.x, tail.x), tail.y + StepToward(head.y, tail.y))
    else tail
  }

  /** The knots after the head, each following the one just updated. */
  function FollowChain(prev: Pos, rest: seq<Pos>): (r: seq<Pos>)
    ensures |r| == |rest|
    ensures |rest| > 0 ==> r[0] == Follow(prev, rest[0])
    ensures forall i, j :: 0 <= i < j < |r| && j == i + 1 ==> r[j] == Follow(r[i], rest[j])
    decreases |rest|
  {
    if |rest| == 0 then []
    else
      var t := Follow(prev, rest[0]);
      var tail := FollowChain(t, rest[1..]);
      assert forall j :: 0 <= j < |tail| ==> rest[1..][j] == rest[j + 1];
      [t] + tail
  }

  /** `move_dir`: the head moves by exactly the direction vector, then
      the followers update front to back. */
  function MoveDir(knots: seq<Pos>, d: Dir): (r: seq<Pos>)
    requires |knots| >= 1
    ensures |r| == |knots|
    ensures r[0] == Pos(knots[0].x + Delta(d).x, knots[0].y + Delta(d).y)
  {
    var head := Pos(knots[0].x + Delta(d).x, knots[0].y + Delta(d).y);
    [head] + FollowChain(head, knots[1..])
  }

  lemma ChebyshevTriangle(a: Pos, b: Pos, c: Pos)
    ensures Chebyshev(a, c) <= Chebyshev(a, b) + Chebyshev(b, c)
  {
  }

  /** A rope is taut when every two consecutive knots touch. */
  predicate Taut(knots: seq<Pos>)
  {
    forall i :: 0 < i < |knots| ==> Chebyshev(knots[i - 1], knots[i]) <= 1
  }

  /** Dropping the first knot keeps a rope taut. */
  lemma TautTail(knots: seq<Pos>)
    requires Taut(knots) && |knots| > 0
    ensures Taut(knots[1..])
  {
    var rest := knots[1..];
    forall i | 0 < i < |rest| ensures Chebyshev(rest[i - 1], rest[i]) <= 1 {
      assert rest[i - 1] == knots[i] && rest[i] == knots[i + 1];
    }
  }

  /** A knot touching the first knot of a taut rope extends it. */
  lemma TautCons(p: Pos, knots: seq<Pos>)
    requires Taut(knots) && (|knots| > 0 ==> Chebyshev(p, knots[0]) <= 1)
    ensures Taut([p] + knots)
  {
    var r := [p] + knots;
    forall i | 0 < i < |r| ensures Chebyshev(r[i - 1], r[i]) <= 1 {
      if i > 1 {
        assert r[i - 1] == knots[i - 2] && r[i] == knots[i - 1];
      }
    }
  }

  lemma {:induction false} FollowChainTaut(prev: Pos, rest: seq<Pos>)
    requires Taut(rest)
    requires |rest| > 0 ==> Chebyshev(prev, rest[0]) <= 2
    ensures Taut([prev] + FollowChain(prev, rest))
    decreases |rest|
  {
    if |rest| > 0 {
      var t := Follow(prev, rest[0]);
      var tail := FollowChain(t, rest[1..]);
      TautTail(rest);
      if |rest| > 1 {
        assert Chebyshev(rest[0], rest[1]) <= 1;
        ChebyshevTriangle(t, rest[0], rest[1]);
      }
      FollowChainTaut(t, rest[1..]);
      assert Chebyshev(prev, t) <= 1;
      TautCons(prev, [t] + tail);
      assert FollowChain(prev, rest) == [t] + tail;
    }
  }

  /** A unit move of the head keeps a taut rope taut: no knot is ever
      left more than one cell behind its predecessor. */
  lemma MoveDirTaut(knots: seq<Pos>, d: Dir)
    requires |knots| >= 1
    ensures Taut(knots) ==> Taut(MoveDir(knots, d))
  {
    if Taut(knots) {
      var head := Pos(knots[0].x + Delta(d).x, knots[0].y + Delta(d).y);
      TautTail(knots);
      if |knots| > 1 {
        assert Chebyshev(knots[0], knots[1]) <= 1;
      }
      FollowChainTaut(head, knots[1..]);
      assert MoveDir(knots, d) == [head] + FollowChain(head, knots[1..]);
    }
  }

  /** The state of a rope: its knots and the set of cells the last knot
      has been seen at. */
  datatype Rope = Rope(knots: seq<Pos>, visited: set<Pos>)

  /** `Rope::new`: every knot at the origin, nothing visited yet. */
  function NewRope(size: nat): (r: Rope)
    requires size >= 1
    ensures |r.knots| == size && Taut(r.knots) && r.visited == {}
    ensures forall i :: 0 <= i < size ==> r.knots[i] == Pos(0, 0)
  {
    Rope(seq(size, _ => Pos(0, 0)), {})
  }

  function ParseDir(c: char): Option<Dir>
  {
    match c
    case 'L' => Some(Left)
    case 'R' => Some(Right)
    case 'U' => Some(Up)
    case 'D' => Some(Down)
    case _ => None
  }

  /** `n` unit steps in direction `d`, marking the last knot after each.
      A non-positive count is an empty range. */
  function Steps(rope: Rope, d: Dir, n: int): (r: Rope)
    requires |rope.knots| >= 1
    ensures |r.knots| == |rope.knots|
    ensures rope.visited <= r.visited
    ensures Taut(rope.knots) ==> Taut(r.knots)
    ensures n > 0 ==> r.knots[|r.knots| - 1] in r.visited
    ensures |r.visited| <= |rope.visited| + Max(n, 0)
    decreases n
  {
    if n <= 0 then rope
    else
      var moved := Steps(rope, d, n - 1);
      var knots := MoveDir(moved.knots, d);
      MoveDirTaut(moved.knots, d);
      Rope(knots, moved.visited + {knots[|knots| - 1]})
  }

  /** The number of unit steps the moves make; a negative count makes none. */
  function TotalSteps(moves: seq<Move>): nat
  {
    if |moves| == 0 then 0 else Max(moves[0].steps, 0) + TotalSteps(moves[1..])
  }

  /** `simulate`: every move in order; an unknown direction letter is the
      source's panic, here `None`. */
  function Simulate(rope: Rope, moves: seq<Move>): (r: Option<Rope>)
    requires |rope.knots| >= 1
    ensures r.Some? ==> |r.value.knots| == |rope.knots|
    ensures r.Some? ==> rope.visited <= r.value.visited
    ensures r.Some? && Taut(rope.knots) ==> Taut(r.value.knots)
    ensures r.None? <==> exists i :: 0 <= i < |moves| && ParseDir(moves[i].dir).None?
    ensures r.Some? ==> |r.value.visited| <= |rope.visited| + TotalSteps(moves)
    ensures r.Some? && TotalSteps(moves) > 0 ==> r.value.visited != {}
    decreases |moves|
  {
    if |moves| == 0 then Some(rope)
    else
      match ParseDir(moves[0].dir)
      case None => None
      case Some(d) =>
        var r := Simulate(Steps(rope, d, moves[0].steps), moves[1..]);
        assert forall i :: 0 < i < |moves| ==> moves[i] == moves[1..][i - 1];
        r
  }

  /** One line of `parse_movements`: the first character is the direction
      and the rest, trimmed, the step count. */
  function ParseMove(line: string): (r: Option<Move>)
    ensures r.Some? <==> |line| > 0 && ParseInt(Trim(line[1..])).Some?
    ensures r.Some? ==> r.value.dir == line[0] && ParseInt(Trim(line[1..])) == Some(r.value.steps)
  {
    if |line| == 0 then None
    else
      match ParseInt(Trim(line[1..]))
      case None => None
      case Some(n) => Some(Move(line[0], n))
  }

  /** `parse_movements`: one move per line. An empty line or a count that
      is not an integer is the source's `unwrap` failure, here `None`. */
  function ParseMovements(lines: seq<string>): (r: Option<seq<Move>>)
    ensures r.Some? ==> |r.value| == |lines|
    ensures r.Some? ==> forall i :: 0 <= i < |lines| ==>
      |lines[i]| > 0 && r.value[i].dir == lines[i][0]
      && ParseInt(Trim(lines[i][1..])) == Some(r.value[i].steps)
    ensures r.None? <==> exists i :: 0 <= i < |lines| && (|lines[i]| == 0 || ParseInt(Trim(lines[i][1..])).None?)
  {
    var r := ParseAll(lines, ParseMove);
    assert r.Some? ==> forall i :: 0 <= i < |lines| ==> Some(r.value[i]) == ParseMove(lines[i]);
    r
  }

  /** Both answers: the number of cells the tail of a 2-knot and of a
      10-knot rope visits. The tail moves at most once per unit step, so
      neither count exceeds the number of steps, and any step at all marks
      at least one cell. */
  function Solve(lines: seq<string>): (r: Option<(nat, nat)>)
    ensures r.Some? <==>
      (ParseMovements(lines).Some? && forall i :: 0 <= i < |lines| ==> ParseDir(lines[i][0]).Some?)
    ensures r.Some? ==> r.value.0 <= TotalSteps(ParseMovements(lines).value) && r.value.1 <= TotalSteps(ParseMovements(lines).value)
    ensures r.Some? && TotalSteps(ParseMovements(lines).value) > 0 ==> r.value.0 >= 1 && r.value.1 >= 1
  {
    match ParseMovements(lines)
    case None => None
    case Some(moves) =>
      var a := Simulate(NewRope(2), moves);
      var b := Simulate(NewRope(10), moves);
      if a.Some? && b.Some? then Some((|a.value.visited|, |b.value.visited|)) else None
  }
}

=== FILE: day10.dfy ===
/**
 Day 10: cathode-ray tube. A program of `addx v` and `noop` instructions
 drives one register X, starting at 1. The trace records X during every
 cycle (index 0 holds a placeholder -1, so index c is cycle c); part one
 sums six signal strengths, part two draws a 6 x 40 screen where a pixel
 is lit when the three-pixel sprite centred on X covers its column.
 */
module Day10 {
  import opened Common

  /** An instruction as parsed: the mnemonic and its value (0 for
      `noop`). Every mnemonic other than `addx` behaves as a `noop`. */
  datatype Instr = Instr(op: string, value: int)

  predicate IsAdd(ins: Instr)
  {
    ins.op == "addx"
  }

  /** Cycles an instruction takes. */
  function Cost(ins: Instr): (n: nat)
    ensures 1 <= n <= 2
  {
    if IsAdd(ins) then 2 else 1
  }

  function Cycles(prog: seq<Instr>): nat
  {
    if |prog| == 0 then 0 else Cycles(prog[..|prog| - 1]) + Cost(prog[|prog| - 1])
  }

  /** X once every instruction of `prog` has finished. */
  function XAfter(prog: seq<Instr>): int
  {
    if |prog| == 0 then 1
    else
      var last := prog[|prog| - 1];
      XAfter(prog[..|prog| - 1]) + (if IsAdd(last) then last.value else 0)
  }

  /** The `durations` vector: the placeholder, then X once per cycle, X
      staying put for both cycles of an `addx` and changing only after it. */
  function Trace(prog: seq<Instr>): (t: seq<int>)
    ensures |t| == 1 + Cycles(prog)
    ensures t[0] == -1
  {
    if |prog| == 0 then [-1]
    else
      var front := prog[..|prog| - 1];
      var x := XAfter(front);
      Trace(front) + (if IsAdd(prog[|prog| - 1]) then [x, x] else [x])
  }

  /** Running a longer program extends the trace of a shorter one. */
  lemma {:induction false} TracePrefix(prog: seq<Instr>, k: nat)
    requires k <= |prog|
    ensures Trace(prog[..k]) <= Trace(prog)
    decreases |prog|
  {
    if k < |prog| {
      var front := prog[..|prog| - 1];
      assert prog[..k] == front[..k];
      TracePrefix(front, k);
    } else {
      assert prog[..k] == prog;
    }
  }

  /** Instruction `k` starts in cycle `1 + Cycles(prog[..k])`, and in every
      cycle it occupies X still holds the value the earlier instructions
      left. */
  lemma InstructionCycles(prog: seq<Instr>, k: nat)
    requires k < |prog|
    ensures 1 + Cycles(prog[..k]) + Cost(prog[k]) <= |Trace(prog)|
    ensures Trace(prog)[1 + Cycles(prog[..k])] == XAfter(prog[..k])
    ensures IsAdd(prog[k]) ==> Trace(prog)[2 + Cycles(prog[..k])] == XAfter(prog[..k])
  {
    var p := prog[..k + 1];
    assert p[..k] == prog[..k];
    TracePrefix(prog, k + 1);
  }

  /** X after a program is 1 plus the values of its `addx` instructions. */
  lemma {:induction false} XAfterAppend(a: seq<Instr>, b: seq<Instr>)
    ensures XAfter(a + b) == XAfter(a) + XAfter(b) - 1
    decreases |b|
  {
    if |b| > 0 {
      assert (a + b)[..|a + b| - 1] == a + b[..|b| - 1];
      XAfterAppend(a, b[..|b| - 1]);
    } else {
      assert a + b == a;
    }
  }

  /** The cycles whose signal strength part one adds up. */
  const Probes: seq<int> := [20, 60, 100, 140, 180, 220]

  /** The sum of `c * X` over the cycles `cs`. */
  function Strength(t: seq<int>, cs: seq<int>): int
    requires forall i :: 0 <= i < |cs| ==> 0 <= cs[i] < |t|
  {
    if |cs| == 0 then 0 else Strength(t, cs[..|cs| - 1]) + t[cs[|cs| - 1]] * cs[|cs| - 1]
  }

  /** Part one: `None` when the trace does not reach cycle 220, where the
      source indexes past the end. A constant X of 1 gives 720, the sum of
      the probed cycles. */
  function SignalStrength(t: seq<int>): (r: Option<int>)
    ensures r.Some? <==> |t| > 220
    ensures r.Some? ==> r.value == Strength(t, Probes)
  {
    if |t| <= 220 then None else Some(Strength(t, Probes))
  }

  /** While X stays 1, every probe contributes its own cycle number, 720
      in all. */
  lemma UnitStrength(t: seq<int>)
    requires |t| > 220 && forall c :: 1 <= c < |t| ==> t[c] == 1
    ensures SignalStrength(t) == Some(720)
  {
    var p := Probes;
    assert p[..0] == [];
    assert p[..1][..0] == p[..0];
    assert p[..2][..1] == p[..1];
    assert p[..3][..2] == p[..2];
    assert p[..4][..3] == p[..3];
    assert p[..5][..4] == p[..4];
    assert p[..6][..5] == p[..5];
    assert p[..6] == p;
    assert Strength(t, p[..1]) == 20;
    assert Strength(t, p[..2]) == 80;
    assert Strength(t, p[..3]) == 180;
    assert Strength(t, p[..4]) == 320;
    assert Strength(t, p[..5]) == 500;
  }

  /** The screen column that cycle `c` draws. */
  function Column(c: int): (col: int)
    requires c >= 1
    ensures 0 <= col < 40
  {
    (c - 1) % 40
  }

  /** The source's test: X is less than 2 away from the column. */
  predicate Lit(t: seq<int>, c: nat)
    requires 1 <= c < |t|
  {
    Abs(t[c] - Column(c)) < 2
  }

  /** A pixel is lit exactly when one of the sprite's three pixels, at
      X - 1, X and X + 1, sits on the column being drawn. */
  lemma LitMeaning(t: seq<int>, c: nat)
    requires 1 <= c < |t|
    ensures Lit(t, c) <==> Column(c) in {t[c] - 1, t[c], t[c] + 1}
  {
  }

  const Full: char := '█'
  const Dark: char := ' '

  /** The pixels for cycles `c` to `c + n - 1`. */
  function Pixels(t: seq<int>, c: nat, n: nat): (row: string)
    requires 1 <= c && c + n <= |t|
    ensures |row| == n
    ensures forall k :: 0 <= k < n ==> (row[k] == Full <==> Lit(t, c + k))
    ensures forall k :: 0 <= k < n ==> row[k] in {Full, Dark}
    decreases n
  {
    if n == 0 then ""
    else [if Lit(t, c) then Full else Dark] + Pixels(t, c + 1, n - 1)
  }

  /** `n` rows of forty pixels, the first drawing cycles `c` to `c + 39`. */
  function Rows(t: seq<int>, c: nat, n: nat): (rows: seq<string>)
    requires 1 <= c && c + 40 * n <= |t|
    ensures |rows| == n
    ensures forall i :: 0 <= i < n ==> rows[i] == Pixels(t, c + 40 * i, 40)
  {
    seq(n, i requires 0 <= i < n => RowAt(t, c, n, i))
  }

  function RowAt(t: seq<int>, c: nat, n: nat, i: nat): (row: string)
    requires 1 <= c && c + 40 * n <= |t| && i < n
    ensures row == Pixels(t, c + 40 * i, 40)
  {
    assert 40 * i + 40 <= 40 * n;
    Pixels(t, c + 40 * i, 40)
  }

  /** Part two: six rows of forty pixels, row `i` drawing cycles
      `40 i + 1` to `40 i + 40`. `None` when the trace stops before cycle
      240. */
  function Screen(t: seq<int>): (r: Option<seq<string>>)
    ensures r.Some? <==> |t| > 240
    ensures r.Some? ==> |r.value| == 6
    ensures r.Some? ==> forall i :: 0 <= i < 6 ==> |r.value[i]| == 40
    ensures r.Some? ==> forall i, k :: 0 <= i < 6 && 0 <= k < 40 ==> (r.value[i][k] == Full <==> Lit(t, 1 + 40 * i + k))
  {
    if |t| <= 240 then None else Some(Rows(t, 1, 6))
  }

  /** Both answers, when the program runs for at least 240 cycles. */
  function Solve(prog: seq<Instr>): (r: Option<(int, seq<string>)>)
    ensures r.Some? <==> Cycles(prog) >= 240
    ensures r.Some? ==> Some(r.value.0) == SignalStrength(Trace(prog)) && Some(r.value.1) == Screen(Trace(prog))
  {
    var t := Trace(prog);
    match (SignalStrength(t), Screen(t))
    case (Some(p1), Some(p2)) => Some((p1, p2))
    case _ => None
  }

  /** One line: exactly `noop` is a `noop`; otherwise the first two words
      are the mnemonic and its value. A line with fewer than two words is
      skipped (`Some(None)`); a value that is not a number is the source's
      `unwrap` failure (`None`). */
  function ParseLine(line: string): (r: Option<Option<Instr>>)
    ensures line == "noop" ==> r == Some(Some(Instr("noop", 0)))
    ensures line != "noop" && |Words(line)| < 2 ==> r == Some(None)
    ensures r.None? <==> line != "noop" && |Words(line)| >= 2 && ParseInt(Words(line)[1]).None?
    ensures r.Some? && r.value.Some? && line != "noop" ==>
              r.value.value.op == Words(line)[0] && Some(r.value.value.value) == ParseInt(Words(line)[1])
  {
    if line == "noop" then Some(Some(Instr("noop", 0)))
    else
      var ws := Words(line);
      if |ws| < 2 then Some(None)
      else
        match ParseInt(ws[1])
        case Some(v) => Some(Some(Instr(ws[0], v)))
        case None => None
  }

  /** All lines, skipping those with fewer than two words. */
  function Parse(lines: seq<string>): (r: Option<seq<Instr>>)
    ensures r.Some? <==> forall i :: 0 <= i < |lines| ==> ParseLine(lines[i]).Some?
    ensures r.Some? ==> |r.value| <= |lines|
    ensures r.Some? && (forall i :: 0 <= i < |lines| ==> ParseLine(lines[i]).value.Some?) ==> |r.value| == |lines|
  {
    match ParseAll(lines, ParseLine)
    case None => None
    case Some(os) => Some(Present(os))
  }

  /** A parsed program holds one instruction per line that yields one, in
      the order of the lines: the instruction of line i sits right after
      those of the lines before it. */
  lemma ParseKept(lines: seq<string>, i: nat)
    requires Parse(lines).Some? && i < |lines| && ParseLine(lines[i]).value.Some?
    ensures Parse(lines[..i]).Some? && |Parse(lines[..i]).value| < |Parse(lines).value|
            && Parse(lines).value[|Parse(lines[..i]).value|] == ParseLine(lines[i]).value.value
  {
    ParseAllKept(lines, ParseLine);
  }

  /** Every instruction of a parsed program comes from a line, placed
      after the instructions of the lines before it. */
  lemma ParseFrom(lines: seq<string>, k: nat)
    requires Parse(lines).Some? && k < |Parse(lines).value|
    ensures exists i :: 0 <= i < |lines| && ParseLine(lines[i]) == Some(Some(Parse(lines).value[k]))
                        && Parse(lines[..i]).Some? && |Parse(lines[..i]).value| == k
  {
    ParseAllFrom(lines, ParseLine, k);
  }
}

=== FILE: day11.dfy ===
/**
 Day 11: monkeys pass items around. On its turn a monkey inspects every
 item it holds in order: the worry level goes through the monkey's
 operation, is relieved (divided by three in part one, reduced modulo the
 product of all divisors in part two), and the item is thrown to one of two
 monkeys depending on whether the new level is divisible by the monkey's
 divisor. The answer multiplies the two largest inspection counts.
 */
module Day11 {
  import opened Common

  /** `new = old <oper> <operand>`, the operand being "old" or a number. */
  datatype Operation = Operation(operand: string, oper: char)

  /** `test` holds the divisor, the target when divisible and the target
      otherwise. */
  datatype Monkey = Monkey(worries: seq<int>, operation: Operation, test: seq<int>)

  /** `Monkey::new`: no items, an empty operation and a zeroed test. */
  function NewMonkey(): (m: Monkey)
    ensures m.worries == [] && |m.test| == 3
  {
    Monkey([], Operation("", ' '), [0, 0, 0])
  }

  /* ---------------------------------------------------------------- */
  /* Well-formed monkeys                                               */
  /* ---------------------------------------------------------------- */

  /** An operation the solver can apply without panicking. */
  predicate ValidOperation(op: Operation)
  {
    (op.oper == '+' || op.oper == '*') && (op.operand == "old" || ParseInt(op.operand).Some?)
  }

  /** A monkey whose divisor is non-zero and whose targets exist. */
  predicate ValidMonkey(m: Monkey, n: nat)
  {
    |m.test| == 3 && m.test[0] != 0 && 0 <= m.test[1] < n && 0 <= m.test[2] < n
    && ValidOperation(m.operation)
  }

  predicate Valid(ms: seq<Monkey>)
  {
    forall i :: 0 <= i < |ms| ==> ValidMonkey(ms[i], |ms|)
  }

  /** Two troops that differ at most in the items held. */
  predicate SameShape(a: seq<Monkey>, b: seq<Monkey>)
  {
    |a| == |b| && forall i :: 0 <= i < |a| ==> a[i].operation == b[i].operation && a[i].test == b[i].test
  }

  /* ---------------------------------------------------------------- */
  /* One inspection                                                    */
  /* ---------------------------------------------------------------- */

  /** `calc_worry` with the operand resolved: "old" stands for the item's
      own level. */
  function Apply(op: Operation, w: int): (r: int)
    requires ValidOperation(op)
    ensures op.operand == "old" && op.oper == '+' ==> r == 2 * w
    ensures op.operand == "old" && op.oper == '*' ==> r == w * w
    ensures op.operand != "old" && op.oper == '+' ==> r == w + ParseInt(op.operand).value
    ensures op.operand != "old" && op.oper == '*' ==> r == w * ParseInt(op.operand).value
  {
    var v := if op.operand == "old" then w else ParseInt(op.operand).value;
    if op.oper == '+' then w + v else w * v
  }

  /** How worry is relieved after an inspection, chosen by the `part`
      string: "1" divides by three, "2" reduces modulo the product of the
      divisors, any other string leaves the level alone. */
  datatype Relief = ByThree | ModProduct | Unrelieved

  function ReliefOf(part: string): (r: Relief)
    ensures r == ByThree <==> part == "1"
    ensures r == ModProduct <==> part == "2"
  {
    if part == "1" then ByThree else if part == "2" then ModProduct else Unrelieved
  }

  /** Relief after the inspection: division by three rounds toward zero,
      the reduction is Rust's remainder by `product`. */
  function Relieve(part: Relief, product: int, w: int): (r: int)
    requires part == ModProduct ==> product != 0
    ensures part == ByThree ==> 3 * r <= w < 3 * r + 3 || (w < 0 && 3 * r - 3 < w <= 3 * r)
    ensures part == ModProduct ==> Abs(r) < Abs(product)
    ensures part == Unrelieved ==> r == w
  {
    match part
    case ByThree => TruncDiv(w, 3)
    case ModProduct => TruncRem(w, product)
    case Unrelieved => w
  }

  /** The level an item has when it leaves monkey `m`. */
  function Inspect(m: Monkey, w: int, part: Relief, product: int): (r: int)
    requires ValidOperation(m.operation) && (part == ModProduct ==> product != 0)
    ensures part == ByThree ==> r == TruncDiv(Apply(m.operation, w), 3)
    ensures part == ModProduct ==> r == TruncRem(Apply(m.operation, w), product)
    ensures part == Unrelieved ==> r == Apply(m.operation, w)
  {
    Relieve(part, product, Apply(m.operation, w))
  }

  /** Which entry of the test names the monkey an item of level `w` goes
      to: the second when the divisor divides `w`, the third otherwise. */
  function Slot(m: Monkey, w: int): (k: nat)
    requires |m.test| >= 1 && m.test[0] != 0
    ensures k == 1 || k == 2
  {
    if TruncRem(w, m.test[0]) == 0 then 1 else 2
  }

  /** Where monkey `m` throws an item of level `w`. */
  function Target(m: Monkey, w: int): (t: int)
    requires |m.test| >= 1 && m.test[0] != 0 && Slot(m, w) < |m.test|
    ensures TruncRem(w, m.test[0]) == 0 ==> t == m.test[1]
    ensures TruncRem(w, m.test[0]) != 0 ==> t == m.test[2]
  {
    m.test[Slot(m, w)]
  }

  /** Monkey `i` can inspect and throw an item of level `w` without one of
      the source's panics: the operator is `+` or `*` and the operand
      "old" or a number, part two's product and the divisor are non-zero,
      and the test entry chosen names an existing monkey. */
  predicate Inspects(ms: seq<Monkey>, i: nat, w: int, part: Relief, product: int)
    requires i < |ms|
  {
    var m := ms[i];
    && ValidOperation(m.operation) && (part == ModProduct ==> product != 0)
    && |m.test| >= 1 && m.test[0] != 0
    && Slot(m, Inspect(m, w, part, product)) < |m.test|
    && 0 <= Target(m, Inspect(m, w, part, product)) < |ms|
  }

  /* ---------------------------------------------------------------- */
  /* Turns and rounds                                                  */
  /* ---------------------------------------------------------------- */

  /* During the simulation only the items move: the troop `ms` keeps its
     operations and tests, and `held[j]` is the list monkey `j` holds. */

  /** The items every monkey starts with. */
  function Initial(ms: seq<Monkey>): (held: seq<seq<int>>)
    ensures |held| == |ms| && forall j :: 0 <= j < |ms| ==> held[j] == ms[j].worries
  {
    seq(|ms|, j requires 0 <= j < |ms| => ms[j].worries)
  }

  /** Monkey `i` inspects an item and appends it to its target's list;
      no other list changes. */
  function Throw(ms: seq<Monkey>, held: seq<seq<int>>, i: nat, w: int, part: Relief, product: int)
    : (r: seq<seq<int>>)
    requires |held| == |ms| && i < |ms| && Inspects(ms, i, w, part, product)
    ensures |r| == |held|
  {
    var nw := Inspect(ms[i], w, part, product);
    var t := Target(ms[i], nw);
    held[t := held[t] + [nw]]
  }

  /** Monkey `i` throws `items` one after the other. */
  function ThrowAll(ms: seq<Monkey>, held: seq<seq<int>>, i: nat, items: seq<int>, part: Relief, product: int)
    : (r: seq<seq<int>>)
    requires Valid(ms) && |held| == |ms| && i < |ms| && (part == ModProduct ==> product != 0)
    ensures |r| == |held|
    decreases |items|
  {
    if |items| == 0 then held
    else ThrowAll(ms, Throw(ms, held, i, items[0], part, product), i, items[1..], part, product)
  }

  /** Monkey `i`'s turn: it throws every item it held when the turn
      began, then its list is cleared. An item it throws to itself is
      appended during the turn and so is cleared with the rest. */
  function Turn(ms: seq<Monkey>, held: seq<seq<int>>, i: nat, part: Relief, product: int): (r: seq<seq<int>>)
    requires Valid(ms) && |held| == |ms| && i < |ms| && (part == ModProduct ==> product != 0)
    ensures |r| == |held| && r[i] == []
  {
    var after := ThrowAll(ms, held, i, held[i], part, product);
    after[i := []]
  }

  /** The turns of monkeys `i`, `i + 1`, ... of one round; each turn adds
      the number of items the monkey holds to its inspection count, so
      counts only grow and those of earlier monkeys stay. */
  function RoundFrom(ms: seq<Monkey>, held: seq<seq<int>>, inspected: seq<int>, i: nat, part: Relief, product: int)
    : (r: (seq<seq<int>>, seq<int>))
    requires Valid(ms) && |held| == |ms| && |inspected| == |ms| && i <= |ms|
    requires part == ModProduct ==> product != 0
    ensures |r.0| == |ms| && |r.1| == |ms|
    ensures forall j :: 0 <= j < i ==> r.1[j] == inspected[j]
    ensures forall j :: 0 <= j < |ms| ==> r.1[j] >= inspected[j]
    decreases |ms| - i
  {
    if i == |ms| then (held, inspected)
    else
      RoundFrom(ms, Turn(ms, held, i, part, product), inspected[i := inspected[i] + |held[i]|], i + 1, part, product)
  }

  /** `k` rounds; a non-positive count is an empty range. */
  function Rounds(ms: seq<Monkey>, held: seq<seq<int>>, inspected: seq<int>, k: int, part: Relief, product: int)
    : (r: (seq<seq<int>>, seq<int>))
    requires Valid(ms) && |held| == |ms| && |inspected| == |ms| && (part == ModProduct ==> product != 0)
    ensures |r.0| == |ms| && |r.1| == |ms|
    ensures forall j :: 0 <= j < |ms| ==> r.1[j] >= inspected[j]
    decreases k
  {
    if k <= 0 then (held, inspected)
    else
      var before := Rounds(ms, held, inspected, k - 1, part, product);
      RoundFrom(ms, before.0, before.1, 0, part, product)
  }

  /** `product`: the fold of all divisors, starting from 1. */
  function DivisorProduct(ms: seq<Monkey>): int
    requires forall i :: 0 <= i < |ms| ==> |ms[i].test| >= 1
  {
    if |ms| == 0 then 1 else DivisorProduct(ms[..|ms| - 1]) * ms[|ms| - 1].test[0]
  }

  lemma AbsMul(a: int, b: int)
    ensures Abs(a * b) == Abs(a) * Abs(b)
  {
    if a < 0 && b < 0 {
      assert a * b == (-a) * (-b);
    } else if a < 0 {
      assert -(a * b) == (-a) * b;
    } else if b < 0 {
      assert -(a * b) == a * (-b);
    }
  }

  /** A multiple of `e` times anything is a multiple of `e`. */
  lemma MultipleTimes(a: int, b: int, e: int)
    requires e > 0 && a % e == 0
    ensures (a * b) % e == 0 && (b * a) % e == 0
  {
    var k := a / e;
    assert a == k * e;
    assert a * b == (k * b) * e;
    MultipleMod(k * b, e);
  }

  /** Every monkey's divisor divides the product, which is therefore not
      zero either. */
  lemma {:induction false} DivisorProductFacts(ms: seq<Monkey>)
    requires forall i :: 0 <= i < |ms| ==> |ms[i].test| >= 1 && ms[i].test[0] != 0
    ensures DivisorProduct(ms) != 0
    ensures forall j :: 0 <= j < |ms| ==> Abs(DivisorProduct(ms)) % Abs(ms[j].test[0]) == 0
  {
    if |ms| > 0 {
      var front := ms[..|ms| - 1];
      DivisorProductFacts(front);
      var p := DivisorProduct(front);
      var d := ms[|ms| - 1].test[0];
      assert DivisorProduct(ms) == p * d;
      AbsMul(p, d);
      MulAtLeast(Abs(d), Abs(p));
      forall j | 0 <= j < |ms|
        ensures Abs(p * d) % Abs(ms[j].test[0]) == 0
      {
        if j == |ms| - 1 {
          MultipleMod(Abs(p), Abs(d));
          assert Abs(p) * Abs(d) == 0 + Abs(p) * Abs(d);
        } else {
          assert ms[j] == front[j];
          MultipleTimes(Abs(p), Abs(d), Abs(ms[j].test[0]));
        }
      }
    }
  }

  /** The inspection counts after `iterations` rounds. */
  function Inspections(ms: seq<Monkey>, iterations: int, part: Relief): (r: seq<int>)
    requires Valid(ms)
    ensures |r| == |ms| && forall j :: 0 <= j < |r| ==> r[j] >= 0
  {
    DivisorProductFacts(ms);
    Rounds(ms, Initial(ms), seq(|ms|, _ => 0), iterations, part, DivisorProduct(ms)).1
  }

  /* ---------------------------------------------------------------- */
  /* The simulation with the source's panics                           */
  /* ---------------------------------------------------------------- */

  /* The functions above simulate a valid troop. The ones below run any
     troop and fail, as the source panics, exactly at an inspection that
     cannot be carried out; a malformed monkey that never holds an item at
     its turn does no harm. */

  /** Monkey `i` throws `items` one after the other; `None` exactly when
      one of them cannot be inspected. */
  function TryThrowAll(ms: seq<Monkey>, held: seq<seq<int>>, i: nat, items: seq<int>, part: Relief, product: int)
    : (r: Option<seq<seq<int>>>)
    requires |held| == |ms| && i < |ms|
    ensures r.None? <==> exists k :: 0 <= k < |items| && !Inspects(ms, i, items[k], part, product)
    ensures r.Some? ==> |r.value| == |held|
    decreases |items|
  {
    if |items| == 0 then Some(held)
    else if !Inspects(ms, i, items[0], part, product) then None
    else
      var r := TryThrowAll(ms, Throw(ms, held, i, items[0], part, product), i, items[1..], part, product);
      assert forall k :: 0 < k < |items| ==> items[k] == items[1..][k - 1];
      r
  }

  /** Monkey `i`'s turn, failing exactly when an item it holds cannot be
      inspected; a monkey holding nothing never fails. */
  function TryTurn(ms: seq<Monkey>, held: seq<seq<int>>, i: nat, part: Relief, product: int)
    : (r: Option<seq<seq<int>>>)
    requires |held| == |ms| && i < |ms|
    ensures r.None? <==> exists k :: 0 <= k < |held[i]| && !Inspects(ms, i, held[i][k], part, product)
    ensures r.Some? ==> |r.value| == |held| && r.value[i] == []
  {
    match TryThrowAll(ms, held, i, held[i], part, product)
    case None => None
    case Some(after) => Some(after[i := []])
  }

  /** The turns of monkeys `i`, `i + 1`, ... of one round, stopping at the
      first that fails. */
  function TryRoundFrom(ms: seq<Monkey>, held: seq<seq<int>>, inspected: seq<int>, i: nat, part: Relief, product: int)
    : (r: Option<(seq<seq<int>>, seq<int>)>)
    requires |held| == |ms| && |inspected| == |ms| && i <= |ms|
    ensures r.Some? ==> |r.value.0| == |ms| && |r.value.1| == |ms|
    ensures r.Some? ==> forall j :: 0 <= j < i ==> r.value.1[j] == inspected[j]
    ensures r.Some? ==> forall j :: 0 <= j < |ms| ==> r.value.1[j] >= inspected[j]
    decreases |ms| - i
  {
    if i == |ms| then Some((held, inspected))
    else
      match TryTurn(ms, held, i, part, product)
      case None => None
      case Some(next) => TryRoundFrom(ms, next, inspected[i := inspected[i] + |held[i]|], i + 1, part, product)
  }

  /** `k` rounds, stopping at the first failure. */
  function TryRounds(ms: seq<Monkey>, held: seq<seq<int>>, inspected: seq<int>, k: int, part: Relief, product: int)
    : (r: Option<(seq<seq<int>>, seq<int>)>)
    requires |held| == |ms| && |inspected| == |ms|
    ensures r.Some? ==> |r.value.0| == |ms| && |r.value.1| == |ms|
    ensures r.Some? ==> forall j :: 0 <= j < |ms| ==> r.value.1[j] >= inspected[j]
    decreases k
  {
    if k <= 0 then Some((held, inspected))
    else
      match TryRounds(ms, held, inspected, k - 1, part, product)
      case None => None
      case Some(before) => TryRoundFrom(ms, before.0, before.1, 0, part, product)
  }

  /** Every monkey's test has a divisor, so `product` can be folded. */
  predicate Tested(ms: seq<Monkey>)
  {
    forall i :: 0 <= i < |ms| ==> |ms[i].test| >= 1
  }

  /** The inspection counts after `iterations` rounds of any troop, or
      `None` when an inspection panics on the way. */
  function Counts(ms: seq<Monkey>, iterations: int, part: Relief): (r: Option<seq<int>>)
    requires Tested(ms)
    ensures r.Some? ==> |r.value| == |ms| && forall j :: 0 <= j < |ms| ==> r.value[j] >= 0
  {
    match TryRounds(ms, Initial(ms), seq(|ms|, _ => 0), iterations, part, DivisorProduct(ms))
    case None => None
    case Some((_, c)) => Some(c)
  }

  /** A valid troop never panics: each checked step gives what the
      valid-troop simulation gives. */
  lemma {:induction false} TryThrowAllValid(ms: seq<Monkey>, held: seq<seq<int>>, i: nat, items: seq<int>, part: Relief, product: int)
    requires Valid(ms) && |held| == |ms| && i < |ms| && (part == ModProduct ==> product != 0)
    ensures TryThrowAll(ms, held, i, items, part, product) == Some(ThrowAll(ms, held, i, items, part, product))
    decreases |items|
  {
    if |items| > 0 {
      TryThrowAllValid(ms, Throw(ms, held, i, items[0], part, product), i, items[1..], part, product);
    }
  }

  lemma {:induction false} TryRoundFromValid(ms: seq<Monkey>, held: seq<seq<int>>, inspected: seq<int>, i: nat, part: Relief, product: int)
    requires Valid(ms) && |held| == |ms| && |inspected| == |ms| && i <= |ms| && (part == ModProduct ==> product != 0)
    ensures TryRoundFrom(ms, held, inspected, i, part, product) == Some(RoundFrom(ms, held, inspected, i, part, product))
    decreases |ms| - i
  {
    if i < |ms| {
      TryThrowAllValid(ms, held, i, held[i], part, product);
      assert TryTurn(ms, held, i, part, product) == Some(Turn(ms, held, i, part, product));
      TryRoundFromValid(ms, Turn(ms, held, i, part, product), inspected[i := inspected[i] + |held[i]|], i + 1, part, product);
    }
  }

  lemma {:induction false} TryRoundsValid(ms: seq<Monkey>, held: seq<seq<int>>, inspected: seq<int>, k: int, part: Relief, product: int)
    requires Valid(ms) && |held| == |ms| && |inspected| == |ms| && (part == ModProduct ==> product != 0)
    ensures TryRounds(ms, held, inspected, k, part, product) == Some(Rounds(ms, held, inspected, k, part, product))
    decreases k
  {
    if k > 0 {
      TryRoundsValid(ms, held, inspected, k - 1, part, product);
      TryRoundsStep(ms, held, inspected, k, part, product);
    }
  }

  /** One more round of the checked simulation, once the first `k - 1`
      agree with the valid-troop simulation. */
  lemma TryRoundsStep(ms: seq<Monkey>, held: seq<seq<int>>, inspected: seq<int>, k: int, part: Relief, product: int)
    requires Valid(ms) && |held| == |ms| && |inspected| == |ms| && (part == ModProduct ==> product != 0) && k > 0
    requires TryRounds(ms, held, inspected, k - 1, part, product) == Some(Rounds(ms, held, inspected, k - 1, part, product))
    ensures TryRounds(ms, held, inspected, k, part, product) == Some(Rounds(ms, held, inspected, k, part, product))
  {
    var before := Rounds(ms, held, inspected, k - 1, part, product);
    TryRoundFromValid(ms, before.0, before.1, 0, part, product);
  }

  /** For a valid troop the counts always exist and are the valid-troop
      simulation's. */
  lemma CountsValid(ms: seq<Monkey>, iterations: int, part: Relief)
    requires Valid(ms)
    ensures Tested(ms) && Counts(ms, iterations, part) == Some(Inspections(ms, iterations, part))
  {
    DivisorProductFacts(ms);
    TryRoundsValid(ms, Initial(ms), seq(|ms|, _ => 0), iterations, part, DivisorProduct(ms));
  }

  /** `a` is the largest entry of `s` and `b` the largest of the others:
      they sit at two different positions and every other entry is at
      most `b`. */
  predicate TopTwo(s: seq<int>, a: int, b: int)
  {
    b <= a &&
    exists i, j :: 0 <= i < |s| && 0 <= j < |s| && i != j && s[i] == a && s[j] == b
      && forall k :: 0 <= k < |s| && k != i ==> s[k] <= b
  }

  /** `calculate`: the product of the two largest inspection counts. A
      monkey without a test panics in the fold of the divisors, an
      inspection that cannot be carried out panics during the rounds, and
      with fewer than two monkeys the index arithmetic underflows; each is
      `None` here. */
  function Calculate(ms: seq<Monkey>, iterations: int, part: string): (r: Option<int>)
    ensures r.Some? <==> Tested(ms) && Counts(ms, iterations, ReliefOf(part)).Some? && |ms| >= 2
    ensures r.Some? ==> exists a, b :: TopTwo(Counts(ms, iterations, ReliefOf(part)).value, a, b) && r.value == a * b
  {
    if !Tested(ms) then None
    else
      match Counts(ms, iterations, ReliefOf(part))
      case None => None
      case Some(counts) =>
        if |ms| < 2 then None
        else
          var s := SortAsc(counts);
          TopTwoSorted(counts, s);
          Some(s[|s| - 1] * s[|s| - 2])
  }

  /** On a valid troop the answer exists exactly when there are two
      monkeys, and it multiplies the two largest counts of the
      valid-troop simulation. */
  lemma CalculateValid(ms: seq<Monkey>, iterations: int, part: string)
    requires Valid(ms)
    ensures Calculate(ms, iterations, part).Some? <==> |ms| >= 2
    ensures Calculate(ms, iterations, part).Some? ==>
              exists a, b :: TopTwo(Inspections(ms, iterations, ReliefOf(part)), a, b)
                             && Calculate(ms, iterations, part).value == a * b
  {
    CountsValid(ms, iterations, ReliefOf(part));
  }

  /** The last two entries of a sorted permutation are the top two. */
  lemma TopTwoSorted(u: seq<int>, s: seq<int>)
    requires |u| >= 2 && SortedAsc(s) && multiset(s) == multiset(u)
    ensures |s| == |u|
    ensures TopTwo(u, s[|s| - 1], s[|s| - 2])
  {
    assert |s| == |multiset(s)| == |multiset(u)| == |u|;
    var n := |s|;
    var a, b := s[n - 1], s[n - 2];
    var i := RemoveLargest(u, s);
    var rest := u[..i] + u[i + 1..];
    assert b in multiset(rest) by {
      assert s[..n - 1][n - 2] == b;
    }
    var j' :| 0 <= j' < |rest| && rest[j'] == b;
    var j := if j' < i then j' else j' + 1;
    assert u[j] == b;
    forall k | 0 <= k < |u| && k != i
      ensures u[k] <= b
    {
      var k' := if k < i then k else k - 1;
      assert rest[k'] == u[k];
      SortedFrontBound(s, u[k]);
    }
  }

  /** Where the largest element sits in `u`; without it, `u` holds what the
      sorted `s` holds before its last entry. */
  lemma RemoveLargest(u: seq<int>, s: seq<int>) returns (i: nat)
    requires |u| >= 2 && |s| == |u| && multiset(s) == multiset(u)
    ensures i < |u| && u[i] == s[|s| - 1]
    ensures multiset(u[..i] + u[i + 1..]) == multiset(s[..|s| - 1])
  {
    var a := s[|s| - 1];
    assert a in multiset(u) by { assert a in multiset(s); }
    i :| 0 <= i < |u| && u[i] == a;
    var front, back := u[..i], u[i + 1..];
    assert u == front + [a] + back;
    assert multiset(u) == multiset(front) + multiset{a} + multiset(back);
    assert multiset(front + back) == multiset(front) + multiset(back);
    assert s == s[..|s| - 1] + [a];
    assert multiset(s) == multiset(s[..|s| - 1]) + multiset{a};
    assert multiset(front + back) == multiset(u) - multiset{a};
    assert multiset(s[..|s| - 1]) == multiset(s) - multiset{a};
  }

  lemma SortedFrontBound(s: seq<int>, x: int)
    requires |s| >= 2 && SortedAsc(s) && x in multiset(s[..|s| - 1])
    ensures x <= s[|s| - 2]
  {
    var m :| 0 <= m < |s| - 1 && s[..|s| - 1][m] == x;
    assert s[m] == x;
  }

  /** The top two values are determined by the entries. */
  lemma TopTwoUnique(s: seq<int>, a: int, b: int, a': int, b': int)
    requires TopTwo(s, a, b) && TopTwo(s, a', b')
    ensures a == a' && b == b'
  {
    var i, j :| 0 <= i < |s| && 0 <= j < |s| && i != j && s[i] == a && s[j] == b
      && forall k :: 0 <= k < |s| && k != i ==> s[k] <= b;
    var i', j' :| 0 <= i' < |s| && 0 <= j' < |s| && i' != j' && s[i'] == a' && s[j'] == b'
      && forall k :: 0 <= k < |s| && k != i' ==> s[k] <= b';
    if i == i' {
      assert s[j] <= b' && s[j'] <= b;
    } else {
      assert s[i'] <= b && s[i] <= b';
    }
  }

  /* ---------------------------------------------------------------- */
  /* Part two's reduction is exact                                     */
  /* ---------------------------------------------------------------- */

  /** `x` and `y` leave the same remainder modulo `n`. */
  predicate Congruent(x: int, y: int, n: int)
  {
    n > 0 && (x - y) % n == 0
  }

  lemma CongruentScaled(x: int, y: int, c: int, n: int)
    requires Congruent(x, y, n)
    ensures Congruent(x * c, y * c, n)
  {
    var k := (x - y) / n;
    assert x - y == k * n;
    assert x * c - y * c == (k * c) * n;
    MultipleMod(k * c, n);
  }

  lemma CongruentSquare(x: int, y: int, n: int)
    requires Congruent(x, y, n)
    ensures Congruent(x * x, y * y, n)
  {
    var k := (x - y) / n;
    assert x - y == k * n;
    assert x * x - y * y == (k * (x + y)) * n;
    MultipleMod(k * (x + y), n);
  }

  lemma CongruentTrans(x: int, y: int, z: int, n: int)
    requires Congruent(x, y, n) && Congruent(y, z, n)
    ensures Congruent(x, z, n)
  {
    var k := (x - y) / n;
    var l := (y - z) / n;
    assert x - y == k * n && y - z == l * n;
    assert x - z == (k + l) * n;
    MultipleMod(k + l, n);
  }

  /** Congruence modulo `n` implies congruence modulo any divisor of `n`. */
  lemma CongruentDivisor(x: int, y: int, n: int, d: int)
    requires Congruent(x, y, n) && d > 0 && n % d == 0
    ensures Congruent(x, y, d)
  {
    var k := (x - y) / n;
    var l := n / d;
    assert x - y == k * n && n == l * d;
    assert x - y == (k * l) * d;
    MultipleMod(k * l, d);
  }

  /** Congruent numbers are divisible by `n` together. */
  lemma CongruentDivisible(x: int, y: int, n: int)
    requires Congruent(x, y, n)
    ensures x % n == 0 <==> y % n == 0
  {
    var k := (x - y) / n;
    assert x == y + k * n;
    ModShift(y, k, n);
  }

  /** Every operation maps congruent levels to congruent levels. */
  lemma ApplyCongruent(op: Operation, x: int, y: int, n: int)
    requires ValidOperation(op) && Congruent(x, y, n)
    ensures Congruent(Apply(op, x), Apply(op, y), n)
  {
    if op.operand == "old" {
      if op.oper == '+' {
        CongruentScaled(x, y, 2, n);
      } else {
        CongruentSquare(x, y, n);
      }
    } else if op.oper == '*' {
      CongruentScaled(x, y, ParseInt(op.operand).value, n);
    }
  }

  /** Rust's remainder by `p` is congruent to the dividend modulo `|p|`. */
  lemma TruncRemCongruent(x: int, p: int)
    requires p != 0
    ensures Congruent(TruncRem(x, p), x, Abs(p))
  {
    var q := TruncDiv(x, p);
    var n := Abs(p);
    var d := TruncRem(x, p) - x;
    assert d == -(q * p);
    SignedProduct(-q, p);
    var q' := if p > 0 then -q else q;
    assert d == q' * n;
    MultipleMod(q', n);
    assert d % n == 0;
  }

  /** Every divisor of the troop divides `p`. */
  predicate CommonMultiple(ms: seq<Monkey>, p: int)
  {
    p != 0 && forall i :: 0 <= i < |ms| ==> |ms[i].test| >= 1 && ms[i].test[0] != 0 && Abs(p) % Abs(ms[i].test[0]) == 0
  }

  /** One inspection with part two's reduction, against one without any
      relief, from congruent levels: the results stay congruent and the
      item goes to the same monkey. */
  lemma InspectReduced(m: Monkey, x: int, y: int, p: int)
    requires |m.test| == 3 && m.test[0] != 0 && ValidOperation(m.operation)
    requires p != 0 && Abs(p) % Abs(m.test[0]) == 0 && Congruent(x, y, Abs(p))
    ensures Congruent(Inspect(m, x, ModProduct, p), Inspect(m, y, Unrelieved, p), Abs(p))
    ensures Target(m, Inspect(m, x, ModProduct, p)) == Target(m, Inspect(m, y, Unrelieved, p))
  {
    var ax := Apply(m.operation, x);
    var ay := Apply(m.operation, y);
    ApplyCongruent(m.operation, x, y, Abs(p));
    TruncRemCongruent(ax, p);
    var a := TruncRem(ax, p);
    CongruentTrans(a, ax, ay, Abs(p));
    var d := m.test[0];
    CongruentDivisor(a, ay, Abs(p), Abs(d));
    CongruentDivisible(a, ay, Abs(d));
    TruncRemZero(a, d);
    TruncRemZero(ay, d);
  }

  /** Two lists of congruent levels, place by place. */
  predicate RelatedList(x: seq<int>, y: seq<int>, n: int)
  {
    |x| == |y| && forall k :: 0 <= k < |x| ==> Congruent(x[k], y[k], n)
  }

  predicate Related(a: seq<seq<int>>, b: seq<seq<int>>, n: int)
  {
    |a| == |b| && forall j :: 0 <= j < |a| ==> RelatedList(a[j], b[j], n)
  }

  lemma RelatedSelf(held: seq<seq<int>>, n: int)
    requires n > 0
    ensures Related(held, held, n)
  {
    forall j, k | 0 <= j < |held| && 0 <= k < |held[j]|
      ensures Congruent(held[j][k], held[j][k], n)
    {
      assert held[j][k] - held[j][k] == 0;
    }
  }

  lemma ThrowRelated(ms: seq<Monkey>, a: seq<seq<int>>, b: seq<seq<int>>, i: nat, x: int, y: int, p: int)
    requires Valid(ms) && |a| == |ms| && i < |ms| && CommonMultiple(ms, p)
    requires Related(a, b, Abs(p)) && Congruent(x, y, Abs(p))
    ensures Related(Throw(ms, a, i, x, ModProduct, p), Throw(ms, b, i, y, Unrelieved, p), Abs(p))
  {
    InspectReduced(ms[i], x, y, p);
    var nx := Inspect(ms[i], x, ModProduct, p);
    var ny := Inspect(ms[i], y, Unrelieved, p);
    var t := Target(ms[i], nx);
    assert RelatedList(a[t] + [nx], b[t] + [ny], Abs(p)) by {
      assert RelatedList(a[t], b[t], Abs(p));
    }
  }

  lemma {:induction false} ThrowAllRelated(ms: seq<Monkey>, a: seq<seq<int>>, b: seq<seq<int>>, i: nat,
                                           xs: seq<int>, ys: seq<int>, p: int)
    requires Valid(ms) && |a| == |ms| && i < |ms| && CommonMultiple(ms, p) && Related(a, b, Abs(p))
    requires RelatedList(xs, ys, Abs(p))
    ensures Related(ThrowAll(ms, a, i, xs, ModProduct, p), ThrowAll(ms, b, i, ys, Unrelieved, p), Abs(p))
    decreases |xs|
  {
    if |xs| > 0 {
      ThrowRelated(ms, a, b, i, xs[0], ys[0], p);
      ThrowAllRelated(ms, Throw(ms, a, i, xs[0], ModProduct, p), Throw(ms, b, i, ys[0], Unrelieved, p),
                      i, xs[1..], ys[1..], p);
    }
  }

  lemma TurnRelated(ms: seq<Monkey>, a: seq<seq<int>>, b: seq<seq<int>>, i: nat, p: int)
    requires Valid(ms) && |a| == |ms| && i < |ms| && CommonMultiple(ms, p) && Related(a, b, Abs(p))
    ensures Related(Turn(ms, a, i, ModProduct, p), Turn(ms, b, i, Unrelieved, p), Abs(p))
  {
    ThrowAllRelated(ms, a, b, i, a[i], b[i], p);
  }

  lemma {:induction false} RoundFromRelated(ms: seq<Monkey>, a: seq<seq<int>>, b: seq<seq<int>>,
                                            c: seq<int>, i: nat, p: int)
    requires Valid(ms) && |a| == |ms| && |c| == |ms| && i <= |ms| && CommonMultiple(ms, p)
    requires Related(a, b, Abs(p))
    ensures Related(RoundFrom(ms, a, c, i, ModProduct, p).0, RoundFrom(ms, b, c, i, Unrelieved, p).0, Abs(p))
    ensures RoundFrom(ms, a, c, i, ModProduct, p).1 == RoundFrom(ms, b, c, i, Unrelieved, p).1
    decreases |ms| - i
  {
    if i < |ms| {
      TurnRelated(ms, a, b, i, p);
      var ta := Turn(ms, a, i, ModProduct, p);
      var tb := Turn(ms, b, i, Unrelieved, p);
      assert |a[i]| == |b[i]| by { assert RelatedList(a[i], b[i], Abs(p)); }
      var c' := c[i := c[i] + |a[i]|];
      RoundFromRelated(ms, ta, tb, c', i + 1, p);
      var ra := RoundFrom(ms, ta, c', i + 1, ModProduct, p);
      var rb := RoundFrom(ms, tb, c', i + 1, Unrelieved, p);
      assert RoundFrom(ms, a, c, i, ModProduct, p) == ra;
      assert RoundFrom(ms, b, c, i, Unrelieved, p) == rb;
    }
  }

  lemma {:induction false} RoundsRelated(ms: seq<Monkey>, a: seq<seq<int>>, b: seq<seq<int>>,
                                         c: seq<int>, k: int, p: int)
    requires Valid(ms) && |a| == |ms| && |c| == |ms| && CommonMultiple(ms, p) && Related(a, b, Abs(p))
    ensures Related(Rounds(ms, a, c, k, ModProduct, p).0, Rounds(ms, b, c, k, Unrelieved, p).0, Abs(p))
    ensures Rounds(ms, a, c, k, ModProduct, p).1 == Rounds(ms, b, c, k, Unrelieved, p).1
    decreases k
  {
    if k > 0 {
      RoundsRelated(ms, a, b, c, k - 1, p);
      var (ha, ca) := Rounds(ms, a, c, k - 1, ModProduct, p);
      var (hb, cb) := Rounds(ms, b, c, k - 1, Unrelieved, p);
      RoundFromRelated(ms, ha, hb, ca, 0, p);
    }
  }

  /** Reducing every level modulo the product of the divisors changes no
      throw: part two counts exactly what the unbounded simulation without
      relief counts. */
  lemma ReductionExact(ms: seq<Monkey>, iterations: int)
    requires Valid(ms)
    ensures Inspections(ms, iterations, ModProduct) == Inspections(ms, iterations, Unrelieved)
    ensures Calculate(ms, iterations, "2") == Calculate(ms, iterations, "")
  {
    CountsValid(ms, iterations, ModProduct);
    CountsValid(ms, iterations, Unrelieved);
    DivisorProductFacts(ms);
    var p := DivisorProduct(ms);
    RelatedSelf(Initial(ms), Abs(p));
    RoundsRelated(ms, Initial(ms), Initial(ms), seq(|ms|, _ => 0), iterations, p);
  }

  /** Both answers: 20 rounds with the level divided by three, and 10000
      rounds reduced modulo the product of the divisors. */
  function Solve(ms: seq<Monkey>): (r: (Option<int>, Option<int>))
    ensures r.0.Some? <==> Tested(ms) && Counts(ms, 20, ByThree).Some? && |ms| >= 2
    ensures r.1.Some? <==> Tested(ms) && Counts(ms, 10000, ModProduct).Some? && |ms| >= 2
  {
    (Calculate(ms, 20, "1"), Calculate(ms, 10000, "2"))
  }

  /** On a valid troop part one exists exactly when there are two
      monkeys, and part two is the answer of the unreduced simulation. */
  lemma SolveValid(ms: seq<Monkey>)
    requires Valid(ms)
    ensures Solve(ms).0.Some? <==> |ms| >= 2
    ensures Solve(ms).1 == Calculate(ms, 10000, "")
  {
    CalculateValid(ms, 20, "1");
    ReductionExact(ms, 10000);
  }

  /* ---------------------------------------------------------------- */
  /* Items are never created and, without self-throws, never lost     */
  /* ---------------------------------------------------------------- */

  /** No monkey throws to itself. */
  predicate NoSelfThrow(ms: seq<Monkey>)
  {
    forall i :: 0 <= i < |ms| ==> |ms[i].test| == 3 && ms[i].test[1] != i && ms[i].test[2] != i
  }

  /** One throw appends the inspected level to its target's list and
      changes no other list. */
  lemma ThrowMoves(ms: seq<Monkey>, held: seq<seq<int>>, i: nat, w: int, part: Relief, product: int)
    requires |held| == |ms| && i < |ms| && Inspects(ms, i, w, part, product)
    ensures Throw(ms, held, i, w, part, product)[Target(ms[i], Inspect(ms[i], w, part, product))]
              == held[Target(ms[i], Inspect(ms[i], w, part, product))] + [Inspect(ms[i], w, part, product)]
    ensures forall j :: 0 <= j < |held| && j != Target(ms[i], Inspect(ms[i], w, part, product)) ==>
              Throw(ms, held, i, w, part, product)[j] == held[j]
  {
  }

  /** Throwing only appends: every list the troop held is still at the
      front of the list after a monkey's throws. */
  lemma {:induction false} ThrowAllAppends(ms: seq<Monkey>, held: seq<seq<int>>, i: nat, items: seq<int>, part: Relief, product: int)
    requires Valid(ms) && |held| == |ms| && i < |ms| && (part == ModProduct ==> product != 0)
    ensures forall j :: 0 <= j < |held| ==>
              |held[j]| <= |ThrowAll(ms, held, i, items, part, product)[j]|
              && ThrowAll(ms, held, i, items, part, product)[j][..|held[j]|] == held[j]
    decreases |items|
  {
    if |items| > 0 {
      var next := Throw(ms, held, i, items[0], part, product);
      ThrowAllAppends(ms, next, i, items[1..], part, product);
      var r := ThrowAll(ms, held, i, items, part, product);
      forall j | 0 <= j < |held|
        ensures |held[j]| <= |r[j]| && r[j][..|held[j]|] == held[j]
      {
        assert next[j][..|held[j]|] == held[j];
        assert r[j][..|next[j]|][..|held[j]|] == r[j][..|held[j]|];
      }
    }
  }

  lemma {:induction false} ThrowAllCount(ms: seq<Monkey>, held: seq<seq<int>>, i: nat, items: seq<int>, part: Relief, p: int)
    requires Valid(ms) && |held| == |ms| && i < |ms| && (part == ModProduct ==> p != 0)
    ensures TotalLength(ThrowAll(ms, held, i, items, part, p)) == TotalLength(held) + |items|
    ensures NoSelfThrow(ms) ==> ThrowAll(ms, held, i, items, part, p)[i] == held[i]
    decreases |items|
  {
    if |items| > 0 {
      var nw := Inspect(ms[i], items[0], part, p);
      var t := Target(ms[i], nw);
      TotalLengthUpdate(held, t, held[t] + [nw]);
      ThrowAllCount(ms, Throw(ms, held, i, items[0], part, p), i, items[1..], part, p);
    }
  }

  /** Without self-throws a turn only moves items: the total is kept. */
  lemma TurnConserves(ms: seq<Monkey>, held: seq<seq<int>>, i: nat, part: Relief, p: int)
    requires Valid(ms) && |held| == |ms| && i < |ms| && (part == ModProduct ==> p != 0) && NoSelfThrow(ms)
    ensures TotalLength(Turn(ms, held, i, part, p)) == TotalLength(held)
  {
    var after := ThrowAll(ms, held, i, held[i], part, p);
    ThrowAllCount(ms, held, i, held[i], part, p);
    TotalLengthUpdate(after, i, []);
  }

  lemma {:induction false} RoundFromConserves(ms: seq<Monkey>, held: seq<seq<int>>, c: seq<int>, i: nat, part: Relief, p: int)
    requires Valid(ms) && |held| == |ms| && |c| == |ms| && i <= |ms| && (part == ModProduct ==> p != 0)
    requires NoSelfThrow(ms)
    ensures TotalLength(RoundFrom(ms, held, c, i, part, p).0) == TotalLength(held)
    decreases |ms| - i
  {
    if i < |ms| {
      TurnConserves(ms, held, i, part, p);
      RoundFromConserves(ms, Turn(ms, held, i, part, p), c[i := c[i] + |held[i]|], i + 1, part, p);
    }
  }

  /** Over any number of rounds the troop keeps every item. */
  lemma {:induction false} RoundsConserve(ms: seq<Monkey>, held: seq<seq<int>>, c: seq<int>, k: int, part: Relief, p: int)
    requires Valid(ms) && |held| == |ms| && |c| == |ms| && (part == ModProduct ==> p != 0) && NoSelfThrow(ms)
    ensures TotalLength(Rounds(ms, held, c, k, part, p).0) == TotalLength(held)
    decreases k
  {
    if k > 0 {
      RoundsConserve(ms, held, c, k - 1, part, p);
      var (h, c') := Rounds(ms, held, c, k - 1, part, p);
      RoundFromConserves(ms, h, c', 0, part, p);
    }
  }

  /* ---------------------------------------------------------------- */
  /* Parsing                                                           */
  /* ---------------------------------------------------------------- */

  /** `s.replace(c, "")` */
  function Strip(s: string, c: char): (r: string)
    ensures c !in r && |r| <= |s|
    ensures c !in s ==> r == s
    ensures multiset(r) == multiset(s)[c := 0]
  {
    if |s| == 0 then ""
    else
      assert s == [s[0]] + s[1..];
      if s[0] == c then Strip(s[1..], c) else [s[0]] + Strip(s[1..], c)
  }

  /** Removing a character from two strings back to back removes it from
      each in turn, so the characters kept stay in their order. */
  lemma {:induction false} StripAppend(s: string, t: string, c: char)
    ensures Strip(s + t, c) == Strip(s, c) + Strip(t, c)
  {
    if |s| > 0 {
      assert (s + t)[1..] == s[1..] + t;
      StripAppend(s[1..], t, c);
    } else {
      assert s + t == t;
    }
  }

  /** The starting items: every token without its commas is a number. */
  function ParseItems(ts: seq<string>): (r: Option<seq<int>>)
    ensures r.Some? <==> forall k :: 0 <= k < |ts| ==> ParseInt(Strip(ts[k], ',')).Some?
    ensures r.Some? ==> |r.value| == |ts|
    ensures r.Some? ==> forall k :: 0 <= k < |ts| ==> ParseInt(Strip(ts[k], ',')) == Some(r.value[k])
  {
    if |ts| == 0 then Some([])
    else
      var rest := ParseItems(ts[1..]);
      assert forall k :: 0 < k < |ts| ==> ts[k] == ts[1..][k - 1];
      match ParseInt(Strip(ts[0], ','))
      case None => None
      case Some(v) =>
        if rest.None? then None else Some([v] + rest.value)
  }

  /** The parser's position within a seven-line monkey block and the
      monkeys read so far; every monkey has a three-entry test. */
  datatype ParseState = ParseState(lineNum: nat, monkeys: seq<Monkey>)

  predicate Consistent(st: ParseState)
  {
    st.lineNum <= 6 && (st.lineNum > 0 ==> |st.monkeys| > 0)
    && forall i :: 0 <= i < |st.monkeys| ==> |st.monkeys[i].test| == 3
  }

  /** The tokens of `line.trim().split(' ')`. */
  function Tokens(line: string): (ts: seq<string>)
    ensures |ts| >= 1
  {
    SplitOn(Trim(line), ' ')
  }

  /** The tokens of every line, in order. */
  function Tokenize(lines: seq<string>): (r: seq<seq<string>>)
    ensures |r| == |lines|
    ensures forall i :: 0 <= i < |lines| ==> r[i] == Tokens(lines[i])
  {
    seq(|lines|, i requires 0 <= i < |lines| => Tokens(lines[i]))
  }

  /** The tokens after the first two: `split.iter().skip(2)`. */
  function ItemTokens(ts: seq<string>): seq<string>
  {
    if |ts| <= 2 then [] else ts[2..]
  }

  /** The operation of line 2: the operand is token 5 and the operator the
      first character of token 4; either missing is a panic. */
  function OperationOf(ts: seq<string>): (r: Option<Operation>)
    ensures r.Some? <==> |ts| >= 6 && |ts[4]| > 0
    ensures r.Some? ==> r.value.operand == ts[5] && r.value.oper == ts[4][0]
  {
    if |ts| < 6 || |ts[4]| == 0 then None else Some(Operation(ts[5], ts[4][0]))
  }

  /** The number in the last token, as lines 3 to 5 read it. */
  function LastInt(ts: seq<string>): (r: Option<int>)
    ensures |ts| > 0 ==> r == ParseInt(ts[|ts| - 1])
  {
    if |ts| == 0 then None else ParseInt(ts[|ts| - 1])
  }

  /** Lines 1 to 5 of a block fill in the monkey read last: line 1 lists
      its items after two words, line 2 reads the operand and the operator
      from tokens 5 and 4, lines 3 to 5 read the last token into the test.
      A missing token or a number that does not parse is the source's
      panic, here `None`. */
  function UpdateMonkey(m: Monkey, lineNum: nat, ts: seq<string>): (r: Option<Monkey>)
    requires 1 <= lineNum <= 5 && |m.test| == 3 && |ts| >= 1
    ensures r.Some? ==> |r.value.test| == 3
    ensures lineNum == 1 ==>
              (r.Some? <==> ParseItems(ItemTokens(ts)).Some?)
              && (r.Some? ==> r.value.worries == m.worries + ParseItems(ItemTokens(ts)).value)
    ensures lineNum == 2 ==>
              (r.Some? <==> |ts| >= 6 && |ts[4]| > 0)
              && (r.Some? ==> r.value.operation == Operation(ts[5], ts[4][0]))
    ensures lineNum >= 3 ==>
              (r.Some? <==> ParseInt(ts[|ts| - 1]).Some?)
              && (r.Some? ==> Some(r.value.test[lineNum - 3]) == ParseInt(ts[|ts| - 1]))
  {
    if lineNum == 1 then
      match ParseItems(ItemTokens(ts))
      case None => None
      case Some(ws) => Some(m.(worries := m.worries + ws))
    else if lineNum == 2 then
      match OperationOf(ts)
      case None => None
      case Some(op) => Some(m.(operation := op))
    else
      match LastInt(ts)
      case None => None
      case Some(v) => Some(m.(test := m.test[lineNum - 3 := v]))
  }

  /** Each line fills in only its own part of the monkey: line 1 appends
      items, line 2 sets the operation, lines 3 to 5 set one entry of the
      test. */
  lemma UpdateMonkeyKeeps(m: Monkey, lineNum: nat, ts: seq<string>)
    requires 1 <= lineNum <= 5 && |m.test| == 3 && |ts| >= 1
    ensures var r := UpdateMonkey(m, lineNum, ts);
      r.Some? && lineNum == 1 ==>
        r.value.operation == m.operation && r.value.test == m.test
        && |r.value.worries| >= |m.worries| && r.value.worries[..|m.worries|] == m.worries
    ensures var r := UpdateMonkey(m, lineNum, ts);
      r.Some? && lineNum == 2 ==> r.value.worries == m.worries && r.value.test == m.test
    ensures var r := UpdateMonkey(m, lineNum, ts);
      r.Some? && lineNum >= 3 ==>
        r.value.worries == m.worries && r.value.operation == m.operation
        && forall k :: 0 <= k < 3 && k != lineNum - 3 ==> r.value.test[k] == m.test[k]
  {
    if lineNum == 1 {
      match ParseItems(ItemTokens(ts))
      case None =>
      case Some(ws) =>
        assert (m.worries + ws)[..|m.worries|] == m.worries;
    }
  }

  /** One line of input. Line 0 of a block starts a new monkey, lines 1
      to 5 fill it in and line 6 is skipped; the block position then
      advances modulo seven. */
  function ParseLine(st: ParseState, ts: seq<string>): (r: Option<ParseState>)
    requires Consistent(st) && |ts| >= 1
    ensures r.Some? ==> Consistent(r.value) && r.value.lineNum == NextLine(st.lineNum)
    ensures r.Some? ==> |r.value.monkeys| == |st.monkeys| + (if st.lineNum == 0 then 1 else 0)
    ensures st.lineNum == 0 ==> r == Some(ParseState(1, st.monkeys + [NewMonkey()]))
    ensures st.lineNum == 6 ==> r == Some(ParseState(0, st.monkeys))
    ensures 1 <= st.lineNum <= 5 ==>
              (r.Some? <==> UpdateMonkey(st.monkeys[|st.monkeys| - 1], st.lineNum, ts).Some?)
              && (r.Some? ==> r.value.monkeys == st.monkeys[|st.monkeys| - 1 := UpdateMonkey(st.monkeys[|st.monkeys| - 1], st.lineNum, ts).value])
  {
    if st.lineNum == 6 then Some(ParseState(0, st.monkeys))
    else if st.lineNum == 0 then Some(ParseState(1, st.monkeys + [NewMonkey()]))
    else
      var last := |st.monkeys| - 1;
      match UpdateMonkey(st.monkeys[last], st.lineNum, ts)
      case None => None
      case Some(m) => Some(ParseState(st.lineNum + 1, st.monkeys[last := m]))
  }

  function ParseFrom(st: ParseState, lines: seq<seq<string>>): (r: Option<seq<Monkey>>)
    requires Consistent(st) && forall i :: 0 <= i < |lines| ==> |lines[i]| >= 1
    ensures r.Some? ==> |r.value| == |st.monkeys| + BlockStarts(st.lineNum, |lines|)
    ensures r.Some? ==> forall i :: 0 <= i < |r.value| ==> |r.value[i].test| == 3
    decreases |lines|
  {
    if |lines| == 0 then Some(st.monkeys)
    else
      assert BlockStarts(st.lineNum, |lines|) == (if st.lineNum == 0 then 1 else 0) + BlockStarts(NextLine(st.lineNum), |lines| - 1);
      var next := ParseLine(st, lines[0]);
      if next.None? then None else ParseFrom(next.value, lines[1..])
  }

  /** `parse` */
  function Parse(lines: seq<string>): (r: Option<seq<Monkey>>)
    ensures r.Some? ==> forall i :: 0 <= i < |r.value| ==> |r.value[i].test| == 3
  {
    ParseFrom(ParseState(0, []), Tokenize(lines))
  }

  /** Fills in a monkey from the lines of its block at positions `l`, `l +
      1`, ..., up to position 5 or the end of the input, whichever comes
      first. */
  function Fill(m: Monkey, l: nat, ts: seq<seq<string>>): (r: Option<Monkey>)
    requires 1 <= l <= 6 && |m.test| == 3 && forall i :: 0 <= i < |ts| ==> |ts[i]| >= 1
    ensures r.Some? ==> |r.value.test| == 3
    decreases |ts|
  {
    if |ts| == 0 || l == 6 then Some(m)
    else
      match UpdateMonkey(m, l, ts[0])
      case None => None
      case Some(m') => Fill(m', l + 1, ts[1..])
  }

  /** The tokens of the block line at position `pos`, when the input read
      from position `l` reaches it. */
  function LineAt(ts: seq<seq<string>>, l: nat, pos: nat): (r: Option<seq<string>>)
    ensures r.Some? <==> l <= pos < l + |ts|
    ensures r.Some? ==> r.value == ts[pos - l]
  {
    if l <= pos && pos - l < |ts| then Some(ts[pos - l]) else None
  }

  /** Filling from position `l` writes exactly the fields of the lines at
      positions `l` to 5 that the input has, and keeps the others: the items
      of line 1 are appended, line 2 sets the operation and lines 3 to 5
      set the test's divisor and targets. It fails exactly when one of
      those lines does not parse. */
  lemma {:induction false} FillFrom(m: Monkey, l: nat, ts: seq<seq<string>>)
    requires 1 <= l <= 6 && |m.test| == 3 && forall i :: 0 <= i < |ts| ==> |ts[i]| >= 1
    ensures Fill(m, l, ts).Some? <==>
              (LineAt(ts, l, 1).Some? ==> ParseItems(ItemTokens(LineAt(ts, l, 1).value)).Some?)
              && (LineAt(ts, l, 2).Some? ==> OperationOf(LineAt(ts, l, 2).value).Some?)
              && (LineAt(ts, l, 3).Some? ==> LastInt(LineAt(ts, l, 3).value).Some?)
              && (LineAt(ts, l, 4).Some? ==> LastInt(LineAt(ts, l, 4).value).Some?)
              && (LineAt(ts, l, 5).Some? ==> LastInt(LineAt(ts, l, 5).value).Some?)
    ensures Fill(m, l, ts).Some? ==>
              Fill(m, l, ts).value.worries
                == (if LineAt(ts, l, 1).Some? then m.worries + ParseItems(ItemTokens(LineAt(ts, l, 1).value)).value else m.worries)
              && Fill(m, l, ts).value.operation
                   == (if LineAt(ts, l, 2).Some? then OperationOf(LineAt(ts, l, 2).value).value else m.operation)
              && Fill(m, l, ts).value.test
                   == [if LineAt(ts, l, 3).Some? then LastInt(LineAt(ts, l, 3).value).value else m.test[0],
                       if LineAt(ts, l, 4).Some? then LastInt(LineAt(ts, l, 4).value).value else m.test[1],
                       if LineAt(ts, l, 5).Some? then LastInt(LineAt(ts, l, 5).value).value else m.test[2]]
    decreases |ts|
  {
    if |ts| > 0 && l < 6 {
      var rest := ts[1..];
      assert forall pos :: l < pos ==> LineAt(rest, l + 1, pos) == LineAt(ts, l, pos);
      match UpdateMonkey(m, l, ts[0])
      case None =>
      case Some(m') =>
        FillFrom(m', l + 1, rest);
    }
  }

  /** A block's monkey: a fresh monkey filled in from the block's lines
      after the first. */
  function BlockMonkey(b: seq<seq<string>>): Option<Monkey>
    requires forall i :: 0 <= i < |b| ==> |b[i]| >= 1
  {
    Fill(NewMonkey(), 1, b)
  }

  /** What a block's lines write into its monkey: line 1 gives its items,
      line 2 its operation and lines 3 to 5 its divisor and targets. A line
      the input lacks leaves the field as `Monkey::new` set it, and a line
      that is present must parse. */
  lemma BlockValues(b: seq<seq<string>>)
    requires forall i :: 0 <= i < |b| ==> |b[i]| >= 1
    ensures BlockMonkey(b).Some? <==>
              (|b| > 0 ==> ParseItems(ItemTokens(b[0])).Some?)
              && (|b| > 1 ==> OperationOf(b[1]).Some?)
              && (|b| > 2 ==> LastInt(b[2]).Some?)
              && (|b| > 3 ==> LastInt(b[3]).Some?)
              && (|b| > 4 ==> LastInt(b[4]).Some?)
    ensures BlockMonkey(b).Some? ==>
              BlockMonkey(b).value.worries == (if |b| > 0 then ParseItems(ItemTokens(b[0])).value else [])
              && BlockMonkey(b).value.operation == (if |b| > 1 then OperationOf(b[1]).value else Operation("", ' '))
              && BlockMonkey(b).value.test == [if |b| > 2 then LastInt(b[2]).value else 0,
                                               if |b| > 3 then LastInt(b[3]).value else 0,
                                               if |b| > 4 then LastInt(b[4]).value else 0]
  {
    FillFrom(NewMonkey(), 1, b);
  }

  /** Filling reads at most the lines up to position 5, so a longer input
      fills in the same monkey as its first lines. */
  lemma {:induction false} FillPrefix(m: Monkey, l: nat, ts: seq<seq<string>>, k: nat)
    requires 1 <= l <= 6 && |m.test| == 3 && forall i :: 0 <= i < |ts| ==> |ts[i]| >= 1
    requires k <= |ts| && (6 - l <= k || k == |ts|)
    ensures Fill(m, l, ts) == Fill(m, l, ts[..k])
    decreases |ts|
  {
    if k == |ts| {
      assert ts[..k] == ts;
    } else if l < 6 {
      assert ts[..k][0] == ts[0];
      assert ts[..k][1..] == ts[1..][..k - 1];
      match UpdateMonkey(m, l, ts[0])
      case None =>
      case Some(m') => FillPrefix(m', l + 1, ts[1..], k - 1);
    }
  }

  /** Parsing the rest of a block from position `l`: the monkey read last
      is filled in from the block's remaining lines, and parsing goes on at
      the next block, if the input reaches it. */
  lemma {:induction false} ParseFromBlock(ms: seq<Monkey>, m: Monkey, l: nat, ts: seq<seq<string>>)
    requires 1 <= l <= 6 && |m.test| == 3 && forall i :: 0 <= i < |ms| ==> |ms[i].test| == 3
    requires forall i :: 0 <= i < |ts| ==> |ts[i]| >= 1
    ensures Fill(m, l, ts).None? ==> ParseFrom(ParseState(l, ms + [m]), ts).None?
    ensures Fill(m, l, ts).Some? && |ts| < 7 - l ==>
              ParseFrom(ParseState(l, ms + [m]), ts) == Some(ms + [Fill(m, l, ts).value])
    ensures Fill(m, l, ts).Some? && |ts| >= 7 - l ==>
              ParseFrom(ParseState(l, ms + [m]), ts) == ParseFrom(ParseState(0, ms + [Fill(m, l, ts).value]), ts[7 - l..])
    decreases |ts|
  {
    var st := ParseState(l, ms + [m]);
    assert Consistent(st);
    if |ts| > 0 {
      var rest := ts[1..];
      if l == 6 {
        assert ParseLine(st, ts[0]) == Some(ParseState(0, ms + [m]));
      } else {
        assert (ms + [m])[|ms + [m]| - 1] == m;
        match UpdateMonkey(m, l, ts[0])
        case None =>
        case Some(m') =>
          assert (ms + [m])[|ms| := m'] == ms + [m'];
          assert ParseLine(st, ts[0]) == Some(ParseState(l + 1, ms + [m']));
          ParseFromBlock(ms, m', l + 1, rest);
          if |ts| >= 7 - l {
            assert rest[7 - (l + 1)..] == ts[7 - l..];
          }
      }
    }
  }

  /** Block `j` of the tokenized input without its opening line: the
      lines from `7 j + 1` up to the next block or the end of the input. */
  function Block(ts: seq<seq<string>>, j: nat): (b: seq<seq<string>>)
    requires 7 * j < |ts|
    ensures |b| == Min(|ts|, 7 * j + 7) - 7 * j - 1
    ensures forall i :: 0 <= i < |b| ==> b[i] == ts[7 * j + 1 + i]
  {
    ts[7 * j + 1..if |ts| < 7 * j + 7 then |ts| else 7 * j + 7]
  }

  /** Parsing the first block: it yields the block's monkey, and parsing
      goes on at the next block if the input reaches it. */
  lemma ParseFromFirst(ms: seq<Monkey>, ts: seq<seq<string>>)
    requires forall i :: 0 <= i < |ms| ==> |ms[i].test| == 3
    requires forall i :: 0 <= i < |ts| ==> |ts[i]| >= 1
    requires |ts| > 0
    ensures BlockMonkey(Block(ts, 0)).None? ==> ParseFrom(ParseState(0, ms), ts).None?
    ensures BlockMonkey(Block(ts, 0)).Some? && |ts| < 7 ==>
              ParseFrom(ParseState(0, ms), ts) == Some(ms + [BlockMonkey(Block(ts, 0)).value])
    ensures BlockMonkey(Block(ts, 0)).Some? && |ts| >= 7 ==>
              ParseFrom(ParseState(0, ms), ts) == ParseFrom(ParseState(0, ms + [BlockMonkey(Block(ts, 0)).value]), ts[7..])
  {
    var m := NewMonkey();
    var rest := ts[1..];
    assert ParseFrom(ParseState(0, ms), ts) == ParseFrom(ParseState(1, ms + [m]), rest);
    ParseFromBlock(ms, m, 1, rest);
    FillPrefix(m, 1, rest, |Block(ts, 0)|);
    assert rest[..|Block(ts, 0)|] == Block(ts, 0);
    if |ts| >= 7 {
      assert rest[6..] == ts[7..];
    }
  }

  /** Block `j` of the input after its first block is block `j + 1` of
      the whole input. */
  lemma BlockShift(ts: seq<seq<string>>, j: nat)
    requires 7 <= |ts| && 7 * j < |ts| - 7
    ensures Block(ts[7..], j) == Block(ts, j + 1)
  {
    var a, b := Block(ts[7..], j), Block(ts, j + 1);
    assert |a| == |b|;
    assert forall i :: 0 <= i < |a| ==> a[i] == b[i];
  }

  /** The monkeys of the blocks, in order: entry `j` is block `j`'s
      monkey, or `None` where the block does not parse. */
  function Blocks(ts: seq<seq<string>>): (bs: seq<Option<Monkey>>)
    requires forall i :: 0 <= i < |ts| ==> |ts[i]| >= 1
    ensures |bs| == (|ts| + 6) / 7
  {
    seq((|ts| + 6) / 7, j requires 0 <= j < (|ts| + 6) / 7 => BlockMonkey(Block(ts, j)))
  }

  /** The blocks after the first are the blocks of the input without its
      first seven lines. */
  lemma BlocksTail(ts: seq<seq<string>>)
    requires forall i :: 0 <= i < |ts| ==> |ts[i]| >= 1
    requires |ts| >= 7
    ensures Blocks(ts[7..]) == Blocks(ts)[1..]
  {
    var a, b := Blocks(ts[7..]), Blocks(ts)[1..];
    forall j | 0 <= j < |a|
      ensures a[j] == b[j]
    {
      BlockShift(ts, j);
    }
  }

  /** `r` is `ms` followed by the values of `bs`, in order, when every
      entry of `bs` is present, and `None` otherwise. */
  ghost predicate Assembled<T>(ms: seq<T>, bs: seq<Option<T>>, r: Option<seq<T>>)
  {
    (r.Some? <==> forall j :: 0 <= j < |bs| ==> bs[j].Some?)
    && (r.Some? ==>
          |r.value| == |ms| + |bs| && r.value[..|ms|] == ms
          && forall j :: 0 <= j < |bs| ==> r.value[|ms| + j] == bs[j].value)
  }

  /** Parsing from the start of a block appends one monkey per block that
      follows, in order. It fails exactly when one of those blocks does
      not parse. */
  lemma {:induction false} ParseFromBlocks(ms: seq<Monkey>, ts: seq<seq<string>>)
    requires forall i :: 0 <= i < |ms| ==> |ms[i].test| == 3
    requires forall i :: 0 <= i < |ts| ==> |ts[i]| >= 1
    ensures Assembled(ms, Blocks(ts), ParseFrom(ParseState(0, ms), ts))
    decreases |ts|
  {
    var r := ParseFrom(ParseState(0, ms), ts);
    var bs := Blocks(ts);
    if |ts| == 0 {
      AssembledEmpty(ms, bs, r);
    } else {
      ParseFromFirst(ms, ts);
      assert bs[0] == BlockMonkey(Block(ts, 0));
      if bs[0].None? {
        AssembledFails(ms, bs, r);
      } else if |ts| < 7 {
        AssembledOne(ms, bs, r);
      } else {
        var b := bs[0].value;
        var after := ts[7..];
        ParseFromBlocks(ms + [b], after);
        BlocksTail(ts);
        AssembledStep(ms, b, bs, r);
      }
    }
  }

  lemma AssembledEmpty<T>(ms: seq<T>, bs: seq<Option<T>>, r: Option<seq<T>>)
    requires bs == [] && r == Some(ms)
    ensures Assembled(ms, bs, r)
  {
    assert ms[..|ms|] == ms;
  }

  lemma AssembledFails<T>(ms: seq<T>, bs: seq<Option<T>>, r: Option<seq<T>>)
    requires |bs| > 0 && bs[0].None? && r.None?
    ensures Assembled(ms, bs, r)
  {
  }

  lemma AssembledOne<T>(ms: seq<T>, bs: seq<Option<T>>, r: Option<seq<T>>)
    requires |bs| == 1 && bs[0].Some? && r == Some(ms + [bs[0].value])
    ensures Assembled(ms, bs, r)
  {
    assert (ms + [bs[0].value])[..|ms|] == ms;
  }

  /** Putting one present value in front: what holds of the others' values
      after `ms + [b]` holds of all of them after `ms`. */
  lemma AssembledStep<T>(ms: seq<T>, b: T, bs: seq<Option<T>>, r: Option<seq<T>>)
    requires |bs| > 0 && bs[0] == Some(b)
    requires Assembled(ms + [b], bs[1..], r)
    ensures Assembled(ms, bs, r)
  {
    if r.Some? {
      assert r.value[..|ms| + 1][..|ms|] == r.value[..|ms|];
      assert r.value[..|ms| + 1][|ms|] == b;
      forall j | 0 <= j < |bs|
        ensures bs[j].Some? && r.value[|ms| + j] == bs[j].value
      {
        if j > 0 {
          assert bs[1..][j - 1] == bs[j];
        }
      }
    } else {
      var j :| 0 <= j < |bs[1..]| && bs[1..][j].None?;
      assert bs[j + 1].None?;
    }
  }

  /** A parsed troop holds one monkey per seven-line block, in order:
      monkey `j` is filled in from lines `7 j + 1` to `7 j + 5` (see
      BlockValues). Parsing fails exactly when one block's lines do not
      parse. */
  lemma ParseBlocks(lines: seq<string>)
    ensures Parse(lines).Some? <==> forall j :: 0 <= j < |Blocks(Tokenize(lines))| ==> Blocks(Tokenize(lines))[j].Some?
    ensures Parse(lines).Some? ==>
              |Parse(lines).value| == |Blocks(Tokenize(lines))| == (|lines| + 6) / 7
              && forall j :: 0 <= j < |Blocks(Tokenize(lines))| ==> Parse(lines).value[j] == Blocks(Tokenize(lines))[j].value
  {
    ParseFromBlocks([], Tokenize(lines));
  }

  /** The block position after `l`: 0, 1, ..., 6, then 0 again. */
  function NextLine(l: nat): (r: nat)
    requires l <= 6
    ensures r <= 6 && r == (l + 1) % 7
  {
    if l == 6 then 0 else l + 1
  }

  /** How many of `n` lines, the first at block position `l`, open a
      block. */
  function BlockStarts(l: nat, n: nat): nat
    requires l <= 6
    decreases n
  {
    if n == 0 then 0 else (if l == 0 then 1 else 0) + BlockStarts(NextLine(l), n - 1)
  }

  /** Positions that are multiples of seven, counted in closed form. */
  lemma {:induction false} BlockStartsCount(l: nat, n: nat)
    requires l <= 6
    ensures BlockStarts(l, n) == (n + l + 6) / 7 - (l + 6) / 7
    decreases n
  {
    if n > 0 {
      BlockStartsCount((l + 1) % 7, n - 1);
    }
  }

  /** A successful parse yields one monkey per started seven-line block. */
  lemma ParseCount(lines: seq<string>)
    ensures Parse(lines).Some? ==> |Parse(lines).value| == (|lines| + 6) / 7
  {
    var st := ParseState(0, []);
    BlockStartsCount(0, |lines|);
    assert (|lines| + 0 + 6) / 7 - (0 + 6) / 7 == (|lines| + 6) / 7;
    assert BlockStarts(0, |lines|) == (|lines| + 6) / 7;
    assert Parse(lines) == ParseFrom(st, Tokenize(lines));
    if Parse(lines).Some? {
      assert |ParseFrom(st, Tokenize(lines)).value| == BlockStarts(0, |lines|);
    }
  }
}

=== FILE: day13.dfy ===
/**
 Day 13: distress-signal packets. A packet is a number or a list of
 packets; packets are ordered by the recursive comparator of the source's
 `Ord` implementation: numbers numerically, lists lexicographically, and a
 number met by a list is compared as a one-element list.
 */
module Day13 {
  import opened Common

  /** `Data::Num` holds a `u8`; the model keeps any natural number. */
  datatype Packet = Num(n: nat) | List(items: seq<Packet>)

  datatype Ordering = Less | Equal | Greater

  function Flip(o: Ordering): Ordering
  {
    match o
    case Less => Greater
    case Equal => Equal
    case Greater => Less
  }

  function Size(p: Packet): nat
  {
    match p
    case Num(_) => 1
    case List(xs) => 1 + SizeSeq(xs)
  }

  function SizeSeq(xs: seq<Packet>): nat
  {
    if |xs| == 0 then 0 else Size(xs[0]) + SizeSeq(xs[1..])
  }

  lemma SizeSingleton(p: Packet)
    ensures SizeSeq([p]) == Size(p)
  {
    assert [p][1..] == [];
  }

  /** Promoting a number to a list keeps its size; a list's items are
      smaller than the list. */
  lemma AsListSize(p: Packet)
    ensures SizeSeq(AsList(p)) <= Size(p)
    ensures p.List? ==> SizeSeq(AsList(p)) < Size(p)
  {
    if p.Num? { SizeSingleton(p); }
  }

  lemma SizeSeqHead(xs: seq<Packet>)
    requires |xs| > 0
    ensures Size(xs[0]) <= SizeSeq(xs) && SizeSeq(xs[1..]) < SizeSeq(xs)
  {
  }

  function CompareInt(a: int, b: int): Ordering
  {
    if a < b then Less else if a == b then Equal else Greater
  }

  /** `Ord::cmp` for packets (lines 25-33 of the source). */
  function Compare(a: Packet, b: Packet): Ordering
    decreases Size(a) + Size(b), 1
  {
    match (a, b)
    case (Num(x), Num(y)) => CompareInt(x, y)
    case (List(xs), List(ys)) => CompareLists(xs, ys)
    case (Num(x), List(ys)) => SizeSingleton(a); CompareLists([Num(x)], ys)
    case (List(xs), Num(y)) => SizeSingleton(b); CompareLists(xs, [Num(y)])
  }

  /** Rust's slice comparison: lexicographic, a proper prefix first. */
  function CompareLists(xs: seq<Packet>, ys: seq<Packet>): Ordering
    decreases SizeSeq(xs) + SizeSeq(ys), 2
  {
    if |xs| == 0 && |ys| == 0 then Equal
    else if |xs| == 0 then Less
    else if |ys| == 0 then Greater
    else
      SizeSeqHead(xs);
      SizeSeqHead(ys);
      var c := Compare(xs[0], ys[0]);
      if c != Equal then c else CompareLists(xs[1..], ys[1..])
  }

  /** `PartialEq::eq`: packets are equal when they compare `Equal`. */
  predicate Same(a: Packet, b: Packet)
  {
    Compare(a, b) == Equal
  }

  /** A number is the same packet as the one-element list holding it. */
  lemma NumberIsSingleton(n: nat)
    ensures Same(Num(n), List([Num(n)]))
    ensures Same(List([Num(n)]), Num(n))
  {
    assert CompareLists([Num(n)], [Num(n)]) == Equal by {
      assert [Num(n)][1..] == [];
    }
  }

  /* ---------------------------------------------------------------- */
  /* The comparator is a total preorder                                */
  /* ---------------------------------------------------------------- */

  /** Swapping the arguments reverses the result. */
  lemma {:induction false} CompareAntisymmetric(a: Packet, b: Packet)
    ensures Compare(b, a) == Flip(Compare(a, b))
    decreases Size(a) + Size(b), 1
  {
    match (a, b)
    case (Num(x), Num(y)) =>
    case (List(xs), List(ys)) => CompareListsAntisymmetric(xs, ys);
    case (Num(x), List(ys)) => SizeSingleton(a); CompareListsAntisymmetric([Num(x)], ys);
    case (List(xs), Num(y)) => SizeSingleton(b); CompareListsAntisymmetric(xs, [Num(y)]);
  }

  lemma {:induction false} CompareListsAntisymmetric(xs: seq<Packet>, ys: seq<Packet>)
    ensures CompareLists(ys, xs) == Flip(CompareLists(xs, ys))
    decreases SizeSeq(xs) + SizeSeq(ys), 2
  {
    if |xs| > 0 && |ys| > 0 {
      SizeSeqHead(xs);
      SizeSeqHead(ys);
      CompareAntisymmetric(xs[0], ys[0]);
      CompareListsAntisymmetric(xs[1..], ys[1..]);
    }
  }

  /** Every packet is the same as itself. */
  lemma {:induction false} CompareReflexive(a: Packet)
    ensures Compare(a, a) == Equal
    decreases Size(a), 1
  {
    match a
    case Num(_) =>
    case List(xs) => CompareListsReflexive(xs);
  }

  lemma {:induction false} CompareListsReflexive(xs: seq<Packet>)
    ensures CompareLists(xs, xs) == Equal
    decreases SizeSeq(xs), 2
  {
    if |xs| > 0 {
      SizeSeqHead(xs);
      CompareReflexive(xs[0]);
      CompareListsReflexive(xs[1..]);
    }
  }

  /** A packet viewed as a list: a number is promoted to a singleton. */
  function AsList(p: Packet): seq<Packet>
  {
    match p
    case Num(n) => [Num(n)]
    case List(xs) => xs
  }

  /** The comparator always compares the promoted lists, numbers
      included. */
  lemma ComparePromoted(a: Packet, b: Packet)
    ensures Compare(a, b) == CompareLists(AsList(a), AsList(b))
  {
    if a.Num? && b.Num? {
      assert AsList(a)[1..] == [] && AsList(b)[1..] == [];
    }
  }

  /** The combined result of two comparisons neither of which is
      `Greater`: `Less` if either is strict, otherwise `Equal`. */
  function Chain(o1: Ordering, o2: Ordering): Ordering
  {
    if o1 == Equal then o2 else Less
  }

  /** Transitivity, in all its forms (less-or-equal, strict, equality)
      at once. */
  lemma {:induction false} CompareTransitive(a: Packet, b: Packet, c: Packet)
    requires Compare(a, b) != Greater && Compare(b, c) != Greater
    ensures Compare(a, c) == Chain(Compare(a, b), Compare(b, c))
    decreases Size(a) + Size(b) + Size(c), 1
  {
    if a.Num? && b.Num? && c.Num? {
    } else {
      ComparePromoted(a, b);
      ComparePromoted(b, c);
      ComparePromoted(a, c);
      AsListSize(a);
      AsListSize(b);
      AsListSize(c);
      CompareListsTransitive(AsList(a), AsList(b), AsList(c));
    }
  }

  lemma {:induction false} CompareListsTransitive(xs: seq<Packet>, ys: seq<Packet>, zs: seq<Packet>)
    requires CompareLists(xs, ys) != Greater && CompareLists(ys, zs) != Greater
    ensures CompareLists(xs, zs) == Chain(CompareLists(xs, ys), CompareLists(ys, zs))
    decreases SizeSeq(xs) + SizeSeq(ys) + SizeSeq(zs), 2
  {
    if |xs| > 0 && |ys| > 0 && |zs| > 0 {
      SizeSeqHead(xs);
      SizeSeqHead(ys);
      SizeSeqHead(zs);
      var c1 := Compare(xs[0], ys[0]);
      var c2 := Compare(ys[0], zs[0]);
      CompareTransitive(xs[0], ys[0], zs[0]);
      if c1 == Equal && c2 == Equal {
        CompareListsTransitive(xs[1..], ys[1..], zs[1..]);
      }
    }
  }

  /* ---------------------------------------------------------------- */
  /* Part one                                                          */
  /* ---------------------------------------------------------------- */

  predicate Lt(a: Packet, b: Packet)
  {
    Compare(a, b) == Less
  }

  /** The sum of the 1-based indices of the pairs (packets 2i and
      2i + 1) that are in the right order. A trailing unpaired packet is
      ignored, as `zip` stops at the shorter side. */
  function PairIndexSum(packets: seq<Packet>): int
  {
    if |packets| < 2 then 0
    else
      var k := |packets| / 2;
      var prev := PairIndexSum(packets[..2 * (k - 1)]);
      if Lt(packets[2 * k - 2], packets[2 * k - 1]) then prev + k else prev
  }

  /** The reference reading of part one: the sum over all pairs of the
      index of each ordered pair. */
  function OrderedIndexSum(packets: seq<Packet>, k: nat): int
    requires 2 * k <= |packets|
  {
    if k == 0 then 0
    else OrderedIndexSum(packets, k - 1) + (if Lt(packets[2 * k - 2], packets[2 * k - 1]) then k else 0)
  }

  lemma {:induction false} OrderedIndexSumPrefix(packets: seq<Packet>, m: nat, k: nat)
    requires 2 * k <= m <= |packets|
    ensures OrderedIndexSum(packets[..m], k) == OrderedIndexSum(packets, k)
  {
    if k > 0 {
      OrderedIndexSumPrefix(packets, m, k - 1);
    }
  }

  /** Part one adds index i exactly when pair i is in the right order. */
  lemma {:induction false} PairIndexSumCorrect(packets: seq<Packet>)
    ensures PairIndexSum(packets) == OrderedIndexSum(packets, |packets| / 2)
    decreases |packets|
  {
    if |packets| >= 2 {
      var k := |packets| / 2;
      var pre := packets[..2 * (k - 1)];
      PairIndexSumCorrect(pre);
      assert |pre| / 2 == k - 1;
      OrderedIndexSumPrefix(packets, 2 * (k - 1), k - 1);
    }
  }

  /** Every pair contributes a positive index or nothing, so the answer
      is between 0 and 1 + 2 + ... + n. */
  lemma {:induction false} PairIndexSumBounds(packets: seq<Packet>, k: nat)
    requires 2 * k <= |packets|
    ensures 0 <= OrderedIndexSum(packets, k) <= k * (k + 1) / 2
  {
    if k > 0 {
      PairIndexSumBounds(packets, k - 1);
    }
  }

  /* ---------------------------------------------------------------- */
  /* Part two: sorting with the two divider packets                    */
  /* ---------------------------------------------------------------- */

  predicate Le(a: Packet, b: Packet)
  {
    Compare(a, b) != Greater
  }

  predicate SortedPackets(s: seq<Packet>)
  {
    forall i, j :: 0 <= i < j < |s| ==> Le(s[i], s[j])
  }

  function InsertPacket(x: Packet, s: seq<Packet>): (r: seq<Packet>)
    requires SortedPackets(s)
    ensures SortedPackets(r)
    ensures multiset(r) == multiset(s) + multiset{x}
  {
    if |s| == 0 then [x]
    else if Le(x, s[0]) then
      forall j | 0 <= j < |s| ensures Le(x, s[j]) {
        if j > 0 { CompareTransitive(x, s[0], s[j]); }
      }
      ConsSorted(x, s);
      [x] + s
    else
      assert s == [s[0]] + s[1..];
      CompareAntisymmetric(x, s[0]);
      var rest := InsertPacket(x, s[1..]);
      AboveHead(x, s, rest);
      ConsSorted(s[0], rest);
      [s[0]] + rest
  }

  /** A packet no greater than any of a sorted list goes in front of it. */
  lemma ConsSorted(a: Packet, t: seq<Packet>)
    requires SortedPackets(t) && forall k :: 0 <= k < |t| ==> Le(a, t[k])
    ensures SortedPackets([a] + t)
  {
    var u := [a] + t;
    forall i, j | 0 <= i < j < |u| ensures Le(u[i], u[j]) {
      assert u[j] == t[j - 1];
      if i > 0 {
        assert u[i] == t[i - 1];
      }
    }
  }

  /** Inserting `x` above the head of a sorted list keeps everything at
      least the head. */
  lemma AboveHead(x: Packet, s: seq<Packet>, rest: seq<Packet>)
    requires SortedPackets(s) && |s| > 0 && Le(s[0], x)
    requires multiset(rest) == multiset(s[1..]) + multiset{x}
    ensures forall k :: 0 <= k < |rest| ==> Le(s[0], rest[k])
  {
    forall k | 0 <= k < |rest| ensures Le(s[0], rest[k]) {
      assert rest[k] in multiset(rest);
      if rest[k] != x {
        assert rest[k] in multiset(s[1..]);
        var j :| 0 <= j < |s[1..]| && s[1..][j] == rest[k];
        assert s[j + 1] == rest[k];
      }
    }
  }

  /** A sort by the packet order (Rust's `sort` is stable, but every
      sorted permutation gives the same answer below). */
  function SortPackets(s: seq<Packet>): (r: seq<Packet>)
    ensures SortedPackets(r)
    ensures multiset(r) == multiset(s)
  {
    if |s| == 0 then []
    else
      assert s == [s[0]] + s[1..];
      InsertPacket(s[0], SortPackets(s[1..]))
  }

  /** The number of packets strictly before `a` in the packet order. */
  function CountLess(s: seq<Packet>, a: Packet): nat
  {
    if |s| == 0 then 0 else CountLess(s[1..], a) + (if Lt(s[0], a) then 1 else 0)
  }

  lemma {:induction false} CountLessInsert(x: Packet, s: seq<Packet>, a: Packet)
    requires SortedPackets(s)
    ensures CountLess(InsertPacket(x, s), a) == CountLess(s, a) + (if Lt(x, a) then 1 else 0)
  {
    if |s| > 0 && !Le(x, s[0]) {
      CountLessInsert(x, s[1..], a);
      assert InsertPacket(x, s)[1..] == InsertPacket(x, s[1..]);
    }
  }

  lemma {:induction false} CountLessSort(s: seq<Packet>, a: Packet)
    ensures CountLess(SortPackets(s), a) == CountLess(s, a)
  {
    if |s| > 0 {
      CountLessSort(s[1..], a);
      CountLessInsert(s[0], SortPackets(s[1..]), a);
    }
  }

  /** `iter().position(|x| x == a)`: the first index holding a packet
      the same as `a`. */
  function Position(s: seq<Packet>, a: Packet): (r: Option<nat>)
    ensures r.Some? ==> r.value < |s| && Same(s[r.value], a)
    ensures r.Some? ==> forall i :: 0 <= i < r.value ==> !Same(s[i], a)
    ensures r.None? ==> forall i :: 0 <= i < |s| ==> !Same(s[i], a)
  {
    if |s| == 0 then None
    else if Same(s[0], a) then Some(0)
    else
      match Position(s[1..], a)
      case None => None
      case Some(k) => Some(k + 1)
  }

  /** In a sorted list, the packets less than `a` come first, so a
      packet the same as `a` is first found right after them. */
  lemma {:induction false} SortedPosition(s: seq<Packet>, a: Packet)
    requires SortedPackets(s)
    requires exists i :: 0 <= i < |s| && Same(s[i], a)
    ensures Position(s, a) == Some(CountLess(s, a))
  {
    var i :| 0 <= i < |s| && Same(s[i], a);
    if Lt(s[0], a) {
      assert Same(s[1..][i - 1], a) by {
        if i == 0 { assert false; }
      }
      SortedPosition(s[1..], a);
      assert !Same(s[0], a);
    } else {
      CompareAntisymmetric(s[0], a);
      CompareAntisymmetric(s[i], a);
      if i > 0 {
        CompareTransitive(s[0], s[i], a);
      }
      assert Same(s[0], a);
      NoneLessAfter(s, a);
    }
  }

  /** Nothing after a packet that is not less than `a` is less than `a`. */
  lemma NoneLessAfter(s: seq<Packet>, a: Packet)
    requires SortedPackets(s) && |s| > 0 && !Lt(s[0], a)
    ensures CountLess(s, a) == 0
  {
    var k := |s|;
    forall j | 0 < j < |s| ensures !Lt(s[j], a) {
      CompareAntisymmetric(s[0], a);
      if Lt(s[j], a) {
        CompareTransitive(s[0], s[j], a);
      }
    }
    CountLessZero(s, a);
  }

  lemma {:induction false} CountLessZero(s: seq<Packet>, a: Packet)
    requires forall j :: 0 <= j < |s| ==> !Lt(s[j], a)
    ensures CountLess(s, a) == 0
  {
    if |s| > 0 {
      CountLessZero(s[1..], a);
    }
  }

  function Divider(n: nat): Packet
  {
    List([List([Num(n)])])
  }

  /** The decoder key: the two dividers [[2]] and [[6]] are inserted, the
      packets sorted, and the 1-based positions of the dividers
      multiplied. Each position is one more than the number of packets
      strictly less than the divider. */
  function DecoderKey(packets: seq<Packet>): (r: int)
    ensures r == (CountLess(packets, Divider(2)) + 1) * (CountLess(packets, Divider(6)) + 2)
  {
    DividerPositions(packets);
    var sorted := SortPackets(WithDividers(packets));
    (Position(sorted, Divider(2)).value + 1) * (Position(sorted, Divider(6)).value + 1)
  }

  function WithDividers(packets: seq<Packet>): seq<Packet>
  {
    [Divider(2), Divider(6)] + packets
  }

  lemma DividerPositions(packets: seq<Packet>)
    ensures Position(SortPackets(WithDividers(packets)), Divider(2)) == Some(CountLess(packets, Divider(2)))
    ensures Position(SortPackets(WithDividers(packets)), Divider(6)) == Some(CountLess(packets, Divider(6)) + 1)
  {
    var all := WithDividers(packets);
    var sorted := SortPackets(all);
    DividerFound(all, sorted, Divider(2), 0);
    DividerFound(all, sorted, Divider(6), 1);
    DividerCounts(packets);
  }

  lemma DividerFound(all: seq<Packet>, sorted: seq<Packet>, d: Packet, k: nat)
    requires sorted == SortPackets(all) && k < |all| && all[k] == d
    ensures Position(sorted, d) == Some(CountLess(all, d))
  {
    assert d in multiset(sorted);
    var i :| 0 <= i < |sorted| && sorted[i] == d;
    CompareReflexive(d);
    SortedPosition(sorted, d);
    CountLessSort(all, d);
  }

  lemma DividerCounts(packets: seq<Packet>)
    ensures CountLess([Divider(2), Divider(6)] + packets, Divider(2)) == CountLess(packets, Divider(2))
    ensures CountLess([Divider(2), Divider(6)] + packets, Divider(6)) == CountLess(packets, Divider(6)) + 1
  {
    var all := [Divider(2), Divider(6)] + packets;
    assert all[1..][1..] == packets;
    CompareReflexive(Divider(2));
    DividerOrder();
    CompareAntisymmetric(Divider(2), Divider(6));
    CompareReflexive(Divider(6));
  }

  lemma DividerOrder()
    ensures Lt(Divider(2), Divider(6))
  {
    var a := [List([Num(2)])];
    var b := [List([Num(6)])];
    assert CompareLists([Num(2)], [Num(6)]) == Less;
    assert Compare(a[0], b[0]) == Less;
  }

  /** Both answers. */
  function Solve(packets: seq<Packet>): (r: (int, int))
    ensures r.0 == OrderedIndexSum(packets, |packets| / 2)
    ensures r.1 == DecoderKey(packets)
  {
    PairIndexSumCorrect(packets);
    (PairIndexSum(packets), DecoderKey(packets))
  }
}

=== FILE: day14.dfy ===
/**
 Day 14: regolith reservoir. Rock paths are turned into a set of occupied
 cells (x to the right, y downwards). Grains of sand enter at (500, 0) one
 at a time and fall straight down, else down-left, else down-right, and
 come to rest when all three are blocked. Part one counts grains until one
 falls past the lowest rock; part two adds a floor two below the lowest
 rock and counts grains until the entry is blocked.
 */
module Day14 {
  import opened Common

  type Point = (int, int)

  const Entry: Point := (500, 0)

  /* ---------------------------------------------------------------- */
  /* Rock                                                              */
  /* ---------------------------------------------------------------- */

  /** The integers from `lo` to `hi`, both included. */
  function Span(lo: int, hi: int): (r: seq<int>)
    ensures forall v :: v in r <==> lo <= v <= hi
    decreases hi - lo
  {
    if lo > hi then [] else [lo] + Span(lo + 1, hi)
  }

  /** The cells the source inserts for one segment: a vertical run when the
      ends share x, otherwise a horizontal run along the first end's row
      (a diagonal segment is drawn as a horizontal one). */
  predicate OnSegment(s: Point, e: Point, p: Point)
  {
    if s.0 == e.0 then p.0 == s.0 && Min(s.1, e.1) <= p.1 <= Max(s.1, e.1)
    else p.1 == s.1 && Min(s.0, e.0) <= p.0 <= Max(s.0, e.0)
  }

  function SegmentCells(s: Point, e: Point): (cells: seq<Point>)
    ensures forall p :: p in cells <==> OnSegment(s, e, p)
  {
    if s.0 == e.0 then Column(s.0, Span(Min(s.1, e.1), Max(s.1, e.1)))
    else Row(s.1, Span(Min(s.0, e.0), Max(s.0, e.0)))
  }

  function Column(x: int, ys: seq<int>): (cells: seq<Point>)
    ensures forall p :: p in cells <==> p.0 == x && p.1 in ys
  {
    if |ys| == 0 then [] else [(x, ys[0])] + Column(x, ys[1..])
  }

  function Row(y: int, xs: seq<int>): (cells: seq<Point>)
    ensures forall p :: p in cells <==> p.1 == y && p.0 in xs
  {
    if |xs| == 0 then [] else [(xs[0], y)] + Row(y, xs[1..])
  }

  /** The cells of one path: every segment between consecutive corners. */
  function PathCells(path: seq<Point>): (cells: seq<Point>)
    ensures forall p :: p in cells <==> exists j :: 0 <= j < |path| - 1 && OnSegment(path[j], path[j + 1], p)
  {
    if |path| < 2 then []
    else
      var rest := PathCells(path[1..]);
      var tail := path[1..];
      assert forall j :: 0 <= j < |tail| ==> tail[j] == path[j + 1];
      SegmentCells(path[0], path[1]) + rest
  }

  /** The cells of all paths. */
  function RockCells(paths: seq<seq<Point>>): (cells: seq<Point>)
    ensures forall p :: p in cells <==> exists i :: 0 <= i < |paths| && p in PathCells(paths[i])
  {
    if |paths| == 0 then []
    else
      var front := paths[..|paths| - 1];
      assert forall i :: 0 <= i < |front| ==> front[i] == paths[i];
      RockCells(front) + PathCells(paths[|paths| - 1])
  }

  /** `max_depth`: one more than the largest rock y, counting from 0. */
  function MaxDepth(rock: seq<Point>): (d: int)
    ensures d >= 1
    ensures forall i :: 0 <= i < |rock| ==> rock[i].1 < d
    ensures d == 1 || exists i :: 0 <= i < |rock| && rock[i].1 == d - 1
  {
    if |rock| == 0 then 1 else Max(MaxDepth(rock[..|rock| - 1]), rock[|rock| - 1].1 + 1)
  }

  /* ---------------------------------------------------------------- */
  /* A falling grain                                                   */
  /* ---------------------------------------------------------------- */

  /** The cell a grain at `s` moves to, or `None` when it comes to rest. */
  function Next(cave: set<Point>, s: Point): (r: Option<Point>)
    ensures r.None? <==> (s.0, s.1 + 1) in cave && (s.0 - 1, s.1 + 1) in cave && (s.0 + 1, s.1 + 1) in cave
    ensures r.Some? ==> r.value !in cave && r.value.1 == s.1 + 1 && Abs(r.value.0 - s.0) <= 1
    ensures r.Some? && r.value.0 != s.0 ==> (s.0, s.1 + 1) in cave
    ensures r.Some? && r.value.0 == s.0 + 1 ==> (s.0 - 1, s.1 + 1) in cave
  {
    if (s.0, s.1 + 1) !in cave then Some((s.0, s.1 + 1))
    else if (s.0 - 1, s.1 + 1) !in cave then Some((s.0 - 1, s.1 + 1))
    else if (s.0 + 1, s.1 + 1) !in cave then Some((s.0 + 1, s.1 + 1))
    else None
  }

  /** A grain at `p` cannot move: all three cells below it are taken. */
  predicate Settled(cave: set<Point>, p: Point)
  {
    Next(cave, p).None?
  }

  /** The cone below `s` that a grain can reach in `n` moves. */
  predicate Below(s: Point, p: Point, n: int)
  {
    s.1 <= p.1 <= s.1 + n && Abs(p.0 - s.0) <= p.1 - s.1
  }

  /** Part one's grain: it checks its step counter before each move, so
      with `budget` checks left it either rests within the cone of
      `budget - 1` moves below its start, or falls into the abyss
      (`None`). A grain that moved rests on a free cell. */
  function FallIntoAbyss(cave: set<Point>, s: Point, budget: nat): (r: Option<Point>)
    ensures r.Some? ==> Settled(cave, r.value) && Below(s, r.value, budget - 1)
    ensures r.Some? ==> r.value == s || r.value !in cave
    decreases budget
  {
    if budget == 0 then None
    else
      match Next(cave, s)
      case None => Some(s)
      case Some(n) => FallIntoAbyss(cave, n, budget - 1)
  }

  /** Part two's grain: it rests on reaching row `depth`, just above the
      floor, or when blocked. */
  function FallOntoFloor(cave: set<Point>, s: Point, depth: int): (r: Point)
    requires s.1 <= depth
    ensures r.1 == depth || Settled(cave, r)
    ensures Below(s, r, depth - s.1)
    ensures r == s || r !in cave
    decreases depth - s.1
  {
    if s.1 == depth then s
    else
      match Next(cave, s)
      case None => s
      case Some(n) => FallOntoFloor(cave, n, depth)
  }

  /** The cells a grain from the entry can reach above row `depth`. */
  function Cone(depth: nat): (c: set<Point>)
    ensures forall p :: p in c <==> Below(Entry, p, depth)
  {
    set y, x | 0 <= y <= depth && 500 - y <= x <= 500 + y :: (x, y)
  }

  /* ---------------------------------------------------------------- */
  /* Pouring                                                           */
  /* ---------------------------------------------------------------- */

  /** The outcome of pouring: how many grains came to rest, and the cells
      occupied at the end. */
  datatype Pour = Pour(grains: nat, cave: set<Point>)

  /** Part one's cave after `n` grains, dropped one at a time from the
      entry, each occupying the cell it rests on; `None` once one of them
      falls into the abyss. */
  function AbyssAfter(cave: set<Point>, depth: nat, n: nat): Option<set<Point>>
    decreases n
  {
    if n == 0 then Some(cave)
    else
      match FallIntoAbyss(cave, Entry, depth)
      case None => None
      case Some(p) => AbyssAfter(cave + {p}, depth, n - 1)
  }

  /** Part two's cave after `n` grains, dropped one at a time from the
      entry onto the floor. */
  function FloorAfter(cave: set<Point>, depth: nat, n: nat): set<Point>
    decreases n
  {
    if n == 0 then cave
    else FloorAfter(cave + {FallOntoFloor(cave, Entry, depth)}, depth, n - 1)
  }

  /** Part one: drop grains from the entry until one falls into the abyss.
      The count is the number of grains dropped one at a time before the
      first that falls, and every grain that rests occupies a new cell.
      When the entry itself is blocked and all three cells below it too, a
      grain rests on the entry without growing the cave and the source
      never stops: `None`. */
  function PourIntoAbyss(cave: set<Point>, depth: nat): (r: Option<Pour>)
    requires depth >= 1
    ensures r.Some? ==> AbyssAfter(cave, depth, r.value.grains) == Some(r.value.cave)
                        && AbyssAfter(cave, depth, r.value.grains + 1).None?
    ensures r.Some? ==> cave <= r.value.cave && |r.value.cave| == |cave| + r.value.grains
    ensures r.Some? ==> FallIntoAbyss(r.value.cave, Entry, depth).None?
    ensures r.None? ==> exists c :: cave <= c && FallIntoAbyss(c, Entry, depth) == Some(Entry) && Entry in c
    decreases Cone(depth) - cave
  {
    match FallIntoAbyss(cave, Entry, depth)
    case None => Some(Pour(0, cave))
    case Some(p) =>
      if p in cave then None
      else
        assert p in Cone(depth);
        match PourIntoAbyss(cave + {p}, depth)
        case None => None
        case Some(rest) => Some(Pour(rest.grains + 1, rest.cave))
  }

  /** When part one's pour never ends, every grain of the source's loop
      comes to rest: the iterate never reaches the abyss. */
  lemma {:induction false} PourNeverEnds(cave: set<Point>, depth: nat, n: nat)
    requires depth >= 1 && PourIntoAbyss(cave, depth).None?
    ensures AbyssAfter(cave, depth, n).Some?
    decreases Cone(depth) - cave, n
  {
    if n > 0 {
      var p := FallIntoAbyss(cave, Entry, depth).value;
      if p in cave {
        assert cave + {p} == cave;
        PourNeverEnds(cave, depth, n - 1);
      } else {
        assert p in Cone(depth);
        PourNeverEnds(cave + {p}, depth, n - 1);
      }
    }
  }

  /** Part two: drop grains until the entry is occupied. The entry is
      free whenever a grain is dropped, so every grain occupies a new cell
      and the process always stops. The count is the first number of
      grains after which the entry is occupied. */
  function PourOntoFloor(cave: set<Point>, depth: nat): (r: Pour)
    ensures r.cave == FloorAfter(cave, depth, r.grains) && Entry in r.cave
    ensures forall n :: 0 <= n < r.grains ==> Entry !in FloorAfter(cave, depth, n)
    ensures cave <= r.cave && |r.cave| == |cave| + r.grains
    ensures Entry !in cave ==> r.grains >= 1
    decreases Cone(depth) - cave
  {
    if Entry in cave then Pour(0, cave)
    else
      var p := FallOntoFloor(cave, Entry, depth);
      assert p in Cone(depth);
      var rest := PourOntoFloor(cave + {p}, depth);
      assert forall n :: 1 <= n ==> FloorAfter(cave, depth, n) == FloorAfter(cave + {p}, depth, n - 1);
      Pour(rest.grains + 1, rest.cave)
  }

  /** The cells of the rock. */
  function RockSet(rock: seq<Point>): set<Point>
  {
    set p | p in rock
  }

  /** Both answers for the rock cells. Part one is the number of grains
      dropped one at a time before the first that falls past the deepest
      rock, and `None` where the source never stops because no grain ever
      falls. Part two is the number of grains after which the entry is
      first occupied. */
  function Solve(rock: seq<Point>): (r: (Option<nat>, nat))
    ensures r.1 >= 1 || Entry in rock
    ensures r.0.Some? ==> AbyssAfter(RockSet(rock), MaxDepth(rock), r.0.value).Some?
                          && AbyssAfter(RockSet(rock), MaxDepth(rock), r.0.value + 1).None?
    ensures r.0.None? ==> forall n :: AbyssAfter(RockSet(rock), MaxDepth(rock), n).Some?
    ensures Entry in FloorAfter(RockSet(rock), MaxDepth(rock), r.1)
    ensures forall n :: 0 <= n < r.1 ==> Entry !in FloorAfter(RockSet(rock), MaxDepth(rock), n)
  {
    var cave := RockSet(rock);
    var depth := MaxDepth(rock);
    var p1 := PourIntoAbyss(cave, depth);
    var p2 := PourOntoFloor(cave, depth);
    if p1.Some? then (Some(p1.value.grains), p2.grains)
    else
      assert forall n :: AbyssAfter(cave, depth, n).Some? by {
        forall n { PourNeverEnds(cave, depth, n); }
      }
      (None, p2.grains)
  }

  /** Once a grain falls into the abyss, the iterate stays `None`: part
      one's count is the only `n` with `n` grains resting and the next one
      falling. */
  lemma {:induction false} AbyssStaysGone(cave: set<Point>, depth: nat, n: nat, m: nat)
    requires n <= m && AbyssAfter(cave, depth, n).None?
    ensures AbyssAfter(cave, depth, m).None?
    decreases n
  {
    if n > 0 {
      var p := FallIntoAbyss(cave, Entry, depth);
      if p.Some? {
        AbyssStaysGone(cave + {p.value}, depth, n - 1, m - 1);
      }
    }
  }

  /** Part one's count is determined: two counts at which the grains rest
      and the next falls are equal. */
  lemma AbyssCountUnique(cave: set<Point>, depth: nat, n: nat, m: nat)
    requires AbyssAfter(cave, depth, n).Some? && AbyssAfter(cave, depth, n + 1).None?
    requires AbyssAfter(cave, depth, m).Some? && AbyssAfter(cave, depth, m + 1).None?
    ensures n == m
  {
    if n < m {
      AbyssStaysGone(cave, depth, n + 1, m);
    } else if m < n {
      AbyssStaysGone(cave, depth, m + 1, n);
    }
  }

  /* ---------------------------------------------------------------- */
  /* Parsing                                                           */
  /* ---------------------------------------------------------------- */

  /** One corner `x,y`; text after a second ',' is ignored, a missing
      part or a part that is not a number is the source's panic. */
  function ParseCorner(s: string): (r: Option<Point>)
    ensures r.Some? <==>
              |SplitOn(s, ',')| >= 2 && ParseInt(SplitOn(s, ',')[0]).Some? && ParseInt(SplitOn(s, ',')[1]).Some?
    ensures r.Some? ==> Some(r.value.0) == ParseInt(SplitOn(s, ',')[0]) && Some(r.value.1) == ParseInt(SplitOn(s, ',')[1])
  {
    var xy := SplitOn(s, ',');
    if |xy| < 2 then None
    else
      match (ParseInt(xy[0]), ParseInt(xy[1]))
      case (Some(x), Some(y)) => Some((x, y))
      case _ => None
  }

  /** The corners' texts: the trimmed line cut at every " -> ". */
  function Pieces(line: string): seq<string>
  {
    SplitOnStr(Trim(line), " -> ")
  }

  /** One path: one corner per piece of the line, in order. */
  function ParsePath(line: string): (r: Option<seq<Point>>)
    ensures r.Some? <==> forall i :: 0 <= i < |Pieces(line)| ==> ParseCorner(Pieces(line)[i]).Some?
    ensures r.Some? ==> |r.value| == |Pieces(line)|
    ensures r.Some? ==> forall i :: 0 <= i < |Pieces(line)| ==> Some(r.value[i]) == ParseCorner(Pieces(line)[i])
  {
    ParseAll(Pieces(line), ParseCorner)
  }

  /** All rock cells of the scan. */
  function Parse(lines: seq<string>): (r: Option<seq<Point>>)
    ensures r.Some? <==> forall i :: 0 <= i < |lines| ==> ParsePath(lines[i]).Some?
    ensures r.Some? ==> forall p :: p in r.value <==>
                          exists i :: 0 <= i < |lines| && p in PathCells(ParsePath(lines[i]).value)
  {
    match ParseAll(lines, ParsePath)
    case None => None
    case Some(paths) => Some(RockCells(paths))
  }
}

=== FILE: day15.dfy ===
/**
 Day 15: beacon exclusion zone. Every sensor reports its closest beacon,
 so no other beacon lies within that Manhattan distance of the sensor.
 Part one counts the covered positions on row 2,000,000; part two locates
 the single uncovered position in the search square from the lines just
 outside the sensors' ranges and reports its tuning frequency.
 */
module Day15 {
  import opened Common

  datatype Point = Point(x: int, y: int)

  const Row: int := 2000000
  const Limit: int := 4000000

  function Manhattan(a: Point, b: Point): (d: nat)
    ensures d == 0 <==> a == b
    ensures d >= Abs(a.x - b.x) && d >= Abs(a.y - b.y)
  {
    Abs(a.x - b.x) + Abs(a.y - b.y)
  }

  /** The sensor at `s` rules out the position `p`. */
  predicate Covers(s: Point, b: Point, p: Point)
  {
    Manhattan(s, p) <= Manhattan(s, b)
  }

  /** The stretch of row `row` the sensor covers: `[sx - d, sx + d]` with
      `d` the radius less the row's distance, present only when `d >= 0`.
      It holds exactly the positions of the row the sensor covers. */
  function RowInterval(s: Point, b: Point, row: int): (r: Option<(int, int)>)
    ensures r.None? <==> forall x :: !Covers(s, b, Point(x, row))
    ensures r.Some? ==> forall x :: r.value.0 <= x <= r.value.1 <==> Covers(s, b, Point(x, row))
  {
    var d := Manhattan(s, b) - Abs(s.y - row);
    if d >= 0 then
      assert Covers(s, b, Point(s.x, row));
      Some((s.x - d, s.x + d))
    else None
  }

  /** Some sensor rules out position `x` of row `row`. */
  predicate CoveredBySome(data: seq<(Point, Point)>, row: int, x: int)
  {
    |data| > 0 && (CoveredBySome(data[..|data| - 1], row, x) || Covers(data[|data| - 1].0, data[|data| - 1].1, Point(x, row)))
  }

  lemma {:induction false} CoveredBySomeMeaning(data: seq<(Point, Point)>, row: int, x: int)
    ensures CoveredBySome(data, row, x) <==> exists i :: 0 <= i < |data| && Covers(data[i].0, data[i].1, Point(x, row))
  {
    if |data| > 0 {
      var front := data[..|data| - 1];
      CoveredBySomeMeaning(front, row, x);
      assert forall i :: 0 <= i < |front| ==> front[i] == data[i];
    }
  }

  /** Some interval holds `x`. */
  predicate InSome(ivs: seq<(int, int)>, x: int)
  {
    |ivs| > 0 && (InSome(ivs[..|ivs| - 1], x) || ivs[|ivs| - 1].0 <= x <= ivs[|ivs| - 1].1)
  }

  /** The intervals of all sensors that reach the row, which together hold
      exactly the positions some sensor rules out. */
  function Intervals(data: seq<(Point, Point)>, row: int): (r: seq<(int, int)>)
    ensures |r| <= |data|
    ensures forall x :: InSome(r, x) <==> CoveredBySome(data, row, x)
  {
    if |data| == 0 then []
    else
      var last := data[|data| - 1];
      var rest := Intervals(data[..|data| - 1], row);
      match RowInterval(last.0, last.1, row)
      case None => rest
      case Some(iv) =>
        var r := rest + [iv];
        assert r[..|r| - 1] == rest;
        r
  }

  function Range(lo: int, hi: int): (r: seq<int>)
    ensures forall v :: v in r <==> lo <= v <= hi
    decreases hi - lo
  {
    if lo > hi then [] else [lo] + Range(lo + 1, hi)
  }

  /** Every integer of every interval, interval by interval. */
  function Expand(ivs: seq<(int, int)>): (r: seq<int>)
    ensures forall x :: x in r <==> InSome(ivs, x)
  {
    if |ivs| == 0 then []
    else Expand(ivs[..|ivs| - 1]) + Range(ivs[|ivs| - 1].0, ivs[|ivs| - 1].1)
  }

  /** The number of neighbouring positions that differ. */
  function Steps(s: seq<int>): nat
  {
    if |s| < 2 then 0 else Steps(s[..|s| - 1]) + (if s[|s| - 2] != s[|s| - 1] then 1 else 0)
  }

  /** In a sorted sequence each step starts a new value, so there is one
      step fewer than there are distinct values. */
  lemma {:induction false} StepsCountDistinct(s: seq<int>)
    requires |s| >= 1 && SortedAsc(s)
    ensures Steps(s) == |Elements(s)| - 1
  {
    if |s| == 1 {
      assert Elements(s) == {s[0]};
    } else {
      var front := s[..|s| - 1];
      var last := s[|s| - 1];
      SortedFront(s);
      StepsCountDistinct(front);
      var e := Elements(front);
      ElementsSnoc(front, last);
      assert s == front + [last];
      if s[|s| - 2] == last {
        assert front[|front| - 1] == last;
        assert e + {last} == e;
      } else {
        LastIsNew(s);
        assert |e + {last}| == |e| + 1;
      }
    }
  }

  lemma ElementsSnoc(s: seq<int>, x: int)
    ensures Elements(s + [x]) == Elements(s) + {x}
  {
  }

  lemma SortedFront(s: seq<int>)
    requires |s| >= 1 && SortedAsc(s)
    ensures SortedAsc(s[..|s| - 1])
  {
    var front := s[..|s| - 1];
    assert forall i :: 0 <= i < |front| ==> front[i] == s[i];
  }

  /** In a sorted sequence whose last step changes value, the last value
      occurs nowhere before. */
  lemma LastIsNew(s: seq<int>)
    requires |s| >= 2 && SortedAsc(s) && s[|s| - 2] != s[|s| - 1]
    ensures s[|s| - 1] !in Elements(s[..|s| - 1])
  {
    var front := s[..|s| - 1];
    forall k | 0 <= k < |front|
      ensures front[k] != s[|s| - 1]
    {
      assert front[k] == s[k];
      assert s[k] <= s[|s| - 2];
    }
  }

  /** Sorting keeps the distinct values. */
  lemma SortKeepsElements(s: seq<int>)
    ensures Elements(SortAsc(s)) == Elements(s)
  {
    var t := SortAsc(s);
    assert forall x :: x in t <==> x in multiset(t);
    assert forall x :: x in s <==> x in multiset(s);
  }

  lemma SomeCovered(data: seq<(Point, Point)>, row: int)
    requires |SortAsc(Expand(Intervals(data, row)))| > 0
    ensures exists x :: CoveredBySome(data, row, x)
  {
    var all := Expand(Intervals(data, row));
    var sorted := SortAsc(all);
    SortKeepsElements(all);
    var x0 := sorted[0];
    assert x0 in Elements(sorted);
    assert x0 in all;
    assert InSome(Intervals(data, row), x0);
    assert CoveredBySome(data, row, x0);
  }

  /** Part one: the number of distinct positions of the row some sensor
      rules out, less one, as counting the changes in the sorted list
      gives it. `None` when no sensor reaches the row, where the source's
      loop bound underflows. */
  function CountRow(data: seq<(Point, Point)>, row: int): (r: Option<int>)
    ensures r.Some? <==> exists x :: CoveredBySome(data, row, x)
    ensures r.Some? ==> r.value + 1 == |Elements(Expand(Intervals(data, row)))|
    ensures forall x :: x in Expand(Intervals(data, row)) <==> CoveredBySome(data, row, x)
  {
    var all := Expand(Intervals(data, row));
    var sorted := SortAsc(all);
    SortKeepsElements(all);
    if |sorted| == 0 then
      assert |all| == |multiset(all)| == 0;
      None
    else
      StepsCountDistinct(sorted);
      SomeCovered(data, row);
      Some(Steps(sorted))
  }

  /* ---------------------------------------------------------------- */
  /* Part two                                                          */
  /* ---------------------------------------------------------------- */

  /** A position just outside a sensor's range lies on one of the four
      diagonal lines the source records: `x - y` is `sx - sy ± (r + 1)` or
      `x + y` is `sx + sy ± (r + 1)`. */
  lemma JustOutsideOnLines(s: Point, r: nat, p: Point)
    requires Manhattan(s, p) == r + 1
    ensures || p.x - p.y == s.x - s.y + r + 1 || p.x - p.y == s.x - s.y - r - 1
            || p.x + p.y == s.x + s.y + r + 1 || p.x + p.y == s.x + s.y - r - 1
  {
  }

  /** The line constants of every sensor, in sensor order. */
  function Lines(data: seq<(Point, Point)>, sign: int, offset: int): (r: seq<int>)
    requires sign == 1 || sign == -1
    ensures |r| == |data|
    ensures forall i :: 0 <= i < |data| ==>
              r[i] == data[i].0.x + sign * data[i].0.y + offset * (Manhattan(data[i].0, data[i].1) + 1)
  {
    seq(|data|, i requires 0 <= i < |data| => data[i].0.x + sign * data[i].0.y + offset * (Manhattan(data[i].0, data[i].1) + 1))
  }

  /** The first entry of `a` that also occurs in `b`. */
  function FirstShared(a: seq<int>, b: seq<int>): (r: Option<int>)
    ensures r.None? <==> forall i :: 0 <= i < |a| ==> a[i] !in b
    ensures r.Some? ==> r.value in a && r.value in b
  {
    if |a| == 0 then None
    else if a[0] in b then Some(a[0])
    else
      assert forall i :: 1 <= i < |a| ==> a[i] == a[1..][i - 1];
      FirstShared(a[1..], b)
  }

  /** The tuning frequency from the shared constants `a` (on `x - y`) and
      `b` (on `x + y`), in the source's order of operations with
      truncating division. */
  function Frequency(a: int, b: int): int
  {
    TruncDiv((a + b) * Limit, 2) + TruncDiv(b - a, 2)
  }

  /** The two lines meet at the position `(x, y)`, whose frequency is
      `4,000,000 x + y`. */
  lemma FrequencyMeaning(x: int, y: int)
    ensures Frequency(x - y, x + y) == x * Limit + y
  {
    assert (x - y + (x + y)) * Limit == 2 * (x * Limit);
    assert x + y - (x - y) == 2 * y;
    Halve(x * Limit);
    Halve(y);
  }

  lemma Halve(q: int)
    ensures TruncDiv(2 * q, 2) == q
  {
  }

  /** Part two: the frequency from the first constant shared by the two
      `x - y` line sets and the first shared by the two `x + y` sets.
      `None` when either pair shares nothing, where the source indexes an
      empty list. When the two constants have an even sum the lines meet
      at a grid position, and the answer is that position's frequency. */
  function Locate(data: seq<(Point, Point)>): (r: Option<int>)
    ensures r.Some? <==> FirstShared(Lines(data, -1, 1), Lines(data, -1, -1)).Some?
                         && FirstShared(Lines(data, 1, 1), Lines(data, 1, -1)).Some?
    ensures r.Some? ==>
              var a := FirstShared(Lines(data, -1, 1), Lines(data, -1, -1)).value;
              var b := FirstShared(Lines(data, 1, 1), Lines(data, 1, -1)).value;
              (a + b) % 2 == 0 ==> r.value == (a + b) / 2 * Limit + (b - a) / 2
  {
    match (FirstShared(Lines(data, -1, 1), Lines(data, -1, -1)), FirstShared(Lines(data, 1, 1), Lines(data, 1, -1)))
    case (Some(a), Some(b)) =>
      if (a + b) % 2 == 0 then
        var x := (a + b) / 2;
        var y := (b - a) / 2;
        FrequencyMeaning(x, y);
        Some(Frequency(a, b))
      else Some(Frequency(a, b))
    case _ => None
  }

  function Solve(data: seq<(Point, Point)>): (r: (Option<int>, Option<int>))
    ensures r.0 == CountRow(data, Row) && r.1 == Locate(data)
  {
    (CountRow(data, Row), Locate(data))
  }

  /* ---------------------------------------------------------------- */
  /* Parsing                                                           */
  /* ---------------------------------------------------------------- */

  /** The end of the longest run of digits from `i`. */
  function DigitRun(s: string, i: nat): (j: nat)
    requires i <= |s|
    ensures i <= j <= |s|
    ensures AllDigits(s[i..j]) && (j == |s| || !IsDigit(s[j]))
    decreases |s| - i
  {
    if i < |s| && IsDigit(s[i]) then
      var j := DigitRun(s, i + 1);
      assert s[i..j] == [s[i]] + s[i + 1..j];
      j
    else i
  }

  /** `-?\d+` at `i`: its value and the position after it. */
  function Number(s: string, i: nat): (r: Option<(int, nat)>)
    requires i <= |s|
    ensures r.Some? ==> i < r.value.1 <= |s| && ParseInt(s[i..r.value.1]) == Some(r.value.0)
    ensures r.Some? ==> r.value.1 == |s| || !IsDigit(s[r.value.1])
  {
    var k := if i < |s| && s[i] == '-' then i + 1 else i;
    var j := DigitRun(s, k);
    if j == k then None
    else if k > i then
      assert s[i..j][1..] == s[k..j];
      Some((-(DigitsValue(s[k..j]) as int), j))
    else Some((DigitsValue(s[k..j]), j))
  }

  /** The literal `lit` at position `i`. */
  predicate LiteralAt(s: string, i: nat, lit: string)
  {
    i + |lit| <= |s| && s[i..i + |lit|] == lit
  }

  /** The literals `lits` in turn from `i`, each followed by a number:
      the numbers. */
  function Fields(s: string, i: nat, lits: seq<string>): (r: Option<seq<int>>)
    requires i <= |s|
    ensures r.Some? ==> |r.value| == |lits|
    ensures r.Some? && |lits| > 0 ==> LiteralAt(s, i, lits[0])
    decreases |lits|
  {
    if |lits| == 0 then Some([])
    else if !LiteralAt(s, i, lits[0]) then None
    else
      match Number(s, i + |lits[0]|)
      case None => None
      case Some((n, j)) =>
        (match Fields(s, j, lits[1..])
         case None => None
         case Some(ns) => Some([n] + ns))
  }

  /** The fields from `i` are the number right after the first literal,
      then the fields of the other literals from the end of that number. */
  lemma FieldsFirst(s: string, i: nat, lits: seq<string>)
    requires i <= |s| && |lits| > 0
    ensures Fields(s, i, lits).Some? <==>
              LiteralAt(s, i, lits[0]) && Number(s, i + |lits[0]|).Some?
              && Fields(s, Number(s, i + |lits[0]|).value.1, lits[1..]).Some?
    ensures Fields(s, i, lits).Some? ==>
              Fields(s, i, lits).value[0] == Number(s, i + |lits[0]|).value.0
              && Fields(s, i, lits).value[1..] == Fields(s, Number(s, i + |lits[0]|).value.1, lits[1..]).value
  {
    if Fields(s, i, lits).Some? {
      assert ([Fields(s, i, lits).value[0]] + Fields(s, i, lits).value[1..])[1..] == Fields(s, i, lits).value[1..];
    }
  }

  /** The literal parts of the report's pattern. */
  const Pattern: seq<string> := ["Sensor at x=", ", y=", ": closest beacon is at x=", ", y="]

  /** The report's pattern matched at `i`: the sensor and the beacon. */
  function MatchAt(s: string, i: nat): (r: Option<(Point, Point)>)
    requires i <= |s|
    ensures r.Some? ==> LiteralAt(s, i, "Sensor at x=")
  {
    match Fields(s, i, Pattern)
    case None => None
    case Some(ns) => Some((Point(ns[0], ns[1]), Point(ns[2], ns[3])))
  }

  /** A match is the pattern's four numbers: the sensor's x and y, then
      the beacon's. */
  lemma MatchAtFields(s: string, i: nat)
    requires i <= |s|
    ensures MatchAt(s, i).Some? <==> Fields(s, i, Pattern).Some?
    ensures MatchAt(s, i).Some? ==>
              MatchAt(s, i).value.0 == Point(Fields(s, i, Pattern).value[0], Fields(s, i, Pattern).value[1])
              && MatchAt(s, i).value.1 == Point(Fields(s, i, Pattern).value[2], Fields(s, i, Pattern).value[3])
  {
  }

  /** The leftmost position at or after `i` where the pattern matches, as
      a regular-expression search finds it. */
  function Search(s: string, i: nat): (r: Option<nat>)
    requires i <= |s|
    ensures r.Some? ==> i <= r.value <= |s| && MatchAt(s, r.value).Some?
    decreases |s| - i
  {
    if MatchAt(s, i).Some? then Some(i)
    else if i == |s| then None
    else Search(s, i + 1)
  }

  /** `Search` passes over no match: every position it skips, up to its
      result or to the end, fails to match. */
  lemma {:induction false} SearchSkips(s: string, i: nat, k: nat)
    requires i <= k <= |s|
    requires Search(s, i).None? || k < Search(s, i).value
    ensures MatchAt(s, k).None?
    decreases k - i
  {
    if i < k {
      assert MatchAt(s, i).None? && Search(s, i) == Search(s, i + 1);
      SearchSkips(s, i + 1, k);
    }
  }

  /** Hence `Search` finds nothing exactly when no position matches, and
      otherwise it finds the leftmost match. */
  lemma SearchLeftmost(s: string, i: nat)
    requires i <= |s|
    ensures Search(s, i).None? <==> forall k :: i <= k <= |s| ==> MatchAt(s, k).None?
    ensures Search(s, i).Some? ==> forall k :: i <= k < Search(s, i).value ==> MatchAt(s, k).None?
  {
    forall k | i <= k <= |s| && (Search(s, i).None? || k < Search(s, i).value)
      ensures MatchAt(s, k).None?
    {
      SearchSkips(s, i, k);
    }
  }

  /** The report on one line, if the line holds one. */
  function Report(line: string): (r: Option<(Point, Point)>)
    ensures r.Some? <==> Search(line, 0).Some?
    ensures r.Some? ==> r == MatchAt(line, Search(line, 0).value)
  {
    match Search(line, 0)
    case Some(k) => MatchAt(line, k)
    case None => None
  }

  /** The reports of the lines, one entry per line. */
  function Reports(lines: seq<string>): (rs: seq<Option<(Point, Point)>>)
    ensures |rs| == |lines|
  {
    seq(|lines|, i requires 0 <= i < |lines| => Report(lines[i]))
  }

  /** The reports of every line that matches; other lines are skipped. */
  function Parse(lines: seq<string>): (r: seq<(Point, Point)>)
    ensures |r| <= |lines|
    ensures (forall i :: 0 <= i < |lines| ==> Report(lines[i]).Some?) ==> |r| == |lines|
  {
    Present(Reports(lines))
  }

  /** The parsed reports are those of the lines that hold one, in the
      order of the lines: the report of line i sits after those of the
      lines before it, and every parsed report is some line's. */
  lemma ParseReports(lines: seq<string>)
    ensures forall i :: 0 <= i < |lines| && Report(lines[i]).Some? ==>
              |Parse(lines[..i])| < |Parse(lines)| && Parse(lines)[|Parse(lines[..i])|] == Report(lines[i]).value
    ensures forall k :: 0 <= k < |Parse(lines)| ==>
              exists i :: 0 <= i < |lines| && Report(lines[i]) == Some(Parse(lines)[k]) && |Parse(lines[..i])| == k
  {
    var rs := Reports(lines);
    PresentAt(rs);
    PresentFrom(rs);
    forall i | 0 <= i <= |lines|
      ensures Parse(lines[..i]) == Present(rs[..i])
    {
      assert Reports(lines[..i]) == rs[..i];
    }
  }
}

=== FILE: day16.dfy ===
/**
 Day 16: proboscidea volcanium. Valves sit in rooms joined by tunnels;
 moving one tunnel takes a minute and so does opening a valve, after which
 it releases its flow every remaining minute. Only rooms with a positive
 flow, and the start room "AA", matter: breadth-first search gives the
 tunnel distance between them, and a depth-first search over orders of
 opening finds the best total release. Part two records the best release
 for every set of opened valves and pairs a set with its complement.
 */
module Day16 {
  import opened Common

  type Name = string

  datatype Room = Room(flow: int, exits: seq<Name>)

  type Rooms = map<Name, Room>

  const Start: Name := "AA"

  /** The rooms worth visiting: a positive flow, or the start room. */
  function Good(rooms: Rooms): (g: set<Name>)
    ensures forall k :: k in g <==> k in rooms && (rooms[k].flow > 0 || k == Start)
  {
    set k | k in rooms && (rooms[k].flow > 0 || k == Start)
  }

  /* ---------------------------------------------------------------- */
  /* Breadth-first distances                                           */
  /* ---------------------------------------------------------------- */

  /** The rooms one tunnel away from some room of `s`. */
  function Exits(rooms: Rooms, s: set<Name>): set<Name>
  {
    set p, x | p in s && p in rooms && x in rooms[p].exits :: x
  }

  lemma ExitsUnion(rooms: Rooms, a: set<Name>, b: set<Name>)
    ensures Exits(rooms, a + b) == Exits(rooms, a) + Exits(rooms, b)
  {
  }

  /** The rooms at most `n` tunnels from `src`. */
  ghost function Within(rooms: Rooms, src: Name, n: nat): set<Name>
  {
    if n == 0 then {src} else Within(rooms, src, n - 1) + Exits(rooms, Within(rooms, src, n - 1))
  }

  lemma {:induction false} WithinGrows(rooms: Rooms, src: Name, n: nat, m: nat)
    requires n <= m
    ensures Within(rooms, src, n) <= Within(rooms, src, m)
    decreases m - n
  {
    if n < m {
      WithinGrows(rooms, src, n, m - 1);
    }
  }

  /** Once a step adds nothing, no later step does. */
  lemma {:induction false} WithinStable(rooms: Rooms, src: Name, d: nat, n: nat)
    requires Within(rooms, src, d + 1) == Within(rooms, src, d) && d <= n
    ensures Within(rooms, src, n) == Within(rooms, src, d)
    decreases n - d
  {
    if d < n {
      WithinStable(rooms, src, d, n - 1);
    }
  }

  /** `x` is exactly `n` tunnels from `src` at the fewest. */
  ghost predicate Shortest(rooms: Rooms, src: Name, x: Name, n: nat)
  {
    x in Within(rooms, src, n) && (n == 0 || x !in Within(rooms, src, n - 1))
  }

  /** A room has one shortest distance. */
  lemma ShortestUnique(rooms: Rooms, src: Name, x: Name, n: nat, m: nat)
    requires Shortest(rooms, src, x, n) && Shortest(rooms, src, x, m)
    ensures n == m
  {
    if n < m {
      WithinGrows(rooms, src, n, m - 1);
    } else if m < n {
      WithinGrows(rooms, src, m, n - 1);
    }
  }

  /** Every room named anywhere: the rooms and the exits they list. */
  function Named(rooms: Rooms): set<Name>
  {
    rooms.Keys + set p, x | p in rooms && x in rooms[p].exits :: x
  }

  /** The rooms first reached after exactly `n` tunnels. */
  ghost function Layer(rooms: Rooms, src: Name, n: nat): set<Name>
  {
    if n == 0 then {src} else Within(rooms, src, n) - Within(rooms, src, n - 1)
  }

  lemma WithinStep(rooms: Rooms, src: Name, d: nat)
    ensures Within(rooms, src, d + 1) == Within(rooms, src, d) + Exits(rooms, Within(rooms, src, d))
  {
  }

  lemma ExitsNamed(rooms: Rooms, s: set<Name>)
    ensures Exits(rooms, s) <= Named(rooms)
  {
  }

  /** Every recorded room sits at its shortest distance. */
  ghost predicate Exact(rooms: Rooms, src: Name, dist: map<Name, int>)
  {
    forall x :: x in dist ==> dist[x] >= 0 && Shortest(rooms, src, x, dist[x])
  }

  /** The state of the search after `d` levels: `dist` holds the rooms
      within `d` tunnels, each at its shortest distance, `frontier` those
      at exactly `d`, and every recorded room off the frontier has been
      expanded, so it is a room. */
  ghost predicate Level(rooms: Rooms, src: Name, frontier: set<Name>, dist: map<Name, int>, d: nat)
  {
    && dist.Keys == Within(rooms, src, d)
    && frontier == Layer(rooms, src, d)
    && Exact(rooms, src, dist)
    && dist.Keys - frontier <= rooms.Keys
  }

  /** `dist` with every room of `found` recorded at `v`. */
  function Record(dist: map<Name, int>, found: set<Name>, v: int): (m: map<Name, int>)
    requires found !! dist.Keys
    ensures m.Keys == dist.Keys + found
    ensures forall x :: x in dist ==> m[x] == dist[x]
    ensures forall x :: x in found ==> m[x] == v
  {
    dist + map x | x in found :: v
  }

  /** The level-by-level search from `src`, as the source's `curr`/`next`
      loop runs it: each room reached for the first time gets the level
      after the current one, and what is recorded stays. `None` when a
      room on the frontier does not exist, where the source's lookup
      panics. */
  function Bfs(rooms: Rooms, src: Name, frontier: set<Name>, dist: map<Name, int>, d: nat): (r: Option<map<Name, int>>)
    requires dist.Keys <= Named(rooms) + {src}
    ensures r.Some? ==> forall x :: x in dist ==> x in r.value && r.value[x] == dist[x]
    decreases Named(rooms) + {src} - dist.Keys, |frontier|
  {
    if frontier == {} then Some(dist)
    else if !(frontier <= rooms.Keys) then None
    else
      var found := Exits(rooms, frontier) - dist.Keys;
      BfsMeasure(rooms, src, frontier, dist, d, found);
      Bfs(rooms, src, found, Record(dist, found, d + 1), d + 1)
  }

  /** What a finished search promises: every recorded room at its
      shortest tunnel count, every room within reach recorded and nothing
      else, or failure only when some room within reach does not exist. */
  ghost predicate Searched(rooms: Rooms, src: Name, r: Option<map<Name, int>>)
  {
    && (r.Some? ==> Exact(rooms, src, r.value))
    && (r.Some? ==> src in r.value && Exits(rooms, r.value.Keys) <= r.value.Keys)
    && (r.Some? ==> r.value.Keys <= rooms.Keys)
    && (r.None? ==> exists n: nat :: !(Within(rooms, src, n) <= rooms.Keys))
  }

  /** Started from a proper level, the search finishes as `Searched`
      describes. */
  lemma {:induction false} BfsCorrect(rooms: Rooms, src: Name, frontier: set<Name>, dist: map<Name, int>, d: nat)
    requires Level(rooms, src, frontier, dist, d)
    requires dist.Keys <= Named(rooms) + {src}
    ensures Searched(rooms, src, Bfs(rooms, src, frontier, dist, d))
    decreases Named(rooms) + {src} - dist.Keys, |frontier|
  {
    if frontier == {} {
      BfsDone(rooms, src, dist, d);
    } else if !(frontier <= rooms.Keys) {
      BfsFails(rooms, src, frontier, dist, d);
    } else {
      var found := Exits(rooms, frontier) - dist.Keys;
      BfsStep(rooms, src, frontier, dist, d, found);
      BfsMeasure(rooms, src, frontier, dist, d, found);
      var next := Record(dist, found, d + 1);
      BfsUnfold(rooms, src, frontier, dist, d);
      if found == {} {
        assert next == dist;
        assert |found| < |frontier|;
      } else {
        assert Named(rooms) + {src} - next.Keys < Named(rooms) + {src} - dist.Keys;
      }
      BfsCorrect(rooms, src, found, next, d + 1);
    }
  }

  lemma BfsUnfold(rooms: Rooms, src: Name, frontier: set<Name>, dist: map<Name, int>, d: nat)
    requires frontier <= rooms.Keys && frontier != {}
    requires dist.Keys <= Named(rooms) + {src}
    ensures Bfs(rooms, src, frontier, dist, d)
         == Bfs(rooms, src, Exits(rooms, frontier) - dist.Keys,
                Record(dist, Exits(rooms, frontier) - dist.Keys, d + 1), d + 1)
  {
    BfsMeasure(rooms, src, frontier, dist, d, Exits(rooms, frontier) - dist.Keys);
  }

  /** Each level either records a room never recorded before or empties
      the frontier. */
  lemma BfsMeasure(rooms: Rooms, src: Name, frontier: set<Name>, dist: map<Name, int>, d: nat, found: set<Name>)
    requires frontier <= rooms.Keys && frontier != {}
    requires dist.Keys <= Named(rooms) + {src}
    requires found == Exits(rooms, frontier) - dist.Keys
    ensures Record(dist, found, d + 1).Keys <= Named(rooms) + {src}
    ensures found == {} ==> Record(dist, found, d + 1) == dist
    ensures found != {} ==> Named(rooms) + {src} - Record(dist, found, d + 1).Keys < Named(rooms) + {src} - dist.Keys
  {
    var next := Record(dist, found, d + 1);
    ExitsNamed(rooms, frontier);
    assert next.Keys == dist.Keys + found;
    if found != {} {
      var x :| x in found;
      assert x in Named(rooms) + {src} - dist.Keys;
      assert x !in Named(rooms) + {src} - next.Keys;
    }
  }

  /** A frontier room that does not exist is within reach. */
  lemma BfsFails(rooms: Rooms, src: Name, frontier: set<Name>, dist: map<Name, int>, d: nat)
    requires Level(rooms, src, frontier, dist, d) && frontier != {} && !(frontier <= rooms.Keys)
    requires dist.Keys <= Named(rooms) + {src}
    ensures Searched(rooms, src, Bfs(rooms, src, frontier, dist, d))
  {
    assert frontier <= Within(rooms, src, d);
    assert !(Within(rooms, src, d) <= rooms.Keys);
  }

  /** An empty frontier means nothing more is within reach. */
  lemma BfsDone(rooms: Rooms, src: Name, dist: map<Name, int>, d: nat)
    requires Level(rooms, src, {}, dist, d)
    requires dist.Keys <= Named(rooms) + {src}
    ensures Searched(rooms, src, Bfs(rooms, src, {}, dist, d))
  {
    WithinClosed(rooms, src, d);
    assert Bfs(rooms, src, {}, dist, d) == Some(dist);
  }

  /** Once a layer is empty, what is within reach is closed under tunnels. */
  lemma WithinClosed(rooms: Rooms, src: Name, d: nat)
    requires Layer(rooms, src, d) == {}
    ensures src in Within(rooms, src, d) && Exits(rooms, Within(rooms, src, d)) <= Within(rooms, src, d)
  {
    var a := Within(rooms, src, d - 1);
    var b := Within(rooms, src, d);
    WithinStep(rooms, src, d - 1);
    forall x | x in b
      ensures x in a
    {
      assert x !in b - a;
    }
    ExitsMono(rooms, b, a);
    WithinGrows(rooms, src, 0, d);
  }

  /** A set holding `src` and closed under tunnels holds everything within
      reach of `src`. */
  lemma {:induction false} ClosedReach(rooms: Rooms, src: Name, keys: set<Name>, n: nat)
    requires src in keys && Exits(rooms, keys) <= keys
    ensures Within(rooms, src, n) <= keys
  {
    if n > 0 {
      ClosedReach(rooms, src, keys, n - 1);
      ExitsMono(rooms, Within(rooms, src, n - 1), keys);
    }
  }

  lemma ExitsMono(rooms: Rooms, a: set<Name>, b: set<Name>)
    requires a <= b
    ensures Exits(rooms, a) <= Exits(rooms, b)
  {
  }

  /** The rooms one tunnel past the frontier that are new are exactly the
      next layer. */
  lemma NextLayer(rooms: Rooms, src: Name, frontier: set<Name>, dist: map<Name, int>, d: nat, found: set<Name>)
    requires dist.Keys == Within(rooms, src, d) && frontier == Layer(rooms, src, d)
    requires dist.Keys - frontier <= rooms.Keys
    requires found == Exits(rooms, frontier) - dist.Keys
    ensures Within(rooms, src, d + 1) == dist.Keys + found
    ensures found == Layer(rooms, src, d + 1)
  {
    var w := Within(rooms, src, d);
    WithinStep(rooms, src, d);
    if d > 0 {
      var before := Within(rooms, src, d - 1);
      WithinStep(rooms, src, d - 1);
      assert w == before + frontier;
      ExitsUnion(rooms, before, frontier);
    }
  }

  lemma ExactExtend(rooms: Rooms, src: Name, dist: map<Name, int>, d: nat, found: set<Name>)
    requires Exact(rooms, src, dist) && found !! dist.Keys
    requires forall x :: x in found ==> Shortest(rooms, src, x, d + 1)
    ensures Exact(rooms, src, Record(dist, found, d + 1))
  {
    var next := Record(dist, found, d + 1);
    forall x | x in next
      ensures next[x] >= 0 && Shortest(rooms, src, x, next[x])
    {
      if x in found {
        assert next[x] == d + 1;
      } else {
        assert next[x] == dist[x];
      }
    }
  }

  lemma BfsStep(rooms: Rooms, src: Name, frontier: set<Name>, dist: map<Name, int>, d: nat, found: set<Name>)
    requires Level(rooms, src, frontier, dist, d) && frontier != {} && frontier <= rooms.Keys
    requires found == Exits(rooms, frontier) - dist.Keys
    ensures Level(rooms, src, found, Record(dist, found, d + 1), d + 1)
  {
    NextLayer(rooms, src, frontier, dist, d, found);
    ExactExtend(rooms, src, dist, d, found);
  }

  /** The distances from `src`, starting from `src` itself at 0. */
  function Distances(rooms: Rooms, src: Name): (r: Option<map<Name, int>>)
    ensures r.Some? ==> src in r.value && r.value[src] == 0
  {
    Bfs(rooms, src, {src}, map[src := 0], 0)
  }

  /** The search from `src` records every room within reach, and only
      those that exist, each at its shortest tunnel count; it fails only
      when some room within reach does not exist. */
  lemma DistancesCorrect(rooms: Rooms, src: Name)
    ensures Distances(rooms, src).Some? ==> Exact(rooms, src, Distances(rooms, src).value)
    ensures Distances(rooms, src).Some? ==> Distances(rooms, src).value.Keys <= rooms.Keys
    ensures Distances(rooms, src).Some? ==> forall n: nat :: Within(rooms, src, n) <= Distances(rooms, src).value.Keys
    ensures Distances(rooms, src).None? ==> exists n: nat :: !(Within(rooms, src, n) <= rooms.Keys)
  {
    assert Within(rooms, src, 0) == {src};
    assert Shortest(rooms, src, src, 0);
    var r := Bfs(rooms, src, {src}, map[src := 0], 0);
    BfsCorrect(rooms, src, {src}, map[src := 0], 0);
    if r.Some? {
      forall n: nat
        ensures Within(rooms, src, n) <= r.value.Keys
      {
        ClosedReach(rooms, src, r.value.Keys, n);
      }
    }
  }

  /* ---------------------------------------------------------------- */
  /* The distance table                                                */
  /* ---------------------------------------------------------------- */

  type Dist = map<(Name, Name), int>

  /** The source's `distances`: a search from every good room, recording
      `(from, to)` for every room reached. `None` when one of the searches
      meets a room that does not exist. */
  function Table(rooms: Rooms): (r: Option<Dist>)
    ensures r.Some? <==> forall s :: s in Good(rooms) ==> Distances(rooms, s).Some?
    ensures r.Some? ==> forall s, x :: s in Good(rooms) && x in Distances(rooms, s).value ==>
                          (s, x) in r.value && r.value[(s, x)] == Distances(rooms, s).value[x]
    ensures r.Some? ==> forall p :: p in r.value ==> p.0 in Good(rooms)
  {
    var good := Good(rooms);
    if forall s :: s in good ==> Distances(rooms, s).Some? then
      Some(map s, x | s in good && x in Distances(rooms, s).value :: (s, x) := Distances(rooms, s).value[x])
    else None
  }

  /** What the searches below look up without checking: every room of
      `pool` exists and the table holds a non-negative distance between any
      two of them. The source panics on a missing entry. */
  predicate Ready(rooms: Rooms, dist: Dist, pool: set<Name>)
  {
    forall a, b :: a in pool && b in pool ==> a in rooms && (a, b) in dist && dist[(a, b)] >= 0
  }

  /* ---------------------------------------------------------------- */
  /* Part one: the best order of opening                               */
  /* ---------------------------------------------------------------- */

  /** The targets not yet seen, in order. */
  function Remaining(targets: seq<Name>, seen: set<Name>): (r: seq<Name>)
    ensures forall x :: x in r <==> x in targets && x !in seen
    ensures NoDuplicates(targets) ==> NoDuplicates(r)
  {
    if |targets| == 0 then []
    else
      var rest := Remaining(targets[..|targets| - 1], seen);
      var t := targets[|targets| - 1];
      assert forall x :: x in targets <==> x in targets[..|targets| - 1] || x == t;
      if t in seen then rest else rest + [t]
  }

  predicate AllIn(s: seq<Name>, pool: set<Name>)
  {
    forall i :: 0 <= i < |s| ==> s[i] in pool
  }

  /** `best_total_flow`: standing in `cur` with `time` minutes left, the
      best release still to come from opening valves of `targets` not yet
      seen. Each candidate `t` costs the walk there and a minute to open;
      when time is left after that, it gives `left * flow` plus the best
      from `t` onwards. */
  function BestFlow(rooms: Rooms, dist: Dist, pool: set<Name>, cur: Name, time: int, seen: set<Name>, targets: seq<Name>): (b: int)
    requires Ready(rooms, dist, pool) && cur in pool && AllIn(targets, pool)
    ensures b >= 0
    decreases Max(time, 0), 1, 0
  {
    var seen' := seen + {cur};
    var ts := Remaining(targets, seen');
    assert forall i :: 0 <= i < |ts| ==> ts[i] in targets;
    Options(rooms, dist, pool, cur, time, seen', ts, ts)
  }

  /** The loop over the candidates `list`, keeping the best option, 0 when
      none leaves time to spare. */
  function Options(rooms: Rooms, dist: Dist, pool: set<Name>, cur: Name, time: int, seen: set<Name>, ts: seq<Name>, list: seq<Name>): (b: int)
    requires Ready(rooms, dist, pool) && cur in pool && AllIn(ts, pool) && AllIn(list, pool)
    ensures b >= 0
    decreases Max(time, 0), 0, |list|
  {
    if |list| == 0 then 0
    else
      var rest := Options(rooms, dist, pool, cur, time, seen, ts, list[..|list| - 1]);
      var t := list[|list| - 1];
      var left := time - dist[(cur, t)] - 1;
      if left > 0 then Max(rest, Gain(rooms, t, left) + BestFlow(rooms, dist, pool, t, left, seen, ts))
      else rest
  }

  /** What opening `t` with `left` minutes remaining releases. */
  function Gain(rooms: Rooms, t: Name, left: int): int
    requires t in rooms
  {
    left * rooms[t].flow
  }

  /** The release of opening the valves of `plan` in that order, starting
      in `cur` with `time` minutes; `None` when some valve of the plan
      would be opened with no minute to spare. */
  function PlanValue(rooms: Rooms, dist: Dist, pool: set<Name>, cur: Name, time: int, plan: seq<Name>): Option<int>
    requires Ready(rooms, dist, pool) && cur in pool && AllIn(plan, pool)
    decreases |plan|
  {
    if |plan| == 0 then Some(0)
    else
      var t := plan[0];
      var left := time - dist[(cur, t)] - 1;
      var tail := plan[1..];
      assert forall i :: 0 <= i < |tail| ==> tail[i] == plan[i + 1];
      if left <= 0 then None
      else
        match PlanValue(rooms, dist, pool, t, left, tail)
        case None => None
        case Some(v) => Some(Gain(rooms, t, left) + v)
  }

  /** The release of a plan that starts with `t`. */
  lemma PlanCons(rooms: Rooms, dist: Dist, pool: set<Name>, cur: Name, time: int, t: Name, rest: seq<Name>)
    requires Ready(rooms, dist, pool) && cur in pool && t in pool && AllIn(rest, pool)
    requires time - dist[(cur, t)] - 1 > 0
    requires PlanValue(rooms, dist, pool, t, time - dist[(cur, t)] - 1, rest).Some?
    ensures AllIn([t] + rest, pool)
    ensures PlanValue(rooms, dist, pool, cur, time, [t] + rest)
            == Some(Gain(rooms, t, time - dist[(cur, t)] - 1) + PlanValue(rooms, dist, pool, t, time - dist[(cur, t)] - 1, rest).value)
  {
    var plan := [t] + rest;
    assert plan[0] == t && plan[1..] == rest;
  }

  /** A plan may open each target once, and none already seen. */
  predicate Allowed(plan: seq<Name>, targets: seq<Name>, seen: set<Name>)
  {
    NoDuplicates(plan) && forall i :: 0 <= i < |plan| ==> plan[i] in targets && plan[i] !in seen
  }

  /** Every candidate with time to spare bounds the loop's result from
      below. */
  lemma {:induction false} OptionsAtLeast(rooms: Rooms, dist: Dist, pool: set<Name>, cur: Name, time: int, seen: set<Name>,
                                          ts: seq<Name>, list: seq<Name>, t: Name)
    requires Ready(rooms, dist, pool) && cur in pool && AllIn(ts, pool) && AllIn(list, pool)
    requires t in list && t in pool && time - dist[(cur, t)] - 1 > 0
    ensures Options(rooms, dist, pool, cur, time, seen, ts, list)
            >= Gain(rooms, t, time - dist[(cur, t)] - 1) + BestFlow(rooms, dist, pool, t, time - dist[(cur, t)] - 1, seen, ts)
    decreases |list|
  {
    if list[|list| - 1] != t {
      OptionsAtLeast(rooms, dist, pool, cur, time, seen, ts, list[..|list| - 1], t);
    }
  }

  /** The loop's result is 0 or the value of one candidate with time to
      spare: the index of that candidate, or -1. */
  lemma {:induction false} OptionsWitness(rooms: Rooms, dist: Dist, pool: set<Name>, cur: Name, time: int, seen: set<Name>,
                                          ts: seq<Name>, list: seq<Name>) returns (k: int)
    requires Ready(rooms, dist, pool) && cur in pool && AllIn(ts, pool) && AllIn(list, pool)
    ensures -1 <= k < |list|
    ensures k == -1 ==> Options(rooms, dist, pool, cur, time, seen, ts, list) == 0
    ensures k >= 0 ==> time - dist[(cur, list[k])] - 1 > 0
    ensures k >= 0 ==> Options(rooms, dist, pool, cur, time, seen, ts, list)
                       == Gain(rooms, list[k], time - dist[(cur, list[k])] - 1)
                          + BestFlow(rooms, dist, pool, list[k], time - dist[(cur, list[k])] - 1, seen, ts)
    decreases |list|
  {
    if |list| == 0 {
      k := -1;
    } else {
      var front := list[..|list| - 1];
      k := OptionsWitness(rooms, dist, pool, cur, time, seen, ts, front);
      var t := list[|list| - 1];
      var left := time - dist[(cur, t)] - 1;
      var rest := Options(rooms, dist, pool, cur, time, seen, ts, front);
      if left > 0 && rest <= Gain(rooms, t, left) + BestFlow(rooms, dist, pool, t, left, seen, ts) {
        k := |list| - 1;
      }
    }
  }

  /** The search from `cur` does at least as well as opening any remaining
      target `t` with time to spare and searching on from there. */
  lemma BestFlowCons(rooms: Rooms, dist: Dist, pool: set<Name>, cur: Name, time: int, seen: set<Name>,
                     targets: seq<Name>, t: Name)
    requires Ready(rooms, dist, pool) && cur in pool && AllIn(targets, pool)
    requires t in Remaining(targets, seen + {cur}) && time - dist[(cur, t)] - 1 > 0
    ensures AllIn(Remaining(targets, seen + {cur}), pool)
    ensures BestFlow(rooms, dist, pool, cur, time, seen, targets)
            >= Gain(rooms, t, time - dist[(cur, t)] - 1)
               + BestFlow(rooms, dist, pool, t, time - dist[(cur, t)] - 1, seen + {cur}, Remaining(targets, seen + {cur}))
  {
    var ts := Remaining(targets, seen + {cur});
    assert forall i :: 0 <= i < |ts| ==> ts[i] in targets;
    OptionsAtLeast(rooms, dist, pool, cur, time, seen + {cur}, ts, ts, t);
  }

  /** The search from `cur` finds nothing, or exactly what opening one of
      the remaining targets and searching on from there gives: that
      target's index, or -1. */
  lemma BestFlowChoice(rooms: Rooms, dist: Dist, pool: set<Name>, cur: Name, time: int, seen: set<Name>,
                       targets: seq<Name>) returns (k: int)
    requires Ready(rooms, dist, pool) && cur in pool && AllIn(targets, pool)
    ensures AllIn(Remaining(targets, seen + {cur}), pool)
    ensures -1 <= k < |Remaining(targets, seen + {cur})|
    ensures k == -1 ==> BestFlow(rooms, dist, pool, cur, time, seen, targets) == 0
    ensures k >= 0 ==>
              var t := Remaining(targets, seen + {cur})[k];
              t in targets && t !in seen + {cur} && time - dist[(cur, t)] - 1 > 0
              && BestFlow(rooms, dist, pool, cur, time, seen, targets)
                 == Gain(rooms, t, time - dist[(cur, t)] - 1)
                    + BestFlow(rooms, dist, pool, t, time - dist[(cur, t)] - 1, seen + {cur}, Remaining(targets, seen + {cur}))
  {
    var ts := Remaining(targets, seen + {cur});
    assert forall i :: 0 <= i < |ts| ==> ts[i] in targets;
    k := OptionsWitness(rooms, dist, pool, cur, time, seen + {cur}, ts, ts);
    if k >= 0 {
      assert ts[k] in ts;
    }
  }

  /** After its first valve, an allowed plan is allowed among the targets
      still remaining, with that valve seen too. */
  lemma AllowedTail(plan: seq<Name>, targets: seq<Name>, seen: set<Name>)
    requires Allowed(plan, targets, seen) && |plan| > 0
    ensures plan[0] in Remaining(targets, seen)
    ensures Allowed(plan[1..], Remaining(targets, seen), seen + {plan[0]})
  {
    var tail := plan[1..];
    forall i | 0 <= i < |tail|
      ensures tail[i] in Remaining(targets, seen) && tail[i] !in seen + {plan[0]}
    {
      assert tail[i] == plan[i + 1] && plan[i + 1] != plan[0];
    }
    forall i, j | 0 <= i < j < |tail|
      ensures tail[i] != tail[j]
    {
      assert tail[i] == plan[i + 1] && tail[j] == plan[j + 1];
    }
  }

  /** No allowed plan releases more than the search finds. */
  lemma {:induction false} BestFlowUpper(rooms: Rooms, dist: Dist, pool: set<Name>, cur: Name, time: int, seen: set<Name>,
                                         targets: seq<Name>, plan: seq<Name>)
    requires Ready(rooms, dist, pool) && cur in pool && AllIn(targets, pool) && AllIn(plan, pool)
    requires Allowed(plan, targets, seen + {cur})
    requires PlanValue(rooms, dist, pool, cur, time, plan).Some?
    ensures PlanValue(rooms, dist, pool, cur, time, plan).value <= BestFlow(rooms, dist, pool, cur, time, seen, targets)
    decreases |plan|
  {
    if |plan| > 0 {
      var seen' := seen + {cur};
      var ts := Remaining(targets, seen');
      assert forall i :: 0 <= i < |ts| ==> ts[i] in targets;
      var t := plan[0];
      var left := time - dist[(cur, t)] - 1;
      var tail := plan[1..];
      AllowedTail(plan, targets, seen');
      assert plan == [t] + tail;
      PlanCons(rooms, dist, pool, cur, time, t, tail);
      BestFlowUpper(rooms, dist, pool, t, left, seen', ts, tail);
      BestFlowCons(rooms, dist, pool, cur, time, seen, targets, t);
    }
  }

  /** Putting a remaining target in front of a plan for the rest keeps it
      allowed. */
  lemma AllowedCons(t: Name, rest: seq<Name>, targets: seq<Name>, seen: set<Name>)
    requires t in Remaining(targets, seen)
    requires Allowed(rest, Remaining(targets, seen), seen + {t})
    ensures Allowed([t] + rest, targets, seen)
  {
    var plan := [t] + rest;
    forall i | 0 <= i < |plan|
      ensures plan[i] in targets && plan[i] !in seen
    {
      if i > 0 {
        assert plan[i] == rest[i - 1];
      }
    }
    forall i, j | 0 <= i < j < |plan|
      ensures plan[i] != plan[j]
    {
      assert plan[j] == rest[j - 1];
      if i > 0 {
        assert plan[i] == rest[i - 1];
      }
    }
  }

  /** Some allowed plan releases exactly what the search finds: the
      lemma builds it. */
  lemma {:induction false} BestFlowAchieved(rooms: Rooms, dist: Dist, pool: set<Name>, cur: Name, time: int, seen: set<Name>,
                                            targets: seq<Name>) returns (plan: seq<Name>)
    requires Ready(rooms, dist, pool) && cur in pool && AllIn(targets, pool)
    ensures AllIn(plan, pool) && Allowed(plan, targets, seen + {cur})
    ensures PlanValue(rooms, dist, pool, cur, time, plan) == Some(BestFlow(rooms, dist, pool, cur, time, seen, targets))
    decreases Max(time, 0)
  {
    var seen' := seen + {cur};
    var ts := Remaining(targets, seen');
    var k := BestFlowChoice(rooms, dist, pool, cur, time, seen, targets);
    if k == -1 {
      plan := [];
    } else {
      var t := ts[k];
      var left := time - dist[(cur, t)] - 1;
      var rest := BestFlowAchieved(rooms, dist, pool, t, left, seen', ts);
      plan := [t] + rest;
      AllowedCons(t, rest, targets, seen');
      PlanCons(rooms, dist, pool, cur, time, t, rest);
    }
  }

  /* ---------------------------------------------------------------- */
  /* Part two: the best release for every set of opened valves         */
  /* ---------------------------------------------------------------- */

  /** Best releases keyed by the set of opened valves (the start room left
      out). */
  type Memo = map<set<Name>, int>

  /** Later tables keep every key and never lower a value. */
  ghost predicate Grows(a: Memo, b: Memo)
  {
    forall k :: k in a ==> k in b && a[k] <= b[k]
  }

  lemma GrowsAt(a: Memo, b: Memo, key: set<Name>)
    requires Grows(a, b) && key in a
    ensures key in b && b[key] >= a[key]
  {
  }

  lemma GrowsTrans(a: Memo, b: Memo, c: Memo)
    requires Grows(a, b) && Grows(b, c)
    ensures Grows(a, c)
  {
  }

  /** The source's `entry(key).and_modify(..).or_insert(..)`: keep the
      larger of the recorded value and `flow`. */
  function Note(memo: Memo, key: set<Name>, flow: int): (m: Memo)
    ensures m.Keys == memo.Keys + {key}
    ensures key in memo ==> m[key] == Max(memo[key], flow)
    ensures key !in memo ==> m[key] == flow
    ensures forall k :: k in memo && k != key ==> m[k] == memo[k]
  {
    if key in memo then memo[key := Max(memo[key], flow)] else memo[key := flow]
  }

  /** Filtering twice by growing sets is filtering once by the larger. */
  lemma {:induction false} RemainingTwice(good: seq<Name>, a: set<Name>, b: set<Name>)
    requires a <= b
    ensures Remaining(Remaining(good, a), b) == Remaining(good, b)
  {
    if |good| > 0 {
      var front := good[..|good| - 1];
      RemainingTwice(front, a, b);
      var t := good[|good| - 1];
      if t !in a {
        var r := Remaining(front, a);
        assert (r + [t])[..|r + [t]| - 1] == r;
      }
    }
  }

  /** The search depends on its targets only through those not yet
      seen. */
  lemma BestFlowTargets(rooms: Rooms, dist: Dist, pool: set<Name>, cur: Name, time: int, seen: set<Name>,
                        x: seq<Name>, y: seq<Name>)
    requires Ready(rooms, dist, pool) && cur in pool && AllIn(x, pool) && AllIn(y, pool)
    ensures Remaining(x, seen + {cur}) == Remaining(y, seen + {cur}) ==>
              BestFlow(rooms, dist, pool, cur, time, seen, x) == BestFlow(rooms, dist, pool, cur, time, seen, y)
  {
  }

  /** Searching on from `t`, drawing from all of `good` or from what was
      left of it, gives the same. */
  lemma SameTargets(rooms: Rooms, dist: Dist, pool: set<Name>, good: seq<Name>, t: Name, time: int, seen: set<Name>)
    requires Ready(rooms, dist, pool) && t in pool && AllIn(good, pool) && AllIn(Remaining(good, seen), pool)
    ensures BestFlow(rooms, dist, pool, t, time, seen, good) == BestFlow(rooms, dist, pool, t, time, seen, Remaining(good, seen))
  {
    RemainingTwice(good, seen, seen + {t});
    BestFlowTargets(rooms, dist, pool, t, time, seen, good, Remaining(good, seen));
  }

  /** `best_endroom_total_flow`: the same search as part one, always
      drawing its targets from all of `good`, that also records in the
      table, for the set of valves opened on the way here, the release
      `flow` they already guarantee. It returns the same best release as
      part one's search (`ExploreGrows` states what it does to the
      table). */
  function Explore(rooms: Rooms, dist: Dist, pool: set<Name>, good: seq<Name>, cur: Name, time: int, seen: set<Name>,
                   flow: int, memo: Memo): (r: (int, Memo))
    requires Ready(rooms, dist, pool) && cur in pool && AllIn(good, pool)
    ensures r.0 == BestFlow(rooms, dist, pool, cur, time, seen, good)
    decreases Max(time, 0), 1, 0
  {
    var seen' := seen + {cur};
    var m := Note(memo, seen' - {Start}, flow);
    var ts := Remaining(good, seen');
    assert forall i :: 0 <= i < |ts| ==> ts[i] in good;
    ExploreOptions(rooms, dist, pool, good, cur, time, seen', flow, ts, m)
  }

  /** The loop over the candidates `list` of `Explore`, threading the
      table through the calls in order. */
  function ExploreOptions(rooms: Rooms, dist: Dist, pool: set<Name>, good: seq<Name>, cur: Name, time: int, seen: set<Name>,
                          flow: int, list: seq<Name>, memo: Memo): (r: (int, Memo))
    requires Ready(rooms, dist, pool) && cur in pool && AllIn(good, pool) && AllIn(list, pool)
    requires AllIn(Remaining(good, seen), pool)
    ensures r.0 == Options(rooms, dist, pool, cur, time, seen, Remaining(good, seen), list)
    decreases Max(time, 0), 0, |list|
  {
    if |list| == 0 then (0, memo)
    else
      var (rest, m) := ExploreOptions(rooms, dist, pool, good, cur, time, seen, flow, list[..|list| - 1], memo);
      var t := list[|list| - 1];
      var left := time - dist[(cur, t)] - 1;
      if left > 0 then
        var g := Gain(rooms, t, left);
        var (sub, m') := Explore(rooms, dist, pool, good, t, left, seen, flow + g, m);
        SameTargets(rooms, dist, pool, good, t, left, seen);
        (Max(rest, g + sub), m')
      else (rest, m)
  }

  /** The table `Explore` returns has grown from `memo` and holds the set
      of valves opened on the way here with at least `flow`. */
  lemma {:induction false} ExploreGrows(rooms: Rooms, dist: Dist, pool: set<Name>, good: seq<Name>, cur: Name, time: int,
                                        seen: set<Name>, flow: int, memo: Memo)
    requires Ready(rooms, dist, pool) && cur in pool && AllIn(good, pool)
    ensures Grows(memo, Explore(rooms, dist, pool, good, cur, time, seen, flow, memo).1)
    ensures (seen + {cur}) - {Start} in Explore(rooms, dist, pool, good, cur, time, seen, flow, memo).1
    ensures Explore(rooms, dist, pool, good, cur, time, seen, flow, memo).1[(seen + {cur}) - {Start}] >= flow
    decreases Max(time, 0), 1, 0
  {
    var seen' := seen + {cur};
    var key := seen' - {Start};
    var m := Note(memo, key, flow);
    var ts := Remaining(good, seen');
    assert forall i :: 0 <= i < |ts| ==> ts[i] in good;
    OptionsGrows(rooms, dist, pool, good, cur, time, seen', flow, ts, m);
    var r := Explore(rooms, dist, pool, good, cur, time, seen, flow, memo).1;
    assert Grows(m, r);
    assert Grows(memo, m);
    GrowsTrans(memo, m, r);
    GrowsAt(m, r, key);
  }

  /** The loop only grows the table. */
  lemma {:induction false} OptionsGrows(rooms: Rooms, dist: Dist, pool: set<Name>, good: seq<Name>, cur: Name, time: int,
                                        seen: set<Name>, flow: int, list: seq<Name>, memo: Memo)
    requires Ready(rooms, dist, pool) && cur in pool && AllIn(good, pool) && AllIn(list, pool)
    requires AllIn(Remaining(good, seen), pool)
    ensures Grows(memo, ExploreOptions(rooms, dist, pool, good, cur, time, seen, flow, list, memo).1)
    decreases Max(time, 0), 0, |list|
  {
    if |list| > 0 {
      OptionsStep(rooms, dist, pool, good, cur, time, seen, flow, list, memo);
      OptionsGrows(rooms, dist, pool, good, cur, time, seen, flow, list[..|list| - 1], memo);
      GrowsTrans(memo, ExploreOptions(rooms, dist, pool, good, cur, time, seen, flow, list[..|list| - 1], memo).1,
                 ExploreOptions(rooms, dist, pool, good, cur, time, seen, flow, list, memo).1);
    }
  }

  /** One more candidate only grows the table. */
  lemma {:induction false} OptionsStep(rooms: Rooms, dist: Dist, pool: set<Name>, good: seq<Name>, cur: Name, time: int,
                                       seen: set<Name>, flow: int, list: seq<Name>, memo: Memo)
    requires Ready(rooms, dist, pool) && cur in pool && AllIn(good, pool) && AllIn(list, pool)
    requires AllIn(Remaining(good, seen), pool) && |list| > 0
    ensures Grows(ExploreOptions(rooms, dist, pool, good, cur, time, seen, flow, list[..|list| - 1], memo).1,
                  ExploreOptions(rooms, dist, pool, good, cur, time, seen, flow, list, memo).1)
    decreases Max(time, 0), 0, |list|, 0
  {
    var before := ExploreOptions(rooms, dist, pool, good, cur, time, seen, flow, list[..|list| - 1], memo).1;
    var t := list[|list| - 1];
    var left := time - dist[(cur, t)] - 1;
    if left > 0 {
      ExploreGrows(rooms, dist, pool, good, t, left, seen, flow + Gain(rooms, t, left), before);
    }
  }

  /** Every plan the search could follow from here leaves its mark: the
      table it returns holds the set of valves opened along the plan with
      at least the release the plan achieves. */
  lemma {:induction false} ExploreCovers(rooms: Rooms, dist: Dist, pool: set<Name>, good: seq<Name>, cur: Name, time: int,
                                         seen: set<Name>, flow: int, memo: Memo, plan: seq<Name>)
    requires Ready(rooms, dist, pool) && cur in pool && AllIn(good, pool) && AllIn(plan, pool)
    requires Allowed(plan, good, seen + {cur})
    requires PlanValue(rooms, dist, pool, cur, time, plan).Some?
    ensures (seen + {cur} + Elements(plan)) - {Start} in Explore(rooms, dist, pool, good, cur, time, seen, flow, memo).1
    ensures Explore(rooms, dist, pool, good, cur, time, seen, flow, memo).1[(seen + {cur} + Elements(plan)) - {Start}]
            >= flow + PlanValue(rooms, dist, pool, cur, time, plan).value
    decreases |plan|, 1, 0
  {
    if |plan| > 0 {
      var seen' := seen + {cur};
      var m := Note(memo, seen' - {Start}, flow);
      var ts := Remaining(good, seen');
      assert forall i :: 0 <= i < |ts| ==> ts[i] in good;
      var t := plan[0];
      var rest := plan[1..];
      assert plan == [t] + rest;
      var left := time - dist[(cur, t)] - 1;
      assert AllIn(rest, pool) && Allowed(rest, good, seen' + {t}) by {
        forall i | 0 <= i < |rest|
          ensures rest[i] in pool && rest[i] in good && rest[i] !in seen' + {t}
        {
          assert rest[i] == plan[i + 1];
          assert plan[i + 1] != plan[0];
        }
      }
      PlanCons(rooms, dist, pool, cur, time, t, rest);
      OptionsCovers(rooms, dist, pool, good, cur, time, seen', flow, ts, m, t, rest);
      assert Elements(plan) == {t} + Elements(rest);
      assert seen' + {t} + Elements(rest) == seen + {cur} + Elements(plan);
    } else {
      ExploreGrows(rooms, dist, pool, good, cur, time, seen, flow, memo);
      assert Elements(plan) == {};
      assert seen + {cur} + Elements(plan) == seen + {cur};
    }
  }

  /** The mark left by the call for the last candidate. */
  lemma CoversLast(rooms: Rooms, dist: Dist, pool: set<Name>, good: seq<Name>, cur: Name, time: int,
                   seen: set<Name>, flow: int, list: seq<Name>, memo: Memo, t: Name, rest: seq<Name>)
    requires Ready(rooms, dist, pool) && cur in pool && AllIn(good, pool) && AllIn(list, pool)
    requires AllIn(Remaining(good, seen), pool)
    requires |list| > 0 && list[|list| - 1] == t && t in pool && time - dist[(cur, t)] - 1 > 0
    requires AllIn(rest, pool) && Allowed(rest, good, seen + {t})
    requires PlanValue(rooms, dist, pool, t, time - dist[(cur, t)] - 1, rest).Some?
    ensures (seen + {t} + Elements(rest)) - {Start} in ExploreOptions(rooms, dist, pool, good, cur, time, seen, flow, list, memo).1
    ensures ExploreOptions(rooms, dist, pool, good, cur, time, seen, flow, list, memo).1[(seen + {t} + Elements(rest)) - {Start}]
            >= flow + Gain(rooms, t, time - dist[(cur, t)] - 1)
               + PlanValue(rooms, dist, pool, t, time - dist[(cur, t)] - 1, rest).value
    decreases |rest| + 1, 0, 0
  {
    var before := ExploreOptions(rooms, dist, pool, good, cur, time, seen, flow, list[..|list| - 1], memo).1;
    var left := time - dist[(cur, t)] - 1;
    ExploreCovers(rooms, dist, pool, good, t, left, seen, flow + Gain(rooms, t, left), before, rest);
  }

  /** A mark left before the last candidate survives it. */
  lemma CoversKept(rooms: Rooms, dist: Dist, pool: set<Name>, good: seq<Name>, cur: Name, time: int,
                   seen: set<Name>, flow: int, list: seq<Name>, memo: Memo, key: set<Name>, want: int)
    requires Ready(rooms, dist, pool) && cur in pool && AllIn(good, pool) && AllIn(list, pool)
    requires AllIn(Remaining(good, seen), pool) && |list| > 0
    ensures var before := ExploreOptions(rooms, dist, pool, good, cur, time, seen, flow, list[..|list| - 1], memo).1;
            var after := ExploreOptions(rooms, dist, pool, good, cur, time, seen, flow, list, memo).1;
            key in before && before[key] >= want ==> key in after && after[key] >= want
  {
    OptionsStep(rooms, dist, pool, good, cur, time, seen, flow, list, memo);
    var before := ExploreOptions(rooms, dist, pool, good, cur, time, seen, flow, list[..|list| - 1], memo).1;
    if key in before {
      GrowsAt(before, ExploreOptions(rooms, dist, pool, good, cur, time, seen, flow, list, memo).1, key);
    }
  }

  /** The loop keeps the mark left by the call for any of its
      candidates. */
  lemma {:induction false} OptionsCovers(rooms: Rooms, dist: Dist, pool: set<Name>, good: seq<Name>, cur: Name, time: int,
                                         seen: set<Name>, flow: int, list: seq<Name>, memo: Memo, t: Name, rest: seq<Name>)
    requires Ready(rooms, dist, pool) && cur in pool && AllIn(good, pool) && AllIn(list, pool)
    requires AllIn(Remaining(good, seen), pool)
    requires t in list && t in pool && time - dist[(cur, t)] - 1 > 0
    requires AllIn(rest, pool) && Allowed(rest, good, seen + {t})
    requires PlanValue(rooms, dist, pool, t, time - dist[(cur, t)] - 1, rest).Some?
    ensures (seen + {t} + Elements(rest)) - {Start} in ExploreOptions(rooms, dist, pool, good, cur, time, seen, flow, list, memo).1
    ensures ExploreOptions(rooms, dist, pool, good, cur, time, seen, flow, list, memo).1[(seen + {t} + Elements(rest)) - {Start}]
            >= flow + Gain(rooms, t, time - dist[(cur, t)] - 1)
               + PlanValue(rooms, dist, pool, t, time - dist[(cur, t)] - 1, rest).value
    decreases |rest| + 1, 0, |list|
  {
    var front := list[..|list| - 1];
    if list[|list| - 1] == t {
      CoversLast(rooms, dist, pool, good, cur, time, seen, flow, list, memo, t, rest);
    } else {
      assert t in front;
      var left := time - dist[(cur, t)] - 1;
      var key := (seen + {t} + Elements(rest)) - {Start};
      var value := flow + Gain(rooms, t, left) + PlanValue(rooms, dist, pool, t, left, rest).value;
      OptionsCovers(rooms, dist, pool, good, cur, time, seen, flow, front, memo, t, rest);
      CoversKept(rooms, dist, pool, good, cur, time, seen, flow, list, memo, key, value);
    }
  }

  /** Entries already in the table stay exactly as they are. */
  ghost predicate Keeps(a: Memo, b: Memo)
  {
    forall k :: k in a ==> k in b && b[k] == a[k]
  }

  /** `fill_missing_rooms`: the best release for the set `names` without
      the start room. A set missing from the table gets the best over the
      sets one valve smaller, filled first in the same way (0 when there
      are none); sets already there are left alone. */
  ghost function Fill(names: set<Name>, memo: Memo): (r: (int, Memo))
    ensures Keeps(memo, r.1)
    ensures names - {Start} in r.1 && r.0 == r.1[names - {Start}]
    ensures names - {Start} in memo ==> r.0 == memo[names - {Start}]
    ensures names - {Start} !in memo ==> r.0 >= 0
    ensures names - {Start} !in memo ==>
              forall x :: x in names - {Start} ==> names - {Start} - {x} in r.1 && r.0 >= r.1[names - {Start} - {x}]
    ensures names - {Start} !in memo ==>
              r.0 == 0 || exists x :: x in names - {Start} && names - {Start} - {x} in r.1 && r.0 == r.1[names - {Start} - {x}]
    decreases |names - {Start}|, 1, 0
  {
    var current := names - {Start};
    if current in memo then (memo[current], memo)
    else
      var (best, m) := FillEach(current, current, memo);
      (best, m[current := best])
  }

  /** The loop of `Fill` over the valves of `current` still to drop. */
  ghost function FillEach(current: set<Name>, todo: set<Name>, memo: Memo): (r: (int, Memo))
    requires todo <= current && Start !in current
    ensures Keeps(memo, r.1)
    ensures r.0 >= 0
    ensures forall x :: x in todo ==> current - {x} in r.1 && r.0 >= r.1[current - {x}]
    ensures r.0 == 0 || exists x :: x in todo && current - {x} in r.1 && r.0 == r.1[current - {x}]
    decreases |current|, 0, |todo|
  {
    if todo == {} then (0, memo)
    else
      var x :| x in todo;
      assert |current - {x}| < |current| by {
        assert current == (current - {x}) + {x};
      }
      assert current - {x} - {Start} == current - {x};
      var (flow, m) := Fill(current - {x}, memo);
      var (rest, m') := FillEach(current, todo - {x}, m);
      (Max(flow, rest), m')
  }

  /** Part two's final loop over the recorded sets `keys`: the human opens
      a recorded set, the elephant the other good valves, and the best sum
      wins. `None` when the elephant's set is not in the table, where the
      source's lookup panics. */
  ghost function PairUp(memo: Memo, names: set<Name>, keys: set<set<Name>>): (r: Option<int>)
    requires keys <= memo.Keys
    ensures r.Some? <==> forall h :: h in keys ==> names - h - {Start} in memo
    ensures r.Some? ==> r.value >= 0
    ensures r.Some? ==> forall h :: h in keys ==> r.value >= memo[names - h - {Start}] + memo[h]
    ensures r.Some? ==> r.value == 0 || exists h :: h in keys && r.value == memo[names - h - {Start}] + memo[h]
    decreases keys
  {
    if keys == {} then Some(0)
    else
      var h :| h in keys;
      var e := names - h - {Start};
      match PairUp(memo, names, keys - {h})
      case None => None
      case Some(rest) => if e in memo then Some(Max(rest, memo[e] + memo[h])) else None
  }

  /** Some order of the elements of a set; the source walks its hash sets
      in an order of their own, which no answer depends on. */
  ghost function Enumerate(s: set<Name>): (r: seq<Name>)
    ensures NoDuplicates(r)
    ensures forall x :: x in r <==> x in s
    decreases s
  {
    if s == {} then []
    else
      var x :| x in s;
      [x] + Enumerate(s - {x})
  }

  /** Part two's table: the search from the start with 26 minutes, then
      the missing sets filled in. */
  ghost function EndTable(rooms: Rooms, dist: Dist): (m: Memo)
    requires Ready(rooms, dist, Good(rooms)) && Start in Good(rooms)
    ensures Good(rooms) - {Start} in m
    ensures {} in m && m[{}] >= 0
  {
    var good := Good(rooms);
    var order := Enumerate(good);
    var found := Explore(rooms, dist, good, order, Start, 26, {}, 0, map[]).1;
    ExploreGrows(rooms, dist, good, order, Start, 26, {}, 0, map[]);
    assert {} + {Start} - {Start} == {};
    Fill(good, found).1
  }

  /** Part two: the best pair of a recorded set for the human and the
      set of the other good valves for the elephant. It is at least what
      the human alone records for opening every good valve. */
  ghost function Part2(rooms: Rooms, dist: Dist): (r: Option<int>)
    requires Ready(rooms, dist, Good(rooms)) && Start in Good(rooms)
    ensures r.Some? ==> r.value >= 0 && r.value >= EndTable(rooms, dist)[Good(rooms) - {Start}]
  {
    var good := Good(rooms);
    var memo := EndTable(rooms, dist);
    var r := PairUp(memo, good, memo.Keys);
    var everything := good - {Start};
    assert good - everything - {Start} == {};
    r
  }

  /** Both answers. `None` when the source panics: a tunnel leads to a
      room that does not exist, the start room is missing, two good rooms
      are not connected, or part two's table lacks a set it looks up. */
  ghost function Solve(rooms: Rooms): (r: Option<(int, int)>)
    ensures r.Some? ==> Start in rooms && Table(rooms).Some? && Ready(rooms, Table(rooms).value, Good(rooms))
  {
    match Table(rooms)
    case None => None
    case Some(dist) =>
      var good := Good(rooms);
      if Start !in rooms || !Ready(rooms, dist, good) then None
      else
        match Part2(rooms, dist)
        case None => None
        case Some(p2) => Some((BestFlow(rooms, dist, good, Start, 30, {}, Enumerate(good)), p2))
  }

  /* ---------------------------------------------------------------- */
  /* Parsing                                                           */
  /* ---------------------------------------------------------------- */

  /** One exit word without the ',' that separates it from the next. */
  function StripComma(w: string): (e: string)
    ensures |w| > 0 && w[|w| - 1] == ',' ==> e + "," == w
    ensures !(|w| > 0 && w[|w| - 1] == ',') ==> e == w
  {
    if |w| > 0 && w[|w| - 1] == ',' then w[..|w| - 1] else w
  }

  /** The flow in a word `rate=<n>;`, or `None` where the source's
      `unwrap`s fail. */
  function ParseRate(w: string): (r: Option<int>)
    ensures r.Some? <==> StartsWith(w, "rate=") && |w| >= 6 && w[|w| - 1] == ';' && ParseInt(w[5..|w| - 1]).Some?
    ensures r.Some? ==> Some(r.value) == ParseInt(w[5..|w| - 1])
  {
    if |w| >= 6 && w[|w| - 1] == ';' && StartsWith(w, "rate=") then ParseInt(w[5..|w| - 1]) else None
  }

  /** One line `Valve AA has flow rate=0; tunnels lead to valves DD, II, BB`:
      the name is word 1, the rate word 4, the exits every word from 9 on.
      A line with fewer than nine words or a malformed rate is the source's
      panic. */
  function ParseLine(line: string): (r: Option<(Name, Room)>)
    ensures r.Some? <==> |Words(line)| >= 9 && ParseRate(Words(line)[4]).Some?
    ensures r.Some? ==> r.value.0 == Words(line)[1] && Some(r.value.1.flow) == ParseRate(Words(line)[4])
    ensures r.Some? ==> |r.value.1.exits| == |Words(line)| - 9
    ensures r.Some? ==> forall i :: 0 <= i < |r.value.1.exits| ==> r.value.1.exits[i] == StripComma(Words(line)[9 + i])
  {
    var ws := Words(line);
    if |ws| < 9 then None
    else
      match ParseRate(ws[4])
      case None => None
      case Some(flow) => Some((ws[1], Room(flow, seq(|ws| - 9, i requires 0 <= i < |ws| - 9 => StripComma(ws[9 + i])))))
  }

  /** The entries inserted into a map in turn. */
  function Collect<K(==,!new), V>(entries: seq<(K, V)>): (m: map<K, V>)
    ensures |entries| > 0 ==> entries[|entries| - 1].0 in m && m[entries[|entries| - 1].0] == entries[|entries| - 1].1
  {
    if |entries| == 0 then map[]
    else
      var e := entries[|entries| - 1];
      Collect(entries[..|entries| - 1])[e.0 := e.1]
  }

  /** Every name entered is a key and nothing else is; a name given twice
      keeps its last room. */
  lemma {:induction false} CollectMeans<K(!new), V>(entries: seq<(K, V)>)
    ensures forall k :: k in Collect(entries) <==> exists i :: 0 <= i < |entries| && entries[i].0 == k
    ensures forall i :: 0 <= i < |entries| && Last(entries, i) ==> Collect(entries)[entries[i].0] == entries[i].1
  {
    if |entries| > 0 {
      var front := entries[..|entries| - 1];
      var e := entries[|entries| - 1];
      CollectMeans(front);
      assert forall i :: 0 <= i < |front| ==> front[i] == entries[i];
      assert forall i :: 0 <= i < |front| && Last(entries, i) ==> Last(front, i);
      assert Collect(entries) == Collect(front)[e.0 := e.1];
      forall k | k in Collect(entries)
        ensures exists i :: 0 <= i < |entries| && entries[i].0 == k
      {
        if k != e.0 {
          var i :| 0 <= i < |front| && front[i].0 == k;
          assert entries[i].0 == k;
        } else {
          assert entries[|entries| - 1].0 == k;
        }
      }
    }
  }

  /** No later entry names the same room as entry `i`. */
  predicate Last<K(==), V>(entries: seq<(K, V)>, i: int)
    requires 0 <= i < |entries|
  {
    forall j :: i < j < |entries| ==> entries[j].0 != entries[i].0
  }

  /** All lines, each inserted into the map in turn. */
  function Parse(lines: seq<string>): (r: Option<Rooms>)
    ensures r.Some? <==> forall i :: 0 <= i < |lines| ==> ParseLine(lines[i]).Some?
    ensures r.Some? ==> exists entries :: |entries| == |lines|
                          && (forall i :: 0 <= i < |lines| ==> entries[i] == ParseLine(lines[i]).value)
                          && r.value == Collect(entries)
  {
    match ParseAll(lines, ParseLine)
    case None => None
    case Some(entries) => Some(Collect(entries))
  }
}

=== FILE: day17.dfy ===
/**
 Day 17: pyroclastic flow. Five rock shapes fall in turn into a chamber
 seven columns wide. Each step a jet of gas pushes the falling rock one
 column left or right when it fits there, and then the rock falls one row
 when it fits there; otherwise it comes to rest. Rows count upwards from
 the floor, row 0 being the lowest. The simulation keys a cache on the
 shape, the jet position and the column profile, and once a key repeats it
 skips whole periods at once, so that a trillion rocks can be accounted
 for.
 */
module Day17 {
  import opened Common

  /** A cell of a rock relative to its lowest, leftmost corner:
      (rows up, columns right). */
  type Offset = (int, int)

  /** The five shapes in falling order: the horizontal bar, the plus
      (without its centre, which nothing can reach), the mirrored L, the
      vertical bar and the square. */
  const Shapes: seq<seq<Offset>> := [
    [(0, 0), (0, 1), (0, 2), (0, 3)],
    [(0, 1), (1, 0), (1, 2), (2, 1)],
    [(0, 0), (0, 1), (0, 2), (1, 2), (2, 2)],
    [(0, 0), (1, 0), (2, 0), (3, 0)],
    [(0, 0), (0, 1), (1, 0), (1, 1)]
  ]

  /** How many rows each shape spans. */
  const Talls: seq<int> := [1, 3, 3, 4, 2]

  /** The chamber's width. */
  const Width := 7

  /** How many rocks the simulation accounts for. */
  const Target := 1_000_000_000_000

  /** A shape spanning rows 0 to `tall - 1`, every one of which it
      touches, and columns 0 to 3, with a cell on column 0. */
  predicate ShapeOk(rock: seq<Offset>, tall: int)
  {
    && 1 <= tall <= 4
    && (forall k :: 0 <= k < |rock| ==> 0 <= rock[k].0 < tall && 0 <= rock[k].1 <= 3)
    && (forall d :: 0 <= d < tall ==> HasRow(rock, d))
    && (exists k :: 0 <= k < |rock| && rock[k].1 == 0)
  }

  /** Some cell of the rock lies on row `d`. */
  predicate HasRow(rock: seq<Offset>, d: int)
  {
    exists k :: 0 <= k < |rock| && rock[k].0 == d
  }

  /** Rock `n` has shape `n mod 5`; every shape is well formed. */
  function Shape(n: nat): (r: (seq<Offset>, int))
    ensures ShapeOk(r.0, r.1)
    ensures |r.0| == 4 || |r.0| == 5
  {
    ShapeWellFormed(n % 5);
    (Shapes[n % 5], Talls[n % 5])
  }

  lemma ShapeWellFormed(i: int)
    requires 0 <= i < 5
    ensures ShapeOk(Shapes[i], Talls[i])
  {
    var s := Shapes[i];
    assert s[0].1 == 0 || s[1].1 == 0;
    assert HasRow(s, 0) by { assert s[0].0 == 0; }
    if i == 1 {
      assert HasRow(s, 1) by { assert s[1].0 == 1; }
      assert HasRow(s, 2) by { assert s[3].0 == 2; }
    } else if i == 2 {
      assert HasRow(s, 1) by { assert s[3].0 == 1; }
      assert HasRow(s, 2) by { assert s[4].0 == 2; }
    } else if i == 3 {
      assert HasRow(s, 1) by { assert s[1].0 == 1; }
      assert HasRow(s, 2) by { assert s[2].0 == 2; }
      assert HasRow(s, 3) by { assert s[3].0 == 3; }
    } else if i == 4 {
      assert HasRow(s, 1) by { assert s[2].0 == 1; }
    }
  }

  /* ---------------------------------------------------------------- */
  /* The chamber                                                       */
  /* ---------------------------------------------------------------- */

  /** Row r holds the set of its occupied columns; rows past the end are
      empty. */
  type Grid = seq<set<int>>

  function RowAt(g: Grid, r: int): set<int>
  {
    if 0 <= r < |g| then g[r] else {}
  }

  predicate Filled(g: Grid, r: int, c: int)
  {
    c in RowAt(g, r)
  }

  /** Every occupied cell lies between the walls. */
  ghost predicate InWalls(g: Grid)
  {
    forall r, c :: Filled(g, r, c) ==> 0 <= c < Width
  }

  /** No row of the grid is empty, so the first empty row is its end. */
  predicate Dense(g: Grid)
  {
    forall r :: 0 <= r < |g| ==> g[r] != {}
  }

  /** `get_height`: the first row with no occupied cell. */
  function Height(g: Grid): (h: nat)
    ensures h <= |g| && RowAt(g, h) == {}
    ensures forall r :: 0 <= r < h ==> RowAt(g, r) != {}
  {
    FirstEmpty(g, 0)
  }

  function FirstEmpty(g: Grid, r: nat): (h: nat)
    requires r <= |g|
    requires forall k :: 0 <= k < r ==> RowAt(g, k) != {}
    ensures r <= h <= |g| && RowAt(g, h) == {}
    ensures forall k :: 0 <= k < h ==> RowAt(g, k) != {}
    decreases |g| - r
  {
    if r == |g| || g[r] == {} then r else FirstEmpty(g, r + 1)
  }

  /** In a dense grid the first empty row is the row past the end. */
  lemma DenseHeight(g: Grid)
    requires Dense(g)
    ensures Height(g) == |g|
  {
  }

  /** `get_column_heights` for one column: the least `y` from `from` up
      to `h - 1` with column `c` occupied on row `h - y`, or `None` (the
      source's `usize::MAX`). */
  function Depth(g: Grid, h: nat, c: int, from: nat): (r: Option<nat>)
    requires from <= h
    ensures r.Some? ==> from <= r.value < h && Below(g, h, c, r.value)
    ensures r.Some? ==> forall y :: from <= y < r.value ==> !Below(g, h, c, y)
    ensures r.None? ==> forall y :: from <= y < h ==> !Below(g, h, c, y)
    decreases h - from
  {
    if from == h then None
    else if Below(g, h, c, from) then Some(from)
    else Depth(g, h, c, from + 1)
  }

  /** Column `c` is occupied `y` rows below row `h`. */
  predicate Below(g: Grid, h: int, c: int, y: int)
  {
    Filled(g, h - y, c)
  }

  /** The column profile the cache is keyed on. The search starts on the
      empty row `Height(g)` and stops above row 0, so a depth is never 0
      and a column whose only cell is on row 0 has none. */
  function Profile(g: Grid): (r: seq<Option<nat>>)
    ensures |r| == Width
    ensures forall c :: 0 <= c < Width && r[c].Some? ==>
              1 <= r[c].value < Height(g) && Below(g, Height(g), c, r[c].value)
    ensures forall c, y :: 0 <= c < Width && r[c].Some? && 0 <= y < r[c].value ==> !Below(g, Height(g), c, y)
    ensures forall c, y :: 0 <= c < Width && r[c].None? && 1 <= y < Height(g) ==> !Below(g, Height(g), c, y)
  {
    var h := Height(g);
    seq(Width, c requires 0 <= c < Width => Depth(g, h, c, 0))
  }

  /* ---------------------------------------------------------------- */
  /* A falling rock                                                    */
  /* ---------------------------------------------------------------- */

  /** `will_fit`: every cell of the rock, placed with its corner at row
      `h` and column `w`, lies between the walls on a free cell. The
      source's column is unsigned: a jet pushing a rock at column 0 to
      the left computes `0 - 1`, which wraps to the largest `usize` in a
      release build, and no cell of the rock fits there. A column left of
      the wall is therefore one that does not fit. */
  function WillFit(g: Grid, rock: seq<Offset>, h: int, w: int): (b: bool)
    ensures b <==> forall k :: 0 <= k < |rock| ==>
                     0 <= w + rock[k].1 < Width && !Filled(g, h + rock[k].0, w + rock[k].1)
  {
    if |rock| == 0 then true
    else
      var c := w + rock[0].1;
      0 <= c < Width && !Filled(g, h + rock[0].0, c) && WillFit(g, rock[1..], h, w)
  }

  /** The jet's effect: one column towards `<` or `>` when the rock fits
      there, else (and for any other character) no move. */
  function Push(g: Grid, rock: seq<Offset>, h: int, w: int, jet: char): (v: int)
    ensures v == w - 1 <==> jet == '<' && WillFit(g, rock, h, w - 1)
    ensures v == w + 1 <==> jet == '>' && WillFit(g, rock, h, w + 1)
    ensures v == w || v == w - 1 || v == w + 1
    ensures WillFit(g, rock, h, w) ==> WillFit(g, rock, h, v)
  {
    if jet == '<' && WillFit(g, rock, h, w - 1) then w - 1
    else if jet == '>' && WillFit(g, rock, h, w + 1) then w + 1
    else w
  }

  /** Where a rock comes to rest, and the jet counter afterwards. */
  datatype Rest = Rest(h: nat, w: int, time: nat)

  /** The inner loop: push, consume one jet, then stop on the floor or
      when blocked below, else fall one row. The rock stays where it
      fits, and it consumes exactly one jet per row it passes. */
  function Fall(g: Grid, rock: seq<Offset>, jets: string, h: nat, w: int, time: nat): (r: Rest)
    requires |jets| > 0
    ensures r.h <= h && r.time == time + (h - r.h) + 1
    ensures r.h == 0 || !WillFit(g, rock, r.h - 1, r.w)
    ensures WillFit(g, rock, h, w) ==> WillFit(g, rock, r.h, r.w)
    decreases h
  {
    var v := Push(g, rock, h, w, jets[time % |jets|]);
    if h == 0 || !WillFit(g, rock, h - 1, v) then Rest(h, v, time + 1)
    else Fall(g, rock, jets, h - 1, v, time + 1)
  }

  /** The grid with cell (r, c) occupied. */
  function Mark(g: Grid, r: nat, c: int): (m: Grid)
    ensures forall a, b :: Filled(m, a, b) <==> Filled(g, a, b) || (a == r && b == c)
    ensures |m| == Max(|g|, r + 1)
  {
    if r < |g| then g[r := g[r] + {c}]
    else g + seq(r - |g|, _ => {}) + [{c}]
  }

  /** A cell of the rock placed with its corner at (h, w). */
  ghost predicate OnRock(rock: seq<Offset>, h: int, w: int, a: int, b: int)
  {
    exists k :: 0 <= k < |rock| && a == h + rock[k].0 && b == w + rock[k].1
  }

  /** Placement: the rock's cells become occupied and nothing else
      changes. The grid grows just far enough to hold the rock. */
  function Place(g: Grid, rock: seq<Offset>, h: nat, w: int): (m: Grid)
    requires forall k :: 0 <= k < |rock| ==> rock[k].0 >= 0
    ensures forall a, b :: Filled(m, a, b) <==> Filled(g, a, b) || OnRock(rock, h, w, a, b)
    ensures |m| >= |g| && forall k :: 0 <= k < |rock| ==> h + rock[k].0 < |m|
    ensures |m| == |g| || exists k :: 0 <= k < |rock| && |m| == h + rock[k].0 + 1
  {
    if |rock| == 0 then g
    else
      var front := rock[..|rock| - 1];
      var last := rock[|rock| - 1];
      var p := Place(g, front, h, w);
      var m := Mark(p, h + last.0, w + last.1);
      assert forall a, b :: OnRock(rock, h, w, a, b) <==> OnRock(front, h, w, a, b) || (a == h + last.0 && b == w + last.1) by {
        forall a, b | OnRock(front, h, w, a, b) ensures OnRock(rock, h, w, a, b) {
          var k :| 0 <= k < |front| && a == h + front[k].0 && b == w + front[k].1;
          assert rock[k] == front[k];
        }
        forall a, b | a == h + last.0 && b == w + last.1 ensures OnRock(rock, h, w, a, b) {
          assert rock[|rock| - 1] == last;
        }
        forall a, b | OnRock(rock, h, w, a, b) ensures OnRock(front, h, w, a, b) || (a == h + last.0 && b == w + last.1) {
          var k :| 0 <= k < |rock| && a == h + rock[k].0 && b == w + rock[k].1;
          if k < |front| {
            assert front[k] == rock[k];
          }
        }
      }
      m
  }

  /** A rock spawned three rows above a dense grid, at column 2, fits. */
  lemma SpawnFits(g: Grid, rock: seq<Offset>, tall: int)
    requires ShapeOk(rock, tall)
    ensures WillFit(g, rock, |g| + 3, 2)
  {
  }

  /** A rock that fits where it rests and cannot go lower rests no higher
      than the top of a grid: below an empty row nothing can block it. */
  lemma RestsLow(g: Grid, rock: seq<Offset>, tall: int, r: Rest)
    requires ShapeOk(rock, tall)
    requires WillFit(g, rock, r.h, r.w)
    requires r.h == 0 || !WillFit(g, rock, r.h - 1, r.w)
    ensures r.h <= |g|
  {
  }

  /** The chamber and the jet counter between rocks. */
  datatype State = State(grid: Grid, time: nat)

  /** One rock: spawn it three rows above the tower at column 2, let it
      fall and place it. The tower stays dense and between the walls,
      and its height becomes the larger of the old height and the top of
      the rock, which sits no higher than the old height. */
  function DropRock(s: State, rock: seq<Offset>, tall: int, jets: string): (r: State)
    requires |jets| > 0 && ShapeOk(rock, tall)
    requires Dense(s.grid) && InWalls(s.grid)
    ensures Dense(r.grid) && InWalls(r.grid)
    ensures |s.grid| <= |r.grid| <= |s.grid| + tall
    ensures r.time > s.time
  {
    var g := s.grid;
    SpawnFits(g, rock, tall);
    var rest := Fall(g, rock, jets, |g| + 3, 2, s.time);
    RestsLow(g, rock, tall, rest);
    PlacedDense(g, rock, tall, rest.h, rest.w);
    State(Place(g, rock, rest.h, rest.w), rest.time)
  }

  /** The placed rock keeps the grid dense, between the walls and at
      most `tall` rows higher. */
  lemma PlacedDense(g: Grid, rock: seq<Offset>, tall: int, h: nat, w: int)
    requires ShapeOk(rock, tall) && Dense(g) && InWalls(g)
    requires h <= |g| && WillFit(g, rock, h, w)
    ensures Dense(Place(g, rock, h, w)) && InWalls(Place(g, rock, h, w))
    ensures |Place(g, rock, h, w)| <= |g| + tall
  {
    var m := Place(g, rock, h, w);
    forall r | 0 <= r < |m| ensures m[r] != {} {
      PlacedRow(g, rock, tall, h, w, m, r);
    }
    PlacedInWalls(g, rock, tall, h, w);
  }

  /** Each row of the placed grid is occupied: an old row keeps its
      cells, and a new one is covered by the rock. */
  lemma PlacedRow(g: Grid, rock: seq<Offset>, tall: int, h: nat, w: int, m: Grid, r: int)
    requires ShapeOk(rock, tall) && Dense(g)
    requires h <= |g|
    requires forall a, b :: Filled(g, a, b) || OnRock(rock, h, w, a, b) ==> Filled(m, a, b)
    requires |m| >= |g|
    requires |m| == |g| || exists k :: 0 <= k < |rock| && |m| == h + rock[k].0 + 1
    requires 0 <= r < |m|
    ensures m[r] != {}
  {
    if r < |g| {
      assert g[r] <= m[r] by {
        forall c | c in g[r] ensures c in m[r] {
          assert Filled(g, r, c);
        }
      }
    } else {
      var j :| 0 <= j < |rock| && |m| == h + rock[j].0 + 1;
      assert 0 <= r - h < tall;
      assert HasRow(rock, r - h);
      var k :| 0 <= k < |rock| && rock[k].0 == r - h;
      assert OnRock(rock, h, w, r, w + rock[k].1);
      assert Filled(m, r, w + rock[k].1);
    }
  }

  lemma PlacedInWalls(g: Grid, rock: seq<Offset>, tall: int, h: nat, w: int)
    requires ShapeOk(rock, tall) && InWalls(g) && WillFit(g, rock, h, w)
    ensures InWalls(Place(g, rock, h, w))
  {
    var m := Place(g, rock, h, w);
    forall a, b | Filled(m, a, b) ensures 0 <= b < Width {
      if !Filled(g, a, b) {
        var k :| 0 <= k < |rock| && a == h + rock[k].0 && b == w + rock[k].1;
      }
    }
  }

  /** Dropping a rock keeps every occupied cell occupied and adds cells
      only where the rock came to rest, where they were free. */
  lemma DropKeeps(s: State, rock: seq<Offset>, tall: int, jets: string, a: int, b: int)
    requires |jets| > 0 && ShapeOk(rock, tall)
    requires Dense(s.grid) && InWalls(s.grid)
    ensures Filled(s.grid, a, b) ==> Filled(DropRock(s, rock, tall, jets).grid, a, b)
  {
  }

  /** The reference simulation: the state after the first `n` rocks,
      rock `k` having shape `k mod 5`. The tower grows by at most four
      rows per rock. */
  function Run(jets: string, n: nat): (s: State)
    requires |jets| > 0
    ensures Dense(s.grid) && InWalls(s.grid)
    ensures Height(s.grid) == |s.grid| <= 4 * n
    ensures s.time >= n
    decreases n, 1
  {
    if n == 0 then State([], 0) else Dropped(jets, n)
  }

  /** The state after rock `n - 1` falls onto the first `n - 1` rocks.
      Kept apart from `Run` so that a proof about heights unfolds one
      rock at a time. */
  function Dropped(jets: string, n: nat): (s: State)
    requires |jets| > 0 && n > 0
    ensures Dense(s.grid) && InWalls(s.grid)
    ensures Height(s.grid) == |s.grid| <= 4 * n
    ensures s.time >= n
    decreases n, 0
  {
    var prev := Run(jets, n - 1);
    var shape := Shape(n - 1);
    var s := DropRock(prev, shape.0, shape.1, jets);
    DenseHeight(s.grid);
    s
  }

  /** Rock `n` of the reference simulation falls onto the first `n`. */
  lemma RunUnfold(jets: string, n: nat)
    requires |jets| > 0
    ensures Run(jets, n + 1) == DropRock(Run(jets, n), Shape(n).0, Shape(n).1, jets)
  {
    assert Run(jets, n + 1) == Dropped(jets, n + 1);
  }

  /** One more rock never lowers the reference tower. */
  lemma RunStep(jets: string, n: nat)
    requires |jets| > 0
    ensures |Run(jets, n).grid| <= |Run(jets, n + 1).grid|
  {
    var prev := Run(jets, n);
    var shape := Shape(n);
    RunUnfold(jets, n);
    var next := DropRock(prev, shape.0, shape.1, jets);
    assert |prev.grid| <= |next.grid|;
  }

  /* ---------------------------------------------------------------- */
  /* Skipping periods                                                  */
  /* ---------------------------------------------------------------- */

  /** `repeating` as the source computes it when rock `i` repeats the
      key first seen after rock `c`: the whole periods of `i - c` rocks
      that fit in `Target - c`, less the one already simulated. */
  function RepeatsAsWritten(i: int, c: int): (r: int)
    requires 0 <= c < i < Target
    ensures r >= 0 && i + r * (i - c) <= Target
  {
    var p := i - c;
    var q := (Target - c) / p;
    DivBounds(Target - c, p);
    assert q * p + p == (q + 1) * p;
    q - 1
  }

  /** Skipping lands on rock `Target` itself whenever the period divides
      `Target - c`: the loop's `i += 1` then accounts for one rock more
      than `Target`. */
  lemma SkipOvershoots(i: int, c: int)
    requires 0 <= c < i < Target && (Target - c) % (i - c) == 0
    ensures i + RepeatsAsWritten(i, c) * (i - c) == Target
  {
    var p := i - c;
    var q := (Target - c) / p;
    assert Target - c == q * p;
    assert (q - 1) * p == q * p - p;
  }

  /** The corrected count: whole periods that fit in `Target - 1 - c`,
      so rock `Target - 1` is the last one accounted for. Skipping never
      moves backwards and, started anywhere, ends in the upper half. */
  function Repeats(i: int, c: int): (r: int)
    requires 0 <= c < i < Target
    ensures r >= 0
    ensures i + r * (i - c) <= Target - 1
    ensures 2 * (i + r * (i - c)) >= Target
  {
    var p := i - c;
    var q := (Target - 1 - c) / p;
    DivBounds(Target - 1 - c, p);
    assert q * p + p == (q + 1) * p;
    assert i + (q - 1) * p == c + q * p;
    q - 1
  }

  /** The rock index after skipping: never backwards, never past
      `Target - 1`, in the upper half, and on the same shape. */
  function Skip(i: int, c: int): (j: int)
    requires 0 <= c < i < Target && i % 5 == c % 5
    ensures i <= j <= Target - 1 && 2 * j >= Target
    ensures j % 5 == i % 5
  {
    var r := Repeats(i, c);
    PeriodKeepsShape(i, c, r);
    NonNegative(r, i - c);
    var j := i + r * (i - c);
    assert i <= j <= Target - 1 && 2 * j >= Target;
    j
  }

  lemma DivBounds(a: int, p: int)
    requires a >= p > 0
    ensures a / p >= 1
    ensures (a / p) * p <= a < (a / p) * p + p
  {
  }

  /** A period that is a multiple of 5 keeps the shape index. */
  lemma PeriodKeepsShape(i: int, c: int, r: int)
    requires 0 <= c < i && r >= 0 && i % 5 == c % 5
    ensures (i + r * (i - c)) % 5 == i % 5
  {
    var t := (i - c) / 5;
    assert i - c == 5 * t;
    assert r * (i - c) == 5 * (r * t);
  }

  /** The skipped rocks, when the period is a multiple of 5, form whole
      rounds of the five shapes. */
  lemma Rounds(i: int, c: int, r: int) returns (t: int)
    requires 0 <= c < i && i % 5 == c % 5
    ensures r * (i - c) == 5 * t
  {
    var q := (i - c) / 5;
    assert i - c == 5 * q;
    t := r * q;
  }

  /** Whole rounds of five shapes keep the shape. */
  lemma SameShape(n: int, lag: int)
    ensures (n + 5 * lag) % 5 == n % 5
  {
  }

  lemma NonNegative(a: int, b: int)
    requires a >= 0 && b >= 0
    ensures a * b >= 0
  {
  }

  /** The cache key: shape index, jet index and column profile. */
  type Key = (int, int, seq<Option<nat>>)

  /** What the cache holds before rock `i` (0-based) falls, with the
      tower `top` rows high and `heights[j]` the tower's height after rock
      `j`: entries for earlier rocks only, at most one per rock, keyed on
      their shape index, no higher than the tower, and, for rocks in the
      lower half, the height after that rock. */
  ghost predicate CacheOk(cache: map<Key, (int, int)>, i: int, top: int, heights: seq<int>)
  {
    && (forall k :: k in cache ==> 0 <= cache[k].0 < i && k.0 == cache[k].0 % 5)
    && (forall k :: k in cache ==> 0 <= cache[k].1 <= top)
    && (forall k, l :: k in cache && l in cache && cache[k].0 == cache[l].0 ==> k == l)
    && (forall k :: k in cache && 2 * cache[k].0 < Target ==> cache[k].0 < |heights| && cache[k].1 == heights[cache[k].0])
  }

  /** A taller tower, a later rock and more known heights keep the
      entries consistent. */
  lemma CacheLater(cache: map<Key, (int, int)>, i: int, top: int, heights: seq<int>, j: int, taller: int, more: seq<int>)
    requires CacheOk(cache, i, top, heights) && i <= j && top <= taller && heights <= more
    ensures CacheOk(cache, j, taller, more)
  {
    forall k | k in cache && 2 * cache[k].0 < Target ensures cache[k].0 < |more| && cache[k].1 == more[cache[k].0] {
      assert more[cache[k].0] == heights[cache[k].0];
    }
  }

  /** Recording rock `i` under a new key keeps the cache consistent. */
  lemma CacheInsert(cache: map<Key, (int, int)>, i: int, h: int, heights: seq<int>, key: Key)
    requires 0 <= i && 0 <= h && key.0 == i % 5 && key !in cache
    requires CacheOk(cache, i, h, heights)
    requires 2 * i < Target ==> |heights| == i + 1 && heights[i] == h
    ensures CacheOk(cache[key := (i, h)], i + 1, h, heights)
  {
    var m := cache[key := (i, h)];
    forall k, l | k in m && l in m && m[k].0 == m[l].0 ensures k == l {
      if k != key && l != key {
        assert m[k] == cache[k] && m[l] == cache[l];
      }
    }
    forall k | k in m && 2 * m[k].0 < Target ensures m[k].0 < |heights| && m[k].1 == heights[m[k].0] {
      if k != key {
        assert m[k] == cache[k];
      }
    }
  }

  /** The cache step after rock `i` came to rest with the tower `h` rows
      high: on a repeated key skip the whole periods that still fit
      (corrected) and add their height, else record the rock. Returns
      the index of the next rock: one more than `i`, or, after a skip,
      some index in the upper half with the same shape. */
  method Account(cache: map<Key, (int, int)>, i: int, tower: int, key: Key, h: int, ghost heights: seq<int>)
    returns (cache': map<Key, (int, int)>, next: int, tower': int, ghost rounds: int)
    requires 0 <= i < Target && tower >= 0 && h >= 0
    requires key.0 == i % 5 && CacheOk(cache, i, h, heights)
    requires 2 * i < Target ==> |heights| == i + 1 && heights[i] == h
    ensures i < next <= Target && tower' >= tower
    ensures 2 * next < Target ==> next == i + 1
    ensures next == i + 1 + 5 * rounds
    ensures CacheOk(cache', next, h, heights)
    ensures key in cache' && (key !in cache ==> cache'[key] == (i, h))
  {
    if key in cache {
      var (c, ch) := cache[key];
      var r := Repeats(i, c);
      var gained := r * (h - ch);
      NonNegative(r, h - ch);
      rounds := Rounds(i, c, r);
      var j := Skip(i, c);
      CacheLater(cache, i, h, heights, j + 1, h, heights);
      cache', next, tower' := cache, j + 1, tower + gained;
    } else {
      CacheInsert(cache, i, h, heights, key);
      cache', next, tower', rounds := cache[key := (i, h)], i + 1, tower, 0;
    }
  }

  /** `hs[j]` is the height of the reference tower after rock `j`. */
  ghost predicate Recorded(jets: string, hs: seq<int>)
    requires |jets| > 0
  {
    RecordedUpTo(jets, hs, |hs|)
  }

  /** The first `n` entries of `hs` are reference heights. */
  ghost predicate RecordedUpTo(jets: string, hs: seq<int>, n: nat)
    requires |jets| > 0 && n <= |hs|
  {
    n == 0 || (RecordedUpTo(jets, hs, n - 1) && hs[n - 1] == |Run(jets, n).grid|)
  }

  lemma RecordedAt(jets: string, hs: seq<int>, j: int)
    requires |jets| > 0 && Recorded(jets, hs) && 0 <= j < |hs|
    ensures hs[j] == |Run(jets, j + 1).grid|
  {
    RecordedShrink(jets, hs, |hs|, j + 1);
    RecordedLast(jets, hs, j + 1);
  }

  /** A record of the first `n` heights is one of every shorter prefix. */
  lemma {:induction false} RecordedShrink(jets: string, hs: seq<int>, n: nat, m: nat)
    requires |jets| > 0 && m <= n <= |hs| && RecordedUpTo(jets, hs, n)
    ensures RecordedUpTo(jets, hs, m)
    decreases n
  {
    if m < n {
      RecordedShrink(jets, hs, n - 1, m);
    }
  }

  lemma RecordedLast(jets: string, hs: seq<int>, n: nat)
    requires |jets| > 0 && 0 < n <= |hs| && RecordedUpTo(jets, hs, n)
    ensures hs[n - 1] == |Run(jets, n).grid|
  {
  }

  /** Recorded entries stay recorded when more heights are appended. */
  lemma {:induction false} RecordedPrefix(jets: string, hs: seq<int>, more: seq<int>, n: nat)
    requires |jets| > 0 && n <= |hs| && hs <= more && RecordedUpTo(jets, hs, n)
    ensures RecordedUpTo(jets, more, n)
    decreases n
  {
    if n > 0 {
      RecordedPrefix(jets, hs, more, n - 1);
      assert more[n - 1] == hs[n - 1];
    }
  }

  /** The cache key after rock `i`: its shape, the position in the jet
      pattern and the column profile. */
  function KeyOf(i: nat, s: State, jets: string): (k: Key)
    requires |jets| > 0
    ensures k.0 == i % 5 && 0 <= k.1 < |jets| && |k.2| == Width
  {
    (i % 5, s.time % |jets|, Profile(s.grid))
  }

  /** One turn of the main loop: rock `i` falls, and the tower's new
      height extends the recorded heights of the reference simulation. */
  method DropNext(jets: string, s: State, i: nat, ghost heights: seq<int>, ghost lag: int) returns (s': State, h: int)
    requires |jets| > 0 && s == Run(jets, |heights|) && i == |heights| + 5 * lag
    requires Recorded(jets, heights)
    ensures s' == Run(jets, |heights| + 1) && h == |s'.grid| >= |s.grid|
    ensures Recorded(jets, heights + [h])
  {
    var shape := Shape(i);
    s' := DropRock(s, shape.0, shape.1, jets);
    RunNext(jets, |heights|, i, lag);
    h := Height(s'.grid);
    RecordedNext(jets, heights);
  }

  /** Rock `i` has the shape of the reference rock `n` when they are
      whole rounds of five apart. */
  lemma RunNext(jets: string, n: nat, i: nat, lag: int)
    requires |jets| > 0 && i == n + 5 * lag
    ensures Run(jets, n + 1) == DropRock(Run(jets, n), Shape(i).0, Shape(i).1, jets)
  {
    SameShape(n, lag);
    assert Shape(i) == Shape(n);
    RunUnfold(jets, n);
  }

  lemma RecordedNext(jets: string, hs: seq<int>)
    requires |jets| > 0 && Recorded(jets, hs)
    ensures Recorded(jets, hs + [|Run(jets, |hs| + 1).grid|])
  {
    var more := hs + [|Run(jets, |hs| + 1).grid|];
    RecordedPrefix(jets, hs, more, |hs|);
    assert more[|hs|] == |Run(jets, |hs| + 1).grid|;
    assert RecordedUpTo(jets, more, |hs| + 1);
  }

  /** The main loop with the corrected skip. Every rock index below
      `Target` is accounted for exactly once; `heights` lists the heights of
      the reference simulation after each rock dropped, and the cache
      agrees with it on the lower half. */
  method Simulate(jets: string) returns (tower: int, g: Grid, cache: map<Key, (int, int)>, rocks: int, ghost heights: seq<int>)
    requires |jets| > 0
    ensures rocks == Target
    ensures tower >= 0 && Dense(g)
    ensures CacheOk(cache, Target, |g|, heights)
    ensures Recorded(jets, heights)
  {
    var i := 0;
    tower := 0;
    var s := State([], 0);
    cache := map[];
    heights := [];
    ghost var lag := 0;
    while i < Target
      invariant Looping(jets, i, tower, s, cache, heights, lag)
      decreases Target - i
    {
      s, i, tower, cache, heights, lag := Round(jets, s, i, tower, cache, heights, lag);
    }
    g := s.grid;
    rocks := i;
  }

  /** What holds of `Simulate`'s loop: the state is the reference
      simulation after the rocks recorded, which trail the count by whole
      rounds of five, and the cache agrees with them. */
  ghost predicate Looping(jets: string, i: int, tower: int, s: State, cache: map<Key, (int, int)>, heights: seq<int>, lag: int)
  {
    0 <= i <= Target && 0 <= |heights| <= i && tower >= 0
    && |jets| > 0 && s == Run(jets, |heights|)
    && i == |heights| + 5 * lag
    && (2 * i < Target ==> |heights| == i)
    && CacheOk(cache, i, |s.grid|, heights)
    && Recorded(jets, heights)
  }

  /** One turn of `Simulate`'s loop: drop a rock, then record it or skip
      ahead. */
  method Round(jets: string, s: State, i: int, tower: int, cache: map<Key, (int, int)>, ghost heights: seq<int>, ghost lag: int)
    returns (s': State, i': int, tower': int, cache': map<Key, (int, int)>, ghost heights': seq<int>, ghost lag': int)
    requires i < Target && Looping(jets, i, tower, s, cache, heights, lag)
    ensures i < i' && Looping(jets, i', tower', s', cache', heights', lag')
  {
    var h;
    s', h := DropNext(jets, s, i, heights, lag);
    heights' := heights + [h];
    CacheLater(cache, i, |s.grid|, heights, i, h, heights');
    var key := KeyOf(i, s', jets);
    ghost var rounds;
    cache', i', tower', rounds := Account(cache, i, tower, key, h, heights');
    lag' := lag + rounds;
  }

  /** `cache.values().find(|(i, _)| i == 2021)`: the height recorded for
      rock 2021, the 2022nd. Cached indices are unique, so which entry the
      search meets first does not matter. */
  method Lookup(cache: map<Key, (int, int)>, top: int, ghost heights: seq<int>) returns (r: Option<int>)
    requires CacheOk(cache, Target, top, heights)
    ensures r.Some? ==> 2021 < |heights| && r.value == heights[2021]
    ensures r.None? <==> forall k :: k in cache ==> cache[k].0 != 2021
  {
    if k :| k in cache && cache[k].0 == 2021 {
      r := Some(cache[k].1);
    } else {
      r := None;
    }
  }

  /** Both answers: part one is the height of the reference tower after
      2022 rocks when the cache recorded it (`None` where the source's
      `unwrap` fails); part two adds the skipped height to the tower's. */
  method Solve(jets: string) returns (p1: Option<int>, p2: int)
    requires |jets| > 0
    ensures p1.Some? ==> p1.value == Height(Run(jets, 2022).grid)
    ensures p2 >= 0
  {
    var tower, g, cache, rocks, heights := Simulate(jets);
    p1 := Lookup(cache, |g|, heights);
    if p1.Some? {
      RecordedAt(jets, heights, 2021);
    }
    p2 := tower + Height(g);
  }
}

=== FILE: day18.dfy ===
/**
 Day 18: boiling boulders. The droplet is a list of unit cubes. Part one
 counts the faces of cubes that do not touch another cube; part two flood
 fills the air around the droplet, from the origin, inside a box one wider
 than the droplet, and counts the faces that touch filled air.
 */
module Day18 {
  import opened Common

  type Point = (int, int, int)

  const Origin: Point := (0, 0, 0)

  /** The seed of the source's folds for the least and greatest x: the
      extremes of a 32-bit signed integer. */
  const I32Max: int := 0x7fff_ffff
  const I32Min: int := -0x8000_0000

  /** `p` and `q` share a face: they differ by one on exactly one axis. */
  predicate Touching(p: Point, q: Point)
  {
    Abs(p.0 - q.0) + Abs(p.1 - q.1) + Abs(p.2 - q.2) == 1
  }

  /** `adjacent`: the six face neighbours, in the order x - 1, x + 1,
      y - 1, y + 1, z - 1, z + 1. */
  function Adjacent(p: Point): (r: seq<Point>)
    ensures |r| == 6
    ensures forall q :: q in r <==> Touching(p, q)
    ensures NoDuplicates(r)
  {
    var (x, y, z) := p;
    [(x - 1, y, z), (x + 1, y, z), (x, y - 1, z), (x, y + 1, z), (x, y, z - 1), (x, y, z + 1)]
  }

  /* ---------------------------------------------------------------- */
  /* Part one                                                          */
  /* ---------------------------------------------------------------- */

  /** How many of `ps` are not cubes of the droplet. */
  function CountOutside(ps: seq<Point>, cubes: seq<Point>): (n: nat)
    ensures n <= |ps|
    ensures n == |ps| <==> forall i :: 0 <= i < |ps| ==> ps[i] !in cubes
    ensures n == 0 <==> forall i :: 0 <= i < |ps| ==> ps[i] in cubes
  {
    if |ps| == 0 then 0
    else CountOutside(ps[..|ps| - 1], cubes) + (if ps[|ps| - 1] in cubes then 0 else 1)
  }

  /** Part one: over every listed cube, its neighbours that are not cubes.
      A listed cube counted twice contributes twice. */
  function SurfaceArea(cubes: seq<Point>, of: seq<Point>): (n: nat)
    ensures n <= 6 * |of|
    ensures (forall i :: 0 <= i < |of| ==> forall q :: Touching(of[i], q) ==> q !in cubes) ==> n == 6 * |of|
  {
    if |of| == 0 then 0
    else SurfaceArea(cubes, of[..|of| - 1]) + CountOutside(Adjacent(of[|of| - 1]), cubes)
  }

  /** A cube with no neighbour in the droplet shows all six faces; one
      surrounded on every side shows none. */
  lemma LoneCube(p: Point, cubes: seq<Point>)
    ensures (forall q :: Touching(p, q) ==> q !in cubes) ==> CountOutside(Adjacent(p), cubes) == 6
    ensures (forall q :: Touching(p, q) ==> q in cubes) ==> CountOutside(Adjacent(p), cubes) == 0
  {
  }

  /* ---------------------------------------------------------------- */
  /* Bounds                                                            */
  /* ---------------------------------------------------------------- */

  /** The least x of the droplet, folded from the 32-bit maximum. */
  function MinX(cubes: seq<Point>): (m: int)
    ensures m <= I32Max
    ensures forall i :: 0 <= i < |cubes| ==> m <= cubes[i].0
    ensures m == I32Max || exists i :: 0 <= i < |cubes| && cubes[i].0 == m
  {
    if |cubes| == 0 then I32Max else Min(MinX(cubes[..|cubes| - 1]), cubes[|cubes| - 1].0)
  }

  /** The greatest x of the droplet, folded from the 32-bit minimum. */
  function MaxX(cubes: seq<Point>): (m: int)
    ensures m >= I32Min
    ensures forall i :: 0 <= i < |cubes| ==> cubes[i].0 <= m
    ensures m == I32Min || exists i :: 0 <= i < |cubes| && cubes[i].0 == m
  {
    if |cubes| == 0 then I32Min else Max(MaxX(cubes[..|cubes| - 1]), cubes[|cubes| - 1].0)
  }

  /** Every axis of `p` lies in `lo..=hi`. */
  predicate InBox(lo: int, hi: int, p: Point)
  {
    lo <= p.0 <= hi && lo <= p.1 <= hi && lo <= p.2 <= hi
  }

  /** A point the fill may enter: inside the box and not a cube. */
  predicate Free(cubes: seq<Point>, lo: int, hi: int, p: Point)
  {
    p !in cubes && InBox(lo, hi, p)
  }

  function Box(lo: int, hi: int): (b: set<Point>)
    ensures forall p :: p in b <==> InBox(lo, hi, p)
  {
    set x, y, z | lo <= x <= hi && lo <= y <= hi && lo <= z <= hi :: (x, y, z)
  }

  /** The box the source fills: the least and greatest x, widened by one,
      bound all three axes. */
  function FillBounds(cubes: seq<Point>): (r: (int, int))
    ensures forall i :: 0 <= i < |cubes| ==> r.0 < cubes[i].0 < r.1
    ensures |cubes| == 0 ==> r.0 > r.1
  {
    (MinX(cubes) - 1, MaxX(cubes) + 1)
  }

  /* ---------------------------------------------------------------- */
  /* The flood fill                                                    */
  /* ---------------------------------------------------------------- */

  /** Every free neighbour of `p` has been visited. */
  ghost predicate Closed(cubes: seq<Point>, lo: int, hi: int, visited: set<Point>, p: Point)
  {
    forall q :: Touching(p, q) && Free(cubes, lo, hi, q) ==> q in visited
  }

  /** A walk the fill can take: it starts at the origin and every later
      step moves to a touching free point. */
  ghost predicate Walk(cubes: seq<Point>, lo: int, hi: int, w: seq<Point>)
  {
    && |w| > 0 && w[0] == Origin
    && forall i :: 0 < i < |w| ==> Free(cubes, lo, hi, w[i]) && Touching(w[i - 1], w[i])
  }

  /** `p` can be reached from the origin by a walk. */
  ghost predicate Reachable(cubes: seq<Point>, lo: int, hi: int, p: Point)
  {
    exists w :: Walk(cubes, lo, hi, w) && w[|w| - 1] == p
  }

  /** A walk extended by a touching free point is a walk. */
  lemma Extend(cubes: seq<Point>, lo: int, hi: int, w: seq<Point>, p: Point)
    requires Walk(cubes, lo, hi, w) && Free(cubes, lo, hi, p) && Touching(w[|w| - 1], p)
    ensures Walk(cubes, lo, hi, w + [p])
  {
    var v := w + [p];
    forall i | 0 < i < |v|
      ensures Free(cubes, lo, hi, v[i]) && Touching(v[i - 1], v[i])
    {
      if i < |v| - 1 {
        assert v[i] == w[i] && v[i - 1] == w[i - 1];
      }
    }
  }

  /** The order in which the fill found its points: it starts at the
      origin, and every later point is free and touches the point found
      at its parent index, which comes earlier. */
  ghost predicate Discovery(cubes: seq<Point>, lo: int, hi: int, order: seq<Point>, parent: seq<nat>)
  {
    && |order| == |parent| && |order| > 0 && order[0] == Origin
    && forall i :: 0 < i < |order| ==>
         parent[i] < i && Free(cubes, lo, hi, order[i]) && Touching(order[parent[i]], order[i])
  }

  /** `index` tells where in `order` each point of `s` was found. */
  ghost predicate Indexed(s: set<Point>, order: seq<Point>, index: map<Point, nat>)
  {
    forall p :: p in s ==> p in index && index[p] < |order| && order[index[p]] == p
  }

  lemma IndexNext(s: set<Point>, order: seq<Point>, index: map<Point, nat>, p: Point)
    requires Indexed(s, order, index) && p !in s
    ensures Indexed(s + {p}, order + [p], index[p := |order|])
  {
  }

  /** Finding a free point touching an earlier one extends the order. */
  lemma DiscoverNext(cubes: seq<Point>, lo: int, hi: int, order: seq<Point>, parent: seq<nat>, k: nat, p: Point)
    requires Discovery(cubes, lo, hi, order, parent) && k < |order|
    requires Free(cubes, lo, hi, p) && Touching(order[k], p)
    ensures Discovery(cubes, lo, hi, order + [p], parent + [k])
  {
    var o, q := order + [p], parent + [k];
    forall i | 0 < i < |o|
      ensures q[i] < i && Free(cubes, lo, hi, o[i]) && Touching(o[q[i]], o[i])
    {
      if i < |order| {
        assert o[i] == order[i] && q[i] == parent[i] && o[q[i]] == order[parent[i]];
      } else {
        assert o[q[i]] == order[k];
      }
    }
  }

  /** Every point found is reachable. */
  lemma DiscoveredReachable(cubes: seq<Point>, lo: int, hi: int, order: seq<Point>, parent: seq<nat>)
    requires Discovery(cubes, lo, hi, order, parent)
    ensures forall p :: p in order ==> Reachable(cubes, lo, hi, p)
  {
    forall i | 0 <= i < |order|
      ensures Reachable(cubes, lo, hi, order[i])
    {
      FoundReachable(cubes, lo, hi, order, parent, i);
    }
  }

  lemma {:induction false} FoundReachable(cubes: seq<Point>, lo: int, hi: int, order: seq<Point>, parent: seq<nat>, i: nat)
    requires Discovery(cubes, lo, hi, order, parent) && i < |order|
    ensures Reachable(cubes, lo, hi, order[i])
    decreases i
  {
    if i == 0 {
      assert Walk(cubes, lo, hi, [Origin]);
    } else {
      FoundReachable(cubes, lo, hi, order, parent, parent[i]);
      ReachNext(cubes, lo, hi, order[parent[i]], order[i]);
    }
  }

  /** A free point touching a reachable one is reachable. */
  lemma ReachNext(cubes: seq<Point>, lo: int, hi: int, q: Point, p: Point)
    requires Reachable(cubes, lo, hi, q) && Free(cubes, lo, hi, p) && Touching(q, p)
    ensures Reachable(cubes, lo, hi, p)
  {
    var w :| Walk(cubes, lo, hi, w) && w[|w| - 1] == q;
    Extend(cubes, lo, hi, w, p);
    assert (w + [p])[|w + [p]| - 1] == p;
  }

  /** A set holding the origin and closed under moving to free touching
      points holds every point of every walk. */
  lemma {:induction false} WalkInside(cubes: seq<Point>, lo: int, hi: int, s: set<Point>, w: seq<Point>)
    requires Origin in s && forall p :: p in s ==> Closed(cubes, lo, hi, s, p)
    requires Walk(cubes, lo, hi, w)
    ensures w[|w| - 1] in s
    decreases |w|
  {
    if |w| > 1 {
      var front := w[..|w| - 1];
      assert Walk(cubes, lo, hi, front) by {
        forall i | 0 < i < |front|
          ensures Free(cubes, lo, hi, front[i]) && Touching(front[i - 1], front[i])
        {
          assert front[i] == w[i] && front[i - 1] == w[i - 1];
        }
      }
      WalkInside(cubes, lo, hi, s, front);
      assert Closed(cubes, lo, hi, s, w[|w| - 2]);
    }
  }

  /** `visible`: a depth-first fill from the origin. The origin is marked
      visited without any test and is never reported; every reported point
      is free, and the fill is closed: each free neighbour of the origin
      or of a reported point is reported too. So it reports exactly the
      points other than the origin that a walk from the origin reaches. */
  method Visible(cubes: seq<Point>, lo: int, hi: int) returns (visible: set<Point>)
    ensures Origin !in visible
    ensures forall p :: p in visible ==> Free(cubes, lo, hi, p)
    ensures forall p :: p in visible + {Origin} ==> Closed(cubes, lo, hi, visible + {Origin}, p)
    ensures forall p :: p in visible <==> p != Origin && Reachable(cubes, lo, hi, p)
  {
    var stack := [Origin];
    var visited := {Origin};
    visible := {};
    ghost var order := [Origin];
    ghost var parent: seq<nat> := [0];
    ghost var index: map<Point, nat> := map[Origin := 0];
    while |stack| > 0
      invariant visited == visible + {Origin} && Origin !in visible
      invariant forall p :: p in visible ==> Free(cubes, lo, hi, p)
      invariant Discovery(cubes, lo, hi, order, parent) && Indexed(visited, order, index)
      invariant forall p :: p in stack ==> p in visited
      invariant forall p :: p in visited && p !in stack ==> Closed(cubes, lo, hi, visited, p)
      decreases Box(lo, hi) - visited, |stack|
    {
      var point := stack[|stack| - 1];
      ghost var full := stack;
      ghost var closed := set p | p in visited && p !in full;
      assert forall p :: p in closed ==> Closed(cubes, lo, hi, visited, p);
      stack := stack[..|stack| - 1];
      ghost var before := visited;
      ghost var waiting := stack;
      assert full == waiting + [point];
      visited, stack, visible, order, parent, index :=
        Spread(cubes, lo, hi, point, visited, stack, visible, order, parent, index);
      forall p | p in visited && p !in stack
        ensures Closed(cubes, lo, hi, visited, p)
      {
        if p != point {
          assert p in before && p !in waiting;
          assert p in closed;
        }
      }
      if visited != before {
        assert !(visited <= before);
        var q :| q in visited && q !in before;
        assert q in Box(lo, hi) - before;
        assert q !in Box(lo, hi) - visited;
      }
    }
    DiscoveredReachable(cubes, lo, hi, order, parent);
    assert forall p :: p in visited ==> order[index[p]] == p;
    FillReaches(cubes, lo, hi, visited);
  }

  /** The body of the fill's loop for one popped point: every free
      neighbour not yet visited is marked visited, pushed and reported. */
  method Spread(cubes: seq<Point>, lo: int, hi: int, point: Point,
                visited0: set<Point>, stack0: seq<Point>, visible0: set<Point>,
                ghost order0: seq<Point>, ghost parent0: seq<nat>, ghost index0: map<Point, nat>)
    returns (visited: set<Point>, stack: seq<Point>, visible: set<Point>,
             ghost order: seq<Point>, ghost parent: seq<nat>, ghost index: map<Point, nat>)
    requires visited0 == visible0 + {Origin} && Origin !in visible0 && point in visited0
    requires forall p :: p in visible0 ==> Free(cubes, lo, hi, p)
    requires Discovery(cubes, lo, hi, order0, parent0) && Indexed(visited0, order0, index0)
    ensures visited == visible + {Origin} && Origin !in visible
    ensures forall p :: p in visible ==> Free(cubes, lo, hi, p)
    ensures Discovery(cubes, lo, hi, order, parent) && Indexed(visited, order, index)
    ensures visited0 <= visited && visited - visited0 <= Box(lo, hi)
    ensures visited == visited0 ==> stack == stack0
    ensures stack0 <= stack && forall p :: p in stack ==> p in stack0 || p in visited - visited0
    ensures forall p :: p in visited - visited0 ==> p in stack
    ensures Closed(cubes, lo, hi, visited, point)
  {
    visited, stack, visible := visited0, stack0, visible0;
    order, parent, index := order0, parent0, index0;
    ghost var pk: nat := index[point];
    var adj := Adjacent(point);
    var j := 0;
    while j < 6
      invariant 0 <= j <= 6
      invariant visited0 <= visited && visited - visited0 <= Box(lo, hi)
      invariant visited == visited0 ==> stack == stack0
      invariant visited == visible + {Origin} && Origin !in visible
      invariant forall p :: p in visible ==> Free(cubes, lo, hi, p)
      invariant Discovery(cubes, lo, hi, order, parent) && Indexed(visited, order, index)
      invariant pk < |order| && order[pk] == point
      invariant stack0 <= stack && forall p :: p in stack ==> p in stack0 || p in visited - visited0
      invariant forall p :: p in visited - visited0 ==> p in stack
      invariant forall k :: 0 <= k < j && Free(cubes, lo, hi, adj[k]) ==> adj[k] in visited
    {
      var p := adj[j];
      if Free(cubes, lo, hi, p) && p !in visited {
        assert p in adj;
        DiscoverNext(cubes, lo, hi, order, parent, pk, p);
        IndexNext(visited, order, index, p);
        index := index[p := |order|];
        order, parent := order + [p], parent + [pk];
        visited := visited + {p};
        stack := stack + [p];
        visible := visible + {p};
      }
      j := j + 1;
    }
  }


  /** A closed set of reachable points holding the origin is exactly the
      set of reachable points. */
  lemma FillReaches(cubes: seq<Point>, lo: int, hi: int, s: set<Point>)
    requires Origin in s && forall p :: p in s ==> Closed(cubes, lo, hi, s, p)
    requires forall p :: p in s ==> Reachable(cubes, lo, hi, p)
    ensures forall p :: p in s <==> Reachable(cubes, lo, hi, p)
  {
    forall p | Reachable(cubes, lo, hi, p)
      ensures p in s
    {
      var w :| Walk(cubes, lo, hi, w) && w[|w| - 1] == p;
      WalkInside(cubes, lo, hi, s, w);
    }
  }

  /** How many of `ps` the fill reached. */
  function CountIn(ps: seq<Point>, air: set<Point>): (n: nat)
    ensures n <= |ps|
    ensures n == 0 <==> forall i :: 0 <= i < |ps| ==> ps[i] !in air
  {
    if |ps| == 0 then 0
    else CountIn(ps[..|ps| - 1], air) + (if ps[|ps| - 1] in air then 1 else 0)
  }

  /** Part two: over every listed cube, its neighbours the fill reached. */
  function ExteriorArea(air: set<Point>, of: seq<Point>): (n: nat)
    ensures n <= 6 * |of|
  {
    if |of| == 0 then 0
    else ExteriorArea(air, of[..|of| - 1]) + CountIn(Adjacent(of[|of| - 1]), air)
  }

  /** Air holds no cube, so a face touching air is a face touching no
      cube: one cube's count, then the whole droplet's. */
  lemma {:induction false} CountInOutside(ps: seq<Point>, air: set<Point>, cubes: seq<Point>)
    requires forall p :: p in air ==> p !in cubes
    ensures CountIn(ps, air) <= CountOutside(ps, cubes)
    decreases |ps|
  {
    if |ps| > 0 {
      CountInOutside(ps[..|ps| - 1], air, cubes);
    }
  }

  lemma {:induction false} ExteriorWithinSurface(air: set<Point>, cubes: seq<Point>, of: seq<Point>)
    requires forall p :: p in air ==> p !in cubes
    ensures ExteriorArea(air, of) <= SurfaceArea(cubes, of)
    decreases |of|
  {
    if |of| > 0 {
      ExteriorWithinSurface(air, cubes, of[..|of| - 1]);
      CountInOutside(Adjacent(of[|of| - 1]), air, cubes);
    }
  }

  /** When every open face of the listed cubes touches air (the droplet
      has no pocket the fill missed), the two areas agree. */
  lemma {:induction false} CountInAll(ps: seq<Point>, air: set<Point>, cubes: seq<Point>)
    requires forall p :: p in air ==> p !in cubes
    requires forall i :: 0 <= i < |ps| && ps[i] !in cubes ==> ps[i] in air
    ensures CountIn(ps, air) == CountOutside(ps, cubes)
    decreases |ps|
  {
    if |ps| > 0 {
      CountInAll(ps[..|ps| - 1], air, cubes);
    }
  }

  lemma {:induction false} ExteriorIsSurface(air: set<Point>, cubes: seq<Point>, of: seq<Point>)
    requires forall p :: p in air ==> p !in cubes
    requires forall i, q :: 0 <= i < |of| && Touching(of[i], q) && q !in cubes ==> q in air
    ensures ExteriorArea(air, of) == SurfaceArea(cubes, of)
    decreases |of|
  {
    if |of| > 0 {
      ExteriorIsSurface(air, cubes, of[..|of| - 1]);
      var adj := Adjacent(of[|of| - 1]);
      assert forall i :: 0 <= i < |adj| ==> Touching(of[|of| - 1], adj[i]);
      CountInAll(adj, air, cubes);
    }
  }

  /** `solve`: the two areas, and the air the fill reached. The exterior
      never exceeds the surface. */
  method Solve(cubes: seq<Point>) returns (p1: nat, p2: nat, air: set<Point>)
    ensures p1 == SurfaceArea(cubes, cubes) && p1 <= 6 * |cubes|
    ensures p2 == ExteriorArea(air, cubes) && p2 <= p1
    ensures Origin !in air
    ensures forall p :: p in air ==> Free(cubes, FillBounds(cubes).0, FillBounds(cubes).1, p)
    ensures forall p :: p in air <==> p != Origin && Reachable(cubes, FillBounds(cubes).0, FillBounds(cubes).1, p)
  {
    p1 := SurfaceArea(cubes, cubes);
    var (lo, hi) := FillBounds(cubes);
    air := Visible(cubes, lo, hi);
    p2 := ExteriorArea(air, cubes);
    ExteriorWithinSurface(air, cubes, cubes);
  }

  /* ---------------------------------------------------------------- */
  /* Parsing                                                           */
  /* ---------------------------------------------------------------- */

  /** One line `x,y,z`; fields after the third are ignored, a missing or
      malformed field is the source's `unwrap` failure. */
  function ParseCube(line: string): (r: Option<Point>)
    ensures r.Some? <==> |SplitOn(line, ',')| >= 3 && ParseInt(SplitOn(line, ',')[0]).Some?
                         && ParseInt(SplitOn(line, ',')[1]).Some? && ParseInt(SplitOn(line, ',')[2]).Some?
    ensures r.Some? ==> Some(r.value.0) == ParseInt(SplitOn(line, ',')[0])
                        && Some(r.value.1) == ParseInt(SplitOn(line, ',')[1])
                        && Some(r.value.2) == ParseInt(SplitOn(line, ',')[2])
  {
    var f := SplitOn(line, ',');
    if |f| < 3 then None
    else
      match (ParseInt(f[0]), ParseInt(f[1]), ParseInt(f[2]))
      case (Some(x), Some(y), Some(z)) => Some((x, y, z))
      case _ => None
  }

  /** Every line is one cube. */
  function Parse(lines: seq<string>): (r: Option<seq<Point>>)
    ensures r.Some? <==> forall i :: 0 <= i < |lines| ==> ParseCube(lines[i]).Some?
    ensures r.Some? ==> |r.value| == |lines| && forall i :: 0 <= i < |lines| ==> Some(r.value[i]) == ParseCube(lines[i])
  {
    ParseAll(lines, ParseCube)
  }
}

=== FILE: day19.dfy ===
/**
 Day 19: not enough minerals. A factory starts with one ore robot; every
 minute each robot gathers one unit of its resource, and the factory may
 spend resources on one new robot. A breadth-first search over stocks,
 pruned by several heuristics, finds the geodes a blueprint yields within
 a time limit. Part one weighs each blueprint's yield in 24 minutes by its
 position; part two multiplies the first three yields in 32 minutes.
 */
module Day19 {
  import opened Common

  /** The state the search explores (the source calls it a blueprint):
      the stock of each resource and the number of robots of each kind. */
  datatype Stock = Stock(ore: int, clay: int, obsidian: int, geode: int,
                         rbOre: int, rbClay: int, rbObsidian: int, rbGeode: int)

  /** The six costs in input order: an ore robot costs `a` ore, a clay
      robot `b` ore, an obsidian robot `c` ore and `d` clay, a geode robot
      `e` ore and `f` obsidian. */
  datatype Costs = Costs(a: int, b: int, c: int, d: int, e: int, f: int)

  /** The search starts at minute 0 with one ore robot and nothing else. */
  const Start: Stock := Stock(0, 0, 0, 0, 1, 0, 0, 0)

  /** The greatest ore cost of any robot. */
  function OreCost(k: Costs): (m: int)
    ensures m >= k.a && m >= k.b && m >= k.c && m >= k.e
    ensures m == k.a || m == k.b || m == k.c || m == k.e
  {
    Max(Max(Max(k.a, k.b), k.c), k.e)
  }

  /* ---------------------------------------------------------------- */
  /* One minute                                                        */
  /* ---------------------------------------------------------------- */

  /** `mine`: every robot gathers one unit. */
  function Mine(s: Stock): (r: Stock)
  {
    s.(ore := s.ore + s.rbOre, clay := s.clay + s.rbClay,
       obsidian := s.obsidian + s.rbObsidian, geode := s.geode + s.rbGeode)
  }

  /** `n` minutes of gathering without building. */
  function MineFor(s: Stock, n: nat): Stock
  {
    if n == 0 then s else Mine(MineFor(s, n - 1))
  }

  /** Gathering never changes the robots, and `n` minutes of it add `n`
      times each robot count to its resource. */
  lemma {:induction false} MineRepeated(s: Stock, n: nat)
    ensures var r := MineFor(s, n);
            r.rbOre == s.rbOre && r.rbClay == s.rbClay && r.rbObsidian == s.rbObsidian && r.rbGeode == s.rbGeode
    ensures var r := MineFor(s, n);
            r.ore == s.ore + n * s.rbOre && r.clay == s.clay + n * s.rbClay
            && r.obsidian == s.obsidian + n * s.rbObsidian && r.geode == s.geode + n * s.rbGeode
  {
    if n > 0 {
      MineRepeated(s, n - 1);
    }
  }

  /** The source's pruning of surplus, three cuts in turn: ore is cut to
      the greatest ore cost once the ore robots alone, or the clay robots
      alone, could pay for any robot each minute; ore and clay are cut
      together once the obsidian robots pay for a geode robot and the
      clay covers an obsidian robot. Each cut applies only to a stock at
      least as large as what it cuts to. */
  function Clamp(k: Costs, s: Stock): (r: Stock)
    ensures r.obsidian == s.obsidian && r.geode == s.geode
    ensures r.rbOre == s.rbOre && r.rbClay == s.rbClay && r.rbObsidian == s.rbObsidian && r.rbGeode == s.rbGeode
    ensures r.ore == (if s.ore >= OreCost(k) && (s.rbOre >= OreCost(k) || s.rbClay >= k.d || (s.rbObsidian >= k.f && s.clay >= k.d))
                      then OreCost(k) else s.ore)
    ensures r.clay == (if s.ore >= OreCost(k) && s.rbObsidian >= k.f && s.clay >= k.d then k.d else s.clay)
    ensures r.ore >= Min(s.ore, OreCost(k)) && r.clay >= Min(s.clay, k.d)
  {
    var oc := OreCost(k);
    var s1 := if s.rbOre >= oc && s.ore >= oc then s.(ore := oc) else s;
    var s2 := if s1.rbClay >= k.d && s1.ore >= oc then s1.(ore := oc) else s1;
    if s2.rbObsidian >= k.f && s2.ore >= oc && s2.clay >= k.d then s2.(ore := oc, clay := k.d) else s2
  }

  predicate CanGeode(k: Costs, s: Stock)
  {
    s.rbObsidian >= 1 && s.ore >= k.e && s.obsidian >= k.f
  }

  predicate CanObsidian(k: Costs, s: Stock)
  {
    s.rbClay >= 1 && s.rbObsidian < k.f && s.ore >= k.c && s.clay >= k.d
  }

  predicate CanOre(k: Costs, s: Stock)
  {
    s.rbOre < OreCost(k) && s.ore >= k.a
  }

  predicate CanClay(k: Costs, s: Stock)
  {
    s.rbClay < k.d && s.ore >= k.b
  }

  /** The four kinds of robot. */
  datatype Robot = OreBot | ClayBot | ObsidianBot | GeodeBot

  /** When the source builds a robot of each kind. */
  predicate Affordable(k: Costs, s: Stock, b: Robot)
  {
    match b
    case OreBot => CanOre(k, s)
    case ClayBot => CanClay(k, s)
    case ObsidianBot => CanObsidian(k, s)
    case GeodeBot => CanGeode(k, s)
  }

  /** A minute in which one robot of kind `b` is built: every robot
      gathers, the robot's price is paid out of the stock, and the new
      robot joins the others. */
  function Buy(k: Costs, s: Stock, b: Robot): (r: Stock)
    ensures r.geode == s.geode + s.rbGeode
    ensures r.ore == s.ore + s.rbOre - (match b case OreBot => k.a case ClayBot => k.b case ObsidianBot => k.c case GeodeBot => k.e)
    ensures r.clay == s.clay + s.rbClay - (if b == ObsidianBot then k.d else 0)
    ensures r.obsidian == s.obsidian + s.rbObsidian - (if b == GeodeBot then k.f else 0)
    ensures r.rbOre == s.rbOre + (if b == OreBot then 1 else 0)
    ensures r.rbClay == s.rbClay + (if b == ClayBot then 1 else 0)
    ensures r.rbObsidian == s.rbObsidian + (if b == ObsidianBot then 1 else 0)
    ensures r.rbGeode == s.rbGeode + (if b == GeodeBot then 1 else 0)
  {
    var m := Mine(s);
    match b
    case OreBot => m.(ore := m.ore - k.a, rbOre := m.rbOre + 1)
    case ClayBot => m.(ore := m.ore - k.b, rbClay := m.rbClay + 1)
    case ObsidianBot => m.(ore := m.ore - k.c, clay := m.clay - k.d, rbObsidian := m.rbObsidian + 1)
    case GeodeBot => m.(ore := m.ore - k.e, obsidian := m.obsidian - k.f, rbGeode := m.rbGeode + 1)
  }

  /** The stocks one minute after `s`, in the order the source queues
      them. A geode robot, when affordable, is the only choice; otherwise
      an obsidian, an ore and a clay robot are each built when affordable,
      and idling comes last. */
  function Successors(k: Costs, s: Stock): (r: seq<Stock>)
    ensures 1 <= |r| <= 4
    ensures CanGeode(k, s) ==> r == [Buy(k, s, GeodeBot)]
    ensures !CanGeode(k, s) ==> r[|r| - 1] == Mine(s)
    ensures forall i :: 0 <= i < |r| ==> Follows(k, s, r[i])
  {
    if CanGeode(k, s) then [Buy(k, s, GeodeBot)]
    else
      var a := if CanObsidian(k, s) then [Buy(k, s, ObsidianBot)] else [];
      var b := if CanOre(k, s) then [Buy(k, s, OreBot)] else [];
      var c := if CanClay(k, s) then [Buy(k, s, ClayBot)] else [];
      assert forall x :: x in a + b + c + [Mine(s)] ==> Follows(k, s, x);
      a + b + c + [Mine(s)]
  }

  /** Without a geode robot to build, every other robot the rules allow
      is built in a successor of its own, and every successor but the
      last (idling) builds one allowed robot. */
  lemma SuccessorsChoices(k: Costs, s: Stock)
    requires !CanGeode(k, s)
    ensures forall b: Robot :: b != GeodeBot ==> (Buy(k, s, b) in Successors(k, s) <==> Affordable(k, s, b))
    ensures var r := Successors(k, s);
            forall i :: 0 <= i < |r| - 1 ==> exists b: Robot :: b != GeodeBot && Affordable(k, s, b) && r[i] == Buy(k, s, b)
  {
    var a := if CanObsidian(k, s) then [Buy(k, s, ObsidianBot)] else [];
    var b := if CanOre(k, s) then [Buy(k, s, OreBot)] else [];
    var c := if CanClay(k, s) then [Buy(k, s, ClayBot)] else [];
    assert Successors(k, s) == a + b + c + [Mine(s)];
  }

  /** What a minute can do to a stock: the geode robots' yield is added,
      at most one robot is bought, and only a robot whose rule allowed it. */
  predicate Follows(k: Costs, s: Stock, x: Stock)
  {
    x.geode == s.geode + s.rbGeode
    && s.rbOre <= x.rbOre && s.rbClay <= x.rbClay && s.rbObsidian <= x.rbObsidian && s.rbGeode <= x.rbGeode
    && x.rbOre + x.rbClay + x.rbObsidian + x.rbGeode <= s.rbOre + s.rbClay + s.rbObsidian + s.rbGeode + 1
    && (x.rbGeode > s.rbGeode ==> CanGeode(k, s))
    && (x.rbObsidian > s.rbObsidian ==> CanObsidian(k, s) && !CanGeode(k, s))
    && (x.rbOre > s.rbOre ==> CanOre(k, s) && !CanGeode(k, s))
    && (x.rbClay > s.rbClay ==> CanClay(k, s) && !CanGeode(k, s))
  }

  /** No stock or robot count is negative. */
  predicate NonNegative(s: Stock)
  {
    s.ore >= 0 && s.clay >= 0 && s.obsidian >= 0 && s.geode >= 0
    && s.rbOre >= 0 && s.rbClay >= 0 && s.rbObsidian >= 0 && s.rbGeode >= 0
  }

  /** A robot is bought only with resources in stock, so with costs that
      are not negative the search never owes anything. */
  lemma StaysNonNegative(k: Costs, s: Stock)
    requires k.d >= 0 && OreCost(k) >= 0
    requires NonNegative(s)
    ensures NonNegative(Clamp(k, s))
    ensures forall i :: 0 <= i < |Successors(k, Clamp(k, s))| ==> NonNegative(Successors(k, Clamp(k, s))[i])
  {
  }

  /* ---------------------------------------------------------------- */
  /* The search                                                        */
  /* ---------------------------------------------------------------- */

  type Entry = (int, Stock)

  /** The queue filter: an entry survives when it has more of something
      than the stock being expanded. */
  predicate Exceeds(s: Stock, cur: Stock)
  {
    s.ore > cur.ore || s.clay > cur.clay || s.obsidian > cur.obsidian || s.geode > cur.geode
    || s.rbOre > cur.rbOre || s.rbClay > cur.rbClay || s.rbObsidian > cur.rbObsidian || s.rbGeode > cur.rbGeode
  }

  /** `retain`: the entries that exceed `cur`, in order. */
  function Retain(q: seq<Entry>, cur: Stock): (r: seq<Entry>)
    ensures |r| <= |q|
    ensures forall x :: x in r <==> x in q && Exceeds(x.1, cur)
  {
    if |q| == 0 then []
    else (if Exceeds(q[0].1, cur) then [q[0]] else []) + Retain(q[1..], cur)
  }

  /** Each successor tagged with minute `t`. */
  function Stamp(t: int, ss: seq<Stock>): (r: seq<Entry>)
    ensures |r| == |ss|
    ensures forall i :: 0 <= i < |r| ==> r[i] == (t, ss[i])
  {
    if |ss| == 0 then [] else [(t, ss[0])] + Stamp(t, ss[1..])
  }

  /** The most geodes `n` minutes can yield: a new geode robot in every
      minute after the first gathers 0 + 1 + ... + (n - 1). */
  function Cap(n: nat): nat
  {
    if n == 0 then 0 else Cap(n - 1) + (n - 1)
  }

  lemma {:induction false} CapClosedForm(n: nat)
    ensures 2 * Cap(n) == n * (n - 1)
  {
    if n > 0 {
      CapClosedForm(n - 1);
    }
  }

  lemma {:induction false} CapMonotone(m: nat, n: nat)
    requires m <= n
    ensures Cap(m) <= Cap(n)
    decreases n
  {
    if m < n {
      CapMonotone(m, n - 1);
    }
  }

  /** What every queued entry satisfies: its minute is within the limit,
      it has at most one geode robot per minute passed, and at most
      `Cap(t)` geodes. */
  predicate Sane(x: Entry, top: nat)
  {
    0 <= x.0 <= top && 0 <= x.1.rbGeode <= x.0 && 0 <= x.1.geode <= Cap(x.0)
  }

  function Pow5(n: nat): (p: nat)
    ensures p >= 1
  {
    if n == 0 then 1 else 5 * Pow5(n - 1)
  }

  /** The termination measure: an entry at minute `t` weighs `5^(top - t)`,
      more than the four successors it may queue. */
  function Weight(q: seq<Entry>, top: nat): nat
  {
    if |q| == 0 then 0
    else Pow5(if 0 <= q[0].0 <= top then top - q[0].0 else 0) + Weight(q[1..], top)
  }

  lemma {:induction false} WeightAppend(a: seq<Entry>, b: seq<Entry>, top: nat)
    ensures Weight(a + b, top) == Weight(a, top) + Weight(b, top)
    decreases |a|
  {
    if |a| > 0 {
      assert (a + b)[1..] == a[1..] + b;
      WeightAppend(a[1..], b, top);
    } else {
      assert a + b == b;
    }
  }

  lemma {:induction false} RetainLighter(q: seq<Entry>, cur: Stock, top: nat)
    ensures Weight(Retain(q, cur), top) <= Weight(q, top)
    decreases |q|
  {
    if |q| > 0 {
      RetainLighter(q[1..], cur, top);
      var head := if Exceeds(q[0].1, cur) then [q[0]] else [];
      assert Retain(q, cur) == head + Retain(q[1..], cur);
      WeightAppend(head, Retain(q[1..], cur), top);
      var w := Pow5(if 0 <= q[0].0 <= top then top - q[0].0 else 0);
      assert Weight(q, top) == w + Weight(q[1..], top);
      assert Weight(head, top) <= w by {
        if |head| > 0 {
          assert head[1..] == [];
        }
      }
    }
  }

  lemma {:induction false} StampWeight(t: nat, ss: seq<Stock>, top: nat)
    requires t <= top
    ensures Weight(Stamp(t, ss), top) == |ss| * Pow5(top - t)
    decreases |ss|
  {
    if |ss| > 0 {
      StampWeight(t, ss[1..], top);
    }
  }

  /** Expanding an entry at minute `t < top` into at most four entries at
      minute `t + 1` makes the queue lighter. */
  lemma ExpandLighter(rest: seq<Entry>, t: nat, ss: seq<Stock>, top: nat)
    requires t < top && |ss| <= 4
    ensures Weight(rest + Stamp(t + 1, ss), top) < Pow5(top - t) + Weight(rest, top)
  {
    WeightAppend(rest, Stamp(t + 1, ss), top);
    StampWeight(t + 1, ss, top);
    var p := Pow5(top - t - 1);
    assert Pow5(top - t) == 5 * p;
    ScaleLe(p, |ss|, 4);
    assert |ss| * p == p * |ss|;
  }

  /** Multiplying by a natural number keeps an order. */
  lemma {:induction false} ScaleLe(n: nat, x: int, y: int)
    requires x <= y
    ensures n * x <= n * y
  {
    if n > 0 {
      ScaleLe(n - 1, x, y);
      assert n * x == (n - 1) * x + x;
      assert n * y == (n - 1) * y + y;
    }
  }

  /** The entries queued from an expanded entry are sane one minute on. */
  lemma ExpandSane(k: Costs, t: int, bp: Stock, top: nat)
    requires Sane((t, bp), top) && t < top
    ensures forall i :: 0 <= i < |Successors(k, Clamp(k, bp))| ==>
              Sane((t + 1, Successors(k, Clamp(k, bp))[i]), top)
  {
  }

  /** Queueing the successors of a sane entry behind sane entries keeps the
      queue sane and makes it lighter than it was with the entry. */
  lemma Expanded(k: Costs, t: int, bp: Stock, kept: seq<Entry>, top: nat)
    requires Sane((t, bp), top) && t < top
    requires forall i :: 0 <= i < |kept| ==> Sane(kept[i], top)
    ensures var q := kept + Stamp(t + 1, Successors(k, Clamp(k, bp)));
      (forall i :: 0 <= i < |q| ==> Sane(q[i], top))
      && Weight(q, top) < Pow5(top - t) + Weight(kept, top)
  {
    var next := Successors(k, Clamp(k, bp));
    ExpandSane(k, t, bp, top);
    ExpandLighter(kept, t, next, top);
    var q := kept + Stamp(t + 1, next);
    forall i | 0 <= i < |q|
      ensures Sane(q[i], top)
    {
      if i >= |kept| {
        assert q[i] == (t + 1, next[i - |kept|]);
      }
    }
  }

  /** What the search keeps true: every queued entry is sane and the best
      yield so far lies within the cap. */
  predicate Searching(queue: seq<Entry>, best: int, top: nat)
  {
    0 <= best <= Cap(top) && forall i :: 0 <= i < |queue| ==> Sane(queue[i], top)
  }

  /** The entries kept by the queue filter are among the queued ones, so
      they are sane too. */
  lemma KeptSane(rest: seq<Entry>, bp: Stock, top: nat)
    requires forall i :: 0 <= i < |rest| ==> Sane(rest[i], top)
    ensures var kept := Retain(rest, bp); forall i :: 0 <= i < |kept| ==> Sane(kept[i], top)
  {
    var kept := Retain(rest, bp);
    forall i | 0 <= i < |kept|
      ensures Sane(kept[i], top)
    {
      assert kept[i] in rest;
    }
  }

  /** One turn of the search: the front entry is either scored, skipped as
      already seen, pruned, or expanded into its successors. The result is
      the queue, the visited stocks and the best yield after the turn. */
  function Visit(k: Costs, time: int, top: nat, queue: seq<Entry>, visited: set<Stock>, best: int)
    : (r: (seq<Entry>, set<Stock>, int))
    requires top == Max(time, 0) && |queue| > 0 && Searching(queue, best, top)
    ensures Searching(r.0, r.2, top) && best <= r.2
    ensures Weight(r.0, top) < Weight(queue, top)
  {
    var t := queue[0].0;
    var bp := queue[0].1;
    var rest := queue[1..];
    assert Weight(queue, top) == Pow5(top - t) + Weight(rest, top);
    assert Sane(queue[0], top);
    if t >= time then
      CapMonotone(t, top);
      (rest, visited, Max(best, bp.geode))
    else if bp in visited then (rest, visited, best)
    else
      var kept := Retain(rest, bp);
      RetainLighter(rest, bp, top);
      if bp.geode + bp.rbGeode * (time - t) + (time - t) <= best then (kept, visited, best)
      else
        var cl := Clamp(k, bp);
        KeptSane(rest, bp, top);
        Expanded(k, t, bp, kept, top);
        (kept + Stamp(t + 1, Successors(k, cl)), visited + {cl}, best)
  }

  /** The search loop: turns until the queue is empty, each making the
      queue lighter. The best yield only grows and stays within the cap. */
  function Search(k: Costs, time: int, top: nat, queue: seq<Entry>, visited: set<Stock>, best: int): (r: int)
    requires top == Max(time, 0) && Searching(queue, best, top)
    ensures best <= r <= Cap(top)
    decreases Weight(queue, top)
  {
    if |queue| == 0 then best
    else
      var next := Visit(k, time, top, queue, visited, best);
      Search(k, time, top, next.0, next.1, next.2)
  }

  /** `process`: the search for the most geodes within `time` minutes,
      from one ore robot at minute 0. It reports at least 0, and no more
      than `Cap(time)`, the yield of a new geode robot in every minute
      after the first. */
  function Process(k: Costs, time: int): (best: int)
    ensures 0 <= best <= Cap(Max(time, 0))
  {
    var top: nat := Max(time, 0);
    assert Sane((0, Start), top);
    Search(k, time, top, [(0, Start)], {}, 0)
  }

  /* ---------------------------------------------------------------- */
  /* Answers                                                           */
  /* ---------------------------------------------------------------- */

  /** Part one's quality sum: each yield times its 1-based position. */
  function Quality(gs: seq<int>): int
  {
    if |gs| == 0 then 0 else Quality(gs[..|gs| - 1]) + |gs| * gs[|gs| - 1]
  }

  /** With every yield in `0..=m`, the sum lies in `0..=m * Cap(n + 1)`,
      `Cap(n + 1)` being the sum of the positions 1 to n. */
  lemma {:induction false} QualityBound(gs: seq<int>, m: nat)
    requires forall i :: 0 <= i < |gs| ==> 0 <= gs[i] <= m
    ensures 0 <= Quality(gs) <= m * Cap(|gs| + 1)
    decreases |gs|
  {
    if |gs| > 0 {
      var n := |gs|;
      QualityBound(gs[..n - 1], m);
      ScaleLe(n, 0, gs[n - 1]);
      ScaleLe(n, gs[n - 1], m);
      assert m * Cap(n + 1) == m * (Cap(n) + n) == m * Cap(n) + m * n;
      assert m * n == n * m;
    }
  }

  /** Appending a yield adds it times its position. */
  lemma QualityAppend(gs: seq<int>, g: int)
    ensures Quality(gs + [g]) == Quality(gs) + (|gs| + 1) * g
  {
    assert (gs + [g])[..|gs|] == gs;
  }

  /** The two time limits: part one's and part two's. */
  const Short: nat := 24
  const Long: nat := 32

  /** The search's yield for each blueprint, in order. */
  function Yields(data: seq<Costs>, time: int): (gs: seq<int>)
    ensures |gs| == |data| && forall i :: 0 <= i < |data| ==> gs[i] == Process(data[i], time)
  {
    seq(|data|, i requires 0 <= i < |data| => Process(data[i], time))
  }

  /** The prefix of `i + 1` yields adds the yield at `i` times `i + 1`. */
  lemma QualityPrefix(gs: seq<int>, i: nat)
    requires i < |gs|
    ensures Quality(gs[..i + 1]) == Quality(gs[..i]) + (i + 1) * gs[i]
  {
    assert gs[..i + 1][..i] == gs[..i];
  }

  /** Every yield lies within the cap of its time limit. */
  lemma YieldsBound(data: seq<Costs>, time: nat)
    ensures var gs := Yields(data, time); forall i :: 0 <= i < |gs| ==> 0 <= gs[i] <= Cap(time)
  {
    assert Max(time, 0) == time;
  }

  /** Part one: every blueprint's 24-minute yield, weighed by its
      position. */
  method QualitySum(data: seq<Costs>) returns (p1: int)
    ensures p1 == Quality(Yields(data, Short))
  {
    ghost var gs := Yields(data, Short);
    p1 := 0;
    var i := 0;
    while i < |data|
      invariant 0 <= i <= |data|
      invariant p1 == Quality(gs[..i])
    {
      var g := Process(data[i], Short);
      QualityPrefix(gs, i);
      p1 := p1 + (i + 1) * g;
      i := i + 1;
    }
    assert gs[..i] == gs;
  }

  /** Part one's sum lies in `0..=Cap(time) * Cap(n + 1)` for `n`
      blueprints. */
  lemma QualitySumBound(data: seq<Costs>, time: nat)
    ensures 0 <= Quality(Yields(data, time)) <= Cap(time) * Cap(|data| + 1)
  {
    YieldsBound(data, time);
    QualityBound(Yields(data, time), Cap(time));
  }

  /** `solve`: part one over all blueprints, part two the product of the
      first three 32-minute yields. Fewer than three blueprints is the
      source's slice panic: `None`. */
  method Solve(data: seq<Costs>) returns (r: Option<(int, int)>)
    ensures r.None? <==> |data| < 3
    ensures r.Some? ==> r.value.0 == Quality(Yields(data, Short)) && 0 <= r.value.0 <= Cap(Short) * Cap(|data| + 1)
    ensures r.Some? ==> r.value.1 == Process(data[0], Long) * Process(data[1], Long) * Process(data[2], Long)
  {
    if |data| < 3 {
      return None;
    }
    var p1 := QualitySum(data);
    QualitySumBound(data, Short);
    var p2 := Process(data[0], Long) * Process(data[1], Long) * Process(data[2], Long);
    r := Some((p1, p2));
  }

  /* ---------------------------------------------------------------- */
  /* Parsing                                                           */
  /* ---------------------------------------------------------------- */

  /** How many of the words read as integers. */
  function Numerals(ws: seq<string>): nat
  {
    if |ws| == 0 then 0
    else Numerals(ws[..|ws| - 1]) + (if ParseInt(ws[|ws| - 1]).Some? then 1 else 0)
  }

  /** The words that read as integers, in order: one entry per integer
      word, the one at word `i` sitting after the integers of the words
      before it. */
  function Numbers(ws: seq<string>): (ns: seq<int>)
    ensures |ns| == Numerals(ws) <= |ws|
    ensures forall i :: 0 <= i < |ws| && ParseInt(ws[i]).Some? ==>
              Numerals(ws[..i]) < |ns| && ns[Numerals(ws[..i])] == ParseInt(ws[i]).value
  {
    if |ws| == 0 then []
    else
      var front := Numbers(ws[..|ws| - 1]);
      assert forall i :: 0 <= i < |ws| - 1 ==> ws[..|ws| - 1][i] == ws[i] && ws[..|ws| - 1][..i] == ws[..i];
      match ParseInt(ws[|ws| - 1])
      case Some(n) => front + [n]
      case None => front
  }

  /** One blueprint: the first six integer words, so the label `1:` is
      passed over. Fewer than six is the source's index panic. */
  function ParseBlueprint(line: string): (r: Option<Costs>)
    ensures r.Some? <==> |Numbers(Words(line))| >= 6
    ensures r.Some? ==> var ns := Numbers(Words(line));
                        r.value == Costs(ns[0], ns[1], ns[2], ns[3], ns[4], ns[5])
  {
    var ns := Numbers(Words(line));
    if |ns| < 6 then None else Some(Costs(ns[0], ns[1], ns[2], ns[3], ns[4], ns[5]))
  }

  function Parse(lines: seq<string>): (r: Option<seq<Costs>>)
    ensures r.Some? <==> forall i :: 0 <= i < |lines| ==> ParseBlueprint(lines[i]).Some?
    ensures r.Some? ==> |r.value| == |lines| && forall i :: 0 <= i < |lines| ==> Some(r.value[i]) == ParseBlueprint(lines[i])
  {
    ParseAll(lines, ParseBlueprint)
  }
}

=== FILE: day20.dfy ===
/**
 Day 20: mixing an encrypted list. The list is treated as a circle; every
 number in turn, in original order, is taken out and put back as many
 places further on as its value. The mixing works on a vector of original
 indices, which must stay a permutation of 0..n-1 throughout.
 */
module Day20 {
  import opened Common

  function Iota(n: nat): (r: seq<nat>)
    ensures |r| == n
    ensures forall i :: 0 <= i < n ==> r[i] == i
  {
    seq(n, i => i)
  }

  /** The multiset {0, 1, ..., n-1}. */
  function Range(n: nat): multiset<nat>
  {
    if n == 0 then multiset{} else Range(n - 1) + multiset{n - 1}
  }

  lemma {:induction false} RangeCount(n: nat, x: nat)
    ensures Range(n)[x] == if x < n then 1 else 0
  {
    if n > 0 {
      RangeCount(n - 1, x);
    }
  }

  lemma {:induction false} IotaRange(n: nat)
    ensures multiset(Iota(n)) == Range(n)
  {
    if n > 0 {
      IotaRange(n - 1);
      assert Iota(n) == Iota(n - 1) + [n - 1];
    }
  }

  /** `m` lists every index 0..n-1 exactly once. */
  predicate IsPerm(m: seq<nat>, n: nat)
  {
    |m| == n && multiset(m) == Range(n)
  }

  /** A permutation of 0..n-1 holds each of those indices, only those,
      and none twice. */
  lemma PermFacts(m: seq<nat>, n: nat)
    requires IsPerm(m, n)
    ensures forall i :: 0 <= i < n ==> i in m
    ensures forall k :: 0 <= k < |m| ==> m[k] < n
    ensures NoDuplicates(m)
  {
    forall i | 0 <= i < n ensures i in m {
      PermHas(m, n, i);
    }
    forall k | 0 <= k < |m| ensures m[k] < n {
      PermBounded(m, n, k);
    }
    forall i, j | 0 <= i < j < |m| ensures m[i] != m[j] {
      if m[i] == m[j] {
        assert m == m[..j] + m[j..];
        assert m[i] in m[..j] && m[j] in m[j..];
        assert multiset(m)[m[i]] >= 2;
        RangeCount(n, m[i]);
      }
    }
  }

  lemma PermHas(m: seq<nat>, n: nat, i: nat)
    requires IsPerm(m, n) && i < n
    ensures i in m
  {
    RangeCount(n, i);
  }

  lemma PermBounded(m: seq<nat>, n: nat, k: nat)
    requires IsPerm(m, n) && k < |m|
    ensures m[k] < n
  {
    RangeCount(n, m[k]);
  }

  /** `Vec::remove`: the sequence without its element at index `k`. */
  function Remove(s: seq<nat>, k: nat): (r: seq<nat>)
    requires k < |s|
    ensures |r| == |s| - 1
    ensures forall j :: 0 <= j < k ==> r[j] == s[j]
    ensures forall j :: k <= j < |r| ==> r[j] == s[j + 1]
  {
    if k == 0 then s[1..]
    else [s[0]] + Remove(s[1..], k - 1)
  }

  /** `Vec::insert`: `x` placed at index `k`, later elements shifted up. */
  function Insert(s: seq<nat>, k: nat, x: nat): (r: seq<nat>)
    requires k <= |s|
    ensures |r| == |s| + 1 && r[k] == x
    ensures forall j :: 0 <= j < k ==> r[j] == s[j]
    ensures forall j :: k < j < |r| ==> r[j] == s[j - 1]
  {
    if k == 0 then [x] + s
    else [s[0]] + Insert(s[1..], k - 1, x)
  }

  lemma RemoveMultiset(s: seq<nat>, k: nat)
    requires k < |s|
    ensures multiset(Remove(s, k)) == multiset(s) - multiset{s[k]}
  {
    RemoveSlices(s, k);
    SliceMultiset(s, k);
  }

  lemma SliceMultiset(s: seq<nat>, k: nat)
    requires k < |s|
    ensures multiset(s[..k] + s[k + 1..]) == multiset(s) - multiset{s[k]}
  {
    assert s == s[..k] + [s[k]] + s[k + 1..];
  }

  lemma RemoveSlices(s: seq<nat>, k: nat)
    requires k < |s|
    ensures Remove(s, k) == s[..k] + s[k + 1..]
  {
    var r := Remove(s, k);
    var t := s[..k] + s[k + 1..];
    forall j | 0 <= j < |t| ensures t[j] == r[j] {
      if j < k {
        assert t[j] == s[..k][j];
      } else {
        assert t[j] == s[k + 1..][j - k];
      }
    }
    assert r == t;
  }

  lemma InsertMultiset(s: seq<nat>, k: nat, x: nat)
    requires k <= |s|
    ensures multiset(Insert(s, k, x)) == multiset(s) + multiset{x}
  {
    var a, b := s[..k], s[k..];
    var r := Insert(s, k, x);
    assert r == a + [x] + b by {
      forall j | 0 <= j < |r| ensures r[j] == (a + [x] + b)[j] {
      }
    }
    assert s == a + b;
    assert multiset(r) == multiset(a) + multiset{x} + multiset(b);
  }

  lemma RemoveInsert(s: seq<nat>, k: nat, x: nat)
    requires k <= |s|
    ensures Remove(Insert(s, k, x), k) == s
  {
  }

  /** Moving element `i` with value `v`: it is removed from its position
      and reinserted at `(pos + v) rem_euclid (n - 1)`, which is always an
      index of the shortened vector. The result is again a permutation. */
  function MoveElement(m: seq<nat>, i: nat, v: int): (r: seq<nat>)
    requires |m| >= 2 && IsPerm(m, |m|) && i < |m|
    ensures IsPerm(r, |m|)
  {
    PermHas(m, |m|, i);
    Reinsert(m, IndexOf(m, i).value, v)
  }

  /** Takes out the element at `pos` and puts it back at the target index
      of the shortened vector. */
  function Reinsert(m: seq<nat>, pos: nat, v: int): (r: seq<nat>)
    requires |m| >= 2 && pos < |m|
    ensures multiset(r) == multiset(m)
    ensures |r| == |m|
  {
    var rest := Remove(m, pos);
    var q := Target(pos, v, |rest|);
    RemoveMultiset(m, pos);
    InsertMultiset(rest, q, m[pos]);
    assert multiset(m) - multiset{m[pos]} + multiset{m[pos]} == multiset(m);
    Insert(rest, q, m[pos])
  }

  /** The moved element sits at its new index, and the other elements
      keep their relative order. */
  lemma MoveElementPlaces(m: seq<nat>, i: nat, v: int)
    requires |m| >= 2 && IsPerm(m, |m|) && i < |m|
    ensures IndexOf(m, i).Some?
    ensures MoveElement(m, i, v)[Target(IndexOf(m, i).value, v, |m| - 1)] == i
    ensures Remove(MoveElement(m, i, v), Target(IndexOf(m, i).value, v, |m| - 1))
      == Remove(m, IndexOf(m, i).value)
  {
    PermHas(m, |m|, i);
    var pos := IndexOf(m, i).value;
    var q := Target(pos, v, |m| - 1);
    assert MoveElement(m, i, v) == Insert(Remove(m, pos), q, i);
    RemoveInsert(Remove(m, pos), q, i);
  }

  /** `(pos + v).rem_euclid(len)`: the reinsertion index. */
  function Target(pos: nat, v: int, len: nat): (q: nat)
    requires len > 0
    ensures q < len
  {
    Mod(pos + v, len)
  }

  /** Moving elements 0..k-1 of `vals`, each by its own value. */
  function MixPrefix(m: seq<nat>, vals: seq<int>, k: nat): (r: seq<nat>)
    requires IsPerm(m, |vals|) && k <= |vals|
    requires |vals| >= 2 || k == 0
    ensures IsPerm(r, |vals|)
  {
    if k == 0 then m
    else MoveElement(MixPrefix(m, vals, k - 1), k - 1, vals[k - 1])
  }

  /** The index vector after `reps` full rounds, starting from the
      identity. */
  function Mixed(vals: seq<int>, reps: nat): (r: seq<nat>)
    requires |vals| != 1 || reps == 0
    ensures IsPerm(r, |vals|)
  {
    if reps == 0 then IotaRange(|vals|); Iota(|vals|)
    else if |vals| == 0 then Mixed(vals, reps - 1)
    else MixPrefix(Mixed(vals, reps - 1), vals, |vals|)
  }

  /** The value `d` places after the zero, going round the circle. */
  function After(vals: seq<int>, m: seq<nat>, p: nat, d: nat): int
    requires IsPerm(m, |vals|) && p < |m|
  {
    PermBounded(m, |vals|, Mod(p + d, |m|));
    vals[m[Mod(p + d, |m|)]]
  }

  /** The grove coordinates: the values 1000, 2000 and 3000 places after
      the first zero of the input. There is none if the input holds no
      zero. */
  function GroveSum(vals: seq<int>, m: seq<nat>): (r: Option<int>)
    requires IsPerm(m, |vals|)
    ensures r.Some? <==> 0 in vals
  {
    match IndexOf(vals, 0)
    case None => None
    case Some(z) =>
      PermHas(m, |vals|, z);
      var p := IndexOf(m, z).value;
      Some(After(vals, m, p, 1000) + After(vals, m, p, 2000) + After(vals, m, p, 3000))
  }

  /** The circle read from index `k` on. */
  function Rotate(m: seq<nat>, k: nat): (r: seq<nat>)
    requires k <= |m|
    ensures |r| == |m| && multiset(r) == multiset(m)
    ensures forall j :: 0 <= j < |m| ==> r[j] == m[Mod(j + k, |m|)]
  {
    assert m == m[..k] + m[k..];
    var r := m[k..] + m[..k];
    forall j | 0 <= j < |m| ensures r[j] == m[Mod(j + k, |m|)] {
      ModWrap(j + k, |m|);
      ModIsRemainder(j + k, |m|);
    }
    r
  }

  /** Where the circle starts does not matter: the grove sum of a rotated
      index vector is the same. Hence inserting at index 0 or at the end
      of the vector describes the same mixed circle. */
  lemma GroveSumRotation(vals: seq<int>, m: seq<nat>, k: nat)
    requires IsPerm(m, |vals|) && k <= |m|
    ensures IsPerm(Rotate(m, k), |vals|)
    ensures GroveSum(vals, Rotate(m, k)) == GroveSum(vals, m)
  {
    var r := Rotate(m, k);
    assert IsPerm(r, |vals|);
    if 0 in vals {
      var z := IndexOf(vals, 0).value;
      PermHas(m, |vals|, z);
      PermHas(r, |vals|, z);
      var p := IndexOf(m, z).value;
      var p' := IndexOf(r, z).value;
      assert GroveSum(vals, m) == Some(After(vals, m, p, 1000) + After(vals, m, p, 2000) + After(vals, m, p, 3000));
      assert GroveSum(vals, r) == Some(After(vals, r, p', 1000) + After(vals, r, p', 2000) + After(vals, r, p', 3000));
      PermFacts(m, |m|);
      RotatedPosition(m, k, p, p');
      RotatedAfter(vals, m, k, p, p', 1000);
      RotatedAfter(vals, m, k, p, p', 2000);
      RotatedAfter(vals, m, k, p, p', 3000);
    }
  }

  lemma RotatedPosition(m: seq<nat>, k: nat, p: nat, p': nat)
    requires NoDuplicates(m) && k <= |m| && p < |m| && p' < |m|
    requires Rotate(m, k)[p'] == m[p]
    ensures Mod(p' + k, |m|) == p
  {
  }

  lemma RotatedAfter(vals: seq<int>, m: seq<nat>, k: nat, p: nat, p': nat, d: nat)
    requires IsPerm(m, |vals|) && k <= |m| && p < |m| && p' < |m|
    requires Mod(p' + k, |m|) == p
    ensures IsPerm(Rotate(m, k), |vals|)
    ensures After(vals, Rotate(m, k), p', d) == After(vals, m, p, d)
  {
    var n := |m|;
    var j := Mod(p' + d, n);
    assert Rotate(m, k)[j] == m[Mod(j + k, n)];
    ShiftedMod(p', k, d, p, n);
  }

  /** Stepping `d` from `p'` and then shifting by `k` lands where stepping
      `d` from `p' + k` does. */
  lemma ShiftedMod(p': nat, k: nat, d: nat, p: nat, n: nat)
    requires n > 0 && Mod(p' + k, n) == p
    ensures Mod(Mod(p' + d, n) + k, n) == Mod(p + d, n)
  {
    var j := Mod(p' + d, n);
    ModIsRemainder(p' + d, n);
    ModIsRemainder(j + k, n);
    ModIsRemainder(p' + k, n);
    ModIsRemainder(p + d, n);
    ModAddLeft(p' + d, k, n);
    ModAddLeft(p' + k, d, n);
  }

  function Scale(data: seq<int>, key: int): (r: seq<int>)
    ensures |r| == |data|
    ensures forall i :: 0 <= i < |data| ==> r[i] == data[i] * key
  {
    seq(|data|, i requires 0 <= i < |data| => data[i] * key)
  }

  /** `mix`: the values are first multiplied by the decryption key, then
      mixed `repetitions` times, and the grove sum is read off. A single
      value makes the reinsertion divide by the empty vector's length and
      a list without a zero has no grove coordinates; both are the
      source's panics, here `None`. */
  function Mix(data: seq<int>, repetitions: int, key: int): (r: Option<int>)
    ensures r.Some? <==> 0 in Scale(data, key) && (|data| != 1 || repetitions <= 0)
  {
    var vals := Scale(data, key);
    if |vals| == 1 && repetitions > 0 then None
    else GroveSum(vals, Mixed(vals, Max(repetitions, 0)))
  }

  /** Part one mixes once with key 1; part two ten times with key
      811589153. Both fail exactly when the list has no zero or a single
      element. */
  function Solve(data: seq<int>): (r: (Option<int>, Option<int>))
    ensures r.0.Some? <==> 0 in data && |data| != 1
    ensures r.1.Some? <==> 0 in data && |data| != 1
  {
    ScaleZeros(data, 1);
    ScaleZeros(data, 811589153);
    (Mix(data, 1, 1), Mix(data, 10, 811589153))
  }

  /** Scaling by a non-zero key keeps exactly the zeros. */
  lemma ScaleZeros(data: seq<int>, key: int)
    requires key != 0
    ensures 0 in Scale(data, key) <==> 0 in data
  {
    var s := Scale(data, key);
    if 0 in data {
      var i :| 0 <= i < |data| && data[i] == 0;
      assert s[i] == 0;
    }
    if 0 in s {
      var i :| 0 <= i < |s| && s[i] == 0;
      assert data[i] * key == 0;
    }
  }

  /** `parse`: one integer per line; a line that is not one is the
      source's `unwrap` failure. */
  function Parse(lines: seq<string>): (r: Option<seq<int>>)
    ensures r.Some? <==> forall i :: 0 <= i < |lines| ==> ParseInt(lines[i]).Some?
    ensures r.Some? ==> |r.value| == |lines|
    ensures r.Some? ==> forall i :: 0 <= i < |lines| ==> ParseInt(lines[i]) == Some(r.value[i])
  {
    if |lines| == 0 then Some([])
    else
      assert forall i :: 0 < i < |lines| ==> lines[i] == lines[1..][i - 1];
      match (ParseInt(lines[0]), Parse(lines[1..]))
      case (Some(v), Some(vs)) => Some([v] + vs)
      case _ => None
  }
}

=== FILE: day21.dfy ===
/**
 Day 21: monkey math. Every monkey either yells a number or combines the
 numbers of two other monkeys with `+`, `-`, `*` or `/`. The source fills
 a table of known values by sweeping the monkey list again and again until
 the two monkeys `root` waits for are known. Part one adds those two
 values; part two forces the value of `humn` and bisects on it until the
 two values agree.
 */
module Day21 {
  import opened Common

  /** A monkey's job as parsed: a number, or an operator and the names of
      the two monkeys it waits for. */
  datatype Job = Yell(value: int) | Compute(op: char, left: string, right: string)

  datatype Monkey = Monkey(name: string, job: Job)

  type Table = map<string, int>

  const Root: string := "root"
  const Human: string := "humn"

  /* ---------------------------------------------------------------- */
  /* Evaluation                                                        */
  /* ---------------------------------------------------------------- */

  /** The value an operator produces; `None` for an unknown operator and
      for a division by zero. Division truncates toward zero. */
  function Apply(op: char, a: int, b: int): (r: Option<int>)
    ensures r.None? <==> op !in {'+', '-', '*', '/'} || (op == '/' && b == 0)
    ensures op == '+' ==> r == Some(a + b)
    ensures op == '-' ==> r == Some(a - b)
    ensures op == '*' ==> r == Some(a * b)
    ensures op == '/' && b != 0 ==> r == Some(TruncDiv(a, b))
  {
    match op
    case '+' => Some(a + b)
    case '-' => Some(a - b)
    case '*' => Some(a * b)
    case '/' => if b == 0 then None else Some(TruncDiv(a, b))
    case _ => None
  }

  /** `v` is what `job` gives on the values already in the table. */
  predicate Yields(job: Job, t: Table, v: int)
  {
    match job
    case Yell(n) => v == n
    case Compute(op, l, r) => l in t && r in t && Apply(op, t[l], t[r]) == Some(v)
  }

  /** Every entry of the table is justified: the forced human value, or
      the job of some monkey of that name. */
  ghost predicate Justified(data: seq<Monkey>, human: Option<int>, t: Table, k: string)
    requires k in t
  {
    (k == Human && human == Some(t[k]))
    || exists i :: 0 <= i < |data| && data[i].name == k && Yields(data[i].job, t, t[k])
  }

  ghost predicate Consistent(data: seq<Monkey>, human: Option<int>, t: Table)
  {
    forall k :: k in t ==> Justified(data, human, t, k)
  }

  /** With a forced human value, `humn` never holds anything else. */
  predicate Forced(human: Option<int>, t: Table)
  {
    human.Some? && Human in t ==> t[Human] == human.value
  }

  function Names(data: seq<Monkey>): (s: set<string>)
    ensures forall k :: k in s <==> exists i :: 0 <= i < |data| && data[i].name == k
  {
    set i | 0 <= i < |data| :: data[i].name
  }

  /** `b` holds every entry of `a`, unchanged. */
  predicate Extends(a: Table, b: Table)
  {
    forall k :: k in a ==> k in b && b[k] == a[k]
  }

  lemma ConsistentGrows(data: seq<Monkey>, human: Option<int>, a: Table, b: Table)
    requires Consistent(data, human, a) && Extends(a, b)
    ensures forall k :: k in a ==> Justified(data, human, b, k)
  {
    forall k | k in a
      ensures Justified(data, human, b, k)
    {
      if !(k == Human && human == Some(a[k])) {
        var i :| 0 <= i < |data| && data[i].name == k && Yields(data[i].job, a, a[k]);
        assert Yields(data[i].job, b, b[k]);
      }
    }
  }

  /** What a visit to one monkey, or a sweep, comes to: `root`'s two
      values with the table that gave them, a panic, or the table so far. */
  datatype Sweep = Done(left: int, right: int, table: Table) | Panic | Going(table: Table)

  /** `root`'s operands are known in `t` and are `a` and `b`. */
  predicate RootReady(data: seq<Monkey>, t: Table, a: int, b: int)
  {
    exists i :: 0 <= i < |data| && data[i].name == Root && data[i].job.Compute?
      && data[i].job.left in t && data[i].job.right in t
      && t[data[i].job.left] == a && t[data[i].job.right] == b
  }

  /** One monkey of the sweep: `humn` is forced first; `root` ends the
      computation once its operands are known (a `root` that yells a
      number is the source's `unwrap` panic); any other monkey not yet in
      the table is entered once its job can be done. */
  function Visit(m: Monkey, human: Option<int>, t: Table): (r: Sweep)
    requires Forced(human, t)
    ensures r.Going? ==> Extends(t, r.table) && r.table.Keys <= t.Keys + {m.name} && Forced(human, r.table)
    ensures r.Going? && m.name in r.table && m.name !in t ==>
              (m.name == Human && human == Some(r.table[m.name])) || Yields(m.job, t, r.table[m.name])
    ensures r.Done? ==> m.name == Root && m.job.Compute? && r.table == t
                        && m.job.left in t && m.job.right in t && r.left == t[m.job.left] && r.right == t[m.job.right]
    ensures r.Panic? ==> (m.name == Root && m.job.Yell?) || (m.job.Compute? && m.job.op == '/')
  {
    var t1 := if m.name == Human && human.Some? then t[Human := human.value] else t;
    if m.name == Root && m.job.Yell? then Panic
    else if m.name == Root && m.job.left in t1 && m.job.right in t1 then
      Done(t1[m.job.left], t1[m.job.right], t1)
    else if m.name in t1 then Going(t1)
    else
      match m.job
      case Yell(v) => Going(t1[m.name := v])
      case Compute(op, l, r) =>
        if l !in t1 || r !in t1 || op !in {'+', '-', '*', '/'} then Going(t1)
        else if op == '/' && t1[r] == 0 then Panic
        else Going(t1[m.name := Apply(op, t1[l], t1[r]).value])
  }

  /** One pass of the `for` loop over `data[j..]`. */
  function Pass(data: seq<Monkey>, human: Option<int>, t: Table, j: nat): (r: Sweep)
    requires j <= |data| && Forced(human, t) && Consistent(data, human, t)
    ensures r.Going? ==> Extends(t, r.table) && r.table.Keys <= t.Keys + Names(data)
    ensures r.Going? ==> Forced(human, r.table) && Consistent(data, human, r.table)
    ensures r.Done? ==> Consistent(data, human, r.table) && Forced(human, r.table) && RootReady(data, r.table, r.left, r.right)
    decreases |data| - j
  {
    if j == |data| then Going(t)
    else
      var v := Visit(data[j], human, t);
      match v
      case Going(t1) =>
        VisitConsistent(data, human, t, j, t1);
        Pass(data, human, t1, j + 1)
      case Done(a, b, t1) => v
      case Panic => Panic
  }

  lemma VisitConsistent(data: seq<Monkey>, human: Option<int>, t: Table, j: nat, t1: Table)
    requires j < |data| && Forced(human, t) && Consistent(data, human, t)
    requires Visit(data[j], human, t) == Going(t1)
    ensures Consistent(data, human, t1)
  {
    ConsistentGrows(data, human, t, t1);
    var k := data[j].name;
    if k in t1 && k !in t {
      if !(k == Human && human == Some(t1[k])) {
        assert Yields(data[j].job, t1, t1[k]);
      }
    }
  }

  /** A pass that enters nothing new leaves the table exactly as it was,
      so every later pass repeats it and the source never stops. */
  lemma StuckRepeats(data: seq<Monkey>, human: Option<int>, t: Table)
    requires Forced(human, t) && Consistent(data, human, t)
    requires Pass(data, human, t, 0).Going? && Pass(data, human, t, 0).table.Keys == t.Keys
    ensures Pass(data, human, t, 0).table == t
  {
  }

  /** The `while` loop: sweep until `root` answers. `Panic` stands for a
      panic, and also for a sweep that enters nothing new, after which the
      source sweeps forever. */
  function Sweeps(data: seq<Monkey>, human: Option<int>, t: Table): (r: Sweep)
    requires Forced(human, t) && Consistent(data, human, t) && t.Keys <= Names(data) + {Human}
    ensures r.Panic? || r.Done?
    ensures r.Done? ==> Consistent(data, human, r.table) && Forced(human, r.table) && RootReady(data, r.table, r.left, r.right)
    decreases Names(data) + {Human} - t.Keys
  {
    match Pass(data, human, t, 0)
    case Going(t1) =>
      if t1.Keys == t.Keys then Panic
      else
        assert t.Keys < t1.Keys;
        Sweeps(data, human, t1)
    case other => other
  }

  /** `calculate`: `root`'s two operand values and whether they agree,
      with the table of values that produced them. */
  datatype Answer = Answer(left: int, right: int, equal: bool, table: Table)

  function Calculate(data: seq<Monkey>, human: Option<int>): (r: Option<Answer>)
    ensures r.Some? ==> (r.value.equal <==> r.value.left == r.value.right)
  {
    match Sweeps(data, human, map[])
    case Done(a, b, t) => Some(Answer(a, b, a == b, t))
    case _ => None
  }

  /** An answer comes with a table that agrees with the jobs, holds the
      human's forced value, and has `root`'s two operands entered with the
      values reported. */
  lemma CalculateSound(data: seq<Monkey>, human: Option<int>)
    ensures Calculate(data, human).Some? ==>
              var a := Calculate(data, human).value;
              Consistent(data, human, a.table) && Forced(human, a.table) && RootReady(data, a.table, a.left, a.right)
  {
  }

  /** A consistent table agrees with the jobs: an entered monkey that
      yells holds its number, and one that computes holds its operator
      applied to its operands' entries. */
  lemma TableMeaning(data: seq<Monkey>, human: Option<int>, t: Table, k: string)
    requires Consistent(data, human, t) && k in t && (k != Human || human.None?)
    requires forall i, j :: 0 <= i < |data| && 0 <= j < |data| && data[i].name == data[j].name ==> i == j
    ensures forall i :: 0 <= i < |data| && data[i].name == k ==> Yields(data[i].job, t, t[k])
  {
    assert Justified(data, human, t, k);
  }

  /* ---------------------------------------------------------------- */
  /* Part two                                                          */
  /* ---------------------------------------------------------------- */

  function Pow10(n: nat): (p: nat)
    ensures p >= 1
  {
    if n == 0 then 1 else 10 * Pow10(n - 1)
  }

  lemma {:induction false} Pow10Grows(m: nat, n: nat)
    requires m <= n
    ensures Pow10(m) <= Pow10(n)
    decreases n
  {
    if m < n {
      Pow10Grows(m, n - 1);
    }
  }

  /** `10^19`, the last power the search probes. */
  const Ceiling: nat := 10_000_000_000_000_000_000

  lemma CeilingIsPow()
    ensures Pow10(19) == Ceiling
  {
    assert Pow10(1) == 10;
    assert Pow10(2) == 100;
    assert Pow10(3) == 1000;
    assert Pow10(4) == 10000;
    assert Pow10(5) == 100000;
    assert Pow10(6) == 1000000;
    assert Pow10(7) == 10000000;
    assert Pow10(8) == 100000000;
    assert Pow10(9) == 1000000000;
    assert Pow10(10) == 10000000000;
    assert Pow10(11) == 100000000000;
    assert Pow10(12) == 1000000000000;
    assert Pow10(13) == 10000000000000;
    assert Pow10(14) == 100000000000000;
    assert Pow10(15) == 1000000000000000;
    assert Pow10(16) == 10000000000000000;
    assert Pow10(17) == 100000000000000000;
    assert Pow10(18) == 1000000000000000000;
    assert Pow10(19) == 10000000000000000000;
  }

  /** The powers the search probes stay at or below `Ceiling`. */
  lemma Pow10Below(i: nat)
    requires i <= 19
    ensures Pow10(i) <= Ceiling
  {
    Pow10Grows(i, 19);
    CeilingIsPow();
  }

  /** The difference `left - right` has reached the far side of zero for
      the given direction at this human value. */
  predicate Crossed(data: seq<Monkey>, increasing: bool, h: int)
  {
    var c := Calculate(data, Some(h));
    c.Some? && (if increasing then c.value.left - c.value.right > 0 else c.value.left - c.value.right < 0)
  }

  /** The `for` loop over the powers of ten `10^i`, for `i` from `i` to
      19: stop at the first one whose difference has crossed, as the upper
      bound; each power that has not crossed becomes the lower bound. When
      none crosses, both bounds end at `10^19`. */
  function Bracket(data: seq<Monkey>, increasing: bool, i: nat, lower: int): (r: Option<(int, int)>)
    requires i <= 20
    requires lower == if i == 0 then 0 else Pow10(i - 1)
    ensures r.Some? ==> 0 <= r.value.0 <= r.value.1 <= Ceiling
    ensures r.Some? ==> Crossed(data, increasing, r.value.1) || r.value.0 == r.value.1 == Ceiling
    ensures r.Some? ==> r.value.0 == lower || !Crossed(data, increasing, r.value.0)
    decreases 20 - i
  {
    if i == 20 then
      CeilingIsPow();
      Some((lower, lower))
    else
      var u := Pow10(i);
      Pow10Below(i);
      assert i > 0 ==> u == 10 * lower;
      match Calculate(data, Some(u))
      case None => None
      case Some(c) =>
        if Crossed(data, increasing, u) then Some((lower, u))
        else Bracket(data, increasing, i + 1, u)
  }

  /** The bisection: probe the midpoint and keep the half on the far side
      of zero. It returns only a human value at which `root`'s operands
      agree; when the interval stops shrinking without that, the source
      probes the same point forever (`None`). */
  function Bisect(data: seq<Monkey>, increasing: bool, lower: int, upper: int): (r: Option<int>)
    requires lower <= upper
    ensures r.Some? ==> lower <= r.value <= upper
    ensures r.Some? ==> Calculate(data, Some(r.value)).Some? && Calculate(data, Some(r.value)).value.equal
    decreases upper - lower
  {
    var mid := lower + TruncDiv(upper - lower, 2);
    assert TruncDiv(upper - lower, 2) == (upper - lower) / 2;
    match Calculate(data, Some(mid))
    case None => None
    case Some(c) =>
      if c.left == c.right then Some(mid)
      else
        var (lo, hi) := if (c.left > c.right) == increasing then (lower, mid) else (mid, upper);
        if lo == lower && hi == upper then None
        else Bisect(data, increasing, lo, hi)
  }

  /** Which way the difference moves with the human value, judged from
      the human values 0 and 100. */
  function Increasing(a: Answer, b: Answer): bool
  {
    !(a.left - a.right >= b.left - b.right)
  }

  /** Part two: bracket, then bisect. */
  function Search(data: seq<Monkey>, increasing: bool): (r: Option<int>)
    ensures r.Some? ==> 0 <= r.value <= Ceiling
    ensures r.Some? ==> Calculate(data, Some(r.value)).Some? && Calculate(data, Some(r.value)).value.equal
  {
    match Bracket(data, increasing, 0, 0)
    case None => None
    case Some((lower, upper)) => Bisect(data, increasing, lower, upper)
  }

  /** `solve`: part one adds `root`'s operands whatever its operator;
      part two is a human value at which they agree. */
  function Solve(data: seq<Monkey>): (r: Option<(int, int)>)
    ensures r.Some? ==> Calculate(data, None).Some?
                        && r.value.0 == Calculate(data, None).value.left + Calculate(data, None).value.right
    ensures r.Some? ==> Calculate(data, Some(r.value.1)).Some? && Calculate(data, Some(r.value.1)).value.equal
  {
    var c := Calculate(data, None);
    var m0 := Calculate(data, Some(0));
    var m100 := Calculate(data, Some(100));
    if c.None? || m0.None? || m100.None? then None
    else
      match Search(data, Increasing(m0.value, m100.value))
      case None => None
      case Some(p2) => Some((c.value.left + c.value.right, p2))
  }

  /* ---------------------------------------------------------------- */
  /* Parsing                                                           */
  /* ---------------------------------------------------------------- */

  /** `r` is the slice `s[i..j]` and everything outside it is a colon. */
  predicate ColonsAround(s: string, r: string, i: int, j: int)
  {
    0 <= i <= j <= |s| && r == s[i..j]
    && (forall k :: 0 <= k < i ==> s[k] == ':')
    && (forall k :: j <= k < |s| ==> s[k] == ':')
  }

  /** A colon in front moves the slice one place to the right. */
  lemma ColonsAroundFront(s: string, r: string, i: int, j: int)
    requires |s| > 0 && s[0] == ':' && ColonsAround(s[1..], r, i, j)
    ensures ColonsAround(s, r, i + 1, j + 1)
  {
    assert r == s[i + 1..j + 1];
    forall k | 0 <= k < i + 1 ensures s[k] == ':' {
      if k > 0 { assert s[k] == s[1..][k - 1]; }
    }
    forall k | j + 1 <= k < |s| ensures s[k] == ':' {
      assert s[k] == s[1..][k - 1];
    }
  }

  /** A colon at the back leaves the slice where it is. */
  lemma ColonsAroundBack(s: string, r: string, i: int, j: int)
    requires |s| > 0 && s[|s| - 1] == ':' && ColonsAround(s[..|s| - 1], r, i, j)
    ensures ColonsAround(s, r, i, j)
  {
    assert r == s[i..j];
    forall k | j <= k < |s| ensures s[k] == ':' {
      if k < |s| - 1 { assert s[k] == s[..|s| - 1][k]; }
    }
  }

  /** `trim_matches(':')`: drop every leading and trailing colon. The
      result is a slice of the input with only colons outside it, and it
      is empty or neither starts nor ends with a colon. */
  function TrimColons(s: string): (r: string)
    ensures |r| <= |s|
    ensures |r| > 0 ==> r[0] != ':' && r[|r| - 1] != ':'
    ensures (forall i :: 0 <= i < |s| ==> s[i] != ':') ==> r == s
    ensures exists i, j :: ColonsAround(s, r, i, j)
    decreases |s|
  {
    if |s| > 0 && s[0] == ':' then
      var r := TrimColons(s[1..]);
      assert exists i, j :: ColonsAround(s, r, i, j) by {
        var i, j :| ColonsAround(s[1..], r, i, j);
        ColonsAroundFront(s, r, i, j);
      }
      r
    else if |s| > 0 && s[|s| - 1] == ':' then
      var r := TrimColons(s[..|s| - 1]);
      assert exists i, j :: ColonsAround(s, r, i, j) by {
        var i, j :| ColonsAround(s[..|s| - 1], r, i, j);
        ColonsAroundBack(s, r, i, j);
      }
      r
    else
      assert ColonsAround(s, s, 0, |s|);
      s
  }

  /** One line: two words make a yelling monkey (a number that does not
      parse is the source's panic, `None`), four words a computing one
      with the first character of the third as operator; any other line
      is skipped (`Some(None)`). */
  function ParseLine(line: string): (r: Option<Option<Monkey>>)
    ensures |Words(line)| !in {2, 4} ==> r == Some(None)
    ensures |Words(line)| == 2 ==> (r.None? <==> ParseInt(Words(line)[1]).None?)
    ensures |Words(line)| == 4 ==> r.Some? && r.value.Some? && r.value.value.job.Compute?
    ensures r.Some? && r.value.Some? ==> r.value.value.name == TrimColons(Words(line)[0])
  {
    var ws := Words(line);
    if |ws| == 2 then
      match ParseInt(ws[1])
      case None => None
      case Some(v) => Some(Some(Monkey(TrimColons(ws[0]), Yell(v))))
    else if |ws| == 4 then
      var op := if |ws[2]| > 0 then ws[2][0] else ' ';
      Some(Some(Monkey(TrimColons(ws[0]), Compute(op, ws[1], ws[3]))))
    else Some(None)
  }

  /** What a yelling or computing line's monkey does: the number of the
      second word, or the first character of the third word applied to the
      second and fourth words. */
  lemma ParseLineJob(line: string)
    ensures |Words(line)| == 2 && ParseLine(line).Some? ==>
              ParseLine(line).value.Some? && ParseLine(line).value.value.job == Yell(ParseInt(Words(line)[1]).value)
    ensures |Words(line)| == 4 ==>
              |Words(line)[2]| > 0 && ParseLine(line).value.value.job == Compute(Words(line)[2][0], Words(line)[1], Words(line)[3])
  {
  }

  /** `parse`: the monkeys of the lines that yield one, in order; a number
      that does not parse is the source's panic, `None`. */
  function Parse(lines: seq<string>): (r: Option<seq<Monkey>>)
    ensures r.Some? <==> forall i :: 0 <= i < |lines| ==> ParseLine(lines[i]).Some?
    ensures r.Some? ==> |r.value| <= |lines|
    ensures r.Some? && (forall i :: 0 <= i < |lines| ==> |Words(lines[i])| in {2, 4}) ==> |r.value| == |lines|
  {
    match ParseAll(lines, ParseLine)
    case None => None
    case Some(os) =>
      if forall i :: 0 <= i < |lines| ==> |Words(lines[i])| in {2, 4} then
        forall i | 0 <= i < |os| ensures os[i].Some? {
          ParseLineJob(lines[i]);
        }
        Some(Present(os))
      else Some(Present(os))
  }

  /** A parsed troop holds one monkey per line that yields one, in the
      order of the lines: the monkey of line i sits right after the monkeys
      of the lines before it. */
  lemma ParseKept(lines: seq<string>, i: nat)
    requires Parse(lines).Some? && i < |lines| && ParseLine(lines[i]).value.Some?
    ensures Parse(lines[..i]).Some? && |Parse(lines[..i]).value| < |Parse(lines).value|
            && Parse(lines).value[|Parse(lines[..i]).value|] == ParseLine(lines[i]).value.value
  {
    ParseAllKept(lines, ParseLine);
  }

  /** Every monkey of a parsed troop comes from a line, placed after the
      monkeys of the lines before it. */
  lemma ParseFrom(lines: seq<string>, k: nat)
    requires Parse(lines).Some? && k < |Parse(lines).value|
    ensures exists i :: 0 <= i < |lines| && ParseLine(lines[i]) == Some(Some(Parse(lines).value[k]))
                        && Parse(lines[..i]).Some? && |Parse(lines[..i]).value| == k
  {
    ParseAllFrom(lines, ParseLine, k);
  }
}

=== FILE: day22.dfy ===
/**
 Day 22: monkey map. A walker starts on the first open cell of the top
 row, facing east, and follows a path of turns and distances across a
 ragged board; stepping off the board wraps to the far end of the same
 row or column, and a wall ends the current distance early. The password encodes
 the final row, column and facing.
 */
module Day22 {
  import opened Common

  datatype Instruction = Turn(dir: char) | Forward(distance: int)

  /* ---------------------------------------------------------------- */
  /* The path                                                          */
  /* ---------------------------------------------------------------- */

  /** The first scan of the path: `R` and `L` become turns, each digit a
      one-digit distance, anything else is dropped. */
  function Tokens(line: string): (ts: seq<Instruction>)
    ensures |ts| <= |line|
    ensures forall i :: 0 <= i < |ts| ==> (ts[i].Turn? ==> ts[i].dir in {'R', 'L'}) && (ts[i].Forward? ==> 0 <= ts[i].distance <= 9)
  {
    if |line| == 0 then []
    else
      TokenOf(line[0]) + Tokens(line[1..])
  }

  /** The token one character yields: a turn for `R` and `L`, a one-digit
      distance for a digit, nothing for anything else. */
  function TokenOf(c: char): seq<Instruction>
  {
    if c == 'R' || c == 'L' then [Turn(c)] else if IsDigit(c) then [Forward(DigitValue(c))] else []
  }

  /** The scan works character by character: the tokens of a text are
      those of its characters, in order. */
  lemma {:induction false} TokensAppend(a: string, b: string)
    ensures Tokens(a + b) == Tokens(a) + Tokens(b)
    ensures |a| == 1 ==> Tokens(a) == TokenOf(a[0])
    decreases |a|
  {
    if |a| > 0 {
      assert (a + b)[1..] == a[1..] + b;
      TokensAppend(a[1..], b);
      assert Tokens(a) == TokenOf(a[0]) + Tokens(a[1..]);
      assert Tokens(a + b) == TokenOf(a[0]) + Tokens(a[1..] + b);
      if |a| == 1 {
        assert Tokens(a[1..]) == [];
      }
    } else {
      assert a + b == b;
    }
  }

  /** The turns of a token list, in order. */
  function Turns(ts: seq<Instruction>): seq<char>
  {
    if |ts| == 0 then [] else (if ts[0].Turn? then [ts[0].dir] else []) + Turns(ts[1..])
  }

  predicate Joins(a: Instruction, b: Instruction)
  {
    a.Forward? && b.Forward?
  }

  /** The source's merging loop: it joins a pair of adjacent distances as
      `d1 * 10 + d2` and then moves on, so it never looks at the joined
      distance again. */
  function MergeAsWritten(ts: seq<Instruction>): (r: seq<Instruction>)
    ensures |r| <= |ts|
    ensures Turns(r) == Turns(ts)
  {
    if |ts| < 2 then ts
    else if Joins(ts[0], ts[1]) then
      assert Turns(ts) == Turns(ts[2..]) by { assert ts[1..][1..] == ts[2..]; }
      [Forward(ts[0].distance * 10 + ts[1].distance)] + MergeAsWritten(ts[2..])
    else [ts[0]] + MergeAsWritten(ts[1..])
  }

  /** Three digits are read as two distances: `123` walks 12 and then 3. */
  lemma ThreeDigitsSplit()
    ensures MergeAsWritten(Tokens("123")) == [Forward(12), Forward(3)]
    ensures Merge(Tokens("123")) == [Forward(123)]
  {
    TokensOf123();
    var ts := [Forward(1), Forward(2), Forward(3)];
    SplitAsWritten(ts);
    JoinedIntended(ts);
  }

  lemma SplitAsWritten(ts: seq<Instruction>)
    requires ts == [Forward(1), Forward(2), Forward(3)]
    ensures MergeAsWritten(ts) == [Forward(12), Forward(3)]
  {
    assert ts[2..] == [Forward(3)];
    assert MergeAsWritten(ts) == [Forward(12)] + MergeAsWritten([Forward(3)]);
  }

  lemma JoinedIntended(ts: seq<Instruction>)
    requires ts == [Forward(1), Forward(2), Forward(3)]
    ensures Merge(ts) == [Forward(123)]
  {
    var once := [Forward(1 * 10 + 2)] + ts[2..];
    assert once == [Forward(12), Forward(3)];
    assert Merge(ts) == Merge(once);
    var twice := [Forward(12 * 10 + 3)] + once[2..];
    assert twice == [Forward(123)];
    assert Merge(once) == Merge(twice);
  }

  lemma TokensOf123()
    ensures Tokens("123") == [Forward(1), Forward(2), Forward(3)]
  {
    assert Tokens("3") == [Forward(3)] by {
      assert "3"[1..] == "";
    }
    assert Tokens("23") == [Forward(2)] + Tokens("3") by {
      assert "23"[1..] == "3";
    }
    assert Tokens("123") == [Forward(1)] + Tokens("23") by {
      assert "123"[1..] == "23";
    }
  }

  /** The merge the comments describe: adjacent distances are joined until
      none is left, so a run of digits becomes its decimal value. */
  function Merge(ts: seq<Instruction>): (r: seq<Instruction>)
    ensures |r| <= |ts|
    ensures |ts| > 0 ==> |r| > 0
    ensures Turns(r) == Turns(ts)
    ensures forall i, j :: 0 <= i < j < |r| && j == i + 1 ==> !Joins(r[i], r[j])
    ensures |ts| > 0 && ts[0].Turn? ==> r[0] == ts[0]
    ensures |ts| > 0 && ts[0].Forward? ==> r[0].Forward?
    decreases |ts|
  {
    if |ts| < 2 then ts
    else if Joins(ts[0], ts[1]) then
      var joined := [Forward(ts[0].distance * 10 + ts[1].distance)] + ts[2..];
      assert Turns(ts) == Turns(joined) by {
        assert ts[1..][1..] == ts[2..] && joined[1..] == ts[2..];
      }
      Merge(joined)
    else
      var rest := Merge(ts[1..]);
      assert ts[1].Turn? ==> rest[0] == ts[1];
      [ts[0]] + rest
  }

  /** Digits read left to right, starting from `acc`. */
  function ReadDigits(acc: int, w: string): int
    requires AllDigits(w)
    decreases |w|
  {
    if |w| == 0 then acc else ReadDigits(10 * acc + DigitValue(w[0]), w[1..])
  }

  lemma {:induction false} ReadDigitsValue(acc: int, w: string)
    requires AllDigits(w)
    ensures ReadDigits(acc, w) == acc * Pow10(|w|) + DigitsValue(w)
    decreases |w|
  {
    if |w| > 0 {
      var d := DigitValue(w[0]);
      var p := Pow10(|w| - 1);
      assert |w[1..]| == |w| - 1;
      ReadDigitsValue(10 * acc + d, w[1..]);
      DigitsSplit(w);
      Spread10(acc, d, p);
      assert Pow10(|w|) == 10 * p;
    }
  }

  lemma Scale10(a: int, p: int)
    ensures 10 * (a * p) == a * (10 * p)
  {
  }

  lemma Spread10(a: int, d: int, p: int)
    ensures (10 * a + d) * p == a * (10 * p) + d * p
  {
  }

  function Pow10(n: nat): (p: nat)
    ensures p >= 1
  {
    if n == 0 then 1 else 10 * Pow10(n - 1)
  }

  /** The value of a digit string is its first digit's place value plus
      the value of the rest. */
  lemma {:induction false} DigitsSplit(w: string)
    requires AllDigits(w) && |w| > 0
    ensures DigitsValue(w) == DigitValue(w[0]) * Pow10(|w| - 1) + DigitsValue(w[1..])
    decreases |w|
  {
    if |w| > 1 {
      var f := w[..|w| - 1];
      var t := w[1..];
      DigitsSplit(f);
      var d := DigitValue(w[0]);
      var p := Pow10(|w| - 2);
      var last := DigitValue(w[|w| - 1]);
      assert f[0] == w[0] && |f| - 1 == |w| - 2;
      assert DigitsValue(f) == d * p + DigitsValue(f[1..]);
      assert f[1..] == t[..|t| - 1] && t[|t| - 1] == w[|w| - 1];
      assert DigitsValue(t) == 10 * DigitsValue(f[1..]) + last;
      assert DigitsValue(w) == 10 * DigitsValue(f) + last;
      Scale10(d, p);
      assert Pow10(|w| - 1) == 10 * p;
    } else {
      assert w[1..] == [];
    }
  }

  /** A distance followed by a run of digits merges into one distance,
      the digits read onto it, and what follows a turn (or the end) is
      merged on its own. */
  lemma MergeRun(acc: int, w: string, rest: seq<Instruction>, ts: seq<Instruction>)
    requires AllDigits(w)
    requires |rest| == 0 || rest[0].Turn?
    requires ts == [Forward(acc)] + (Tokens(w) + rest)
    ensures Merge(ts) == [Forward(ReadDigits(acc, w))] + Merge(rest)
  {
    MergeRunTo(acc, w, rest, ts, ReadDigits(acc, w));
  }

  /** MergeRun with the run's value `v` named, so that each step of the
      induction meets the same value. */
  lemma {:induction false} MergeRunTo(acc: int, w: string, rest: seq<Instruction>, ts: seq<Instruction>, v: int)
    requires AllDigits(w) && v == ReadDigits(acc, w)
    requires |rest| == 0 || rest[0].Turn?
    requires ts == [Forward(acc)] + (Tokens(w) + rest)
    ensures Merge(ts) == [Forward(v)] + Merge(rest)
    decreases |w|
  {
    if |w| == 0 {
      assert Tokens(w) + rest == rest;
      MergeLone(acc, rest);
    } else {
      var d, u := DigitValue(w[0]), Tokens(w[1..]) + rest;
      TokensDigit(w, rest);
      MergeDigit(acc, d, u, ts);
      MergeRunTo(10 * acc + d, w[1..], rest, [Forward(10 * acc + d)] + u, v);
    }
  }

  /** A digit's distance joins the distance before it. */
  lemma MergeDigit(acc: int, d: int, u: seq<Instruction>, ts: seq<Instruction>)
    requires ts == [Forward(acc)] + ([Forward(d)] + u)
    ensures Merge(ts) == Merge([Forward(10 * acc + d)] + u)
  {
    assert ts[0] == Forward(acc) && ts[1] == Forward(d) && ts[2..] == u;
    MergeJoin(ts);
  }

  /** The first digit of a run is the first token. */
  lemma TokensDigit(w: string, rest: seq<Instruction>)
    requires AllDigits(w) && |w| > 0
    ensures Tokens(w) + rest == [Forward(DigitValue(w[0]))] + (Tokens(w[1..]) + rest)
  {
    assert IsDigit(w[0]);
    assert Tokens(w) == [Forward(DigitValue(w[0]))] + Tokens(w[1..]);
    ConsAppend(Forward(DigitValue(w[0])), Tokens(w[1..]), rest);
  }

  lemma ConsAppend<T>(x: T, a: seq<T>, b: seq<T>)
    ensures ([x] + a) + b == [x] + (a + b)
  {
  }

  /** A distance not followed by another is kept as it is. */
  lemma MergeLone(acc: int, rest: seq<Instruction>)
    requires |rest| == 0 || rest[0].Turn?
    ensures Merge([Forward(acc)] + rest) == [Forward(acc)] + Merge(rest)
  {
    if |rest| > 0 {
      assert ([Forward(acc)] + rest)[1..] == rest;
    }
  }

  /** Two adjacent distances are joined as `d1 * 10 + d2`. */
  lemma MergeJoin(ts: seq<Instruction>)
    requires |ts| >= 2 && ts[0].Forward? && ts[1].Forward?
    ensures Merge(ts) == Merge([Forward(ts[0].distance * 10 + ts[1].distance)] + ts[2..])
  {
  }

  /** A turn at the front is kept and the rest merged on its own. */
  lemma MergeTurn(c: char, ts: seq<Instruction>)
    ensures Merge([Turn(c)] + ts) == [Turn(c)] + Merge(ts)
  {
    if |ts| > 0 {
      assert ([Turn(c)] + ts)[1..] == ts;
    }
  }

  /** Reading a nonempty run from its first digit gives its decimal
      value. */
  lemma ReadRun(w: string)
    requires AllDigits(w) && |w| > 0
    ensures ReadDigits(DigitValue(w[0]), w[1..]) == DigitsValue(w)
  {
    var d := DigitValue(w[0]);
    var t := w[1..];
    ReadDigitsValue(d, t);
    DigitsSplit(w);
    var p := Pow10(|t|);
    assert Pow10(|w| - 1) == p;
  }

  /** With the intended merge, a path that is only digits is one distance
      of their decimal value. */
  lemma DigitsAreOneDistance(w: string)
    requires AllDigits(w) && |w| > 0
    ensures Merge(Tokens(w)) == [Forward(DigitsValue(w))]
  {
    var d := DigitValue(w[0]);
    var t := w[1..];
    assert Tokens(w) == [Forward(d)] + Tokens(t);
    assert Tokens(t) + [] == Tokens(t);
    MergeRun(d, t, [], Tokens(w));
    ReadRun(w);
  }

  /** `parse_instructions`, with the intended merge. A path with no turn
      and no digit is the source's index panic (`None`). */
  function ParseInstructions(line: string): (r: Option<seq<Instruction>>)
    ensures r.None? <==> |Tokens(line)| == 0
    ensures r.Some? ==> Turns(r.value) == Turns(Tokens(line))
    ensures r.Some? ==> forall i, j :: 0 <= i < j < |r.value| && j == i + 1 ==> !Joins(r.value[i], r.value[j])
  {
    var ts := Tokens(line);
    if |ts| == 0 then None else Some(Merge(ts))
  }

  /** A path that starts with a run of digits and a turn reads the run as
      one distance of its decimal value, then the turn, then the rest of
      the path: `10R5` is the distance 10, the turn `R` and the distance 5. */
  lemma ParseRunTurn(w: string, c: char, rest: string)
    requires AllDigits(w) && |w| > 0 && c in {'R', 'L'}
    ensures ParseInstructions(w + [c] + rest) == Some([Forward(DigitsValue(w)), Turn(c)] + Merge(Tokens(rest)))
  {
    var d := DigitValue(w[0]);
    var t := w[1..];
    var after := [Turn(c)] + Tokens(rest);
    var ts := Tokens(w + [c] + rest);
    TokensRunTurn(w, c, rest);
    MergeRun(d, t, after, ts);
    ReadRun(w);
    MergeTurn(c, Tokens(rest));
    var m := Merge(Tokens(rest));
    assert Merge(ts) == [Forward(DigitsValue(w))] + ([Turn(c)] + m);
    assert [Forward(DigitsValue(w))] + ([Turn(c)] + m) == [Forward(DigitsValue(w)), Turn(c)] + m;
    assert ParseInstructions(w + [c] + rest) == Some(Merge(ts));
  }

  lemma TokensRunTurn(w: string, c: char, rest: string)
    requires AllDigits(w) && |w| > 0 && c in {'R', 'L'}
    ensures Tokens(w + [c] + rest) == [Forward(DigitValue(w[0]))] + (Tokens(w[1..]) + ([Turn(c)] + Tokens(rest)))
  {
    var x := [c] + rest;
    TokensAppend(w, x);
    TokensAppend([c], rest);
    assert w + [c] + rest == w + x;
    var tail := [Turn(c)] + Tokens(rest);
    assert Tokens(x) == tail;
    assert Tokens(w) == [Forward(DigitValue(w[0]))] + Tokens(w[1..]);
    ConsAppend(Forward(DigitValue(w[0])), Tokens(w[1..]), tail);
  }

  /** A path that starts with a turn keeps it first. */
  lemma ParseTurnFirst(c: char, rest: string)
    requires c in {'R', 'L'}
    ensures ParseInstructions([c] + rest) == Some([Turn(c)] + Merge(Tokens(rest)))
  {
    TokensAppend([c], rest);
    MergeTurn(c, Tokens(rest));
  }

  /* ---------------------------------------------------------------- */
  /* The board                                                         */
  /* ---------------------------------------------------------------- */

  /** `get_next_square`: the character at column `x` of row `y`, and a
      space anywhere off the board. */
  function Cell(board: seq<string>, x: int, y: int): (c: char)
    ensures c != ' ' ==> 0 <= y < |board| && 0 <= x < |board[y]|
    ensures (0 <= y < |board| && 0 <= x < |board[y]|) ==> c == board[y][x]
  {
    if 0 <= y < |board| && 0 <= x < |board[y]| then board[y][x] else ' '
  }

  function Widest(board: seq<string>): (w: nat)
    ensures forall y :: 0 <= y < |board| ==> |board[y]| <= w
  {
    if |board| == 0 then 0 else Max(Widest(board[..|board| - 1]), |board[|board| - 1]|)
  }

  /** The step for each facing: 0 east, 1 south, 2 west, 3 north. */
  function Delta(dir: int): (d: (int, int))
    requires 0 <= dir < 4
    ensures Abs(d.0) + Abs(d.1) == 1
  {
    if dir == 0 then (1, 0) else if dir == 1 then (0, 1) else if dir == 2 then (-1, 0) else (0, -1)
  }

  predicate IsDelta(dx: int, dy: int)
  {
    Abs(dx) + Abs(dy) == 1
  }

  /** How far the walker can still back up before leaving the board. */
  function Room(board: seq<string>, x: int, y: int, dx: int, dy: int): int
  {
    if dx == 1 then x else if dx == -1 then Widest(board) - x else if dy == 1 then y else |board| - y
  }

  /** How many steps against the facing `(dx, dy)` lead from `(x, y)` to `p`. */
  function Behind(x: int, y: int, p: (int, int), dx: int, dy: int): int
  {
    if dx == 1 then x - p.0 else if dx == -1 then p.0 - x else if dy == 1 then y - p.1 else p.1 - y
  }

  /** The coordinate `j` steps against the component `d` of a facing. */
  function Against(z: int, d: int, j: int): int
  {
    if d == 1 then z - j else if d == -1 then z + j else z
  }

  /** The cell `j` steps against the facing from `(x, y)`. */
  function CellBehind(board: seq<string>, x: int, y: int, dx: int, dy: int, j: int): char
  {
    Cell(board, Against(x, dx, j), Against(y, dy, j))
  }

  /** The wrap: from a cell that is not a space, back up against the
      facing to the last cell before a space. */
  function Back(board: seq<string>, x: int, y: int, dx: int, dy: int): (r: (int, int))
    requires IsDelta(dx, dy) && Cell(board, x, y) != ' '
    ensures Cell(board, r.0, r.1) != ' ' && Cell(board, r.0 - dx, r.1 - dy) == ' '
    ensures dx == 0 ==> r.0 == x
    ensures dy == 0 ==> r.1 == y
    ensures dx == 1 ==> r.0 <= x
    ensures dx == -1 ==> r.0 >= x
    ensures dy == 1 ==> r.1 <= y
    ensures dy == -1 ==> r.1 >= y
    decreases Room(board, x, y, dx, dy)
  {
    if Cell(board, x - dx, y - dy) == ' ' then (x, y)
    else Back(board, x - dx, y - dy, dx, dy)
  }

  /** The wrap stops at the nearest space: the cell it lands on is `k`
      steps back, and every cell from `(x, y)` back to it is not a space. */
  lemma {:induction false} BackRun(board: seq<string>, x: int, y: int, dx: int, dy: int)
    requires IsDelta(dx, dy) && Cell(board, x, y) != ' '
    ensures var r := Back(board, x, y, dx, dy);
            var k := Behind(x, y, r, dx, dy);
            k >= 0 && r == (Against(x, dx, k), Against(y, dy, k))
            && forall j :: 0 <= j <= k ==> CellBehind(board, x, y, dx, dy, j) != ' '
    decreases Room(board, x, y, dx, dy)
  {
    var r := Back(board, x, y, dx, dy);
    assert CellBehind(board, x, y, dx, dy, 0) == Cell(board, x, y);
    if Cell(board, x - dx, y - dy) != ' ' {
      BackRun(board, x - dx, y - dy, dx, dy);
      var k := Behind(x - dx, y - dy, r, dx, dy);
      BehindStep(x, y, r, dx, dy);
      AgainstStep(x, dx, k + 1);
      AgainstStep(y, dy, k + 1);
      forall j | 1 <= j <= k + 1
        ensures CellBehind(board, x, y, dx, dy, j) != ' '
      {
        AgainstStep(x, dx, j);
        AgainstStep(y, dy, j);
        assert CellBehind(board, x, y, dx, dy, j) == CellBehind(board, x - dx, y - dy, dx, dy, j - 1);
      }
    }
  }

  /** `j` steps back from `z` is `j - 1` steps back from the cell before. */
  lemma AgainstStep(z: int, d: int, j: int)
    requires -1 <= d <= 1
    ensures Against(z, d, j) == Against(z - d, d, j - 1)
  {
  }

  /** Seen from the cell before, a point is one step less far back. */
  lemma BehindStep(x: int, y: int, p: (int, int), dx: int, dy: int)
    requires IsDelta(dx, dy)
    ensures Behind(x, y, p, dx, dy) == Behind(x - dx, y - dy, p, dx, dy) + 1
  {
  }

  /** One step of a distance: to the next cell, or around the wrap when
      the next cell is a space; `None` when the cell reached is a wall. */
  function Step(board: seq<string>, x: int, y: int, dir: int): (r: Option<(int, int)>)
    requires 0 <= dir < 4 && Cell(board, x, y) != ' '
    ensures r.Some? ==> Cell(board, r.value.0, r.value.1) !in {' ', '#'}
    ensures var (dx, dy) := Delta(dir);
            Cell(board, x + dx, y + dy) != ' ' ==>
              (r.None? <==> Cell(board, x + dx, y + dy) == '#') && (r.Some? ==> r.value == (x + dx, y + dy))
    ensures var (dx, dy) := Delta(dir);
            Cell(board, x + dx, y + dy) == ' ' ==>
              (r.None? <==> Cell(board, Back(board, x, y, dx, dy).0, Back(board, x, y, dx, dy).1) == '#')
              && (r.Some? ==> r.value == Back(board, x, y, dx, dy))
  {
    var (dx, dy) := Delta(dir);
    var (nx, ny) := if Cell(board, x + dx, y + dy) == ' ' then Back(board, x, y, dx, dy) else (x + dx, y + dy);
    if Cell(board, nx, ny) == '#' then None else Some((nx, ny))
  }

  /** A distance: up to `n` steps, ending early at a wall. The walker
      never stands on a space, and stands on a wall only if it started
      there and never moved. */
  function Move(board: seq<string>, x: int, y: int, dir: int, n: int): (r: (int, int))
    requires 0 <= dir < 4 && Cell(board, x, y) != ' '
    ensures Cell(board, r.0, r.1) != ' '
    ensures r == (x, y) || Cell(board, r.0, r.1) != '#'
    ensures n <= 0 ==> r == (x, y)
    ensures n > 0 && Step(board, x, y, dir).None? ==> r == (x, y)
    decreases n
  {
    if n <= 0 then (x, y)
    else
      match Step(board, x, y, dir)
      case None => (x, y)
      case Some((nx, ny)) => Move(board, nx, ny, dir, n - 1)
  }

  /** Facing after a turn: `R` clockwise, `L` counter-clockwise, any other
      letter leaves it. */
  function Rotate(dir: int, c: char): (d: int)
    requires 0 <= dir < 4
    ensures 0 <= d < 4
  {
    if c == 'R' then (dir + 1) % 4 else if c == 'L' then (dir + 3) % 4 else dir
  }

  /** A right turn undoes a left one and the other way round, and four of
      the same turn are no turn. */
  lemma RotateInverse(dir: int)
    requires 0 <= dir < 4
    ensures Rotate(Rotate(dir, 'R'), 'L') == dir && Rotate(Rotate(dir, 'L'), 'R') == dir
    ensures Rotate(Rotate(Rotate(Rotate(dir, 'R'), 'R'), 'R'), 'R') == dir
  {
  }

  datatype Walker = Walker(x: int, y: int, dir: int)

  predicate OnMap(board: seq<string>, w: Walker)
  {
    0 <= w.dir < 4 && Cell(board, w.x, w.y) != ' '
  }

  /** The whole path. */
  function Walk(board: seq<string>, w: Walker, path: seq<Instruction>): (r: Walker)
    requires OnMap(board, w)
    ensures OnMap(board, r)
    ensures (r.x, r.y) == (w.x, w.y) || Cell(board, r.x, r.y) != '#'
    ensures (forall i :: 0 <= i < |path| ==> path[i].Turn?) ==> (r.x, r.y) == (w.x, w.y)
    ensures (forall i :: 0 <= i < |path| ==> path[i].Forward?) ==> r.dir == w.dir
    decreases |path|
  {
    if |path| == 0 then w
    else
      var next := match path[0]
        case Turn(c) => w.(dir := Rotate(w.dir, c))
        case Forward(n) => var (x, y) := Move(board, w.x, w.y, w.dir, n); w.(x := x, y := y);
      Walk(board, next, path[1..])
  }

  /** The start: the first cell of the top row that is not a space, facing
      east. An empty board or a blank top row is the source's panic. */
  function Begin(board: seq<string>): (r: Option<Walker>)
    ensures r.Some? <==> |board| > 0 && exists x :: 0 <= x < |board[0]| && board[0][x] != ' '
    ensures r.Some? ==> r.value.y == 0 && r.value.dir == 0 && OnMap(board, r.value)
    ensures r.Some? ==> forall x :: 0 <= x < r.value.x ==> board[0][x] == ' '
  {
    if |board| == 0 then None
    else
      match FirstNonSpace(board[0])
      case None => None
      case Some(x) => Some(Walker(x, 0, 0))
  }

  function FirstNonSpace(s: string): (r: Option<nat>)
    ensures r.Some? <==> exists x :: 0 <= x < |s| && s[x] != ' '
    ensures r.Some? ==> r.value < |s| && s[r.value] != ' ' && forall x :: 0 <= x < r.value ==> s[x] == ' '
  {
    if |s| == 0 then None
    else if s[0] != ' ' then Some(0)
    else
      match FirstNonSpace(s[1..])
      case None => None
      case Some(x) => Some(x + 1)
  }

  function Password(w: Walker): int
  {
    1000 * (w.y + 1) + 4 * (w.x + 1) + w.dir
  }

  /** The password gives the walker back: the facing is its remainder by
      four, and on a board narrower than 249 columns the column and row are
      its next digits in base 250. */
  lemma PasswordDecodes(w: Walker)
    requires 0 <= w.dir < 4 && 0 <= w.x < 249 && 0 <= w.y
    ensures Password(w) % 4 == w.dir
    ensures (Password(w) / 4) % 250 == w.x + 1
    ensures Password(w) / 1000 == w.y + 1
  {
    var p := Password(w);
    assert p == 4 * (250 * (w.y + 1) + (w.x + 1)) + w.dir;
    assert p / 4 == 250 * (w.y + 1) + (w.x + 1);
    assert p == 1000 * (w.y + 1) + (4 * (w.x + 1) + w.dir);
  }

  /** `calculate_password`: walk the path from the start. */
  function CalculatePassword(board: seq<string>, path: seq<Instruction>): (r: Option<int>)
    ensures r.Some? <==> Begin(board).Some?
    ensures r.Some? ==> exists w :: OnMap(board, w) && r.value == Password(w)
  {
    match Begin(board)
    case None => None
    case Some(w) =>
      var end := Walk(board, w, path);
      Some(Password(end))
  }

  /** `solve`: part one's password; part two is the constant 0. */
  function Solve(board: seq<string>, path: seq<Instruction>): (r: Option<(int, int)>)
    ensures r.Some? <==> Begin(board).Some?
    ensures r.Some? ==> Some(r.value.0) == CalculatePassword(board, path) && r.value.1 == 0
  {
    match CalculatePassword(board, path)
    case None => None
    case Some(p) => Some((p, 0))
  }

  /** `parse`: the board is every line but the last two; the path is the
      last line. Fewer than two lines is the source's panic. */
  function Parse(lines: seq<string>): (r: Option<(seq<string>, seq<Instruction>)>)
    ensures r.Some? <==> |lines| >= 2 && ParseInstructions(lines[|lines| - 1]).Some?
    ensures r.Some? ==> r.value.0 == lines[..|lines| - 2] && Some(r.value.1) == ParseInstructions(lines[|lines| - 1])
  {
    if |lines| < 2 then None
    else
      match ParseInstructions(lines[|lines| - 1])
      case None => None
      case Some(path) => Some((lines[..|lines| - 2], path))
  }
}

=== FILE: day23.dfy ===
/**
 Day 23: unstable diffusion. Elves stand on a grid. In each round every
 elf with a neighbour proposes a step north, south, west or east, trying
 the four in an order that rotates by one each round, and taking the
 first whose three facing cells are empty; an elf that is the only one to
 propose its cell then moves there. Part one is the empty ground inside
 the elves' bounding box after ten rounds; part two is the first round in
 which no elf moves.
 */
module Day23 {
  import opened Common

  /** `(x, y)`, with y growing southwards. */
  type Point = (int, int)

  /* ---------------------------------------------------------------- */
  /* Proposals                                                         */
  /* ---------------------------------------------------------------- */

  /** The cells the elves stand on: the source's set. */
  function Cells(elves: seq<Point>): set<Point>
  {
    set c | c in elves
  }

  /** The eight cells around `e`, in the source's order: the row above,
      the two sides, the row below. */
  function Around(e: Point): (cs: seq<Point>)
    ensures |cs| == 8
  {
    var (x, y) := e;
    [(x - 1, y - 1), (x, y - 1), (x + 1, y - 1), (x - 1, y), (x + 1, y), (x - 1, y + 1), (x, y + 1), (x + 1, y + 1)]
  }

  /** The cells around `e` are the other cells within one step of it,
      diagonals included. */
  lemma AroundMeans(e: Point, c: Point)
    ensures c in Around(e) <==> c != e && Abs(c.0 - e.0) <= 1 && Abs(c.1 - e.1) <= 1
  {
  }

  /** No elf on any of the eight cells around `e`. */
  predicate Alone(occupied: set<Point>, e: Point)
  {
    forall k :: 0 <= k < 8 ==> Around(e)[k] !in occupied
  }

  /** The cell one step in direction `k`: 0 north, 1 south, 2 west, 3 east. */
  function Target(k: int, e: Point): Point
  {
    if k == 0 then (e.0, e.1 - 1) else if k == 1 then (e.0, e.1 + 1) else if k == 2 then (e.0 - 1, e.1) else (e.0 + 1, e.1)
  }

  /** The three cells `e` faces in direction `k`: the target and its two
      diagonal neighbours. */
  function Facing(k: int, e: Point): (cs: seq<Point>)
    ensures |cs| == 3 && cs[1] == Target(k, e)
  {
    var (x, y) := e;
    if k == 0 then [(x - 1, y - 1), (x, y - 1), (x + 1, y - 1)]
    else if k == 1 then [(x - 1, y + 1), (x, y + 1), (x + 1, y + 1)]
    else if k == 2 then [(x - 1, y - 1), (x - 1, y), (x - 1, y + 1)]
    else [(x + 1, y - 1), (x + 1, y), (x + 1, y + 1)]
  }

  predicate Clear(occupied: set<Point>, e: Point, k: int)
  {
    var cs := Facing(k, e);
    cs[0] !in occupied && cs[1] !in occupied && cs[2] !in occupied
  }

  /** The direction tried `i`-th in round `t`. */
  function Turn(t: nat, i: nat): (k: nat)
    ensures k < 4
  {
    (i + t) % 4
  }

  /** The first clear direction among the tries `i` to 3 of round `t`.
      The cell it picks is empty and one step away. */
  function FirstClear(occupied: set<Point>, e: Point, t: nat, i: nat): (r: Option<Point>)
    requires i <= 4
    ensures r.Some? ==> r.value !in occupied
    ensures r.Some? ==> Abs(r.value.0 - e.0) + Abs(r.value.1 - e.1) == 1
    decreases 4 - i
  {
    if i == 4 then None
    else if Clear(occupied, e, Turn(t, i)) then Some(Target(Turn(t, i), e))
    else FirstClear(occupied, e, t, i + 1)
  }

  /** `FirstClear` finds nothing exactly when no remaining try is clear. */
  lemma {:induction false} FirstClearNone(occupied: set<Point>, e: Point, t: nat, i: nat)
    requires i <= 4
    ensures FirstClear(occupied, e, t, i).None? <==> forall j :: i <= j < 4 ==> !Clear(occupied, e, Turn(t, j))
    decreases 4 - i
  {
    if i < 4 {
      FirstClearNone(occupied, e, t, i + 1);
    }
  }

  /** Otherwise it picks the target of the earliest clear try, the `j`th. */
  lemma {:induction false} FirstClearSome(occupied: set<Point>, e: Point, t: nat, i: nat) returns (j: nat)
    requires i <= 4 && FirstClear(occupied, e, t, i).Some?
    ensures i <= j < 4 && Clear(occupied, e, Turn(t, j))
    ensures FirstClear(occupied, e, t, i).value == Target(Turn(t, j), e)
    ensures forall l :: i <= l < j ==> !Clear(occupied, e, Turn(t, l))
    decreases 4 - i
  {
    if Clear(occupied, e, Turn(t, i)) {
      j := i;
    } else {
      j := FirstClearSome(occupied, e, t, i + 1);
    }
  }

  /** An elf's proposal in round `t`: nothing when it is alone, otherwise
      the first clear direction in the round's order, if any. The cell
      proposed is empty and one step away. */
  function Propose(occupied: set<Point>, e: Point, t: nat): (r: Option<Point>)
    ensures Alone(occupied, e) ==> r.None?
    ensures r.Some? ==> r.value !in occupied
    ensures r.Some? ==> Abs(r.value.0 - e.0) + Abs(r.value.1 - e.1) == 1
  {
    if Alone(occupied, e) then None else FirstClear(occupied, e, t, 0)
  }

  /** The proposals of elves `i` onwards. */
  function ProposalsFrom(elves: seq<Point>, occupied: set<Point>, t: nat, i: nat): (ps: seq<Option<Point>>)
    requires i <= |elves|
    ensures |ps| == |elves| - i
    decreases |elves| - i
  {
    if i == |elves| then [] else [Propose(occupied, elves[i], t)] + ProposalsFrom(elves, occupied, t, i + 1)
  }

  lemma {:induction false} ProposalsFromAt(elves: seq<Point>, occupied: set<Point>, t: nat, i: nat, k: nat)
    requires i <= k < |elves|
    ensures ProposalsFrom(elves, occupied, t, i)[k - i] == Propose(occupied, elves[k], t)
    decreases k - i
  {
    if i < k {
      ProposalsFromAt(elves, occupied, t, i + 1, k);
    }
  }

  /** Every elf's proposal in round `t`, in the elves' order. */
  function Proposals(elves: seq<Point>, t: nat): (ps: seq<Option<Point>>)
    ensures |ps| == |elves|
  {
    ProposalsFrom(elves, Cells(elves), t, 0)
  }

  /** Elf `k`'s entry is its proposal; a proposed cell is empty and one
      step from the elf. */
  lemma ProposalsAt(elves: seq<Point>, t: nat, k: nat)
    requires k < |elves|
    ensures Proposals(elves, t)[k] == Propose(Cells(elves), elves[k], t)
    ensures Proposals(elves, t)[k].Some? ==> Proposals(elves, t)[k].value !in elves
    ensures Proposals(elves, t)[k].Some? ==>
              Abs(Proposals(elves, t)[k].value.0 - elves[k].0) + Abs(Proposals(elves, t)[k].value.1 - elves[k].1) == 1
  {
    ProposalsFromAt(elves, Cells(elves), t, 0, k);
  }

  /* ---------------------------------------------------------------- */
  /* A round                                                           */
  /* ---------------------------------------------------------------- */

  /** Entry `i` proposes a cell no other entry proposes. */
  predicate Sole(ps: seq<Option<Point>>, i: nat)
    requires i < |ps|
  {
    ps[i].Some? && forall j :: 0 <= j < |ps| && j != i ==> ps[j] != ps[i]
  }

  /** Some entry is a sole proposal. */
  predicate AnySole(ps: seq<Option<Point>>)
  {
    exists i :: 0 <= i < |ps| && Sole(ps, i)
  }

  /** Elf `i` moves in round `t`: it proposes a cell nobody else proposes. */
  predicate Moves(elves: seq<Point>, t: nat, i: nat)
    requires i < |elves|
  {
    Sole(Proposals(elves, t), i)
  }

  /** Some elf moves in round `t`. */
  predicate Moved(elves: seq<Point>, t: nat)
  {
    AnySole(Proposals(elves, t))
  }

  /** Entries `i` onwards of `elves`, each moved to its proposal when that
      proposal is sole. */
  function SettleFrom(elves: seq<Point>, ps: seq<Option<Point>>, i: nat): (r: seq<Point>)
    requires |ps| == |elves| && i <= |elves|
    ensures |r| == |elves| - i
    decreases |elves| - i
  {
    if i == |elves| then []
    else [if Sole(ps, i) then ps[i].value else elves[i]] + SettleFrom(elves, ps, i + 1)
  }

  lemma {:induction false} SettleFromAt(elves: seq<Point>, ps: seq<Option<Point>>, i: nat, k: nat)
    requires |ps| == |elves| && i <= k < |elves|
    ensures SettleFrom(elves, ps, i)[k - i] == (if Sole(ps, k) then ps[k].value else elves[k])
    decreases k - i
  {
    if i < k {
      SettleFromAt(elves, ps, i + 1, k);
    }
  }

  lemma SettleAll(elves: seq<Point>, ps: seq<Option<Point>>)
    requires |ps| == |elves|
    ensures forall k :: 0 <= k < |elves| ==> SettleFrom(elves, ps, 0)[k] == (if Sole(ps, k) then ps[k].value else elves[k])
  {
    forall k | 0 <= k < |elves|
      ensures SettleFrom(elves, ps, 0)[k] == (if Sole(ps, k) then ps[k].value else elves[k])
    {
      SettleFromAt(elves, ps, 0, k);
    }
  }

  /** The elves after round `t`, each in its place in the list: an elf
      whose proposal is sole stands on it, every other elf stays. When
      nobody moves, nothing changes. */
  function Next(elves: seq<Point>, t: nat): (r: seq<Point>)
    ensures |r| == |elves|
    ensures !Moved(elves, t) ==> r == elves
  {
    SettleAll(elves, Proposals(elves, t));
    SettleFrom(elves, Proposals(elves, t), 0)
  }

  /** Elf `i` after the round: on its proposal if it moves, in place
      otherwise. */
  lemma NextAt(elves: seq<Point>, t: nat, i: nat)
    requires i < |elves|
    ensures Next(elves, t)[i] == (if Moves(elves, t, i) then Proposals(elves, t)[i].value else elves[i])
  {
    SettleFromAt(elves, Proposals(elves, t), 0, i);
  }

  /** Distinct elves stay distinct, so the source's set keeps its size. */
  lemma NextDistinct(elves: seq<Point>, t: nat)
    ensures NoDuplicates(elves) ==> NoDuplicates(Next(elves, t))
  {
    var r := Next(elves, t);
    var ps := Proposals(elves, t);
    if !NoDuplicates(elves) {
      return;
    }
    forall i, j | 0 <= i < j < |r|
      ensures r[i] != r[j]
    {
      NextAt(elves, t, i);
      NextAt(elves, t, j);
      if Moves(elves, t, i) && !Moves(elves, t, j) {
        ProposalsAt(elves, t, i);
        assert r[i] == ps[i].value && r[j] == elves[j];
      } else if !Moves(elves, t, i) && Moves(elves, t, j) {
        ProposalsAt(elves, t, j);
        assert r[j] == ps[j].value && r[i] == elves[i];
      }
    }
  }

  /** `n` rounds from round `t`. */
  function After(elves: seq<Point>, t: nat, n: nat): (r: seq<Point>)
    ensures |r| == |elves|
    ensures NoDuplicates(elves) ==> NoDuplicates(r)
    decreases n
  {
    if n == 0 then elves
    else
      NextDistinct(elves, t);
      After(Next(elves, t), t + 1, n - 1)
  }

  /* ---------------------------------------------------------------- */
  /* The answers                                                       */
  /* ---------------------------------------------------------------- */

  function MinX(elves: seq<Point>): (m: int)
    requires |elves| > 0
    ensures forall i :: 0 <= i < |elves| ==> m <= elves[i].0
    ensures exists i :: 0 <= i < |elves| && elves[i].0 == m
  {
    if |elves| == 1 then elves[0].0 else Min(MinX(elves[..|elves| - 1]), elves[|elves| - 1].0)
  }

  function MaxX(elves: seq<Point>): (m: int)
    requires |elves| > 0
    ensures forall i :: 0 <= i < |elves| ==> elves[i].0 <= m
    ensures exists i :: 0 <= i < |elves| && elves[i].0 == m
  {
    if |elves| == 1 then elves[0].0 else Max(MaxX(elves[..|elves| - 1]), elves[|elves| - 1].0)
  }

  function MinY(elves: seq<Point>): (m: int)
    requires |elves| > 0
    ensures forall i :: 0 <= i < |elves| ==> m <= elves[i].1
    ensures exists i :: 0 <= i < |elves| && elves[i].1 == m
  {
    if |elves| == 1 then elves[0].1 else Min(MinY(elves[..|elves| - 1]), elves[|elves| - 1].1)
  }

  function MaxY(elves: seq<Point>): (m: int)
    requires |elves| > 0
    ensures forall i :: 0 <= i < |elves| ==> elves[i].1 <= m
    ensures exists i :: 0 <= i < |elves| && elves[i].1 == m
  {
    if |elves| == 1 then elves[0].1 else Max(MaxY(elves[..|elves| - 1]), elves[|elves| - 1].1)
  }

  /** The cells of the smallest rectangle holding every elf, less the
      elves. */
  function EmptyGround(elves: seq<Point>): int
    requires |elves| > 0
  {
    (1 + MaxX(elves) - MinX(elves)) * (1 + MaxY(elves) - MinY(elves)) - |elves|
  }

  /** The cells of the rectangle with corners `(x0, y0)` and `(x1, y1)`. */
  function Rect(x0: int, x1: int, y0: int, y1: int): set<Point>
  {
    set x, y | x0 <= x <= x1 && y0 <= y <= y1 :: (x, y)
  }

  /** The bounding rectangle of the elves. */
  function Box(elves: seq<Point>): set<Point>
    requires |elves| > 0
  {
    Rect(MinX(elves), MaxX(elves), MinY(elves), MaxY(elves))
  }

  /** A row of the rectangle has one cell per column. */
  lemma {:induction false} RowSize(x0: int, x1: int, y: int)
    requires x0 <= x1 + 1
    ensures |Rect(x0, x1, y, y)| == x1 - x0 + 1
    decreases x1 - x0
  {
    if x1 < x0 {
      assert Rect(x0, x1, y, y) == {};
    } else {
      RowSize(x0, x1 - 1, y);
      assert Rect(x0, x1, y, y) == Rect(x0, x1 - 1, y, y) + {(x1, y)};
    }
  }

  /** A rectangle has its width times its height in cells. */
  lemma {:induction false} RectSize(x0: int, x1: int, y0: int, y1: int)
    requires x0 <= x1 + 1 && y0 <= y1 + 1
    ensures |Rect(x0, x1, y0, y1)| == (x1 - x0 + 1) * (y1 - y0 + 1)
    decreases y1 - y0
  {
    if y1 < y0 {
      assert Rect(x0, x1, y0, y1) == {};
      assert y1 - y0 + 1 == 0;
      assert (x1 - x0 + 1) * (y1 - y0 + 1) == 0;
    } else {
      RectSize(x0, x1, y0, y1 - 1);
      RowSize(x0, x1, y1);
      var below := Rect(x0, x1, y0, y1 - 1);
      var top := Rect(x0, x1, y1, y1);
      assert Rect(x0, x1, y0, y1) == below + top;
      assert below !! top;
      var w := x1 - x0 + 1;
      var h := y1 - y0;
      assert |below| == w * h && |top| == w;
      assert |below + top| == |below| + |top|;
      assert w * (h + 1) == w * h + w;
      assert |Rect(x0, x1, y0, y1)| == w * (h + 1);
    }
  }

  /** The part-one answer counts the empty cells of the bounding
      rectangle: for elves on distinct cells it is the number of cells of
      the rectangle that no elf stands on, so it is never negative. */
  lemma EmptyGroundCounts(elves: seq<Point>)
    requires |elves| > 0 && NoDuplicates(elves)
    ensures EmptyGround(elves) == |Box(elves) - Cells(elves)|
    ensures EmptyGround(elves) >= 0
  {
    var box := Box(elves);
    RectSize(MinX(elves), MaxX(elves), MinY(elves), MaxY(elves));
    forall c | c in Cells(elves)
      ensures c in box
    {
      var i :| 0 <= i < |elves| && elves[i] == c;
    }
    DistinctCount(elves);
    assert Cells(elves) == Elements(elves);
    assert |box - Cells(elves)| == |box| - |Cells(elves)|;
  }

  /** The source's loop, which runs until a round in which nobody moves
      and reports that round, 1-based. Part one is taken after round 10
      only when that round moved someone: when the elves settle earlier,
      part one stays 0. `fuel` bounds the rounds (`None` when it runs
      out). */
  function SimulateAsWritten(elves: seq<Point>, t: nat, fuel: nat, p1: int): (r: Option<(int, int)>)
    ensures r.Some? ==> r.value.1 > t
    decreases fuel
  {
    if fuel == 0 then None
    else if !Moved(elves, t) then Some((p1, t + 1))
    else
      var next := Next(elves, t);
      SimulateAsWritten(next, t + 1, fuel - 1, if t == 9 then EmptyGround(next) else p1)
  }

  /** Every one of `n` rounds from round `t` moves someone. */
  predicate MovesThrough(elves: seq<Point>, t: nat, n: nat)
    decreases n
  {
    n == 0 || (Moved(elves, t) && MovesThrough(Next(elves, t), t + 1, n - 1))
  }

  /** The first round, from round `t` on, in which nobody moves, 1-based:
      every round before it moves someone. */
  function Still(elves: seq<Point>, t: nat, fuel: nat): (r: Option<int>)
    ensures r.Some? ==> r.value > t && MovesThrough(elves, t, r.value - 1 - t)
    ensures r.Some? ==> !Moved(After(elves, t, r.value - 1 - t), r.value - 1)
    decreases fuel
  {
    if fuel == 0 then None
    else if !Moved(elves, t) then Some(t + 1)
    else Still(Next(elves, t), t + 1, fuel - 1)
  }

  /** `solve`, with part one taken after exactly ten rounds whatever
      happens before. */
  function Solve(elves: seq<Point>, fuel: nat): (r: Option<(int, int)>)
    ensures r.Some? && |elves| > 0 ==> r.value.0 == EmptyGround(After(elves, 0, 10))
    ensures r.Some? ==> r.value.1 >= 1 && MovesThrough(elves, 0, r.value.1 - 1)
    ensures r.Some? ==> !Moved(After(elves, 0, r.value.1 - 1), r.value.1 - 1)
  {
    match Still(elves, 0, fuel)
    case None => None
    case Some(p2) =>
      var tenth := After(elves, 0, 10);
      Some((if |tenth| > 0 then EmptyGround(tenth) else 0, p2))
  }

  /** Past round 10 the loop carries part one along unchanged. */
  lemma {:induction false} KeptAfterTen(elves: seq<Point>, t: nat, fuel: nat, p1: int)
    requires t >= 10 && SimulateAsWritten(elves, t, fuel, p1).Some?
    ensures SimulateAsWritten(elves, t, fuel, p1).value.0 == p1
    decreases fuel
  {
    if Moved(elves, t) {
      assert SimulateAsWritten(elves, t, fuel, p1) == SimulateAsWritten(Next(elves, t), t + 1, fuel - 1, p1);
      KeptAfterTen(Next(elves, t), t + 1, fuel - 1, p1);
    } else {
      assert SimulateAsWritten(elves, t, fuel, p1) == Some((p1, t + 1));
    }
  }

  /** While every round up to the tenth moves someone, the loop's part one
      is the empty ground after ten rounds. */
  lemma {:induction false} AsWrittenWhenMoving(elves: seq<Point>, t: nat, fuel: nat, p1: int)
    requires t <= 9 && MovesThrough(elves, t, 10 - t)
    requires SimulateAsWritten(elves, t, fuel, p1).Some?
    ensures |elves| > 0
    ensures SimulateAsWritten(elves, t, fuel, p1).value.0 == EmptyGround(After(elves, t, 10 - t))
    decreases fuel
  {
    var next := Next(elves, t);
    assert Moved(elves, t) && MovesThrough(next, t + 1, 9 - t);
    assert |Proposals(elves, t)| > 0;
    assert After(elves, t, 10 - t) == After(next, t + 1, 9 - t);
    if t == 9 {
      var p := EmptyGround(next);
      assert SimulateAsWritten(elves, t, fuel, p1) == SimulateAsWritten(next, t + 1, fuel - 1, p);
      KeptAfterTen(next, t + 1, fuel - 1, p);
    } else {
      assert SimulateAsWritten(elves, t, fuel, p1) == SimulateAsWritten(next, t + 1, fuel - 1, p1);
      AsWrittenWhenMoving(next, t + 1, fuel - 1, p1);
    }
  }

  /** The source's loop and `Still` stop in the same round. */
  lemma {:induction false} SameStop(elves: seq<Point>, t: nat, fuel: nat, p1: int)
    ensures SimulateAsWritten(elves, t, fuel, p1).Some? <==> Still(elves, t, fuel).Some?
    ensures SimulateAsWritten(elves, t, fuel, p1).Some? ==> SimulateAsWritten(elves, t, fuel, p1).value.1 == Still(elves, t, fuel).value
    decreases fuel
  {
    if fuel > 0 && Moved(elves, t) {
      var next := Next(elves, t);
      SameStop(next, t + 1, fuel - 1, if t == 9 then EmptyGround(next) else p1);
    }
  }

  /** When the first ten rounds all move someone, the source's answer is
      the corrected one. */
  lemma AgreesWhenMoving(elves: seq<Point>, fuel: nat)
    requires MovesThrough(elves, 0, 10)
    ensures SimulateAsWritten(elves, 0, fuel, 0) == Solve(elves, fuel)
  {
    SameStop(elves, 0, fuel, 0);
    if SimulateAsWritten(elves, 0, fuel, 0).Some? {
      AsWrittenWhenMoving(elves, 0, fuel, 0);
    }
  }

  /** Two elves apart from each other never move, so the loop stops in the
      first round with part one still 0, while the ground after ten rounds
      has four empty cells. */
  lemma SettledEarly()
    ensures SimulateAsWritten([(0, 0), (5, 0)], 0, 1, 0) == Some((0, 1))
    ensures EmptyGround(After([(0, 0), (5, 0)], 0, 10)) == 4
  {
    var elves := [(0, 0), (5, 0)];
    TwoApartAlone();
    AloneStill(elves, 0);
    StillStays(elves, 0, 10);
    TwoApartGround();
  }

  /** The two elves of `SettledEarly` are alone. */
  lemma TwoApartAlone()
    ensures forall i :: 0 <= i < 2 ==> Alone(Cells([(0, 0), (5, 0)]), [(0, 0), (5, 0)][i])
  {
    var elves := [(0, 0), (5, 0)];
    var cells := Cells(elves);
    assert cells == {(0, 0), (5, 0)} by {
      assert forall c :: c in cells <==> c == (0, 0) || c == (5, 0);
    }
    assert Alone(cells, elves[0]) && Alone(cells, elves[1]);
  }

  /** Their bounding box is six cells by one, four of them empty. */
  lemma TwoApartGround()
    ensures EmptyGround([(0, 0), (5, 0)]) == 4
  {
    var elves := [(0, 0), (5, 0)];
    assert elves[..1] == [(0, 0)];
    assert MinX(elves) == 0 && MaxX(elves) == 5 && MinY(elves) == 0 && MaxY(elves) == 0;
  }

  /** Nobody moves in a round where every elf is alone. */
  lemma AloneStill(elves: seq<Point>, t: nat)
    requires forall i :: 0 <= i < |elves| ==> Alone(Cells(elves), elves[i])
    ensures !Moved(elves, t)
  {
    var ps := Proposals(elves, t);
    forall i | 0 <= i < |ps|
      ensures !Sole(ps, i)
    {
      ProposalsAt(elves, t, i);
    }
  }

  /** Elves that are all alone stay put for any number of rounds. */
  lemma {:induction false} StillStays(elves: seq<Point>, t: nat, n: nat)
    requires forall i :: 0 <= i < |elves| ==> Alone(Cells(elves), elves[i])
    ensures After(elves, t, n) == elves
    decreases n
  {
    if n > 0 {
      AloneStill(elves, t);
      StillStays(elves, t + 1, n - 1);
    }
  }

  /* ---------------------------------------------------------------- */
  /* Parsing                                                           */
  /* ---------------------------------------------------------------- */

  /** The `#` cells of one row, left to right. */
  function RowElves(line: string, y: int, x: nat): (r: seq<Point>)
    requires x <= |line|
    ensures forall p :: p in r <==> p.1 == y && x <= p.0 < |line| && line[p.0] == '#'
    ensures NoDuplicates(r)
    ensures forall i, j :: 0 <= i < j < |r| ==> r[i].0 < r[j].0
    decreases |line| - x
  {
    if x == |line| then []
    else
      var rest := RowElves(line, y, x + 1);
      if line[x] == '#' then [(x, y)] + rest else rest
  }

  /** `parse`: every `#`, row by row. */
  function Parse(lines: seq<string>): (r: seq<Point>)
    ensures forall p :: p in r <==> 0 <= p.1 < |lines| && 0 <= p.0 < |lines[p.1]| && lines[p.1][p.0] == '#'
    ensures NoDuplicates(r)
  {
    if |lines| == 0 then []
    else
      var front := Parse(lines[..|lines| - 1]);
      var row := RowElves(lines[|lines| - 1], |lines| - 1, 0);
      assert forall p :: p in front ==> p.1 < |lines| - 1;
      DisjointJoin(front, row);
      front + row
  }

  lemma DisjointJoin(a: seq<Point>, b: seq<Point>)
    requires NoDuplicates(a) && NoDuplicates(b)
    requires forall p :: p in a ==> p !in b
    ensures NoDuplicates(a + b)
  {
    var ab := a + b;
    forall i, j | 0 <= i < j < |ab|
      ensures ab[i] != ab[j]
    {
      if i < |a| && j >= |a| {
        assert ab[i] in a && ab[j] in b;
      }
    }
  }
}

=== FILE: day25.dfy ===
/**
 Day 25: SNAFU numbers, a balanced base-5 notation whose digits are
 '=', '-', '0', '1', '2' with values -2, -1, 0, 1, 2. Fuel requirements
 are decoded, summed, and the sum is encoded back.
 */
module Day25 {
  import opened Common

  predicate IsSnafuDigit(c: char)
  {
    c == '=' || c == '-' || c == '0' || c == '1' || c == '2'
  }

  predicate IsSnafu(s: string)
  {
    forall i :: 0 <= i < |s| ==> IsSnafuDigit(s[i])
  }

  /** The value of one digit. Any other character is declared
      unreachable by the decoder, so the alphabet is a precondition. */
  function SnafuDigit(c: char): (v: int)
    requires IsSnafuDigit(c)
    ensures -2 <= v <= 2
  {
    match c
    case '2' => 2
    case '1' => 1
    case '0' => 0
    case '-' => -1
    case '=' => -2
  }

  /** `snafu_to_decimal`: a left fold `n * 5 + digit` starting at 0, so
      the empty string decodes to 0. A k-digit SNAFU number lies within
      (5^k - 1) / 2 of zero; DecodeFront reads it from the front. */
  function SnafuToDecimal(s: string): (r: int)
    requires IsSnafu(s)
    ensures -(Pow5(|s|) - 1) <= 2 * r <= Pow5(|s|) - 1
  {
    if |s| == 0 then 0
    else SnafuToDecimal(s[..|s| - 1]) * 5 + SnafuDigit(s[|s| - 1])
  }

  /** The digit written for a residue modulo 5, as the table
      `["0", "1", "2", "=", "-"]` in the encoder. */
  function DigitFor(k: int): (c: char)
    requires 0 <= k < 5
    ensures IsSnafuDigit(c)
    ensures SnafuDigit(c) % 5 == k
  {
    ['0', '1', '2', '=', '-'][k]
  }

  /** `decimal_to_snafu` for non-negative numbers: 0 is the empty
      string; otherwise the encoding of `(n + 2) / 5` followed by the
      digit for `n % 5`. Both operands are non-negative, so Rust's
      truncating division and Dafny's agree here. Every character is in
      the alphabet and a positive number starts with '1' or '2'. */
  function DecimalToSnafu(n: nat): (s: string)
    ensures IsSnafu(s)
    ensures n == 0 <==> s == ""
    ensures n > 0 ==> s[0] == '1' || s[0] == '2'
    decreases n
  {
    if n == 0 then ""
    else
      var prefix := DecimalToSnafu((n + 2) / 5);
      var s := prefix + [DigitFor(n % 5)];
      assert forall i :: 0 <= i < |prefix| ==> s[i] == prefix[i];
      s
  }

  /** Decoding an encoding gives the number back. */
  lemma {:induction false} DecodeEncode(n: nat)
    ensures SnafuToDecimal(DecimalToSnafu(n)) == n
    decreases n
  {
    if n > 0 {
      var m := (n + 2) / 5;
      var s := DecimalToSnafu(n);
      var d := DigitFor(n % 5);
      assert s == DecimalToSnafu(m) + [d];
      assert s[..|s| - 1] == DecimalToSnafu(m) && s[|s| - 1] == d;
      DecodeEncode(m);
      assert SnafuToDecimal(s) == SnafuToDecimal(DecimalToSnafu(m)) * 5 + SnafuDigit(d);
      var q, r := n / 5, n % 5;
      assert n == 5 * q + r;
      if r < 3 {
        assert m == q && SnafuDigit(d) == r;
      } else {
        assert m == q + 1 && SnafuDigit(d) == r - 5;
      }
    }
  }

  /** The strings the encoder can produce: empty, or led by '1' or '2'. */
  predicate Canonical(s: string)
  {
    IsSnafu(s) && (|s| == 0 || s[0] == '1' || s[0] == '2')
  }

  function Pow5(k: nat): (p: nat)
    ensures p >= 1
  {
    if k == 0 then 1 else 5 * Pow5(k - 1)
  }

  /** Reading the leading digit: the decoder, a fold from the left,
      equals the positional sum taken from the front. */
  lemma {:induction false} DecodeFront(c: char, r: string)
    requires IsSnafuDigit(c) && IsSnafu(r)
    ensures IsSnafu([c] + r)
    ensures SnafuToDecimal([c] + r) == SnafuDigit(c) * Pow5(|r|) + SnafuToDecimal(r)
    decreases |r|
  {
    var s := [c] + r;
    assert IsSnafu(s) by {
      forall i | 0 <= i < |s| ensures IsSnafuDigit(s[i]) {
        if i > 0 { assert s[i] == r[i - 1]; }
      }
    }
    if |r| > 0 {
      var r' := r[..|r| - 1];
      assert s[..|s| - 1] == [c] + r';
      DecodeFront(c, r');
      var v := SnafuDigit(c);
      calc {
        SnafuToDecimal(s);
        SnafuToDecimal([c] + r') * 5 + SnafuDigit(r[|r| - 1]);
        (v * Pow5(|r'|) + SnafuToDecimal(r')) * 5 + SnafuDigit(r[|r| - 1]);
        { assert v * Pow5(|r'|) * 5 == v * Pow5(|r|); }
        v * Pow5(|r|) + SnafuToDecimal(r);
      }
    }
  }

  /** A canonical non-empty string denotes a positive number. */
  lemma PositiveCanonical(s: string)
    requires Canonical(s) && |s| > 0
    ensures SnafuToDecimal(s) >= 1
  {
    assert s == [s[0]] + s[1..];
    DecodeFront(s[0], s[1..]);
  }

  /** One encoder step: appending a digit to a positive number's
      encoding encodes `m * 5 + digit`. */
  lemma EncodeStep(m: nat, c: char)
    requires m >= 1 && IsSnafuDigit(c)
    ensures m * 5 + SnafuDigit(c) > 0
    ensures DecimalToSnafu(m * 5 + SnafuDigit(c)) == DecimalToSnafu(m) + [c]
  {
    var n := m * 5 + SnafuDigit(c);
    assert (n + 2) / 5 == m;
    assert DigitFor(n % 5) == c;
  }

  /** Encoding a decoded canonical string gives the string back, so the
      encoder is a bijection between naturals and canonical strings. */
  lemma {:induction false} EncodeDecode(s: string)
    requires Canonical(s)
    ensures SnafuToDecimal(s) >= 0
    ensures DecimalToSnafu(SnafuToDecimal(s)) == s
    decreases |s|
  {
    if |s| > 0 {
      var p := s[..|s| - 1];
      var c := s[|s| - 1];
      PositiveCanonical(s);
      if |p| == 0 {
        assert s == [c];
        assert SnafuToDecimal(s) == SnafuDigit(c);
      } else {
        assert Canonical(p);
        EncodeDecode(p);
        PositiveCanonical(p);
        EncodeStep(SnafuToDecimal(p), c);
        assert s == p + [c];
      }
    }
  }

  /** Part one: the SNAFU encoding of the sum of all numbers. The sum of
      the puzzle's numbers is non-negative; the encoder is only defined
      there. */
  function Solve(lines: seq<string>): (r: (string, string))
    requires forall i :: 0 <= i < |lines| ==> IsSnafu(lines[i])
    requires SumValues(lines) >= 0
    ensures Canonical(r.0)
    ensures SnafuToDecimal(r.0) == SumValues(lines)
    ensures r.1 == "Congratulations!"
  {
    DecodeEncode(SumValues(lines));
    (DecimalToSnafu(SumValues(lines)), "Congratulations!")
  }

  function SumValues(lines: seq<string>): int
    requires forall i :: 0 <= i < |lines| ==> IsSnafu(lines[i])
  {
    if |lines| == 0 then 0
    else SumValues(lines[..|lines| - 1]) + SnafuToDecimal(lines[|lines| - 1])
  }

  /** The worked example: the thirteen numbers sum to 4890, "2=-1=0". */
  lemma Example()
    ensures DecimalToSnafu(4890) == "2=-1=0"
  {
    ExampleHigh();
    EncodeStep(196, '=');
    EncodeStep(978, '0');
  }

  lemma ExampleHigh()
    ensures DecimalToSnafu(196) == "2=-1"
  {
    EncodeStep(2, '=');
    EncodeStep(8, '-');
    EncodeStep(39, '1');
  }
}
